=== FILE: README.md ===
# vampireGuide core, modelled in Dafny

vampireGuide is a documentation site for the Vampire theorem prover. The site runs the prover in the browser and shows its proof search live. This project models the logic of that site and proves properties about the model:

- **Argv.** The argument tokeniser `parseArgs` and the quoter `shellQuote` of the two runner scripts. It also covers how each runner appends the problem file to the argv.
- **LineClassifier, ClauseStream, GraphStore, Visualizer.** The proof-search visualisation page.
  - Three hand-written matchers stand for `TAG_CLAUSE_RE`, `REDUCE_RE` and `SELECT_RE`. `parseOutputLine` applies them to a store of clauses and edges.
  - `commitClauses` projects that store onto one display clause per normalised text.
  - The page's run guard covers the run token, the one-shot SZS flag and the single pending clause request.
- **Fnv, Depth, Slots, CanvasNodes.** The discrete part of the proof-search canvas:
  - the FNV-1a hash `seededRandom`;
  - the bounded depth relaxation of `computeTargets`;
  - the ring, column and layer slot of every node;
  - the node-map synchronisation effect;
  - the edge-sampling stride, `wrapText`, and the passive-only selection gestures.
- **Transcript.** The interactive transcript of the runner panel: appending, prompt placement, the visible text, answer submission, key and paste editing, and the run guard.
- **Lectures.** The lecture converter: slide splitting, overlay merging, line classification, Markdown formatting with code-fence buffering, and the fence-aware escaping passes.

Shared pieces sit in **Strings** (character classes, trimming, splitting, joining, replacing, decimal digits) and **Wrappers** (`Option`).

Where the source updates state in place, the model is a class with `modifies` clauses:
- the visualisation page is `Visualizer.ProofSearchPage`;
- the runner panel is `Transcript.RunnerPanel`;
- the canvas node map is `CanvasNodes.NodeStore`;
- the touch handlers are `CanvasNodes.TouchSelector`.

Loops in the source are methods with loop invariants, each proved against a specification function. Pure helpers of the source are functions. The properties are lemmas about those functions.

A character (`char`) is one Unicode code point on both sides. JavaScript strings are UTF-16 code units: the model converts explicitly where the hash reads them (`Fnv.CodeUnits`), and elsewhere counts one character where JavaScript counts one unit, which agrees with the source inside the Basic Multilingual Plane. `\s` of JavaScript and `str.isspace` of Python are two explicit character predicates (`IsJsSpace`, `IsPySpace`).

The code and its design description disagree in one place, and the model follows the code. The description says that `parseArgs` after `shellQuote` gives back any argument list containing spaces and quotes. In the code, `parseArgs` takes a backslash inside quotes as an escape, while `shellQuote` writes `'\''` for a single quote. So an argument holding `'` does not come back. `Argv.QuoteInArgumentBreaksRoundTrip` shows this: `a'` comes back as `a\`. `Argv.RoundTrip` proves the round trip for the arguments where it does hold.

## Model

| member | source | states |
|---|---|---|
| Argv.ParseArgs | docusaurus-site/static/vampire-runner/script.js:111-128 | The index/quote-state loop returns `Parse(str)` (the token function), and no token is empty |
| Argv.NoEmptyToken | vampire-runner.js:38-56 | `parseArgs` never emits an empty token |
| Argv.TokensNonEmpty | docusaurus-site/static/vampire-runner/script.js:119-126 | A token is pushed only when `cur` is non-empty, so every token from any quote state is non-empty |
| Argv.QuotedStretch | docusaurus-site/static/vampire-runner/script.js:115-118 | Inside quotes, white space and the other quote character are copied literally |
| Argv.BackslashInQuotes | vampire-runner.js:43-46 | Inside quotes a backslash takes the next character literally, even a quote |
| Argv.UnterminatedQuote | docusaurus-site/static/vampire-runner/script.js:115-126 | An unterminated quote runs to the end of the input and gives one token |
| Argv.PlainStretch | docusaurus-site/static/vampire-runner/script.js:119-123 | Outside quotes, ordinary characters (backslash included) join the current token |
| Argv.UnquotedIsFields | docusaurus-site/static/vampire-runner/script.js:119-126 | Without quote characters, parsing is a white-space split with empty pieces dropped |
| Argv.ParseUnquoted | vampire-runner.js:47-53 | `parseArgs` of quote-free input equals the white-space split with empty pieces dropped |
| Argv.SkipSpace | docusaurus-site/static/vampire-runner/script.js:122 | Unquoted white space ends the current token and is skipped |
| Argv.QuoteAll | docusaurus-site/static/vampire-runner/script.js:130-134 | Each argument is mapped by the safe-charset test or single-quoting, one output per argument |
| Argv.QuoteArgEscapes | vampire-runner.js:59-63 | An unsafe argument becomes `'`, its quote-free pieces joined by `'\''`, then `'`: every `'` is rewritten as close, escaped quote, reopen (section 2.2.2 of the POSIX.1-2017 Shell Command Language), so an argument holding `'` is not simply wrapped |
| Argv.ReadBackSafe | docusaurus-site/static/vampire-runner/script.js:130-134 | A safe-charset argument is written bare and read back as one token |
| Argv.ReadBackQuoted | docusaurus-site/static/vampire-runner/script.js:130-134 | A single-quoted argument without `'` or `\` is read back as one token |
| Argv.ReadBackOne | vampire-runner.js:59-63 | One quoted argument followed by white space or the end reads back as itself |
| Argv.RoundTrip | docusaurus-site/static/vampire-runner/script.js:111-134 | `parseArgs(shellQuote(xs)) == xs` for non-empty arguments without `'` or `\` |
| Argv.QuotedQuote | vampire-runner.js:61 | `shellQuote(["a'"])` is `'a'\'''` |
| Argv.QuoteInArgumentBreaksRoundTrip | vampire-runner.js:38-63 | The round trip fails for `a'`, which comes back as `a\` |
| Argv.WithInputFile | docusaurus-site/static/vampire-runner/script.js:182-185 | The problem file is appended exactly when no argument ends in `.p` or starts with `/`; afterwards one always does |
| Argv.RootRunnerArgv | vampire-runner.js:27-28 | The root runner always appends the problem file after the parsed arguments |
| Argv.RunnersAgree | vampire-runner.js:27-28 | The two runners build the same argv exactly when the user names no problem file |
| LineClassifier.NormalizePhaseStatus | docusaurus-site/src/pages/proof-search-visualization.jsx:171-178 | The result is one of four statuses, chosen by substring tests in the order active, passive, selected; anything else, the empty phase included, is new |
| LineClassifier.Collapse | docusaurus-site/src/pages/proof-search-visualization.jsx:181 | Every white-space run becomes one space: the result has no two adjacent spaces and no other white space |
| LineClassifier.CollapseKeepsNonSpace | docusaurus-site/src/pages/proof-search-visualization.jsx:181 | Collapsing keeps every non-space character, in order |
| LineClassifier.CollapseFixed | docusaurus-site/src/pages/proof-search-visualization.jsx:181 | Collapsing already-collapsed text changes nothing |
| LineClassifier.NormalizeCollapsed | docusaurus-site/src/pages/proof-search-visualization.jsx:180-182 | The normalised text has the collapsed shape |
| LineClassifier.NormalizeTrimmed | docusaurus-site/src/pages/proof-search-visualization.jsx:180-182 | The normalised text neither starts nor ends with white space |
| LineClassifier.NormalizeKeepsText | docusaurus-site/src/pages/proof-search-visualization.jsx:180-182 | Normalising keeps every non-space character, in order |
| LineClassifier.NormalizeIdempotent | docusaurus-site/src/pages/proof-search-visualization.jsx:180-182 | `normalizeClauseText` applied twice equals applied once |
| LineClassifier.MatchTagged | docusaurus-site/src/pages/proof-search-visualization.jsx:125 | A match of the tagged expression has a word tag, a phase of letters and `_`, a digit id and a one-line body that does not start with white space |
| LineClassifier.TaggedRoundTrip | docusaurus-site/src/pages/proof-search-visualization.jsx:125 | A line laid out as `[tag] phase: id. body`, with any white space in the padded places, matches with exactly those parts |
| LineClassifier.CarriageReturnDefeatsBody | docusaurus-site/src/pages/proof-search-visualization.jsx:125 | A trailing carriage return defeats the match, because `.` does not match it |
| LineClassifier.MatchPhrase | docusaurus-site/src/pages/proof-search-visualization.jsx:127 | The alternative found begins the text, case-insensitively, followed by `:`; when none is found, no alternative does |
| LineClassifier.MatchPhraseFinds | docusaurus-site/src/pages/proof-search-visualization.jsx:127 | Among alternatives without `:`, the one that begins the text is the one found |
| LineClassifier.MatchReduce | docusaurus-site/src/pages/proof-search-visualization.jsx:127 | The id a reduction line yields is a digit string |
| LineClassifier.ReduceRoundTrip | docusaurus-site/src/pages/proof-search-visualization.jsx:127 | `[SA] <phrase>: <id>.`, with any white space in the padded places, yields `id` |
| LineClassifier.MatchSelect | docusaurus-site/src/pages/proof-search-visualization.jsx:126 | The number a selection match yields is a digit string |
| LineClassifier.FirstWhere | docusaurus-site/src/pages/proof-search-visualization.jsx:126 | The search returns the leftmost position where the expression matches, and none when it matches nowhere |
| LineClassifier.SelectRoundTrip | docusaurus-site/src/pages/proof-search-visualization.jsx:126 | A line starting `selected clause <n>` (any ASCII case, any white space) selects `n` |
| LineClassifier.HasSzsFromSpec | docusaurus-site/src/pages/proof-search-visualization.jsx:517 | The SZS search succeeds exactly when the expression matches at some position |
| LineClassifier.SzsLineRecognised | docusaurus-site/src/pages/proof-search-visualization.jsx:517 | The prover's `% SZS status ...` result line is recognised |
| LineClassifier.BracketGroups | docusaurus-site/src/pages/proof-search-visualization.jsx:415 | Every bracket group is non-empty and holds no `]` |
| LineClassifier.Leftmost | docusaurus-site/src/pages/proof-search-visualization.jsx:418 | An expression anchored with `$` matches first at the leftmost start whose suffix it accepts |
| LineClassifier.StripTrailingGroup | docusaurus-site/src/pages/proof-search-visualization.jsx:418 | The stripped text is a prefix of the text |
| LineClassifier.TrailingGroupEnds | docusaurus-site/src/pages/proof-search-visualization.jsx:418 | Text the trailing-group expression matches ends in `]` or white space |
| LineClassifier.NoStripWithoutTrailingBracket | docusaurus-site/src/pages/proof-search-visualization.jsx:418 | A text ending in neither `]` nor white space is not stripped, even when it holds bracket groups |
| LineClassifier.StripTrailingAnnotation | docusaurus-site/src/pages/proof-search-visualization.jsx:418 | A text ending in `[g]` with no `[` before it loses exactly the group and the white space before it |
| LineClassifier.ParentIds | docusaurus-site/src/pages/proof-search-visualization.jsx:424-426 | The parent ids are digit strings |
| LineClassifier.WordsOfIdList | docusaurus-site/src/pages/proof-search-visualization.jsx:424-426 | The words of comma-separated numbers are those numbers |
| LineClassifier.ParentIdsOfInference | docusaurus-site/src/pages/proof-search-visualization.jsx:424-426 | An annotation `rule 3,4` gives parents 3 and 4 when the rule name has no all-digit word |
| GraphStore.SetKey | docusaurus-site/src/pages/proof-search-visualization.jsx:292 | `map.set` keeps the iteration order: a new key goes last, and a present key keeps its place |
| GraphStore.Upsert | docusaurus-site/src/pages/proof-search-visualization.jsx:282-293 | Keeps `subsumed`; takes the old text or status only for a missing argument, else `''` or `'new'`; the id keeps its place in the insertion order, or goes last when new (`SetKey`); no other clause or edge changes; the store stays valid |
| GraphStore.MarkSubsumed | docusaurus-site/src/pages/proof-search-visualization.jsx:295-305 | Sets `subsumed`, keeps text and status, creates `('', 'new')` for an absent id, which goes last in the insertion order (`SetKey`); nothing else changes |
| GraphStore.UpsertIdempotent | docusaurus-site/src/pages/proof-search-visualization.jsx:282-293 | Upserting the same values twice is upserting them once |
| GraphStore.MarkSubsumedIdempotent | docusaurus-site/src/pages/proof-search-visualization.jsx:295-305 | Marking twice is marking once |
| GraphStore.SubsumedSurvivesUpsert | docusaurus-site/src/pages/proof-search-visualization.jsx:290 | A later upsert never clears the subsumed flag |
| GraphStore.AddEdge | docusaurus-site/src/pages/proof-search-visualization.jsx:372-379 | Old edges are kept; the edge from a non-empty, different parent is stored; nothing else is added |
| GraphStore.AddEdgesComplete | docusaurus-site/src/pages/proof-search-visualization.jsx:370-381 | Every parent other than `''` and the clause itself has its edge stored afterwards |
| GraphStore.AddEdgesSound | docusaurus-site/src/pages/proof-search-visualization.jsx:370-381 | Every added edge points to the clause from one of the parents, and is neither a self-loop nor from `''` |
| GraphStore.AddEdgesIdempotent | docusaurus-site/src/pages/proof-search-visualization.jsx:370-381 | Adding the same parents again is a no-op |
| GraphStore.EdgeKeyInjective | docusaurus-site/src/pages/proof-search-visualization.jsx:376 | A key `from->to` names exactly one ordered pair when ids have no `-`, so each pair is stored at most once |
| GraphStore.PickSmallestId | docusaurus-site/src/pages/proof-search-visualization.jsx:184-191 | `''` for no ids; a canonical digit string for all-numeric ids; a member of the list otherwise |
| GraphStore.PickSmallestIdLeast | docusaurus-site/src/pages/proof-search-visualization.jsx:184-191 | The pick is the numeric minimum of digit-string ids, and the code-unit-order minimum otherwise |
| GraphStore.PickSmallestIdMember | docusaurus-site/src/pages/proof-search-visualization.jsx:184-191 | When no id has a leading zero, the pick is one of the ids |
| GraphStore.LeadingZerosLost | docusaurus-site/src/pages/proof-search-visualization.jsx:188 | `Number(...).toString()` drops leading zeros: `["007"]` gives `"7"` |
| GraphStore.GroupAllSpec | docusaurus-site/src/pages/proof-search-visualization.jsx:310-322 | After the grouping loop every clause is in exactly the group of its normalised text, with its status and flag |
| GraphStore.GroupsDisjoint | docusaurus-site/src/pages/proof-search-visualization.jsx:310-322 | Groups are disjoint: an id lies only in the group of its own text |
| GraphStore.Pool | docusaurus-site/src/pages/proof-search-visualization.jsx:329-331 | The pool holds exactly the ids of the group with the given status |
| GraphStore.DisplayOfSpec | docusaurus-site/src/pages/proof-search-visualization.jsx:328-349 | A group is shown exactly when an id is new, passive or active; its status is passive if any id is, else active, else new; the shown id is `PickSmallestId` of the ids with that status, so the least of them (`PickSmallestIdLeast`); without leading zeros it is a member of that pool |
| GraphStore.ProjectMap | docusaurus-site/src/pages/proof-search-visualization.jsx:343 | Every id of a shown group maps to that group's display id, and every mapped id leads to a displayed clause |
| GraphStore.RemapAllWellFormed | docusaurus-site/src/pages/proof-search-visualization.jsx:352-361 | Remapped edges have non-empty, different ends and pairwise different keys |
| GraphStore.RemapAllSound | docusaurus-site/src/pages/proof-search-visualization.jsx:352-361 | Every remapped edge is the image of a stored edge |
| GraphStore.RemapAllComplete | docusaurus-site/src/pages/proof-search-visualization.jsx:352-361 | Every stored edge whose ends map to two different display ids has its key among the display edges |
| GraphStore.CommitOnePerText | docusaurus-site/src/pages/proof-search-visualization.jsx:307-350 | One display clause per normalised text, and every new, passive or active stored clause's text is displayed |
| GraphStore.CommitShowsStored | docusaurus-site/src/pages/proof-search-visualization.jsx:307-350 | Without leading zeros, each display clause is a stored clause (id, text, status, flag) and display ids are distinct |
| GraphStore.CommitEdges | docusaurus-site/src/pages/proof-search-visualization.jsx:352-364 | Display edges join two different displayed clauses, each once, and every stored edge between displayed clauses is shown |
| ClauseStream.Classify | docusaurus-site/src/pages/proof-search-visualization.jsx:404-437 | The three matches hold digit ids and well-formed tagged parts |
| ClauseStream.BodyParts | docusaurus-site/src/pages/proof-search-visualization.jsx:413-419 | The text is a prefix of the body and the parents are digit strings |
| ClauseStream.BodyPartsOfAnnotated | docusaurus-site/src/pages/proof-search-visualization.jsx:413-419 | For a body `text [rule p1,p2,…]` whose text has no `[` and whose rule name has no `]` and no all-digit word: the parents are exactly the ids of that last group, and the text loses the group and the white space before it |
| ClauseStream.Apply | docusaurus-site/src/pages/proof-search-visualization.jsx:403-442 | Applying a classified line keeps the store valid |
| ClauseStream.TaggedDecidesSelection | docusaurus-site/src/pages/proof-search-visualization.jsx:435-441 | A line is a clause line exactly when the tagged expression matches; only then is the selection match skipped |
| ClauseStream.OtherLinesKeepStore | docusaurus-site/src/pages/proof-search-visualization.jsx:408-435 | A line that is neither a reduction nor an `SA` clause line leaves the store alone |
| ClauseStream.NewClauseLine | docusaurus-site/src/pages/proof-search-visualization.jsx:420-427 | An `SA` line reading as new records the clause as new with the stripped text, plus one edge from each other parent of the last bracket group and no other edge |
| ClauseStream.KeptClauseLine | docusaurus-site/src/pages/proof-search-visualization.jsx:431-432 | An `SA` line reading as passive or active records that status and the stripped text, and adds no edge |
| ClauseStream.SelectedPhaseLine | docusaurus-site/src/pages/proof-search-visualization.jsx:420-433 | An `SA` line reading as selected changes nothing beyond the reduction |
| ClauseStream.ReducedStaysSubsumed | docusaurus-site/src/pages/proof-search-visualization.jsx:404-407 | The clause a reduction line names is marked removed, whatever else the line does |
| ClauseStream.SubsumedIsSticky | docusaurus-site/src/pages/proof-search-visualization.jsx:403-442 | A clause keeps its removed flag through any line |
| ClauseStream.ClassifySubsumptionLine | docusaurus-site/src/pages/proof-search-visualization.jsx:125-127 | `[SA] subsumption: <id>.` matches both the reduction and the tagged expression |
| ClauseStream.SubsumptionLineResetsClause | docusaurus-site/src/pages/proof-search-visualization.jsx:403-427 | That line marks the clause removed and then re-records it as new with an empty text |
| Visualizer.AppendedLines | docusaurus-site/src/pages/proof-search-visualization.jsx:264-268 | After `appendOutput` the transcript's lines are the old ones followed by those of the appended text |
| Visualizer.AppendedAllLines | docusaurus-site/src/pages/proof-search-visualization.jsx:472-474 | Appending break-free lines to a non-empty transcript adds exactly those lines |
| Visualizer.EmptyTranscriptDropsBlankLine | docusaurus-site/src/pages/proof-search-visualization.jsx:266 | On an empty transcript an empty line is lost |
| Visualizer.ErrLines | docusaurus-site/src/pages/proof-search-visualization.jsx:485 | Each stderr line becomes `[err] ` followed by it |
| Visualizer.ExitLine | docusaurus-site/src/pages/proof-search-visualization.jsx:502 | `(exit 0)` without a numeric code; otherwise the code in decimal, with a leading `-` for a negative code such as the `-1` the runner reports on a fatal error |
| Visualizer.FeedOne | docusaurus-site/src/pages/proof-search-visualization.jsx:473 | A blank line is not parsed; any other line is |
| Visualizer.FeedLinesAppend | docusaurus-site/src/pages/proof-search-visualization.jsx:472-479 | Feeding two runs of lines in turn is feeding their concatenation |
| Visualizer.FeedKeepsSubsumed | docusaurus-site/src/pages/proof-search-visualization.jsx:472-479 | A clause marked removed stays marked after any chunk |
| Visualizer.SomeHasKey | docusaurus-site/src/pages/proof-search-visualization.jsx:358 | True exactly when some edge has the key |
| Visualizer.GroupClauses | docusaurus-site/src/pages/proof-search-visualization.jsx:308-322 | The grouping loop computes `GroupAll` |
| Visualizer.MapIds | docusaurus-site/src/pages/proof-search-visualization.jsx:343 | Every id of the group is mapped to the display id |
| Visualizer.ProjectGroups | docusaurus-site/src/pages/proof-search-visualization.jsx:324-350 | The projection loop computes `ProjectAll` |
| Visualizer.RemapEdges | docusaurus-site/src/pages/proof-search-visualization.jsx:352-361 | The edge loop computes `RemapAll` |
| Visualizer.ProofSearchPage.constructor | docusaurus-site/src/pages/proof-search-visualization.jsx:223-242 | The first render: empty store, empty views, the ready text, no run, nothing pending |
| Visualizer.ProofSearchPage.UpsertClause | docusaurus-site/src/pages/proof-search-visualization.jsx:282-293 | The clause map becomes `Upsert` of the old one |
| Visualizer.ProofSearchPage.MarkSubsumed | docusaurus-site/src/pages/proof-search-visualization.jsx:295-305 | The clause map becomes `MarkSubsumed` of the old one |
| Visualizer.ProofSearchPage.AddEdges | docusaurus-site/src/pages/proof-search-visualization.jsx:370-381 | The edge map becomes `AddEdges` of the old one |
| Visualizer.ProofSearchPage.ParseOutputLine | docusaurus-site/src/pages/proof-search-visualization.jsx:403-442 | Store, selected id and result are those of the line's classification applied to the old state |
| Visualizer.ProofSearchPage.CommitClauses | docusaurus-site/src/pages/proof-search-visualization.jsx:307-368 | The displayed clauses and edges are `Commit` of the store |
| Visualizer.CommitStore | docusaurus-site/src/pages/proof-search-visualization.jsx:307-368 | The grouping, projection and edge-remapping loops together compute `Commit` of a valid store |
| Visualizer.ProofSearchPage.AppendOutput | docusaurus-site/src/pages/proof-search-visualization.jsx:264-268 | The transcript is the old one plus the line, after a break unless empty |
| Visualizer.ProofSearchPage.ResetRunState | docusaurus-site/src/pages/proof-search-visualization.jsx:270-280 | Maps, views, selection, the awaiting flag, manual input and transcript are cleared |
| Visualizer.ProofSearchPage.StartRun | docusaurus-site/src/pages/proof-search-visualization.jsx:444-454 | A fresh run id; the previous cancel hook is called once and dropped; state reset; running, no SZS line seen |
| Visualizer.ProofSearchPage.NoteSzs | docusaurus-site/src/pages/proof-search-visualization.jsx:475-478 | The first SZS line of a run clears `running`, once |
| Visualizer.ProofSearchPage.FeedChunk | docusaurus-site/src/pages/proof-search-visualization.jsx:472-479 | Non-blank lines are parsed, every line is appended, and `running` is cleared at most once |
| Visualizer.ProofSearchPage.OnStdout | docusaurus-site/src/pages/proof-search-visualization.jsx:469-481 | A stale run changes nothing; the current run is fed the lines, then committed |
| Visualizer.ProofSearchPage.OnStderr | docusaurus-site/src/pages/proof-search-visualization.jsx:482-486 | A stale run changes nothing; the current run appends each line after `[err] ` |
| Visualizer.ProofSearchPage.RequestInput | docusaurus-site/src/pages/proof-search-visualization.jsx:487-493 | A stale run's request changes nothing; the current run waits with one pending request |
| Visualizer.ProofSearchPage.OnReady | docusaurus-site/src/pages/proof-search-visualization.jsx:494-498 | The cancel hook is kept whichever run sends it |
| Visualizer.ProofSearchPage.FinishRun | docusaurus-site/src/pages/proof-search-visualization.jsx:501-513 | The current run appends the exit line and clears the pending request, the waiting flag, the running flag and the cancel hook; a stale run changes none of them |
| Visualizer.ProofSearchPage.FailRun | docusaurus-site/src/pages/proof-search-visualization.jsx:504-513 | The error is appended whichever run it comes from; only the current run clears the pending request, the waiting flag, the running flag and the cancel hook, and a stale run leaves them as they were |
| Visualizer.ProofSearchPage.MissingRunner | docusaurus-site/src/pages/proof-search-visualization.jsx:460-464 | The message is appended and `running` cleared; the current run then clears the pending request, the waiting flag and the cancel hook, which a stale run leaves as they were |
| Visualizer.ProofSearchPage.HandleClauseSelection | docusaurus-site/src/pages/proof-search-visualization.jsx:383-391 | A no-op without a pending request; otherwise it is answered once with the id and cleared, and the id selected |
| Visualizer.ProofSearchPage.HandleManualSubmit | docusaurus-site/src/pages/proof-search-visualization.jsx:393-401 | A no-op without a request or with blank input; otherwise the trimmed input answers the request once |
| Fnv.SeededRandom | docusaurus-site/src/components/ProofSearchCanvas.js:930-938 | The loop computes the FNV-1a hash of the code units, scaled into [0, 1) |
| Fnv.HashTestVectors | docusaurus-site/src/components/ProofSearchCanvas.js:931-936 | The hash is the FNV-1a 32-bit function: the published values for "", "a" and "foo" |
| Fnv.BmpCodeUnits | docusaurus-site/src/components/ProofSearchCanvas.js:933-934 | Inside the Basic Multilingual Plane there is one code unit per character, its code |
| Fnv.SurrogatePair | docusaurus-site/src/components/ProofSearchCanvas.js:933-934 | Beyond it a character gives a high then a low surrogate |
| Depth.ParentsOfSpec | docusaurus-site/src/components/ProofSearchCanvas.js:804-810 | A node has a parent list exactly when an edge ends at it; the list is non-empty and holds exactly those edges' sources |
| Depth.BuildParents | docusaurus-site/src/components/ProofSearchCanvas.js:804-810 | The loop builds `ParentsOf(edges)` |
| Depth.MaxParent | docusaurus-site/src/components/ProofSearchCanvas.js:818-823 | The largest depth of a parent that has one, or 0 |
| Depth.DeepestParent | docusaurus-site/src/components/ProofSearchCanvas.js:818-823 | The inner loop computes `MaxParent` |
| Depth.UpdateDepth | docusaurus-site/src/components/ProofSearchCanvas.js:824-828 | The per-id update computes `Step` and reports whether the depth rose |
| Depth.Round | docusaurus-site/src/components/ProofSearchCanvas.js:815-829 | A round keeps the keys, never lowers a depth and leaves nodes without parents alone |
| Depth.RunRound | docusaurus-site/src/components/ProofSearchCanvas.js:814-829 | One pass computes `Round`; `changed` is true exactly when some depth moved |
| Depth.Relax | docusaurus-site/src/components/ProofSearchCanvas.js:813-831 | Bounded rounds never lower a depth and leave nodes without parents alone |
| Depth.ComputeDepths | docusaurus-site/src/components/ProofSearchCanvas.js:804-831 | The computation gives `DepthOf(nodeIds, edges)` after at most `nodeIds.length` rounds, on cycles too |
| Depth.DepthKeys | docusaurus-site/src/components/ProofSearchCanvas.js:812 | The depth map has exactly the node ids as keys |
| Depth.NoParentsZero | docusaurus-site/src/components/ProofSearchCanvas.js:817 | A node with no incoming edge stays at depth 0 |
| Depth.OrphanOne | docusaurus-site/src/components/ProofSearchCanvas.js:818-826 | A node whose parents are all outside the node set ends at depth 1 |
| Depth.RelaxSettles | docusaurus-site/src/components/ProofSearchCanvas.js:813-831 | Enough rounds settle every node: each node is one deeper than its deepest parent |
| Depth.AcyclicEdgesDescend | docusaurus-site/src/components/ProofSearchCanvas.js:813-831 | On an acyclic edge set every edge between two nodes ends strictly deeper than it starts |
| Slots.GroupIn | docusaurus-site/src/components/ProofSearchCanvas.js:834-839 | The position of the status in a four-entry order, anything unlisted going last |
| Slots.GroupNumbers | docusaurus-site/src/components/ProofSearchCanvas.js:773-783 | Rings: active 0, passive 1, new 2, other 3; columns: new 0, active 1, passive 2, other 3 |
| Slots.Group | docusaurus-site/src/components/ProofSearchCanvas.js:836-840 | The push loop gives each group exactly its nodes, in input order |
| Slots.InsertPermutes | docusaurus-site/src/components/ProofSearchCanvas.js:851 | An insertion step adds exactly the node |
| Slots.SortSorts | docusaurus-site/src/components/ProofSearchCanvas.js:851 | The sort orders a band by the abstract `localeCompare` order |
| Slots.SortPermutes | docusaurus-site/src/components/ProofSearchCanvas.js:881 | The sort is a permutation of the band |
| Slots.SortBand | docusaurus-site/src/components/ProofSearchCanvas.js:899 | The band sorted in place is a sorted permutation |
| Slots.SortAll | docusaurus-site/src/components/ProofSearchCanvas.js:849-851 | Every band is sorted |
| Slots.Place | docusaurus-site/src/components/ProofSearchCanvas.js:849-860 | The nested loops compute `PlaceBands` |
| Slots.PlaceBandsSpec | docusaurus-site/src/components/ProofSearchCanvas.js:879-890 | The ids placed are those of the bands, each at one position of one band |
| Slots.GroupedCover | docusaurus-site/src/components/ProofSearchCanvas.js:866-869 | Every node's id is placed, and only those |
| Slots.GroupedAssigns | docusaurus-site/src/components/ProofSearchCanvas.js:866-869 | Each node gets the band of its group |
| Slots.RingBands | docusaurus-site/src/components/ProofSearchCanvas.js:787-792 | The ring number of each group is one plus the number of earlier non-empty groups |
| Slots.RingNumbers | docusaurus-site/src/components/ProofSearchCanvas.js:787-792 | The ring loop gives each group one plus the number of earlier non-empty groups |
| Slots.RingNumbersIncrease | docusaurus-site/src/components/ProofSearchCanvas.js:788-792 | Non-empty groups get strictly increasing ring numbers |
| Slots.RingSlots | docusaurus-site/src/components/ProofSearchCanvas.js:772-802 | Without edges in radial mode, each node is on the ring of its status group |
| Slots.ColumnSlots | docusaurus-site/src/components/ProofSearchCanvas.js:833-862 | Without edges in sequential mode, each node is in the column of its status |
| Slots.LayerSlots | docusaurus-site/src/components/ProofSearchCanvas.js:864-907 | With edges, each node is in the layer of its depth; there are `max(1, maxDepth) + 1` layers: every depth is below the count, and beyond the minimum of two the last layer holds a node |
| Slots.MaxDepth | docusaurus-site/src/components/ProofSearchCanvas.js:864 | The largest depth among the ids, or 0: an upper bound that some id attains |
| Slots.ComputeSlots | docusaurus-site/src/components/ProofSearchCanvas.js:765-909 | Every node gets exactly one slot, chosen by mode and edges |
| Slots.LayersFollowEdges | docusaurus-site/src/components/ProofSearchCanvas.js:864-907 | On an acyclic edge set every edge between two nodes goes to a strictly later layer |
| CanvasNodes.UpsertAllSpec | docusaurus-site/src/components/ProofSearchCanvas.js:106-127 | Present when it was or a clause names it; position, velocity and birth time from the old node or the spawn; text and status from the last non-empty clause value |
| CanvasNodes.SyncedKeys | docusaurus-site/src/components/ProofSearchCanvas.js:99-135 | After the sync the node keys are exactly the clause ids |
| CanvasNodes.SyncedKeepsNode | docusaurus-site/src/components/ProofSearchCanvas.js:122-126 | An existing node keeps position, velocity and birth time; text and status change only to non-empty values |
| CanvasNodes.SyncedNewNode | docusaurus-site/src/components/ProofSearchCanvas.js:109-121 | A new node starts at rest at its spawn, born now, status new unless a clause gives one |
| CanvasNodes.LatestIsLast | docusaurus-site/src/components/ProofSearchCanvas.js:124-125 | The value kept is the default or a non-empty value of a clause for the id that no later clause for the id overrides; with no non-empty value it is the default |
| CanvasNodes.LatestWins | docusaurus-site/src/components/ProofSearchCanvas.js:124-125 | The last non-empty value for the id is the one kept |
| CanvasNodes.NodeStore.Sync | docusaurus-site/src/components/ProofSearchCanvas.js:99-135 | The node map becomes `Synced` of the old one, keyed by exactly the clause ids |
| CanvasNodes.UpsertClauses | docusaurus-site/src/components/ProofSearchCanvas.js:106-127 | The loop computes `UpsertAll` and `seen` is the clause ids |
| CanvasNodes.Prune | docusaurus-site/src/components/ProofSearchCanvas.js:129-133 | Exactly the nodes whose id was seen are kept |
| CanvasNodes.Stride | docusaurus-site/src/components/ProofSearchCanvas.js:302-303 | The step is `ceil(n / 500)` above 500 edges and 1 otherwise |
| CanvasNodes.SampledEdges | docusaurus-site/src/components/ProofSearchCanvas.js:302-310 | At most 500 indices are visited, evenly spaced by the step, covering the list; a list of at most 500 edges is visited in full, in order |
| CanvasNodes.WordsEmpty | docusaurus-site/src/components/ProofSearchCanvas.js:717-718 | A text has no words exactly when it is all white space |
| CanvasNodes.FillKeepsWords | docusaurus-site/src/components/ProofSearchCanvas.js:719-730 | The fill's lines joined by spaces are the words joined by spaces |
| CanvasNodes.FillLines | docusaurus-site/src/components/ProofSearchCanvas.js:721-729 | No line is empty, and a line wider than the limit is one word |
| CanvasNodes.WrapTextShape | docusaurus-site/src/components/ProofSearchCanvas.js:716-732 | One to six lines, none empty; white-space-only text gives `(empty clause)` |
| CanvasNodes.WrapTextKeepsWords | docusaurus-site/src/components/ProofSearchCanvas.js:716-732 | Before the six-line cut, the lines joined by spaces are the words |
| CanvasNodes.FillWords | docusaurus-site/src/components/ProofSearchCanvas.js:719-729 | The greedy loop over the words computes the fill `Fill` |
| CanvasNodes.WrapTextLines | docusaurus-site/src/components/ProofSearchCanvas.js:716-732 | `wrapText` computes `WrapText`: one to six lines |
| CanvasNodes.DoubleClick | docusaurus-site/src/components/ProofSearchCanvas.js:498-519 | A double click selects exactly when a handler is set and the node under the pointer is passive |
| CanvasNodes.TouchSelector.TouchStart | docusaurus-site/src/components/ProofSearchCanvas.js:527-588 | No touch changes nothing; two or more start a pinch; one touch records a non-dragging node touch on the node hit and otherwise clears the gesture; the tap record is kept |
| CanvasNodes.TouchSelector.TouchMove | docusaurus-site/src/components/ProofSearchCanvas.js:590-647 | Two or more touches turn any gesture into a pinch (so a later touch end selects nothing); one touch on a still-present node that moved more than 4 units becomes a drag; otherwise nothing changes; the tap record is kept |
| CanvasNodes.TouchSelector.TouchEnd | docusaurus-site/src/components/ProofSearchCanvas.js:649-670 | Selects only on a short tap on the same node as a tap under 320 ms earlier, only a passive one; then the record is cleared; other short taps are recorded |
| Transcript.LastLineSuffix | docusaurus-site/src/components/VampireRunner.jsx:168 | The last line is a break-free suffix of the transcript |
| Transcript.InlineExtendsLastLine | docusaurus-site/src/components/VampireRunner.jsx:157-163 | `appendInline` of break-free text extends the last line by it |
| Transcript.RequestLayoutShape | docusaurus-site/src/components/VampireRunner.jsx:165-177 | Inline exactly when the prompt line is empty; a spacer only when inline, and only `' '`; a prompt line ends in a space |
| Transcript.InlineAnswerAfterSpace | docusaurus-site/src/components/VampireRunner.jsx:171-172 | For an inline prompt, transcript plus spacer ends in white space |
| Transcript.SubmitKeepsVisible | docusaurus-site/src/components/VampireRunner.jsx:136-146 | Submitting writes into the transcript exactly what `visibleOut` showed |
| Transcript.InlinePromptHiddenAsWritten | docusaurus-site/src/components/VampireRunner.jsx:137 | As written, an inline prompt counts as no prompt, so `visibleOut` hides the answer |
| Transcript.InlinePromptExample | docusaurus-site/src/components/VampireRunner.jsx:171-173 | Prompt "p" after last line "p" is inline with an empty prompt line |
| Transcript.InlinePromptShown | docusaurus-site/src/components/VampireRunner.jsx:141-142 | With `pendingPrompt !== null`, an inline answer shows after the spacer |
| Transcript.DropLast | docusaurus-site/src/components/VampireRunner.jsx:213 | `slice(0, -1)` drops the last character, and keeps empty text empty |
| Transcript.RunnerPanel.constructor | docusaurus-site/src/components/VampireRunner.jsx:100-114 | The first render: the ready text, nothing pending, no run |
| Transcript.RunnerPanel.AppendLine | docusaurus-site/src/components/VampireRunner.jsx:149-155 | `text` on an empty transcript, else after a line break; `latestOutRef` follows |
| Transcript.RunnerPanel.AppendInline | docusaurus-site/src/components/VampireRunner.jsx:157-163 | The text straight after the transcript; `latestOutRef` follows |
| Transcript.RunnerPanel.RequestInput | docusaurus-site/src/components/VampireRunner.jsx:165-182 | A stale run changes nothing; otherwise the prompt fields follow `RequestLayout` of the latest transcript |
| Transcript.RunnerPanel.SubmitPromptResponse | docusaurus-site/src/components/VampireRunner.jsx:184-202 | Without a waiting promise nothing changes; otherwise the answer is appended, resolved untrimmed, and every pending field cleared |
| Transcript.RunnerPanel.KeyDown | docusaurus-site/src/components/VampireRunner.jsx:204-220 | Without a prompt pending nothing changes. With one, Enter submits (the transcript becomes `Submitted`, every pending field is cleared); Backspace drops a character and a plain one-character key is typed, leaving the transcript, the answers, the promise and the layout fields as they were |
| Transcript.RunnerPanel.Paste | docusaurus-site/src/components/VampireRunner.jsx:222-228 | With a prompt pending, non-empty pasted text is typed without carriage returns; otherwise nothing changes |
| Transcript.RunnerPanel.StartRun | docusaurus-site/src/components/VampireRunner.jsx:230-243 | A fresh run id; the previous cancel function is called once; the transcript becomes `Running…`, and `latestOutRef` is re-synced to it (the `[out]` effect of lines 116-118); prompt and promise dropped |
| Transcript.RunnerPanel.OnStdout | docusaurus-site/src/components/VampireRunner.jsx:257-260 | A stale run changes nothing; otherwise each line is appended |
| Transcript.RunnerPanel.OnStderr | docusaurus-site/src/components/VampireRunner.jsx:261-264 | A stale run changes nothing; otherwise each line is appended after `[err] ` |
| Transcript.RunnerPanel.OnReady | docusaurus-site/src/components/VampireRunner.jsx:269-278 | Only the current run installs a cancel function |
| Transcript.RunnerPanel.Cleanup | docusaurus-site/src/components/VampireRunner.jsx:293-303 | Only the current run drops its promise, prompt and typed input, clears running and forgets cancel; a stale run leaves all of them |
| Transcript.RunnerPanel.FinishRun | docusaurus-site/src/components/VampireRunner.jsx:280-283 | The current run appends its exit line (`latestOutRef` follows), then drops promise, prompt and input, clears running and forgets cancel; a stale run changes none of these |
| Transcript.RunnerPanel.FailRun | docusaurus-site/src/components/VampireRunner.jsx:291-292 | The transcript becomes the error whichever run it comes from, and `latestOutRef` is re-synced to it; only the current run drops promise, prompt and input, clears running and forgets cancel |
| Transcript.RunnerPanel.MissingRunner | docusaurus-site/src/components/VampireRunner.jsx:249-253 | The transcript becomes the message, `latestOutRef` is re-synced to it, and running is cleared; only the current run drops promise, prompt and input and forgets cancel |
| Lectures.ContentKeyEmpty | docusaurus-site/tools/convert_lectures.py:35-36 | The content key is empty exactly when every line is blank |
| Lectures.PageSlideSome | docusaurus-site/tools/convert_lectures.py:51-59 | A page gives a slide exactly when it has text |
| Lectures.PageSlideTitle | docusaurus-site/tools/convert_lectures.py:55-63 | The title is the first non-blank line, stripped; the content is the lines after it |
| Lectures.FirstIndex | docusaurus-site/tools/convert_lectures.py:62 | `lines.index(x)` is the first position holding `x` |
| Lectures.ParseSlides | docusaurus-site/tools/convert_lectures.py:49-64 | The page loop gives the merged slides of the pages with text |
| Lectures.RunEnd | docusaurus-site/tools/convert_lectures.py:74 | The end of the maximal run of equal titles |
| Lectures.BestIn | docusaurus-site/tools/convert_lectures.py:74-78 | The held slide has the longest key; ties go to the later slide |
| Lectures.BestOfRun | docusaurus-site/tools/convert_lectures.py:71-78 | The inner loop stops at the run's end holding `BestIn` |
| Lectures.MergeOverlays | docusaurus-site/tools/convert_lectures.py:67-81 | The outer loop computes `Merge` |
| Lectures.MergeIsSubsequence | docusaurus-site/tools/convert_lectures.py:67-81 | The merged slides are an order-preserving subsequence, so no more of them |
| Lectures.MergeKeepsBest | docusaurus-site/tools/convert_lectures.py:67-81 | Every maximal run of equal titles contributes exactly one slide (each slide lies in the run of a kept one, and no two kept ones share a run), namely its fullest variant, later on ties; no two adjacent merged slides share a title |
| Lectures.MergeIdentity | docusaurus-site/tools/convert_lectures.py:67-81 | Without adjacent equal titles, merging changes nothing |
| Lectures.CodeLineNotBlank | docusaurus-site/tools/convert_lectures.py:85-87 | A blank line is never code |
| Lectures.CodeLineIgnoresIndent | docusaurus-site/tools/convert_lectures.py:85 | Indentation does not decide whether a line is code |
| Lectures.CommentIsCode | docusaurus-site/tools/convert_lectures.py:89 | A `%` comment line is code, however indented |
| Lectures.NormaliseBulletGlyphs | docusaurus-site/tools/convert_lectures.py:100 | Leading bullet glyphs make no difference |
| Lectures.LowerDash | docusaurus-site/tools/convert_lectures.py:101 | The case-insensitive `- ` test equals the plain one |
| Lectures.NormaliseBulletStripped | docusaurus-site/tools/convert_lectures.py:99-103 | The result neither starts nor ends with white space |
| Lectures.OutlineLines | docusaurus-site/tools/convert_lectures.py:107-113 | The outline loop computes `OutlineItems` |
| Lectures.FeedLine | docusaurus-site/tools/convert_lectures.py:137-172 | One pass of the main loop computes `Feed` on the buffers |
| Lectures.FormatSlideLines | docusaurus-site/tools/convert_lectures.py:106-176 | The loops and final flushes compute `FormatSlide` |
| Lectures.FormatOutline | docusaurus-site/tools/convert_lectures.py:107-113 | An outline slide gives `- ` plus the stripped text, per non-blank line |
| Lectures.FormatNoBlank | docusaurus-site/tools/convert_lectures.py:176 | No output line is blank |
| Lectures.FlushCodeOk | docusaurus-site/tools/convert_lectures.py:128-135 | `flush_code` keeps the Markdown well fenced and the pending lines backquote-free |
| Lectures.FeedAllOk | docusaurus-site/tools/convert_lectures.py:137-172 | Over backquote-free lines the Markdown stays well fenced and the pending lines backquote-free |
| Lectures.FormatFenced | docusaurus-site/tools/convert_lectures.py:106-176 | On a backquote-free slide, fences are balanced and never nested |
| Lectures.StrayFence | docusaurus-site/tools/convert_lectures.py:168-172 | A prose line "```" comes out as an unmatched fence |
| Lectures.SplitLinesJoin | docusaurus-site/tools/convert_lectures.py:211 | `splitlines` inverts `"\n".join` on break-free lines with a non-empty last line |
| Lectures.FlagMatchesBlocks | docusaurus-site/tools/convert_lectures.py:211-216 | On well-fenced lines, `in_code_block` is set exactly inside a block |
| Lectures.EscapeLinesAt | docusaurus-site/tools/convert_lectures.py:211-221 | Fence and in-block lines are kept; other lines are escaped |
| Lectures.AngleLineEscapesChars | docusaurus-site/tools/convert_lectures.py:218-220 | The chained replacements escape each angle bracket on its own |
| Lectures.CurlyLineEscapesChars | docusaurus-site/tools/convert_lectures.py:235 | The two replacements escape each brace on its own |
| Lectures.EscapeAngleBrackets | docusaurus-site/tools/convert_lectures.py:208-222 | The loop computes the angle pass over the text's lines |
| Lectures.EscapeCurlyBraces | docusaurus-site/tools/convert_lectures.py:225-237 | The loop computes the brace pass |
| Lectures.AngleEscaping | docusaurus-site/tools/convert_lectures.py:208-222 | The line count is kept; fence and in-block lines are unchanged; other lines are escaped per character |
| Lectures.CurlyEscaping | docusaurus-site/tools/convert_lectures.py:225-237 | The same for braces |
| Lectures.AngleCleared | docusaurus-site/tools/convert_lectures.py:217-220 | No `<` or `>` remains outside the blocks |
| Lectures.CurlyCleared | docusaurus-site/tools/convert_lectures.py:234-235 | No `{` or `}` remains outside the blocks |
| Lectures.RefLabel | docusaurus-site/tools/convert_lectures.py:202 | A match is `![`, a non-empty label without `]`, then `]` not followed by `(` |
| Lectures.RefLabelExact | docusaurus-site/tools/convert_lectures.py:202 | The label length is found exactly when the pattern, lookahead included, matches at the head of the text |
| Lectures.EscapeRefsAtMatch | docusaurus-site/tools/convert_lectures.py:198-202 | Each match gets a backslash in front and the search resumes after it |
| Lectures.EscapeRefsNoMatch | docusaurus-site/tools/convert_lectures.py:198-202 | Where no match starts, the character is copied unchanged |
| Lectures.EscapeRefsOnlyBackslashes | docusaurus-site/tools/convert_lectures.py:198-202 | The substitution only inserts backslashes |
| Lectures.EscapeRefsImage | docusaurus-site/tools/convert_lectures.py:202 | Any image `![name](link)`, with a non-empty name free of `]` and no `!` in name or link, stays unchanged |
| Lectures.EscapeRefsBare | docusaurus-site/tools/convert_lectures.py:198-202 | Any bare reference `![name]` not followed by `(`, with a non-empty name free of `]` and no `!` after the `]`, gets one backslash in front and nothing else changes |
| Lectures.EscapeProblematicSequences | docusaurus-site/tools/convert_lectures.py:197-205 | Bare references, then angle brackets, then braces |
| Strings.NatToStringValue | docusaurus-site/src/pages/proof-search-visualization.jsx:188 | Rendering a number and reading it back gives the number |
| Strings.CanonicalRoundTrip | docusaurus-site/src/pages/proof-search-visualization.jsx:188 | A digit string without leading zeros survives `Number` and `toString` |
| Strings.LexLessTotal | docusaurus-site/src/pages/proof-search-visualization.jsx:190 | Code-unit order is total on distinct strings |
| Strings.IntToString | docusaurus-site/src/pages/proof-search-visualization.jsx:502 | A number in a template string: its digits read back as the value, with a leading `-` for a negative number and no leading zero |
| Strings.ReplaceCharJoinsSplit | vampire-runner.js:61 | A global replace of one character (`a.replace(/'/g, …)`) equals splitting at that character and joining the pieces with the replacement |
| Strings.SplitAppend | docusaurus-site/src/pages/proof-search-visualization.jsx:472 | Splitting text joined at a separator splits both halves |

## Left out

- Canvas drawing, the physics step, colours, glow and pulse are not modelled. They are floating point and canvas API work.
- Pan, zoom and pinch camera maths and hit-testing with `Math.hypot` are not modelled. The node under the pointer and the distance a touch has moved are parameters; the moved node's new position is not modelled.
- Target coordinates are not modelled. The cos/sin positions of targets and spawned nodes, and the seeded angular and vertical jitter, are floating point. A target is a slot: the ring, column or layer, the index in it, and its size. A spawn position is a parameter.
- Per-frame `Math.random` jitter is not modelled, because it is non-deterministic.
- `String.prototype.localeCompare` is an abstract comparison parameter. The band sort is a stable insertion sort standing for `Array.prototype.sort`.
- `measureText` is an abstract width function.
- Times are given as parameters: `performance.now()` and the tap timestamps.
- `Math.max(1, ...depths)` is modelled without the argument-count limit of a spread call.
- Numbers are unbounded. JavaScript `Number` precision above 2^53 is not modelled, so an id read by `Number(...)` keeps its exact value.
- The 50 ms output debounce is left out: `appendOutput` takes effect immediately, and `flushOutput` in the cleanup changes nothing.
- Base-URL discovery, dynamic `import`, the Emscripten runtime, the web worker, `getWorkingBaseUrl` and the clipboard copy are not modelled. They are I/O and foreign calls. The runner's outcome (chunks, prompts, ready, exit code, error) arrives as method calls on the classes.
- React state batching and re-rendering are left out. Each setter takes effect at once.
- Characters beyond the Basic Multilingual Plane are one character in the model but two code units in JavaScript. Only `seededRandom` converts them; `length`, `slice(0, -1)`, the `ev.key.length === 1` test and the code-unit order of `sort()` are modelled per character.
- The `window.__VampVizDebug` logging is left out.
- Regular expressions are not a general engine. `TAG_CLAUSE_RE`, `REDUCE_RE`, `SELECT_RE`, the SZS test, the bracket and word expressions, and the converter's substitutions are each written as a hand-made matcher for that one expression.
- Case-insensitive matching and `toLowerCase`, `toUpperCase` and Python's `lower()` cover ASCII letters only.
- The word boundary `\b` of `SELECT_RE` and of the SZS test is modelled on ASCII word characters.
- `clause.status || 'new'` and the status lookups treat status strings as plain strings. A status naming an `Object.prototype` member, such as `constructor`, is not modelled.
- GraphStore.PickSmallestIdMember: the pick is a member only for ids without leading zeros. `Number(...).toString()` turns `007` into `7` (`GraphStore.LeadingZerosLost`). The prover never writes such ids.
- GraphStore.CommitShowsStored: distinct display ids, and display clauses that are stored clauses, are proved only for stores whose ids have no leading zeros. Leading zeros can make two groups show the same id.
- GraphStore.EdgeKeyInjective: ids containing `-` are not covered. With such ids, `from->to` keys can collide.
- Lectures.FormatFenced: balanced fences are proved only for slides without backquotes. A prose line starting with three backquotes is copied as is and opens an unmatched fence (`Lectures.StrayFence`).
- Python's `splitlines` is modelled for `\n` only. The other boundaries it honours (`\r`, `\r\n`, `\v`, `\f`, `\x1c`-`\x1e`, `\x85`, ` `, ` `) are not modelled. This affects `parse_slides` and the escaping passes.
- The image-reference substitution of `escape_problematic_sequences` is modelled as written. It is not fence-aware and runs over the whole text, code blocks included.
- `lines.index(meaningful[0])` finds the first line equal to the first non-blank line, which is that line itself. The model keeps the branch `if not meaningful` (`Lectures.PageSlide`); it cannot be taken once the stripped page is non-empty.
- `run_pdftotext`, `copy_images`, `convert_lecture` (with `yaml_quote`) and `main` of the converter are not modelled. They run subprocesses and touch the file system.
- The static runner's `worker.js`, the root `script.js`, the Prism grammar and the site configuration are not part of this model.

## Findings

| source | as written | input that shows it | evidently intended | confidence | as-written member | corrected member |
|---|---|---|---|---|---|---|
| docusaurus-site/src/components/VampireRunner.jsx:137-223 | An inline prompt stores the prompt line `''` (line 173). `visibleOut` (line 137), `handleKeyDown` (line 205) and `handlePaste` (line 223) test `!pendingPrompt`, which is true for `''`. So an inline prompt is treated as no prompt: the typed answer is not shown, and keys and paste are ignored, so it cannot be submitted | transcript `p`, prompt `p`: inline, prompt line `''` | test for a pending prompt with `pendingPrompt !== null` | not executed | Transcript.InlinePromptHiddenAsWritten | Transcript.InlinePromptShown |

Both halves of the finding are in the model:

- `Transcript.InlinePromptExample` gives the concrete input.
- The panel's `KeyDown`, `Paste` and `VisibleOut` use the corrected test `Transcript.PromptActive`.

Other behaviours of the source that the model keeps as they are:

- **runner panel:**
  - Failure handling (`FailRun`) replaces the transcript whichever run fails.
  - The "Running…" literal in the source is mis-encoded as three characters (`â€¦`). The model keeps the literal as written (`Transcript.RunningText`).
- **visualisation page:**
  - A `[SA] subsumption: n.` line both marks clause n removed and re-records it as a new clause with an empty text (`ClauseStream.SubsumptionLineResetsClause`).
  - `resetRunState` keeps a pending clause request.
  - `onReady` stores the cancel hook of any run.

=== FILE: Argv.dfy ===
/**
 * The command-line helpers of the browser runner: `parseArgs` turns the option
 * string typed by the user into an argv, `shellQuote` renders an argv back as a
 * shell-safe string. Both runner scripts carry the same two functions; this
 * module models them once.
 */
module Argv {
  import opened Strings
  import opened Wrappers

  /** The file the runner writes the problem to. */
  const InputFile: string := "/work/input.p"

  // ---------------------------------------------------------------------------
  // parseArgs
  // ---------------------------------------------------------------------------

  predicate IsQuoteChar(c: char)
  {
    c == '"' || c == '\''
  }

  /**
   * The tokens produced from the rest `s` of the input, when the scanner is in
   * quote state `q` (None outside quotes, Some(c) inside quotes opened by c)
   * and has collected `cur` for the current token. Inside quotes a backslash
   * takes the next character literally; outside quotes it is an ordinary
   * character; unquoted white space ends a non-empty token.
   */
  function Tokens(s: string, q: Option<char>, cur: string): seq<string>
    decreases |s|
  {
    if s == [] then (if cur == "" then [] else [cur])
    else if q.Some? then
      if s[0] == q.value then Tokens(s[1..], None, cur)
      else if s[0] == '\\' && |s| > 1 then Tokens(s[2..], q, cur + [s[1]])
      else Tokens(s[1..], q, cur + [s[0]])
    else if IsQuoteChar(s[0]) then Tokens(s[1..], Some(s[0]), cur)
    else if IsJsSpace(s[0]) then (if cur != "" then [cur] else []) + Tokens(s[1..], None, "")
    else Tokens(s[1..], None, cur + [s[0]])
  }

  /** The argv `parseArgs(str)` returns. */
  function Parse(str: string): seq<string>
  {
    Tokens(str, None, "")
  }

  /** `parseArgs`: the index/quote-state loop of the runner scripts. */
  method ParseArgs(str: string) returns (argv: seq<string>)
    ensures argv == Parse(str)
    ensures forall k :: 0 <= k < |argv| ==> argv[k] != ""
  {
    argv := [];
    var i := 0;
    var cur := "";
    var q: Option<char> := None;
    while i < |str|
      invariant 0 <= i <= |str|
      invariant argv + Tokens(str[i..], q, cur) == Parse(str)
    {
      var ch := str[i];
      assert str[i..][0] == ch && str[i..][1..] == str[i + 1..];
      i := i + 1;
      if q.Some? {
        if ch == q.value {
          q := None;
        } else if ch == '\\' && i < |str| {
          assert str[i - 1..][2..] == str[i + 1..] && str[i - 1..][1] == str[i];
          cur := cur + [str[i]];
          i := i + 1;
        } else {
          cur := cur + [ch];
        }
      } else {
        if ch == '"' || ch == '\'' {
          q := Some(ch);
        } else if IsJsSpace(ch) {
          if cur != "" {
            argv := argv + [cur];
            cur := "";
          }
        } else {
          cur := cur + [ch];
        }
      }
    }
    if cur != "" {
      argv := argv + [cur];
    }
    NoEmptyToken(str);
  }

  lemma {:induction false} TokensNonEmpty(s: string, q: Option<char>, cur: string)
    ensures forall k :: 0 <= k < |Tokens(s, q, cur)| ==> Tokens(s, q, cur)[k] != ""
    decreases |s|
  {
    if s == [] {
    } else if q.Some? {
      if s[0] == q.value {
        TokensNonEmpty(s[1..], None, cur);
      } else if s[0] == '\\' && |s| > 1 {
        TokensNonEmpty(s[2..], q, cur + [s[1]]);
      } else {
        TokensNonEmpty(s[1..], q, cur + [s[0]]);
      }
    } else if IsQuoteChar(s[0]) {
      TokensNonEmpty(s[1..], Some(s[0]), cur);
    } else if IsJsSpace(s[0]) {
      TokensNonEmpty(s[1..], None, "");
    } else {
      TokensNonEmpty(s[1..], None, cur + [s[0]]);
    }
  }

  /** `parseArgs` never emits an empty token. */
  lemma NoEmptyToken(str: string)
    ensures forall k :: 0 <= k < |Parse(str)| ==> Parse(str)[k] != ""
  {
    TokensNonEmpty(str, None, "");
  }

  /** Inside quotes, a stretch without the closing quote and without backslashes (white space and the other quote included) is copied literally. */
  lemma {:induction false} QuotedStretch(a: string, t: string, q: char, cur: string)
    requires q !in a && '\\' !in a
    ensures Tokens(a + t, Some(q), cur) == Tokens(t, Some(q), cur + a)
    decreases |a|
  {
    if a == [] {
      assert a + t == t && cur + a == cur;
    } else {
      assert (a + t)[0] == a[0] && (a + t)[1..] == a[1..] + t;
      QuotedStretch(a[1..], t, q, cur + [a[0]]);
      assert cur + [a[0]] + a[1..] == cur + a;
    }
  }

  /** An unterminated quote runs to the end of the input. */
  lemma UnterminatedQuote(q: char, a: string)
    requires IsQuoteChar(q) && a != "" && q !in a && '\\' !in a
    ensures Parse([q] + a) == [a]
  {
    assert ([q] + a)[0] == q && ([q] + a)[1..] == a + [];
    QuotedStretch(a, [], q, "");
    assert "" + a == a;
  }

  /** Inside quotes a backslash takes the next character literally, even a quote or a backslash. */
  lemma BackslashInQuotes(q: char, c: char, t: string, cur: string)
    requires IsQuoteChar(q)
    ensures Tokens(['\\', c] + t, Some(q), cur) == Tokens(t, Some(q), cur + [c])
  {
    var s := ['\\', c] + t;
    assert s[0] == '\\' && s[1] == c && |s| > 1 && s[2..] == t;
  }

  /** A stretch of ordinary characters outside quotes joins the current token. */
  lemma {:induction false} PlainStretch(a: string, t: string, cur: string)
    requires forall i :: 0 <= i < |a| ==> !IsQuoteChar(a[i]) && !IsJsSpace(a[i])
    ensures Tokens(a + t, None, cur) == Tokens(t, None, cur + a)
    decreases |a|
  {
    if a == [] {
      assert a + t == t && cur + a == cur;
    } else {
      assert (a + t)[0] == a[0] && (a + t)[1..] == a[1..] + t;
      PlainStretch(a[1..], t, cur + [a[0]]);
      assert cur + [a[0]] + a[1..] == cur + a;
    }
  }

  // ---------------------------------------------------------------------------
  // White-space fields: `s.split(/\s+/).filter(Boolean)`
  // ---------------------------------------------------------------------------

  /** Length of the longest prefix of `s` without white space. */
  function RunLength(s: string): (n: nat)
    ensures n <= |s|
    ensures forall i :: 0 <= i < n ==> !IsJsSpace(s[i])
    ensures n == |s| || IsJsSpace(s[n])
  {
    if s == [] || IsJsSpace(s[0]) then 0 else 1 + RunLength(s[1..])
  }

  /** The maximal runs of non-white-space characters of `s`, in order. */
  function Fields(s: string): seq<string>
    decreases |s|
  {
    if s == [] then []
    else if IsJsSpace(s[0]) then Fields(s[1..])
    else
      var n := RunLength(s);
      [s[..n]] + Fields(s[n..])
  }

  lemma {:induction false} RunLengthOfWord(w: string, t: string)
    requires forall i :: 0 <= i < |w| ==> !IsJsSpace(w[i])
    requires t == [] || IsJsSpace(t[0])
    ensures RunLength(w + t) == |w|
    decreases |w|
  {
    if w == [] {
      assert w + t == t;
    } else {
      assert (w + t)[0] == w[0] && (w + t)[1..] == w[1..] + t;
      RunLengthOfWord(w[1..], t);
    }
  }

  /** For input without quote characters, `parseArgs` is a white-space split with empty pieces dropped (backslashes included). */
  lemma {:induction false} UnquotedIsFields(s: string, cur: string)
    requires forall i :: 0 <= i < |s| ==> !IsQuoteChar(s[i])
    requires forall i :: 0 <= i < |cur| ==> !IsJsSpace(cur[i])
    ensures Tokens(s, None, cur) == Fields(cur + s)
    decreases |s|
  {
    if s == [] {
      assert cur + s == cur;
      if cur != "" {
        RunLengthOfWord(cur, []);
        assert cur[|cur|..] == [];
      }
    } else if IsJsSpace(s[0]) {
      UnquotedIsFields(s[1..], "");
      assert "" + s[1..] == s[1..];
      if cur == "" {
        assert cur + s == s;
      } else {
        RunLengthOfWord(cur, s);
        assert (cur + s)[..|cur|] == cur && (cur + s)[|cur|..] == s;
      }
    } else {
      UnquotedIsFields(s[1..], cur + [s[0]]);
      assert cur + [s[0]] + s[1..] == cur + s;
    }
  }

  lemma ParseUnquoted(s: string)
    requires forall i :: 0 <= i < |s| ==> !IsQuoteChar(s[i])
    ensures Parse(s) == Fields(s)
  {
    UnquotedIsFields(s, "");
    assert "" + s == s;
  }

  // ---------------------------------------------------------------------------
  // shellQuote
  // ---------------------------------------------------------------------------

  /** A character of the class `[A-Za-z0-9@%_+=:,./-]`. */
  predicate IsSafeChar(c: char)
  {
    IsLetter(c) || IsDigit(c) || c in "@%_+=:,./-"
  }

  /** An argument matching `^[A-Za-z0-9@%_+=:,./-]+$`. */
  predicate IsSafeArg(a: string)
  {
    a != [] && forall i :: 0 <= i < |a| ==> IsSafeChar(a[i])
  }

  /** One argument, as shellQuote renders it: unchanged when safe, else single-quoted with `'` written `'\''`. */
  function QuoteArg(a: string): string
  {
    if IsSafeArg(a) then a else "'" + Replace(a, "'", "'\\''") + "'"
  }

  function QuoteAll(argv: seq<string>): (r: seq<string>)
    ensures |r| == |argv|
    ensures forall k :: 0 <= k < |argv| ==> r[k] == QuoteArg(argv[k])
  {
    if argv == [] then [] else [QuoteArg(argv[0])] + QuoteAll(argv[1..])
  }

  /** `shellQuote(argv)`: the quoted arguments joined by single spaces. */
  function ShellQuote(argv: seq<string>): string
  {
    Join(QuoteAll(argv), " ")
  }

  lemma {:induction false} ReplaceAbsent(s: string, pat: char, rep: string)
    requires pat !in s
    ensures Replace(s, [pat], rep) == s
    decreases |s|
  {
    if |s| >= 1 {
      assert s[..1] != [pat] by { assert s[0] != pat; }
      ReplaceAbsent(s[1..], pat, rep);
    }
  }

  /**
   * An unsafe argument is single-quoted with each of its single quotes written
   * as `'\''`, i.e. close, escaped quote, reopen (section 2.2.2 of the POSIX
   * Shell Command Language): the quote-free pieces between its quotes, joined
   * by `'\''`. An argument holding a quote is therefore not just wrapped.
   */
  lemma QuoteArgEscapes(a: string)
    requires !IsSafeArg(a)
    ensures QuoteArg(a) == "'" + Join(Split(a, '\''), "'\\''") + "'"
    ensures '\'' in a ==> QuoteArg(a) != "'" + a + "'"
  {
    ReplaceCharJoinsSplit(a, '\'', "'\\''");
    if '\'' in a {
      ReplaceCountsQuote(a);
    }
  }

  lemma {:induction false} ReplaceCountsQuote(a: string)
    requires '\'' in a
    ensures |Replace(a, "'", "'\\''")| > |a|
    decreases |a|
  {
    if a[0] == '\'' {
      assert a[..1] == "'";
      ReplaceAtLeast(a[1..]);
    } else {
      assert a[..1] != "'";
      assert '\'' in a[1..] by {
        var i :| 0 <= i < |a| && a[i] == '\'';
        assert a[1..][i - 1] == '\'';
      }
      ReplaceCountsQuote(a[1..]);
    }
  }

  lemma {:induction false} ReplaceAtLeast(a: string)
    ensures |Replace(a, "'", "'\\''")| >= |a|
    decreases |a|
  {
    if |a| >= 1 {
      ReplaceAtLeast(a[1..]);
    }
  }

  /** White space right after a finished token is skipped. */
  lemma SkipSpace(cur: string, t: string)
    requires cur != ""
    requires t == [] || IsJsSpace(t[0])
    ensures Tokens(t, None, cur) == [cur] + Tokens(t, None, "")
  {
    if t != [] {
      assert Tokens(t, None, "") == Tokens(t[1..], None, "");
    }
  }

  /** A safe argument is written bare and read back as one token. */
  lemma ReadBackSafe(x: string, t: string)
    requires IsSafeArg(x)
    requires t == [] || IsJsSpace(t[0])
    ensures Tokens(x + t, None, "") == [x] + Tokens(t, None, "")
  {
    forall i | 0 <= i < |x|
      ensures !IsQuoteChar(x[i]) && !IsJsSpace(x[i])
    {
      assert IsSafeChar(x[i]);
    }
    PlainStretch(x, t, "");
    assert "" + x == x;
    SkipSpace(x, t);
  }

  /** A single-quoted argument without quotes or backslashes is read back as one token. */
  lemma ReadBackQuoted(x: string, t: string)
    requires x != "" && '\'' !in x && '\\' !in x
    requires t == [] || IsJsSpace(t[0])
    ensures Tokens(['\''] + x + ['\''] + t, None, "") == [x] + Tokens(t, None, "")
  {
    var s := ['\''] + x + ['\''] + t;
    var u := ['\''] + t;
    assert s[0] == '\'' && s[1..] == x + u;
    QuotedStretch(x, u, '\'', "");
    assert u[0] == '\'' && u[1..] == t;
    assert "" + x == x;
    SkipSpace(x, t);
  }

  /** One quoted argument followed by white space or the end is read back as that argument. */
  lemma ReadBackOne(x: string, t: string)
    requires x != "" && '\'' !in x && '\\' !in x
    requires t == [] || IsJsSpace(t[0])
    ensures Tokens(QuoteArg(x) + t, None, "") == [x] + Tokens(t, None, "")
  {
    if IsSafeArg(x) {
      ReadBackSafe(x, t);
    } else {
      ReplaceAbsent(x, '\'', "'\\''");
      assert QuoteArg(x) + t == ['\''] + x + ['\''] + t;
      ReadBackQuoted(x, t);
    }
  }

  /** The restricted round trip: non-empty arguments without `'` or `\` survive `shellQuote` then `parseArgs`. */
  lemma {:induction false} RoundTrip(xs: seq<string>)
    requires forall k :: 0 <= k < |xs| ==> xs[k] != "" && '\'' !in xs[k] && '\\' !in xs[k]
    ensures Parse(ShellQuote(xs)) == xs
  {
    if xs == [] {
    } else if |xs| == 1 {
      ReadBackOne(xs[0], []);
      assert QuoteArg(xs[0]) + [] == ShellQuote(xs);
    } else {
      var rest := ShellQuote(xs[1..]);
      assert QuoteAll(xs)[1..] == QuoteAll(xs[1..]);
      assert ShellQuote(xs) == QuoteArg(xs[0]) + (" " + rest);
      ReadBackOne(xs[0], " " + rest);
      assert (" " + rest)[1..] == rest;
      RoundTrip(xs[1..]);
    }
  }

  /** `shellQuote(["a'"])` closes the quote, escapes the inner quote and reopens: `'a'\'''`. */
  lemma QuotedQuote()
    ensures ShellQuote(["a'"]) == "'a'\\'''"
  {
    assert QuoteAll(["a'"]) == [QuoteArg("a'")];
    assert !IsSafeArg("a'") by { assert !IsSafeChar("a'"[1]); }
    assert Replace("'", "'", "'\\''") == "'\\''" by {
      assert "'"[..1] == "'" && "'"[1..] == [];
    }
    assert Replace("a'", "'", "'\\''") == "a'\\''" by {
      assert "a'"[..1] != "'" && "a'"[1..] == "'";
    }
  }

  /** The round trip fails for an argument ending in a single quote: `a'` comes back as `a\`. */
  lemma QuoteInArgumentBreaksRoundTrip()
    ensures Parse(ShellQuote(["a'"])) == ["a\\"]
  {
    QuotedQuote();
    var s := "'a'\\'''";
    var q := Some('\'');
    assert s[1..] == "a'\\'''";
    assert s[2..] == "'\\'''";
    assert s[3..] == "\\'''";
    assert s[4..] == "'''";
    assert s[5..] == "''";
    assert s[6..] == "'";
    assert Tokens(s[6..], None, "a\\") == Tokens([], q, "a\\");
    assert Tokens(s[5..], q, "a\\") == Tokens(s[6..], None, "a\\");
    assert Tokens(s[4..], None, "a\\") == Tokens(s[5..], q, "a\\");
    assert "a" + [s[3]] == "a\\" && "" + [s[1]] == "a";
    assert Tokens(s[3..], None, "a") == Tokens(s[4..], None, "a\\") by {
      assert s[3..][0] == '\\' && s[3..][1..] == s[4..];
      assert !IsQuoteChar('\\') && !IsJsSpace('\\');
    }
    assert Tokens(s[2..], q, "a") == Tokens(s[3..], None, "a");
    assert Tokens(s[1..], q, "") == Tokens(s[2..], q, "a");
    assert Tokens(s, None, "") == Tokens(s[1..], q, "");
  }

  // ---------------------------------------------------------------------------
  // The argv handed to the prover
  // ---------------------------------------------------------------------------

  /** An argument the static runner takes for a problem file: it ends with `.p` or starts with `/`. */
  predicate IsInputArg(a: string)
  {
    EndsWith(a, ".p") || StartsWith(a, "/")
  }

  predicate HasInputArg(argv: seq<string>)
  {
    exists k :: 0 <= k < |argv| && IsInputArg(argv[k])
  }

  /** The static runner's rule: append the input file only when no argument looks like one. */
  function WithInputFile(argv: seq<string>): (r: seq<string>)
    ensures HasInputArg(r)
    ensures HasInputArg(argv) <==> r == argv
    ensures !HasInputArg(argv) <==> r == argv + [InputFile]
  {
    if HasInputArg(argv) then argv
    else
      assert IsInputArg((argv + [InputFile])[|argv|]);
      argv + [InputFile]
  }

  /** The root runner's rule: the input file is appended unconditionally. */
  function RootRunnerArgv(args: string): (r: seq<string>)
    ensures |r| == |Parse(args)| + 1 && r[|r| - 1] == InputFile
    ensures r[..|r| - 1] == Parse(args)
  {
    Parse(args) + [InputFile]
  }

  /** The two runners agree exactly when the user names no problem file of their own. */
  lemma RunnersAgree(args: string)
    ensures RootRunnerArgv(args) == WithInputFile(Parse(args)) <==> !HasInputArg(Parse(args))
  {
    if HasInputArg(Parse(args)) {
      assert |RootRunnerArgv(args)| != |Parse(args)|;
    }
  }
}

=== FILE: CanvasNodes.dfy ===
// The bookkeeping of the proof-search canvas around its drawing: keeping the
// node map in step with the clause list, sampling the edges to draw, breaking
// a clause's text into label lines, and the passive-only selection gestures.
// Positions, velocities and times are real numbers the model only copies;
// the initial position of a new node (cos/sin of a seeded angle) is a parameter.

module CanvasNodes {
  import opened Strings
  import opened Wrappers

  type Id = string

  /** A clause as handed to the canvas; an empty text or status stands for a missing (falsy) one. */
  datatype ClauseIn = ClauseIn(id: Id, text: string, status: string)

  /** A canvas node: its id, label text, status, position, velocity and creation time. */
  datatype Node = Node(id: Id, text: string, status: string, x: real, y: real, vx: real, vy: real, bornAt: real)

  /** The starting position of a new node, from the node id. */
  type Spawner = Id -> (real, real)

  // ---------------------------------------------------------------------------
  // Node synchronisation
  // ---------------------------------------------------------------------------

  /** Every node is stored under its own id. */
  ghost predicate WellKeyed(m: map<Id, Node>)
  {
    forall k :: k in m ==> m[k].id == k
  }

  /** A node for a clause not yet on the canvas: at rest, born now, status "new" when the clause has none. */
  function Spawn(c: ClauseIn, now: real, place: Spawner): Node
  {
    Node(c.id, c.text, if c.status == "" then "new" else c.status, place(c.id).0, place(c.id).1, 0.0, 0.0, now)
  }

  /** `node.text = clause.text || node.text; node.status = clause.status || node.status`. */
  function Refresh(n: Node, c: ClauseIn): Node
  {
    n.(text := if c.text != "" then c.text else n.text, status := if c.status != "" then c.status else n.status)
  }

  /** The node map after the first `|cs|` clauses of the `clauses.forEach`. */
  function UpsertAll(m: map<Id, Node>, cs: seq<ClauseIn>, now: real, place: Spawner): map<Id, Node>
    decreases |cs|
  {
    if cs == [] then m
    else
      var before := UpsertAll(m, cs[..|cs| - 1], now, place);
      var c := cs[|cs| - 1];
      if c.id !in before then before[c.id := Spawn(c, now, place)]
      else before[c.id := Refresh(before[c.id], c)]
  }

  /** The ids of the clauses: the `seen` set. */
  function ClauseIds(cs: seq<ClauseIn>): set<Id>
  {
    set k | 0 <= k < |cs| :: cs[k].id
  }

  /** The node map after the effect: every clause upserted, then every node not seen removed. */
  function Synced(m: map<Id, Node>, cs: seq<ClauseIn>, now: real, place: Spawner): map<Id, Node>
  {
    var u := UpsertAll(m, cs, now, place);
    map k | k in u && k in ClauseIds(cs) :: u[k]
  }

  /** The two clause fields the sync copies. */
  datatype Field = Text | Status

  function Pick(c: ClauseIn, f: Field): string
  {
    if f == Text then c.text else c.status
  }

  /** The last non-empty value of field `f` among the clauses for `id`, or `dflt` when there is none. */
  function Latest(cs: seq<ClauseIn>, id: Id, f: Field, dflt: string): string
    decreases |cs|
  {
    if cs == [] then dflt
    else if cs[|cs| - 1].id == id && Pick(cs[|cs| - 1], f) != "" then Pick(cs[|cs| - 1], f)
    else Latest(cs[..|cs| - 1], id, f, dflt)
  }

  /** The ids of one more clause. */
  lemma ClauseIdsSnoc(cs: seq<ClauseIn>)
    requires cs != []
    ensures ClauseIds(cs) == ClauseIds(cs[..|cs| - 1]) + {cs[|cs| - 1].id}
  {
    var init := cs[..|cs| - 1];
    forall x | x in ClauseIds(cs)
      ensures x in ClauseIds(init) + {cs[|cs| - 1].id}
    {
      var k :| 0 <= k < |cs| && cs[k].id == x;
      if k < |cs| - 1 {
        assert init[k] == cs[k];
      }
    }
    forall x | x in ClauseIds(init)
      ensures x in ClauseIds(cs)
    {
      var k :| 0 <= k < |init| && init[k].id == x;
      assert cs[k] == init[k];
    }
  }

  /** A field of an id that no clause names keeps its default. */
  lemma {:induction false} LatestAbsent(cs: seq<ClauseIn>, id: Id, f: Field, dflt: string)
    requires id !in ClauseIds(cs)
    ensures Latest(cs, id, f, dflt) == dflt
    decreases |cs|
  {
    if cs != [] {
      ClauseIdsSnoc(cs);
      LatestAbsent(cs[..|cs| - 1], id, f, dflt);
    }
  }

  /** The upserts add exactly the clause ids. */
  lemma {:induction false} UpsertKeys(m: map<Id, Node>, cs: seq<ClauseIn>, now: real, place: Spawner)
    ensures UpsertAll(m, cs, now, place).Keys == m.Keys + ClauseIds(cs)
    decreases |cs|
  {
    if cs != [] {
      UpsertKeys(m, cs[..|cs| - 1], now, place);
      ClauseIdsSnoc(cs);
    }
  }

  /** The upserts keep every node under its own id. */
  lemma {:induction false} UpsertWellKeyed(m: map<Id, Node>, cs: seq<ClauseIn>, now: real, place: Spawner)
    requires WellKeyed(m)
    ensures WellKeyed(UpsertAll(m, cs, now, place))
    decreases |cs|
  {
    if cs != [] {
      UpsertWellKeyed(m, cs[..|cs| - 1], now, place);
    }
  }

  /** Position, velocity and birth time come from the old node, or from the spawn for a new one. */
  lemma {:induction false} UpsertMotion(m: map<Id, Node>, cs: seq<ClauseIn>, now: real, place: Spawner, id: Id)
    requires id in UpsertAll(m, cs, now, place)
    ensures id in m ==>
      var n := UpsertAll(m, cs, now, place)[id];
      n.x == m[id].x && n.y == m[id].y && n.vx == m[id].vx && n.vy == m[id].vy && n.bornAt == m[id].bornAt
    ensures id !in m ==>
      var n := UpsertAll(m, cs, now, place)[id];
      n.x == place(id).0 && n.y == place(id).1 && n.vx == 0.0 && n.vy == 0.0 && n.bornAt == now
    decreases |cs|
  {
    if cs != [] {
      var init := cs[..|cs| - 1];
      UpsertKeys(m, init, now, place);
      if id in UpsertAll(m, init, now, place) {
        UpsertMotion(m, init, now, place, id);
      }
    }
  }

  /** Text and status are the last non-empty ones the clauses give, over the old node's or the defaults. */
  lemma {:induction false} UpsertFields(m: map<Id, Node>, cs: seq<ClauseIn>, now: real, place: Spawner, id: Id)
    requires id in UpsertAll(m, cs, now, place)
    ensures UpsertAll(m, cs, now, place)[id].text == Latest(cs, id, Text, if id in m then m[id].text else "")
    ensures UpsertAll(m, cs, now, place)[id].status == Latest(cs, id, Status, if id in m then m[id].status else "new")
    decreases |cs|
  {
    if cs != [] {
      var init := cs[..|cs| - 1];
      UpsertKeys(m, init, now, place);
      if id in UpsertAll(m, init, now, place) {
        UpsertFields(m, init, now, place, id);
      } else {
        LatestAbsent(init, id, Text, "");
        LatestAbsent(init, id, Status, "new");
      }
    }
  }

  /** What the upserts do to one id: it is present when it was or some clause names it; position, velocity and birth time come from the old node or the spawn; text and status are the last non-empty ones, over the old node's or the defaults. */
  lemma UpsertAllSpec(m: map<Id, Node>, cs: seq<ClauseIn>, now: real, place: Spawner, id: Id)
    requires WellKeyed(m)
    ensures WellKeyed(UpsertAll(m, cs, now, place))
    ensures id in UpsertAll(m, cs, now, place) <==> id in m || id in ClauseIds(cs)
    ensures id in UpsertAll(m, cs, now, place) && id in m ==>
      var n := UpsertAll(m, cs, now, place)[id];
      n.x == m[id].x && n.y == m[id].y && n.vx == m[id].vx && n.vy == m[id].vy && n.bornAt == m[id].bornAt
    ensures id in UpsertAll(m, cs, now, place) && id !in m ==>
      var n := UpsertAll(m, cs, now, place)[id];
      n.x == place(id).0 && n.y == place(id).1 && n.vx == 0.0 && n.vy == 0.0 && n.bornAt == now
    ensures id in UpsertAll(m, cs, now, place) ==>
      UpsertAll(m, cs, now, place)[id].text == Latest(cs, id, Text, if id in m then m[id].text else "")
    ensures id in UpsertAll(m, cs, now, place) ==>
      UpsertAll(m, cs, now, place)[id].status == Latest(cs, id, Status, if id in m then m[id].status else "new")
  {
    UpsertKeys(m, cs, now, place);
    UpsertWellKeyed(m, cs, now, place);
    if id in UpsertAll(m, cs, now, place) {
      UpsertMotion(m, cs, now, place, id);
      UpsertFields(m, cs, now, place, id);
    }
  }

  /** After the sync, the nodes are exactly the clause ids. */
  lemma SyncedKeys(m: map<Id, Node>, cs: seq<ClauseIn>, now: real, place: Spawner)
    requires WellKeyed(m)
    ensures Synced(m, cs, now, place).Keys == ClauseIds(cs)
    ensures WellKeyed(Synced(m, cs, now, place))
  {
    forall id | id in ClauseIds(cs)
      ensures id in Synced(m, cs, now, place)
    {
      UpsertAllSpec(m, cs, now, place, id);
    }
    UpsertAllSpec(m, cs, now, place, "");
  }

  /** A node that was there keeps its position, velocity and birth time; its text and status change only to a clause's non-empty text and status. */
  lemma SyncedKeepsNode(m: map<Id, Node>, cs: seq<ClauseIn>, now: real, place: Spawner, id: Id)
    requires WellKeyed(m) && id in m && id in ClauseIds(cs)
    ensures id in Synced(m, cs, now, place)
    ensures var n := Synced(m, cs, now, place)[id];
      n.x == m[id].x && n.y == m[id].y && n.vx == m[id].vx && n.vy == m[id].vy && n.bornAt == m[id].bornAt
    ensures Synced(m, cs, now, place)[id].text == Latest(cs, id, Text, m[id].text)
    ensures Synced(m, cs, now, place)[id].status == Latest(cs, id, Status, m[id].status)
  {
    UpsertAllSpec(m, cs, now, place, id);
  }

  /** A node that is new starts at rest at its spawn position, born now, with status "new" unless a clause gives one. */
  lemma SyncedNewNode(m: map<Id, Node>, cs: seq<ClauseIn>, now: real, place: Spawner, id: Id)
    requires WellKeyed(m) && id !in m && id in ClauseIds(cs)
    ensures id in Synced(m, cs, now, place)
    ensures var n := Synced(m, cs, now, place)[id];
      n.x == place(id).0 && n.y == place(id).1 && n.vx == 0.0 && n.vy == 0.0 && n.bornAt == now
    ensures Synced(m, cs, now, place)[id].text == Latest(cs, id, Text, "")
    ensures Synced(m, cs, now, place)[id].status == Latest(cs, id, Status, "new")
  {
    UpsertAllSpec(m, cs, now, place, id);
  }

  /** A clause for the id with a non-empty value that no later clause for the id overrides gives `Latest`. */
  lemma {:induction false} LatestWins(cs: seq<ClauseIn>, id: Id, f: Field, dflt: string, k: nat)
    requires k < |cs| && cs[k].id == id && Pick(cs[k], f) != ""
    requires forall j :: k < j < |cs| && cs[j].id == id ==> Pick(cs[j], f) == ""
    ensures Latest(cs, id, f, dflt) == Pick(cs[k], f)
    decreases |cs|
  {
    if k < |cs| - 1 {
      var init := cs[..|cs| - 1];
      assert init[k] == cs[k];
      forall j | k < j < |init| && init[j].id == id
        ensures Pick(init[j], f) == ""
      {
        assert init[j] == cs[j];
      }
      LatestWins(init, id, f, dflt, k);
    }
  }

  /** `Latest` is the value of the last clause for the id that has one, and the default when none has. */
  lemma {:induction false} LatestIsLast(cs: seq<ClauseIn>, id: Id, f: Field, dflt: string)
    ensures Latest(cs, id, f, dflt) == dflt ||
      exists k :: 0 <= k < |cs| && cs[k].id == id && Pick(cs[k], f) != "" && Latest(cs, id, f, dflt) == Pick(cs[k], f) &&
        forall j :: k < j < |cs| && cs[j].id == id ==> Pick(cs[j], f) == ""
    ensures (forall k :: 0 <= k < |cs| && cs[k].id == id ==> Pick(cs[k], f) == "") ==> Latest(cs, id, f, dflt) == dflt
    decreases |cs|
  {
    if cs != [] {
      var init := cs[..|cs| - 1];
      LatestIsLast(init, id, f, dflt);
      if !(cs[|cs| - 1].id == id && Pick(cs[|cs| - 1], f) != "") && Latest(cs, id, f, dflt) != dflt {
        var k :| 0 <= k < |init| && init[k].id == id && Pick(init[k], f) != "" && Latest(init, id, f, dflt) == Pick(init[k], f) &&
          forall j :: k < j < |init| && init[j].id == id ==> Pick(init[j], f) == "";
        assert cs[k] == init[k];
        forall j | k < j < |cs| && cs[j].id == id
          ensures Pick(cs[j], f) == ""
        {
          if j < |cs| - 1 {
            assert cs[j] == init[j];
          }
        }
      }
      if forall k :: 0 <= k < |cs| && cs[k].id == id ==> Pick(cs[k], f) == "" {
        forall k | 0 <= k < |init| && init[k].id == id
          ensures Pick(init[k], f) == ""
        {
          assert cs[k] == init[k];
        }
      }
    }
  }

  /** If every stored status is non-empty, so is every status after the sync. */
  lemma SyncedStatusSet(m: map<Id, Node>, cs: seq<ClauseIn>, now: real, place: Spawner)
    requires WellKeyed(m)
    requires forall k :: k in m ==> m[k].status != ""
    ensures forall k :: k in Synced(m, cs, now, place) ==> Synced(m, cs, now, place)[k].status != ""
  {
    forall k | k in Synced(m, cs, now, place)
      ensures Synced(m, cs, now, place)[k].status != ""
    {
      UpsertAllSpec(m, cs, now, place, k);
      var dflt := if k in m then m[k].status else "new";
      LatestIsLast(cs, k, Status, dflt);
    }
  }

  /** The node map the canvas keeps across clause updates. */
  class NodeStore {
    var nodes: map<Id, Node>

    ghost predicate Valid()
      reads this
    {
      WellKeyed(nodes)
    }

    constructor()
      ensures Valid() && nodes == map[]
    {
      nodes := map[];
    }

    /** The reset effect: `nodesRef.current.clear()`. */
    method Clear()
      modifies this
      ensures Valid() && nodes == map[]
    {
      nodes := map[];
    }

    /** The clause effect: upsert every clause, then delete the nodes whose id was not seen. */
    method Sync(clauses: seq<ClauseIn>, now: real, place: Spawner)
      requires Valid()
      modifies this
      ensures Valid()
      ensures nodes == Synced(old(nodes), clauses, now, place)
      ensures nodes.Keys == ClauseIds(clauses)
    {
      var m0 := nodes;
      var m, seen := UpsertClauses(m0, clauses, now, place);
      var kept := Prune(m, seen);
      UpsertWellKeyed(m0, clauses, now, place);
      assert kept == Synced(m0, clauses, now, place);
      SyncedKeys(m0, clauses, now, place);
      nodes := kept;
    }
  }

  /** The `clauses.forEach` of the clause effect: each clause upserted and its id added to `seen`. */
  method UpsertClauses(m0: map<Id, Node>, clauses: seq<ClauseIn>, now: real, place: Spawner) returns (m: map<Id, Node>, seen: set<Id>)
    ensures m == UpsertAll(m0, clauses, now, place)
    ensures seen == ClauseIds(clauses)
  {
    m := m0;
    seen := {};
    for i := 0 to |clauses|
      invariant m == UpsertAll(m0, clauses[..i], now, place)
      invariant seen == ClauseIds(clauses[..i])
    {
      PrefixOfPrefix(clauses, i, i + 1);
      ClauseIdsSnoc(clauses[..i + 1]);
      var c := clauses[i];
      seen := seen + {c.id};
      if c.id !in m {
        m := m[c.id := Spawn(c, now, place)];
      } else {
        var node := m[c.id];
        m := m[c.id := Refresh(node, c)];
      }
    }
    PrefixAll(clauses);
  }

  /** The `map.forEach` of the clause effect: every node whose id was not seen is deleted. */
  method Prune(m: map<Id, Node>, seen: set<Id>) returns (kept: map<Id, Node>)
    ensures kept == map k | k in m && m[k].id in seen :: m[k]
  {
    kept := m;
    var keys := m.Keys;
    while keys != {}
      invariant keys <= m.Keys
      invariant forall k :: k in kept <==> k in m && (k in keys || m[k].id in seen)
      invariant forall k :: k in kept ==> kept[k] == m[k]
      decreases |keys|
    {
      var k :| k in keys;
      if m[k].id !in seen {
        kept := kept - {k};
      }
      keys := keys - {k};
    }
  }

  // ---------------------------------------------------------------------------
  // Edge sampling
  // ---------------------------------------------------------------------------

  /** At most this many edges are drawn per frame. */
  const MaxEdges: nat := 500

  /** The sampling step: `ceil(n / 500)` above 500 edges, else every edge. */
  function Stride(n: nat): (step: nat)
    ensures step >= 1
    ensures n <= MaxEdges * step
    ensures n > MaxEdges ==> MaxEdges * (step - 1) < n
    ensures n <= MaxEdges ==> step == 1
  {
    if n > MaxEdges then (n + MaxEdges - 1) / MaxEdges else 1
  }

  /** The indices `for (let i = 0; i < n; i += step)` visits. */
  method SampledEdges(n: nat) returns (visited: seq<nat>)
    ensures |visited| <= MaxEdges
    ensures forall k :: 0 <= k < |visited| ==> visited[k] == k * Stride(n) && visited[k] < n
    ensures |visited| * Stride(n) >= n
    ensures n <= MaxEdges ==> |visited| == n && forall k :: 0 <= k < n ==> visited[k] == k
  {
    var step := Stride(n);
    visited := [];
    var i := 0;
    while i < n
      invariant i == |visited| * step
      invariant forall k :: 0 <= k < |visited| ==> visited[k] == k * step && visited[k] < n
      invariant |visited| <= MaxEdges
      invariant n <= MaxEdges ==> i <= n
      decreases n - i
    {
      visited := visited + [i];
      CountBound(|visited| - 1, step, n);
      i := i + step;
    }
  }

  /** An index `c * step` below `n <= 500 * step` leaves room for `c + 1 <= 500` samples. */
  lemma CountBound(c: nat, step: nat, n: nat)
    requires step >= 1 && c * step < n && n <= MaxEdges * step
    ensures c + 1 <= MaxEdges
  {
  }

  // ---------------------------------------------------------------------------
  // Label lines
  // ---------------------------------------------------------------------------

  /** The label of a node without words. */
  const EmptyLabel: string := "(empty clause)"

  /** At most this many label lines are drawn. */
  const MaxLabelLines: nat := 6

  /** `ctx.measureText(s).width`, as an abstract width. */
  type Measure = string -> real

  /** The words of `String(text).split(/\s+/).filter(Boolean)`: the maximal runs of non-white-space characters. */
  function Words(s: string): (r: seq<string>)
    ensures forall k :: 0 <= k < |r| ==> r[k] != [] && NoSpace(r[k], IsJsSpace)
    decreases |s|
  {
    if s == [] then []
    else if IsJsSpace(s[0]) then Words(s[1..])
    else
      var n := Span(s, c => !IsJsSpace(c));
      [s[..n]] + Words(s[n..])
  }

  /** A text has no words exactly when it is all white space. */
  lemma {:induction false} WordsEmpty(s: string)
    ensures Words(s) == [] <==> AllSpace(s, IsJsSpace)
    decreases |s|
  {
    if s != [] && IsJsSpace(s[0]) {
      WordsEmpty(s[1..]);
      if AllSpace(s[1..], IsJsSpace) {
        assert forall i :: 1 <= i < |s| ==> s[i] == s[1..][i - 1];
      }
    }
  }

  /** One step of the fill: the next word joins the last line when the joined line fits, else it starts a new line. */
  function FillStep(ls: seq<string>, w: string, measure: Measure, maxWidth: real): (r: seq<string>)
    requires ls != []
    ensures r != []
  {
    var test := ls[|ls| - 1] + " " + w;
    if measure(test) > maxWidth then ls + [w] else ls[..|ls| - 1] + [test]
  }

  /** A step on finished lines and the line being filled: the word starts a new line, or extends the current one. */
  lemma FillStepSplit(lines: seq<string>, line: string, w: string, measure: Measure, maxWidth: real)
    ensures FillStep(lines + [line], w, measure, maxWidth) ==
      if measure(line + " " + w) > maxWidth then (lines + [line]) + [w] else lines + [line + " " + w]
  {
    var ls := lines + [line];
    assert ls[..|ls| - 1] == lines && ls[|ls| - 1] == line;
  }

  /** The lines of the greedy fill before the six-line cut. */
  function Fill(words: seq<string>, measure: Measure, maxWidth: real): (lines: seq<string>)
    requires words != []
    ensures lines != []
    decreases |words|
  {
    if |words| == 1 then [words[0]]
    else FillStep(Fill(words[..|words| - 1], measure, maxWidth), words[|words| - 1], measure, maxWidth)
  }

  /** The fill of one more word is one more step. */
  lemma FillPrefix(words: seq<string>, i: nat, measure: Measure, maxWidth: real)
    requires 1 <= i < |words|
    ensures Fill(words[..i + 1], measure, maxWidth) == FillStep(Fill(words[..i], measure, maxWidth), words[i], measure, maxWidth)
  {
    PrefixOfPrefix(words, i, i + 1);
  }

  /** `parts.join(sep)` of a list with one more element. */
  lemma {:induction false} JoinSnoc(xs: seq<string>, y: string, sep: string)
    requires xs != []
    ensures Join(xs + [y], sep) == Join(xs, sep) + sep + y
    decreases |xs|
  {
    if |xs| > 1 {
      JoinSnoc(xs[1..], y, sep);
      assert (xs + [y])[1..] == xs[1..] + [y];
    } else {
      assert (xs + [y])[1..] == [y];
    }
  }

  /** A step adds the word to the joined text with one space. */
  lemma FillStepJoin(ls: seq<string>, w: string, measure: Measure, maxWidth: real)
    requires ls != []
    ensures Join(FillStep(ls, w, measure, maxWidth), " ") == Join(ls, " ") + " " + w
  {
    var last := ls[|ls| - 1];
    var test := last + " " + w;
    if measure(test) > maxWidth {
      JoinSnoc(ls, w, " ");
    } else {
      var front := ls[..|ls| - 1];
      assert ls == front + [last];
      if front == [] {
        assert Join(ls, " ") == last;
      } else {
        JoinSnoc(front, last, " ");
        JoinSnoc(front, test, " ");
      }
    }
  }

  /** The fill keeps every word, in order: its lines joined with spaces are the words joined with spaces. */
  lemma {:induction false} FillKeepsWords(words: seq<string>, measure: Measure, maxWidth: real)
    requires words != []
    ensures Join(Fill(words, measure, maxWidth), " ") == Join(words, " ")
    decreases |words|
  {
    if |words| > 1 {
      var init := words[..|words| - 1];
      FillKeepsWords(init, measure, maxWidth);
      FillStepJoin(Fill(init, measure, maxWidth), words[|words| - 1], measure, maxWidth);
      InitLast(words);
      JoinSnoc(init, words[|words| - 1], " ");
    }
  }

  /** No line of the fill is empty, and a line wider than the limit is a single word. */
  lemma {:induction false} FillLines(words: seq<string>, measure: Measure, maxWidth: real)
    requires words != [] && forall k :: 0 <= k < |words| ==> words[k] != []
    ensures forall k :: 0 <= k < |Fill(words, measure, maxWidth)| ==> Fill(words, measure, maxWidth)[k] != []
    ensures forall k :: 0 <= k < |Fill(words, measure, maxWidth)| ==>
      measure(Fill(words, measure, maxWidth)[k]) <= maxWidth || Fill(words, measure, maxWidth)[k] in words
    decreases |words|
  {
    if |words| > 1 {
      var init := words[..|words| - 1];
      FillLines(init, measure, maxWidth);
      var ls := Fill(init, measure, maxWidth);
      var r := Fill(words, measure, maxWidth);
      forall k | 0 <= k < |r|
        ensures r[k] != [] && (measure(r[k]) <= maxWidth || r[k] in words)
      {
        if k < |ls| - 1 || (k == |ls| - 1 && r == ls + [words[|words| - 1]]) {
          assert r[k] == ls[k];
          assert ls[k] in init ==> ls[k] in words;
        }
      }
    }
  }

  /** `wrapText`: the label lines of a clause text. */
  function WrapText(text: string, measure: Measure, maxWidth: real): seq<string>
  {
    var words := Words(text);
    if words == [] then [EmptyLabel]
    else
      var lines := Fill(words, measure, maxWidth);
      if |lines| <= MaxLabelLines then lines else lines[..MaxLabelLines]
  }

  /** The label has one to six lines, none empty, and a white-space-only text gives the empty-clause label. */
  lemma WrapTextShape(text: string, measure: Measure, maxWidth: real)
    ensures 1 <= |WrapText(text, measure, maxWidth)| <= MaxLabelLines
    ensures forall k :: 0 <= k < |WrapText(text, measure, maxWidth)| ==> WrapText(text, measure, maxWidth)[k] != []
    ensures AllSpace(text, IsJsSpace) ==> WrapText(text, measure, maxWidth) == [EmptyLabel]
  {
    WordsEmpty(text);
    if Words(text) != [] {
      FillLines(Words(text), measure, maxWidth);
    }
  }

  /** Text with words and at most six lines of fill is the words, joined by single spaces. */
  lemma WrapTextKeepsWords(text: string, measure: Measure, maxWidth: real)
    requires !AllSpace(text, IsJsSpace)
    ensures Words(text) != []
    ensures |Fill(Words(text), measure, maxWidth)| <= MaxLabelLines ==>
      Join(WrapText(text, measure, maxWidth), " ") == Join(Words(text), " ")
  {
    WordsEmpty(text);
    FillKeepsWords(Words(text), measure, maxWidth);
  }

  /** The greedy loop of `wrapText` over the words: `line` collects words while the joined line fits. */
  method FillWords(words: seq<string>, measure: Measure, maxWidth: real) returns (lines: seq<string>)
    requires words != []
    ensures lines == Fill(words, measure, maxWidth)
  {
    lines := [];
    var line := words[0];
    assert words[..1] == [words[0]];
    for i := 1 to |words|
      invariant lines + [line] == Fill(words[..i], measure, maxWidth)
    {
      FillPrefix(words, i, measure, maxWidth);
      FillStepSplit(lines, line, words[i], measure, maxWidth);
      var test := line + " " + words[i];
      if measure(test) > maxWidth {
        lines := lines + [line];
        line := words[i];
      } else {
        line := test;
      }
    }
    PrefixAll(words);
    lines := lines + [line];
  }

  /** `wrapText`: the words, the greedy fill, then the cut to six lines. */
  method WrapTextLines(text: string, measure: Measure, maxWidth: real) returns (lines: seq<string>)
    ensures lines == WrapText(text, measure, maxWidth)
    ensures 1 <= |lines| <= MaxLabelLines
  {
    WrapTextShape(text, measure, maxWidth);
    var words := Words(text);
    if |words| == 0 {
      return [EmptyLabel];
    }
    lines := FillWords(words, measure, maxWidth);
    if |lines| > MaxLabelLines {
      lines := lines[..MaxLabelLines];
    }
  }

  // ---------------------------------------------------------------------------
  // Selection gestures
  // ---------------------------------------------------------------------------

  /** A double click selects the node under the pointer only when it is passive (and a handler is set). */
  function DoubleClick(chosen: Option<Node>, hasHandler: bool): (r: Option<Id>)
    ensures r.Some? <==> hasHandler && chosen.Some? && chosen.value.status == "passive"
    ensures r.Some? ==> r.value == chosen.value.id
  {
    if !hasHandler then None
    else if chosen.Some? && chosen.value.status == "passive" then Some(chosen.value.id)
    else None
  }

  /** The gesture in progress: a touch on a node (its id, whether it became a drag, when it began), or a pan or pinch. */
  datatype Gesture = NodeTouch(id: Id, dragging: bool, startTime: real) | OtherGesture

  /** The last recorded tap; an absent id is `null`. */
  datatype Tap = Tap(time: real, id: Option<Id>)

  /** A node touch that moves further than this becomes a drag. */
  const DragThreshold: real := 4.0

  /** A tap shorter than this, in milliseconds, counts. */
  const TapLimit: real := 250.0

  /** Two taps closer than this, in milliseconds, make a double tap. */
  const DoubleTapLimit: real := 320.0

  /** `state.startTime ? now - state.startTime : 0`. */
  function TapDuration(startTime: real, now: real): real
  {
    if startTime != 0.0 then now - startTime else 0.0
  }

  /** The ending touch is a short tap on a node that did not become a drag. */
  predicate ShortTap(drag: Option<Gesture>, touches: nat, now: real)
  {
    touches < 2 && drag.Some? && drag.value.NodeTouch? && !drag.value.dragging &&
    TapDuration(drag.value.startTime, now) < TapLimit
  }

  /** The touch handlers' state: the gesture in progress and the last tap. */
  class TouchSelector {
    var drag: Option<Gesture>
    var tap: Tap

    constructor()
      ensures drag == None && tap == Tap(0.0, None)
    {
      drag := None;
      tap := Tap(0.0, None);
    }

    /**
     * `handleTouchStart`: no touch changes nothing; two or more touches start
     * a pinch; one touch starts a node touch on the node hit, if any, and
     * otherwise clears the gesture. The hit test (the nearest node within the
     * touch radius) is the parameter `hit`. The tap record is never touched.
     */
    method TouchStart(touches: nat, hit: Option<Id>, now: real)
      modifies this
      ensures touches == 0 ==> drag == old(drag)
      ensures touches >= 2 ==> drag == Some(OtherGesture)
      ensures touches == 1 && hit.Some? ==> drag == Some(NodeTouch(hit.value, false, now))
      ensures touches == 1 && hit.None? ==> drag == None
      ensures tap == old(tap)
    {
      if touches == 0 {
        return;
      }
      if touches >= 2 {
        drag := Some(OtherGesture);
      } else if hit.Some? {
        drag := Some(NodeTouch(hit.value, false, now));
      } else {
        drag := None;
      }
    }

    /**
     * `handleTouchMove`: two or more touches turn any gesture into a pinch;
     * one touch on a node that still exists (`nodePresent`) becomes a drag
     * once it has moved more than 4 units from where it began. The camera
     * and node positions it also updates are not modelled.
     */
    method TouchMove(touches: nat, nodePresent: bool, distance: real)
      modifies this
      ensures touches == 0 ==> drag == old(drag)
      ensures touches >= 2 ==> drag == Some(OtherGesture)
      ensures touches == 1 && old(drag).Some? && old(drag).value.NodeTouch? && nodePresent &&
              !old(drag).value.dragging && distance > DragThreshold ==>
        drag == Some(old(drag).value.(dragging := true))
      ensures touches == 1 && !(old(drag).Some? && old(drag).value.NodeTouch? && nodePresent &&
              !old(drag).value.dragging && distance > DragThreshold) ==>
        drag == old(drag)
      ensures tap == old(tap)
    {
      if touches == 0 {
        return;
      }
      if touches >= 2 {
        drag := Some(OtherGesture);
      } else if drag.Some? && drag.value.NodeTouch? && nodePresent && !drag.value.dragging && distance > DragThreshold {
        drag := Some(drag.value.(dragging := true));
      }
    }

    /**
     * `handleTouchEnd`: a short tap on a node right after a tap on the same
     * node selects it when it is passive and clears the tap record; any other
     * short tap becomes the tap record. With two or more touches left nothing
     * happens; otherwise the gesture ends.
     */
    method TouchEnd(touches: nat, now: real, nodes: map<Id, Node>, hasHandler: bool) returns (selected: Option<Id>)
      modifies this
      ensures touches >= 2 ==> selected == None && drag == old(drag) && tap == old(tap)
      ensures touches < 2 ==> drag == None
      ensures selected.Some? <==>
        (ShortTap(old(drag), touches, now) &&
         old(tap).id == Some(old(drag).value.id) && now - old(tap).time < DoubleTapLimit &&
         old(drag).value.id in nodes && nodes[old(drag).value.id].status == "passive" && hasHandler)
      ensures selected.Some? ==> selected == Some(nodes[old(drag).value.id].id)
      ensures ShortTap(old(drag), touches, now) ==>
        tap == (if old(tap).id == Some(old(drag).value.id) && now - old(tap).time < DoubleTapLimit
                then Tap(0.0, None) else Tap(now, Some(old(drag).value.id)))
      ensures !ShortTap(old(drag), touches, now) ==> tap == old(tap)
    {
      selected := None;
      if touches >= 2 {
        return;
      }
      if drag.Some? && drag.value.NodeTouch? && !drag.value.dragging {
        var state := drag.value;
        if TapDuration(state.startTime, now) < TapLimit {
          var last := tap;
          if last.id == Some(state.id) && now - last.time < DoubleTapLimit {
            if state.id in nodes && nodes[state.id].status == "passive" && hasHandler {
              selected := Some(nodes[state.id].id);
            }
            tap := Tap(0.0, None);
          } else {
            tap := Tap(now, Some(state.id));
          }
        }
      }
      drag := None;
    }
  }
}

=== FILE: ClauseStream.dfy ===
/**
 * `parseOutputLine` of the proof-search page: what one line of the prover's
 * log does to the clause graph and to the selected clause. A reduction line
 * marks its clause removed; a tagged line of tag `SA` records its clause (and,
 * for a new clause, its derivation edges); a line that is not tagged may name
 * the selected clause.
 */
module ClauseStream {
  import opened Strings
  import opened Wrappers
  import opened GraphStore
  import opened LineClassifier

  /** The clause text and the parent ids of a tagged body: the last bracket group gives the parents and is stripped from the text. */
  function BodyParts(body: string): (r: (string, seq<string>))
    ensures forall k :: 0 <= k < |r.1| ==> IsNumericId(r.1[k])
    ensures |r.0| <= |body| && r.0 == body[..|r.0|]
  {
    var groups := BracketGroups(body);
    if groups == [] then (body, [])
    else (StripTrailingGroup(body), ParentIds(groups[|groups| - 1]))
  }

  /** Text without `[` adds no bracket group in front of what follows it. */
  lemma {:induction false} GroupsAfterPlainText(x: string, y: string)
    requires '[' !in x
    ensures BracketGroups(x + y) == BracketGroups(y)
    decreases |x|
  {
    if x != [] {
      assert x[0] != '[' && '[' !in x[1..];
      assert (x + y)[0] == x[0] && (x + y)[1..] == x[1..] + y;
      assert BracketGroups(x + y) == BracketGroups(x[1..] + y);
      GroupsAfterPlainText(x[1..], y);
    } else {
      assert x + y == y;
    }
  }

  /** A comma-separated list of numeric ids holds no `]`. */
  lemma {:induction false} IdListNoBracket(ids: seq<string>)
    requires forall k :: 0 <= k < |ids| ==> IsNumericId(ids[k])
    ensures AllOf(Join(ids, ","), NotCloseBracket)
    decreases |ids|
  {
    if ids != [] {
      assert AllDigits(ids[0]);
      if |ids| > 1 {
        IdListNoBracket(ids[1..]);
      }
    }
  }

  /** The only bracket group of `a [g]`, for text `a` without `[`, is `g`. */
  lemma OnlyGroupAfterText(a: string, g: string)
    requires '[' !in a && g != [] && AllOf(g, NotCloseBracket)
    ensures BracketGroups(a + (" " + ("[" + (g + ("]" + ""))))) == [g]
  {
    var tail := "[" + (g + ("]" + ""));
    assert a + (" " + tail) == (a + " ") + tail;
    assert '[' !in a + " ";
    GroupsAfterPlainText(a + " ", tail);
    RunThenOf(g, ']', "", NotCloseBracket);
    assert tail[1..] == g + ("]" + "");
  }

  /** The annotated body regrouped the way the bracket lemmas take it. */
  lemma AnnotatedLayout(a: string, rule: string, list: string)
    ensures a + " [" + rule + " " + list + "]" == a + (" " + ("[" + ((rule + (" " + list)) + ("]" + ""))))
  {
  }

  /**
   * A body laid out as the prover writes a derived clause, `text [rule p1,p2,…]`,
   * splits into the text without the annotation (and without the white space
   * before it) and exactly the listed parents, when the text has no `[` and
   * the rule name no `]` and no all-digit word.
   */
  lemma BodyPartsOfAnnotated(a: string, rule: string, ids: seq<string>)
    requires '[' !in a && ']' !in rule
    requires NumericOnly(Words(rule)) == []
    requires forall k :: 0 <= k < |ids| ==> IsNumericId(ids[k])
    ensures BodyParts(a + " [" + rule + " " + Join(ids, ",") + "]") == (TrimRight(a, IsJsSpace), ids)
  {
    var g := rule + (" " + Join(ids, ","));
    AnnotatedLayout(a, rule, Join(ids, ","));
    IdListNoBracket(ids);
    assert AllOf(g, NotCloseBracket);
    OnlyGroupAfterText(a, g);
    StripTrailingAnnotation(a, " ", g, "");
    ParentIdsOfInference(rule, ids);
  }

  /** The effect of a tagged line on the store (the `if (tagged)` branch). */
  function TaggedUpdate(st: Store, t: Tagged): (r: Store)
  {
    if Upper(t.tag) != "SA" then st
    else
      var status := NormalizePhaseStatus(Lower(t.phase));
      var (text, parents) := BodyParts(t.body);
      if status == "new" then AddEdges(Upsert(st, t.id, Some(text), Some(status)), t.id, parents)
      else if status == "passive" || status == "active" then Upsert(st, t.id, Some(text), Some(status))
      else st
  }

  /** What `parseOutputLine` leaves: the store, `selectedId` (`None` for null) and its return value. */
  datatype LineOutcome = LineOutcome(st: Store, selected: Option<string>, tagged: bool)

  /** What the three expressions find in a line. */
  datatype Classified = Classified(reduced: Option<string>, tagged: Option<Tagged>, selected: Option<string>)

  /** `line.match(REDUCE_RE)`, `line.match(TAG_CLAUSE_RE)` and `line.match(SELECT_RE)`. */
  function Classify(line: string): (c: Classified)
    ensures c.reduced.Some? ==> IsNumericId(c.reduced.value)
    ensures c.tagged.Some? ==> WellFormedTagged(c.tagged.value)
    ensures c.selected.Some? ==> IsNumericId(c.selected.value)
  {
    Classified(MatchReduce(line), MatchTagged(line), MatchSelect(line))
  }

  /** The store after a reduction match: `markSubsumed` of its id. */
  function AfterReduce(st: Store, reduced: Option<string>): Store
  {
    match reduced
    case Some(id) => MarkSubsumed(st, id)
    case None => st
  }

  /** The body of `parseOutputLine` once the three expressions have been tried. */
  function Apply(st: Store, selected: Option<string>, c: Classified): (r: LineOutcome)
    ensures Valid(st) ==> Valid(r.st)
  {
    var st1 := AfterReduce(st, c.reduced);
    match c.tagged
    case Some(t) => LineOutcome(TaggedUpdate(st1, t), selected, true)
    case None =>
      match c.selected
      case Some(n) => LineOutcome(st1, Some(n), false)
      case None => LineOutcome(st1, selected, false)
  }

  /** `parseOutputLine(line)` over the store `st` and the selected id `selected`. */
  function ParseOutputLine(st: Store, selected: Option<string>, line: string): LineOutcome
  {
    Apply(st, selected, Classify(line))
  }

  /** The line is reported as a clause line exactly when the tagged expression matches; only otherwise does a selection match set the selected id. */
  lemma TaggedDecidesSelection(st: Store, selected: Option<string>, c: Classified)
    ensures Apply(st, selected, c).tagged <==> c.tagged.Some?
    ensures c.tagged.Some? ==> Apply(st, selected, c).selected == selected
    ensures c.tagged.None? && c.selected.Some? ==> Apply(st, selected, c).selected == c.selected
    ensures c.tagged.None? && c.selected.None? ==> Apply(st, selected, c).selected == selected
  {
  }

  /** A line that is neither a reduction nor an `SA` clause line leaves the store as it was. */
  lemma OtherLinesKeepStore(st: Store, selected: Option<string>, c: Classified)
    requires c.reduced.None?
    requires c.tagged.None? || Upper(c.tagged.value.tag) != "SA"
    ensures Apply(st, selected, c).st == st
  {
  }

  /** A tagged line never clears a removed flag. */
  lemma TaggedKeepsSubsumed(st: Store, t: Tagged, k: string)
    requires k in st.clauses && st.clauses[k].subsumed
    ensures k in TaggedUpdate(st, t).clauses && TaggedUpdate(st, t).clauses[k].subsumed
  {
    if Upper(t.tag) == "SA" {
      var (text, parents) := BodyParts(t.body);
      var status := NormalizePhaseStatus(Lower(t.phase));
      SubsumedSurvivesUpsert(st, t.id, k, Some(text), Some(status));
    }
  }

  /** The clause a reduction line names is marked removed, whatever the rest of the line does. */
  lemma ReducedStaysSubsumed(st: Store, selected: Option<string>, c: Classified)
    requires c.reduced.Some?
    ensures c.reduced.value in Apply(st, selected, c).st.clauses && Apply(st, selected, c).st.clauses[c.reduced.value].subsumed
  {
    var st1 := AfterReduce(st, c.reduced);
    assert c.reduced.value in st1.clauses && st1.clauses[c.reduced.value].subsumed;
    if c.tagged.Some? {
      TaggedKeepsSubsumed(st1, c.tagged.value, c.reduced.value);
    }
  }

  /** A stored clause keeps its removed flag through any line. */
  lemma SubsumedIsSticky(st: Store, selected: Option<string>, c: Classified, k: string)
    requires k in st.clauses && st.clauses[k].subsumed
    ensures k in Apply(st, selected, c).st.clauses && Apply(st, selected, c).st.clauses[k].subsumed
  {
    var st1 := AfterReduce(st, c.reduced);
    if c.reduced.Some? && c.reduced.value != k {
      assert Get(st1.clauses, k) == Get(st.clauses, k);
    }
    assert k in st1.clauses && st1.clauses[k].subsumed;
    if c.tagged.Some? {
      TaggedKeepsSubsumed(st1, c.tagged.value, k);
    }
  }

  /**
   * An `SA` line whose phase reads as new records the clause as new with the
   * stripped text, and stores an edge to it from every parent id of its last
   * bracket group other than itself; every edge added is such an edge.
   */
  lemma NewClauseLine(st: Store, selected: Option<string>, c: Classified, t: Tagged)
    requires c.tagged == Some(t) && Upper(t.tag) == "SA" && NormalizePhaseStatus(Lower(t.phase)) == "new"
    ensures t.id in Apply(st, selected, c).st.clauses
    ensures Apply(st, selected, c).st.clauses[t.id].text == BodyParts(t.body).0 && Apply(st, selected, c).st.clauses[t.id].status == "new"
    ensures forall p :: p in BodyParts(t.body).1 && p != t.id ==> EdgeKey(p, t.id) in Apply(st, selected, c).st.edges
    ensures forall k :: k in Apply(st, selected, c).st.edges && k !in AfterReduce(st, c.reduced).edges ==>
      exists p :: p in BodyParts(t.body).1 && p != t.id && k == EdgeKey(p, t.id)
  {
    var st1 := AfterReduce(st, c.reduced);
    var parents := BodyParts(t.body).1;
    var up := Upsert(st1, t.id, Some(BodyParts(t.body).0), Some("new"));
    AddEdgesComplete(up, t.id, parents);
    AddEdgesSound(up, t.id, parents);
  }

  /** An `SA` line whose phase reads as passive or active records the clause with that status and the stripped text, and adds no edge. */
  lemma KeptClauseLine(st: Store, selected: Option<string>, c: Classified, t: Tagged)
    requires c.tagged == Some(t) && Upper(t.tag) == "SA"
    requires NormalizePhaseStatus(Lower(t.phase)) == "passive" || NormalizePhaseStatus(Lower(t.phase)) == "active"
    ensures t.id in Apply(st, selected, c).st.clauses
    ensures Apply(st, selected, c).st.clauses[t.id].text == BodyParts(t.body).0
    ensures Apply(st, selected, c).st.clauses[t.id].status == NormalizePhaseStatus(Lower(t.phase))
    ensures Apply(st, selected, c).st.edges == st.edges
  {
  }

  /** An `SA` line whose phase reads as selected changes nothing beyond the reduction. */
  lemma SelectedPhaseLine(st: Store, selected: Option<string>, c: Classified, t: Tagged)
    requires c.tagged == Some(t) && Upper(t.tag) == "SA" && NormalizePhaseStatus(Lower(t.phase)) == "selected"
    ensures Apply(st, selected, c) == LineOutcome(AfterReduce(st, c.reduced), selected, true)
  {
  }

  /** `subsumption` is already lower case. */
  lemma SubsumptionLower()
    ensures Lower("subsumption") == "subsumption"
  {
    LowerOfLowercase("subsumption");
  }

  /** A non-empty phase without the letters `a` and `c` contains none of `active`, `passive` and `selected`, so it reads as new. */
  lemma PhaseReadsNew(ph: string)
    requires ph != [] && 'a' !in ph && 'c' !in ph
    ensures NormalizePhaseStatus(ph) == "new"
  {
    MissingCharNotContained(ph, "active", 'a');
    MissingCharNotContained(ph, "passive", 'a');
    MissingCharNotContained(ph, "selected", 'c');
  }

  /** The parts of `[SA] subsumption: <id>.` are what the tagged expression's groups can hold. */
  lemma SubsumptionPartsWellFormed(id: string)
    requires IsNumericId(id)
    ensures WellFormedTagged(Tagged("SA", "subsumption", id, ""))
  {
    assert AllOf("SA", IsWordChar);
    assert AllOf("subsumption", IsPhaseChar);
  }

  /** The fixed head of `[SA] subsumption: <id>.` piece by piece. */
  lemma SubsumptionHead()
    ensures "[" + "SA" + "]" + " " + "subsumption" + ":" + " " == "[SA] subsumption: "
  {
  }

  /** Regrouping a right-nested concatenation. */
  lemma Regroup(a: string, b: string, c: string, d: string, e: string, f: string, g: string, x: string)
    ensures a + (b + (c + (d + (e + (f + (g + x)))))) == (a + b + c + d + e + f + g) + x
  {
  }

  /** `[SA] subsumption: <id>.` laid out with single spaces where the expression allows white space. */
  lemma SubsumptionLineLayout(id: string)
    ensures RenderTagged(Tagged("SA", "subsumption", id, ""), "", " ", " ", "") == "[SA] subsumption: " + id + "."
  {
    assert "." + ("" + "") == ".";
    Regroup("[", "SA", "]", " ", "subsumption", ":", " ", id + ".");
    SubsumptionHead();
  }

  /** `[SA] subsumption: <id>.` fits the tagged expression, with an empty body. */
  lemma SubsumptionLineTagged(id: string)
    requires IsNumericId(id)
    ensures MatchTagged("[SA] subsumption: " + id + ".") == Some(Tagged("SA", "subsumption", id, ""))
  {
    SubsumptionPartsWellFormed(id);
    SubsumptionLineLayout(id);
    TaggedRoundTrip(Tagged("SA", "subsumption", id, ""), "", " ", " ", "");
  }

  /** `[SA] subsumption: <id>.` fits the reduction expression. */
  lemma SubsumptionLineReduced(id: string)
    requires IsNumericId(id)
    ensures MatchReduce("[SA] subsumption: " + id + ".") == Some(id)
  {
    assert "subsumption" in ReducePhrases;
    assert "" + ("[SA]" + (" " + ("subsumption" + (":" + (" " + (id + ("." + ""))))))) == "[SA] subsumption: " + id + ".";
    ReduceRoundTrip("subsumption", id, "", " ", " ", "");
  }

  /** `SA` is its own upper case. */
  lemma UpperSA()
    ensures Upper("SA") == "SA"
  {
  }

  /** `subsumption` has neither of the letters `a` and `c`. */
  lemma SubsumptionLetters()
    ensures "subsumption" != [] && 'a' !in "subsumption" && 'c' !in "subsumption"
  {
  }

  /** An empty body has no bracket group. */
  lemma EmptyBodyNoGroups()
    ensures BracketGroups("") == []
  {
  }

  /** `[SA] subsumption: <id>.` is both a reduction of `id` and a tagged line. */
  lemma ClassifySubsumptionLine(id: string)
    requires IsNumericId(id)
    ensures Classify("[SA] subsumption: " + id + ".").reduced == Some(id)
    ensures Classify("[SA] subsumption: " + id + ".").tagged == Some(Tagged("SA", "subsumption", id, ""))
  {
    SubsumptionLineTagged(id);
    SubsumptionLineReduced(id);
  }

  /** A line that marks clause `id` removed and records it under tag `SA` as a new clause (a lower-case phase without `a` or `c`) whose body has no bracket group leaves the record `(body, new, removed)`. */
  lemma ReducedAndNewResets(st: Store, selected: Option<string>, c: Classified, t: Tagged)
    requires c.reduced == Some(t.id) && c.tagged == Some(t)
    requires Upper(t.tag) == "SA" && BracketGroups(t.body) == []
    requires Lower(t.phase) == t.phase && t.phase != [] && 'a' !in t.phase && 'c' !in t.phase
    ensures t.id in Apply(st, selected, c).st.clauses && Apply(st, selected, c).st.clauses[t.id] == Clause(t.body, "new", true)
  {
    PhaseReadsNew(t.phase);
  }

  /**
   * `[SA] subsumption: 7.` fits the reduction expression and the tagged
   * expression alike: clause 7 is marked removed and then re-recorded as a
   * new clause with an empty text, losing its text and status.
   */
  lemma SubsumptionLineResetsClause(st: Store, selected: Option<string>, id: string)
    requires IsNumericId(id)
    ensures id in ParseOutputLine(st, selected, "[SA] subsumption: " + id + ".").st.clauses
    ensures ParseOutputLine(st, selected, "[SA] subsumption: " + id + ".").st.clauses[id] == Clause("", "new", true)
  {
    ClassifySubsumptionLine(id);
    UpperSA();
    SubsumptionLower();
    SubsumptionLetters();
    EmptyBodyNoGroups();
    ReducedAndNewResets(st, selected, Classify("[SA] subsumption: " + id + "."), Tagged("SA", "subsumption", id, ""));
  }
}

=== FILE: Depth.dfy ===
// The derivation-depth relaxation of the canvas layout (`computeTargets`):
// a parent list per node built from the edges, then at most one round per
// node of in-place updates `depth[id] := max(depth[id], 1 + max parent depth)`,
// stopping early after a round that changes nothing.

module Depth {
  import opened Strings

  type Id = string

  /** The `depth` map. */
  type Depths = map<Id, nat>

  /** The `parents` map: for each target id, the source ids of its edges in edge order. */
  type Parents = map<Id, seq<Id>>

  /** An edge as `(String(edge.from), String(edge.to))`. */
  type Edge = (Id, Id)

  // ---------------------------------------------------------------------------
  // Parent lists
  // ---------------------------------------------------------------------------

  /** The parent lists after pushing the source of each edge onto its target's list. */
  function ParentsOf(edges: seq<Edge>): Parents
    decreases |edges|
  {
    if edges == [] then map[]
    else
      var before := ParentsOf(edges[..|edges| - 1]);
      var e := edges[|edges| - 1];
      before[e.1 := (if e.1 in before then before[e.1] else []) + [e.0]]
  }

  /** A node has a parent list exactly when some edge ends at it; the list is non-empty and holds exactly the sources of those edges. */
  lemma ParentsOfSpec(edges: seq<Edge>)
    ensures forall c :: c in ParentsOf(edges) <==> exists i :: 0 <= i < |edges| && edges[i].1 == c
    ensures forall c :: c in ParentsOf(edges) ==> ParentsOf(edges)[c] != []
    ensures forall c, p :: c in ParentsOf(edges) && p in ParentsOf(edges)[c] ==> (p, c) in edges
    ensures forall i :: 0 <= i < |edges| ==> edges[i].1 in ParentsOf(edges) && edges[i].0 in ParentsOf(edges)[edges[i].1]
  {
    ParentsKeys(edges);
    ParentsSound(edges);
    ParentsComplete(edges);
  }

  /** The parent lists are keyed by the edge targets, and none is empty. */
  lemma {:induction false} ParentsKeys(edges: seq<Edge>)
    ensures forall c :: c in ParentsOf(edges) <==> exists i :: 0 <= i < |edges| && edges[i].1 == c
    ensures forall c :: c in ParentsOf(edges) ==> ParentsOf(edges)[c] != []
    decreases |edges|
  {
    if edges != [] {
      var init := edges[..|edges| - 1];
      ParentsKeys(init);
      InitLast(edges);
      forall c | c in ParentsOf(edges)
        ensures exists i :: 0 <= i < |edges| && edges[i].1 == c
      {
        if c != edges[|edges| - 1].1 {
          assert c in ParentsOf(init);
          var k :| 0 <= k < |init| && init[k].1 == c;
          assert edges[k].1 == c;
        }
      }
    }
  }

  /** Every parent listed for a node is the source of an edge into it. */
  lemma {:induction false} ParentsSound(edges: seq<Edge>)
    ensures forall c, p :: c in ParentsOf(edges) && p in ParentsOf(edges)[c] ==> (p, c) in edges
    decreases |edges|
  {
    if edges != [] {
      var init := edges[..|edges| - 1];
      ParentsSound(init);
      InitLast(edges);
    }
  }

  /** The source of every edge is listed among its target's parents. */
  lemma {:induction false} ParentsComplete(edges: seq<Edge>)
    ensures forall i :: 0 <= i < |edges| ==> edges[i].1 in ParentsOf(edges) && edges[i].0 in ParentsOf(edges)[edges[i].1]
    decreases |edges|
  {
    if edges != [] {
      var init := edges[..|edges| - 1];
      ParentsComplete(init);
      forall i | 0 <= i < |edges| - 1
        ensures edges[i] == init[i]
      {
      }
    }
  }

  /** The loop that fills `parents`. */
  method BuildParents(edges: seq<Edge>) returns (parents: Parents)
    ensures parents == ParentsOf(edges)
  {
    parents := map[];
    for i := 0 to |edges|
      invariant parents == ParentsOf(edges[..i])
    {
      var to, from := edges[i].1, edges[i].0;
      PrefixOfPrefix(edges, i, i + 1);
      if to !in parents {
        parents := parents[to := []];
      }
      parents := parents[to := parents[to] + [from]];
    }
    PrefixAll(edges);
  }

  // ---------------------------------------------------------------------------
  // One update and one round
  // ---------------------------------------------------------------------------

  /** `depth.get(id) || 0`. */
  function Get(d: Depths, id: Id): nat
  {
    if id in d then d[id] else 0
  }

  /** The largest depth among the parents that have one, 0 when none has. */
  function MaxParent(d: Depths, ps: seq<Id>): (m: nat)
    ensures forall k :: 0 <= k < |ps| && ps[k] in d ==> d[ps[k]] <= m
    ensures m == 0 || exists k :: 0 <= k < |ps| && ps[k] in d && d[ps[k]] == m
    decreases |ps|
  {
    if ps == [] then 0
    else
      var m0 := MaxParent(d, ps[..|ps| - 1]);
      var last := ps[|ps| - 1];
      if last in d && d[last] > m0 then d[last] else m0
  }

  /** Two depth maps that agree on the parents give the same maximum. */
  lemma {:induction false} MaxParentAgree(d1: Depths, d2: Depths, ps: seq<Id>)
    requires forall k :: 0 <= k < |ps| ==> (ps[k] in d1 <==> ps[k] in d2)
    requires forall k :: 0 <= k < |ps| && ps[k] in d1 ==> d1[ps[k]] == d2[ps[k]]
    ensures MaxParent(d1, ps) == MaxParent(d2, ps)
    decreases |ps|
  {
    if ps != [] {
      MaxParentAgree(d1, d2, ps[..|ps| - 1]);
    }
  }

  /** The update of one id in a round: nothing without parents, else raise it to one more than its deepest parent. */
  function Step(d: Depths, parents: Parents, id: Id): (r: Depths)
    ensures forall x :: x in d ==> x in r && r[x] >= d[x]
    ensures forall x :: x in r && x != id ==> x in d && r[x] == d[x]
    ensures id in d ==> r.Keys == d.Keys
  {
    if id !in parents || parents[id] == [] then d
    else
      var next := MaxParent(d, parents[id]) + 1;
      if next > Get(d, id) then d[id := next] else d
  }

  /** One round: the update of each id in turn, each seeing the ones before. */
  function Round(d: Depths, parents: Parents, ids: seq<Id>): (r: Depths)
    requires forall i :: 0 <= i < |ids| ==> ids[i] in d
    ensures r.Keys == d.Keys
    ensures forall x :: x in d ==> r[x] >= d[x]
    ensures forall x :: x in d && (x !in parents || parents[x] == []) ==> r[x] == d[x]
    decreases |ids|
  {
    if ids == [] then d
    else Step(Round(d, parents, ids[..|ids| - 1]), parents, ids[|ids| - 1])
  }

  /** A round over one more id is the round so far followed by that id's update. */
  lemma RoundSnoc(d: Depths, parents: Parents, ids: seq<Id>, j: nat)
    requires j < |ids|
    requires forall i :: 0 <= i < |ids| ==> ids[i] in d
    ensures Round(d, parents, ids[..j + 1]) == Step(Round(d, parents, ids[..j]), parents, ids[j])
  {
    PrefixOfPrefix(ids, j, j + 1);
  }

  /** Up to `rounds` rounds, stopping after the first that changes nothing; depths never go down. */
  function Relax(d: Depths, parents: Parents, ids: seq<Id>, rounds: nat): (r: Depths)
    requires forall i :: 0 <= i < |ids| ==> ids[i] in d
    ensures r.Keys == d.Keys
    ensures forall x :: x in d ==> r[x] >= d[x]
    ensures forall x :: x in d && (x !in parents || parents[x] == []) ==> r[x] == d[x]
    decreases rounds
  {
    if rounds == 0 then d
    else
      var next := Round(d, parents, ids);
      if next == d then d else Relax(next, parents, ids, rounds - 1)
  }

  /** Every node id at depth 0. */
  function ZeroDepths(ids: seq<Id>): (d: Depths)
    ensures forall i :: 0 <= i < |ids| ==> ids[i] in d
  {
    map id | id in ids :: 0
  }

  /** The depths `computeTargets` lays out by: `|ids|` rounds at most, from all zeros. */
  function DepthOf(ids: seq<Id>, edges: seq<Edge>): Depths
  {
    Relax(ZeroDepths(ids), ParentsOf(edges), ids, |ids|)
  }

  // ---------------------------------------------------------------------------
  // The loops
  // ---------------------------------------------------------------------------

  /** `ps.forEach(...)`: the deepest parent that has a depth. */
  method DeepestParent(depth: Depths, ps: seq<Id>) returns (maxParent: nat)
    ensures maxParent == MaxParent(depth, ps)
  {
    maxParent := 0;
    for k := 0 to |ps|
      invariant maxParent == MaxParent(depth, ps[..k])
    {
      PrefixOfPrefix(ps, k, k + 1);
      if ps[k] in depth && depth[ps[k]] > maxParent {
        maxParent := depth[ps[k]];
      }
    }
    PrefixAll(ps);
  }

  /** The body of the round for one id: raise it above its deepest parent when that is deeper than it is now. */
  method UpdateDepth(depth: Depths, parents: Parents, id: Id) returns (next: Depths, raised: bool)
    requires id in depth
    ensures next == Step(depth, parents, id)
    ensures raised <==> next[id] > depth[id]
  {
    next, raised := depth, false;
    if id in parents && parents[id] != [] {
      var maxParent := DeepestParent(depth, parents[id]);
      if maxParent + 1 > Get(depth, id) {
        next, raised := depth[id := maxParent + 1], true;
      }
    }
  }

  /** One pass of `nodeIds.forEach(...)`, reporting whether some depth went up. */
  method RunRound(depth0: Depths, parents: Parents, nodeIds: seq<Id>) returns (depth: Depths, changed: bool)
    requires forall i :: 0 <= i < |nodeIds| ==> nodeIds[i] in depth0
    ensures depth == Round(depth0, parents, nodeIds)
    ensures changed <==> depth != depth0
  {
    depth := depth0;
    changed := false;
    ghost var w: Id := "";  // once `changed`, an id whose depth went up
    for j := 0 to |nodeIds|
      invariant depth == Round(depth0, parents, nodeIds[..j])
      invariant !changed ==> depth == depth0
      invariant changed ==> w in depth0 && w in depth && depth[w] > depth0[w]
    {
      PrefixOfPrefix(nodeIds, j, j + 1);
      var id := nodeIds[j];
      ghost var prev := depth;
      var raised;
      depth, raised := UpdateDepth(depth, parents, id);
      if raised {
        assert depth[id] > prev[id] >= depth0[id];
        changed := true;
        w := id;
      } else {
        assert depth == prev;
      }
    }
    PrefixAll(nodeIds);
  }

  /** The depth computation of `computeTargets`: the parent lists, then at most one round per node id. */
  method ComputeDepths(nodeIds: seq<Id>, edges: seq<Edge>) returns (depth: Depths, rounds: nat)
    ensures depth == DepthOf(nodeIds, edges)
    ensures rounds <= |nodeIds|
  {
    var parents := BuildParents(edges);
    depth := ZeroDepths(nodeIds);
    rounds := 0;
    while rounds < |nodeIds|
      invariant rounds <= |nodeIds|
      invariant forall i :: 0 <= i < |nodeIds| ==> nodeIds[i] in depth
      invariant Relax(depth, parents, nodeIds, |nodeIds| - rounds) == DepthOf(nodeIds, edges)
      decreases |nodeIds| - rounds
    {
      var changed;
      depth, changed := RunRound(depth, parents, nodeIds);
      rounds := rounds + 1;
      if !changed {
        break;
      }
    }
  }

  // ---------------------------------------------------------------------------
  // What the depths promise
  // ---------------------------------------------------------------------------

  /** Nodes with no incoming edge keep depth 0. */
  lemma NoParentsZero(ids: seq<Id>, edges: seq<Edge>, v: Id)
    requires v in ids
    requires forall i :: 0 <= i < |edges| ==> edges[i].1 != v
    ensures v in DepthOf(ids, edges) && DepthOf(ids, edges)[v] == 0
  {
    ParentsOfSpec(edges);
  }

  /** A node whose parents are all outside the node set ends at depth 1. */
  lemma OrphanOne(ids: seq<Id>, edges: seq<Edge>, v: Id)
    requires v in ids
    requires exists i :: 0 <= i < |edges| && edges[i].1 == v
    requires forall i :: 0 <= i < |edges| && edges[i].1 == v ==> edges[i].0 !in ids
    ensures DepthOf(ids, edges)[v] == 1
  {
    var parents := ParentsOf(edges);
    ParentsOfSpec(edges);
    forall p | p in parents[v]
      ensures p !in ids
    {
      assert (p, v) in edges;
    }
    var d0 := ZeroDepths(ids);
    var d1 := Round(d0, parents, ids);
    RoundOrphan(d0, parents, ids, v);
    assert d1 != d0 by {
      assert d1[v] == 1 && d0[v] == 0;
    }
    RelaxKeepsOrphan(d1, parents, ids, v, |ids| - 1);
  }

  /** The nodes of `d` are exactly `ids`. */
  ghost predicate Domain(d: Depths, ids: seq<Id>)
  {
    forall x :: x in d <==> x in ids
  }

  /** A round keeps the depth map's domain. */
  lemma RoundDomain(d: Depths, parents: Parents, ids: seq<Id>)
    requires Domain(d, ids)
    ensures Domain(Round(d, parents, ids), ids)
  {
    assert Round(d, parents, ids).Keys == d.Keys;
  }

  /** A node whose parents have no depth: the round raises it to at least 1, and keeps it at 1 when it was 1. */
  lemma {:induction false} RoundOrphan(d: Depths, parents: Parents, ids: seq<Id>, v: Id)
    requires Domain(d, ids)
    requires v in ids && v in parents && parents[v] != []
    requires forall p :: p in parents[v] ==> p !in ids
    requires d[v] <= 1
    ensures Round(d, parents, ids)[v] == 1
  {
    RoundPrefixOrphan(d, parents, ids, v, |ids|);
    PrefixAll(ids);
  }

  /** After the first `j` updates of a round, an orphan that was among them is at 1 and otherwise is unchanged. */
  lemma {:induction false} RoundPrefixOrphan(d: Depths, parents: Parents, ids: seq<Id>, v: Id, j: nat)
    requires Domain(d, ids) && j <= |ids|
    requires v in ids && v in parents && parents[v] != []
    requires forall p :: p in parents[v] ==> p !in ids
    requires d[v] <= 1
    ensures Round(d, parents, ids[..j])[v] == if v in ids[..j] then 1 else d[v]
    decreases j
  {
    assert forall i :: 0 <= i < |ids| ==> ids[i] in d;
    if j > 0 {
      RoundSnoc(d, parents, ids, j - 1);
      RoundPrefixOrphan(d, parents, ids, v, j - 1);
      var dj := Round(d, parents, ids[..j - 1]);
      InPrefixSnoc(ids, j, v);
      if ids[j - 1] == v {
        assert MaxParent(dj, parents[v]) == 0 by {
          forall k | 0 <= k < |parents[v]|
            ensures parents[v][k] !in dj
          {
            assert parents[v][k] in parents[v];
          }
        }
        assert Step(dj, parents, v)[v] == 1;
      } else {
        assert Step(dj, parents, ids[j - 1])[v] == dj[v];
      }
    }
  }

  /** An element of a prefix one longer is in the shorter prefix or is its last element. */
  lemma InPrefixSnoc(s: seq<Id>, j: nat, v: Id)
    requires 0 < j <= |s|
    ensures v in s[..j] <==> v in s[..j - 1] || s[j - 1] == v
  {
    assert s[..j] == s[..j - 1] + [s[j - 1]];
  }

  /** A relaxation with rounds left stops where it is or goes on from one more round. */
  lemma RelaxOnce(d: Depths, parents: Parents, ids: seq<Id>, rounds: nat, v: Id)
    requires Domain(d, ids) && v in d
    ensures forall i :: 0 <= i < |ids| ==> ids[i] in d
    ensures || Relax(d, parents, ids, rounds)[v] == d[v]
            || (rounds > 0 && Relax(d, parents, ids, rounds)[v] == Relax(Round(d, parents, ids), parents, ids, rounds - 1)[v])
  {
  }

  /** Further rounds keep an orphan at 1. */
  lemma {:induction false} RelaxKeepsOrphan(d: Depths, parents: Parents, ids: seq<Id>, v: Id, rounds: nat)
    requires Domain(d, ids)
    requires v in ids && v in parents && parents[v] != []
    requires forall p :: p in parents[v] ==> p !in ids
    requires d[v] == 1
    ensures Relax(d, parents, ids, rounds)[v] == 1
    decreases rounds
  {
    RelaxOnce(d, parents, ids, rounds, v);
    if rounds > 0 {
      RoundOrphan(d, parents, ids, v);
      RoundDomain(d, parents, ids);
      RelaxKeepsOrphan(Round(d, parents, ids), parents, ids, v, rounds - 1);
    }
  }

  // ---------------------------------------------------------------------------
  // Acyclic edge sets
  // ---------------------------------------------------------------------------

  /**
   * A topological numbering of the node set below its length: every edge
   * between two nodes goes from a smaller to a larger number. One exists
   * exactly when the edges among the nodes form no cycle.
   */
  ghost predicate Topological(ids: seq<Id>, edges: seq<Edge>, rank: map<Id, nat>)
  {
    && (forall v :: v in ids ==> v in rank && rank[v] < |ids|)
    && (forall i :: 0 <= i < |edges| && edges[i].0 in ids && edges[i].1 in ids ==>
          edges[i].0 in rank && edges[i].1 in rank && rank[edges[i].0] < rank[edges[i].1])
  }

  /** The same numbering read off the parent lists. */
  ghost predicate RankedParents(ids: seq<Id>, parents: Parents, rank: map<Id, nat>)
  {
    && (forall v :: v in ids ==> v in rank && rank[v] < |ids|)
    && (forall c, p :: c in parents && c in ids && p in parents[c] && p in ids ==>
          c in rank && p in rank && rank[p] < rank[c])
  }

  /** A node whose update would change nothing: it is already deeper than each of its parents. */
  ghost predicate Settled(d: Depths, parents: Parents, v: Id)
  {
    v in d && (v in parents && parents[v] != [] ==> d[v] >= MaxParent(d, parents[v]) + 1)
  }

  /** Every node numbered below `k` is settled. */
  ghost predicate SettledBelow(d: Depths, parents: Parents, ids: seq<Id>, rank: map<Id, nat>, k: nat)
  {
    forall v :: v in ids && v in rank && rank[v] < k ==> Settled(d, parents, v)
  }

  /** Two maps over the node set that agree on every node numbered below `k`. */
  ghost predicate AgreeBelow(d1: Depths, d2: Depths, ids: seq<Id>, rank: map<Id, nat>, k: nat)
  {
    forall v :: v in ids && v in rank && rank[v] < k ==> v in d1 && v in d2 && d1[v] == d2[v]
  }

  /** Whether a node is settled depends only on its own depth and those of its lower-numbered parents. */
  lemma SettledAgree(d1: Depths, d2: Depths, parents: Parents, ids: seq<Id>, rank: map<Id, nat>, v: Id)
    requires RankedParents(ids, parents, rank)
    requires Domain(d1, ids) && Domain(d2, ids)
    requires v in ids && v in d1 && v in d2 && d1[v] == d2[v]
    requires AgreeBelow(d1, d2, ids, rank, rank[v])
    ensures Settled(d1, parents, v) <==> Settled(d2, parents, v)
  {
    if v in parents && parents[v] != [] {
      var ps := parents[v];
      forall k | 0 <= k < |ps| && ps[k] in d1
        ensures ps[k] in d2 && d1[ps[k]] == d2[ps[k]]
      {
        assert ps[k] in ps;
      }
      MaxParentAgree(d1, d2, ps);
    }
  }

  /** One update moves only its own node, and leaves that node settled; on a node already settled it changes nothing. */
  lemma StepSettles(d: Depths, parents: Parents, ids: seq<Id>, rank: map<Id, nat>, u: Id)
    requires RankedParents(ids, parents, rank) && Domain(d, ids) && u in ids
    ensures Domain(Step(d, parents, u), ids)
    ensures forall v :: v in ids && v != u ==> Step(d, parents, u)[v] == d[v]
    ensures Settled(Step(d, parents, u), parents, u)
    ensures Settled(d, parents, u) ==> Step(d, parents, u) == d
  {
    var dn := Step(d, parents, u);
    if u in parents && parents[u] != [] {
      var ps := parents[u];
      forall m | 0 <= m < |ps| && ps[m] in dn
        ensures ps[m] in d && dn[ps[m]] == d[ps[m]]
      {
        assert ps[m] in ps;
      }
      MaxParentAgree(dn, d, ps);
    }
  }

  /** One more update in a round that started settled below `k` keeps what the round has established so far. */
  lemma StepPreserves(d: Depths, dj: Depths, parents: Parents, ids: seq<Id>, rank: map<Id, nat>, k: nat, done: seq<Id>, u: Id)
    requires RankedParents(ids, parents, rank) && Domain(d, ids) && Domain(dj, ids) && u in ids
    requires SettledBelow(d, parents, ids, rank, k)
    requires AgreeBelow(dj, d, ids, rank, k)
    requires forall v :: v in done && v in rank && rank[v] == k ==> Settled(dj, parents, v)
    ensures Domain(Step(dj, parents, u), ids)
    ensures AgreeBelow(Step(dj, parents, u), d, ids, rank, k)
    ensures forall v :: v in done + [u] && v in rank && rank[v] == k ==> Settled(Step(dj, parents, u), parents, v)
  {
    StepSettles(dj, parents, ids, rank, u);
    var dn := Step(dj, parents, u);
    if rank[u] < k {
      SettledAgree(dj, d, parents, ids, rank, u);
    } else {
      forall v | v in done && v in rank && rank[v] == k && v != u
        ensures Settled(dn, parents, v)
      {
        SettledAgree(dn, dj, parents, ids, rank, v);
      }
    }
  }

  /**
   * In a round from a state where every node numbered below `k` is settled,
   * those nodes do not move, and each node numbered `k` is settled once it has
   * been updated.
   */
  lemma {:induction false} RoundPrefixSettles(d: Depths, parents: Parents, ids: seq<Id>, rank: map<Id, nat>, k: nat, j: nat)
    requires RankedParents(ids, parents, rank) && Domain(d, ids) && j <= |ids|
    requires SettledBelow(d, parents, ids, rank, k)
    ensures Domain(Round(d, parents, ids[..j]), ids)
    ensures AgreeBelow(Round(d, parents, ids[..j]), d, ids, rank, k)
    ensures forall v :: v in ids[..j] && v in rank && rank[v] == k ==> Settled(Round(d, parents, ids[..j]), parents, v)
    decreases j
  {
    if j == 0 {
      assert ids[..0] == [];
    } else {
      RoundSnoc(d, parents, ids, j - 1);
      RoundPrefixSettles(d, parents, ids, rank, k, j - 1);
      PrefixSnoc(ids, j - 1);
      StepPreserves(d, Round(d, parents, ids[..j - 1]), parents, ids, rank, k, ids[..j - 1], ids[j - 1]);
    }
  }

  /** A round from a state settled below `k` leaves a state settled below `k + 1`. */
  lemma RoundSettles(d: Depths, parents: Parents, ids: seq<Id>, rank: map<Id, nat>, k: nat)
    requires RankedParents(ids, parents, rank) && Domain(d, ids)
    requires SettledBelow(d, parents, ids, rank, k)
    ensures Domain(Round(d, parents, ids), ids)
    ensures SettledBelow(Round(d, parents, ids), parents, ids, rank, k + 1)
  {
    RoundPrefixSettles(d, parents, ids, rank, k, |ids|);
    PrefixAll(ids);
    var r := Round(d, parents, ids);
    forall v | v in ids && v in rank && rank[v] < k
      ensures Settled(r, parents, v)
    {
      assert AgreeBelow(r, d, ids, rank, rank[v]);
      SettledAgree(r, d, parents, ids, rank, v);
    }
  }

  /** A state that a round leaves unchanged is settled everywhere. */
  lemma {:induction false} FixedPointSettles(d: Depths, parents: Parents, ids: seq<Id>, rank: map<Id, nat>, k: nat)
    requires RankedParents(ids, parents, rank) && Domain(d, ids)
    requires SettledBelow(d, parents, ids, rank, k)
    requires Round(d, parents, ids) == d
    ensures SettledBelow(d, parents, ids, rank, |ids|)
    decreases |ids| - k
  {
    if k < |ids| {
      RoundSettles(d, parents, ids, rank, k);
      FixedPointSettles(d, parents, ids, rank, k + 1);
    }
  }

  /** Enough rounds from a state settled below `k` settle every node. */
  lemma {:induction false} RelaxSettles(d: Depths, parents: Parents, ids: seq<Id>, rank: map<Id, nat>, k: nat, rounds: nat)
    requires RankedParents(ids, parents, rank) && Domain(d, ids)
    requires SettledBelow(d, parents, ids, rank, k)
    requires k + rounds >= |ids|
    ensures SettledBelow(Relax(d, parents, ids, rounds), parents, ids, rank, |ids|)
    decreases rounds
  {
    if rounds > 0 {
      var next := Round(d, parents, ids);
      if next == d {
        FixedPointSettles(d, parents, ids, rank, k);
      } else {
        RoundSettles(d, parents, ids, rank, k);
        RelaxSettles(next, parents, ids, rank, k + 1, rounds - 1);
      }
    }
  }

  /** On an acyclic edge set every edge between two nodes ends deeper than it starts. */
  lemma AcyclicEdgesDescend(ids: seq<Id>, edges: seq<Edge>, rank: map<Id, nat>)
    requires Topological(ids, edges, rank)
    ensures forall i :: 0 <= i < |edges| && edges[i].0 in ids && edges[i].1 in ids ==>
      DepthOf(ids, edges)[edges[i].1] > DepthOf(ids, edges)[edges[i].0]
  {
    var parents := ParentsOf(edges);
    ParentsOfSpec(edges);
    assert RankedParents(ids, parents, rank) by {
      forall c, p | c in parents && c in ids && p in parents[c] && p in ids
        ensures c in rank && p in rank && rank[p] < rank[c]
      {
        assert (p, c) in edges;
        var i :| 0 <= i < |edges| && edges[i] == (p, c);
      }
    }
    var d0 := ZeroDepths(ids);
    RelaxSettles(d0, parents, ids, rank, 0, |ids|);
    var r := DepthOf(ids, edges);
    forall i | 0 <= i < |edges| && edges[i].0 in ids && edges[i].1 in ids
      ensures r[edges[i].1] > r[edges[i].0]
    {
      var p, c := edges[i].0, edges[i].1;
      assert Settled(r, parents, c);
      var k :| 0 <= k < |parents[c]| && parents[c][k] == p;
    }
  }

  /** The depth map has exactly the node ids as keys. */
  lemma DepthKeys(ids: seq<Id>, edges: seq<Edge>)
    ensures forall v :: v in DepthOf(ids, edges) <==> v in ids
  {
  }
}

=== FILE: Fnv.dfy ===
// `seededRandom` of the proof-search canvas: the 32-bit FNV-1a hash of a
// string's UTF-16 code units, scaled into [0, 1).

module Fnv {
  /** The FNV-1a 32-bit offset basis. */
  const OffsetBasis: bv32 := 2166136261

  /** The FNV 32-bit prime. */
  const Prime: bv32 := 16777619

  /** 2^32, the divisor that scales an unsigned 32-bit value into [0, 1). */
  const TwoTo32: int := 0x1_0000_0000

  /** A UTF-16 code unit, as `charCodeAt` returns it. */
  type CodeUnit = u: int | 0 <= u < 0x10000

  /** The UTF-16 code units of one character: itself below U+10000, else its surrogate pair. */
  function Units(c: char): (r: seq<CodeUnit>)
    ensures 1 <= |r| <= 2
  {
    var v := c as int;
    if v < 0x10000 then [v]
    else
      var w := v - 0x10000;
      [0xD800 + w / 0x400, 0xDC00 + w % 0x400]
  }

  /** What `str.charCodeAt(i)` ranges over: the UTF-16 code units of the string, in order. */
  function CodeUnits(s: string): (r: seq<CodeUnit>)
    ensures |s| <= |r| <= 2 * |s|
  {
    if s == [] then [] else Units(s[0]) + CodeUnits(s[1..])
  }

  /**
   * FNV-1a over code units: start from the offset basis, and for each unit
   * exclusive-or it in and multiply by the prime modulo 2^32. JavaScript's
   * `^=` and `Math.imul` work on the same 32 bits read as a signed number,
   * and `>>> 0` reads them back unsigned.
   */
  function Hash(units: seq<CodeUnit>): bv32
    decreases |units|
  {
    if units == [] then OffsetBasis
    else Mix(Hash(units[..|units| - 1]), units[|units| - 1])
  }

  /** One round: `h ^= unit; h = Math.imul(h, prime)`. */
  function Mix(h: bv32, unit: CodeUnit): bv32
  {
    (h ^ (unit as bv32)) * Prime
  }

  /** The unsigned hash as a fraction of 2^32. */
  function Fraction(h: bv32): (r: real)
    ensures 0.0 <= r < 1.0
  {
    (h as int) as real / (TwoTo32 as real)
  }

  /** `seededRandom(seed)`: the loop over code units and the final scaling. */
  method SeededRandom(seed: string) returns (r: real)
    ensures r == Fraction(Hash(CodeUnits(seed)))
    ensures 0.0 <= r < 1.0
  {
    var str := CodeUnits(seed);
    var h := OffsetBasis;
    for i := 0 to |str|
      invariant h == Hash(str[..i])
    {
      assert str[..i + 1][..i] == str[..i];
      h := Mix(h, str[i]);
    }
    assert str[..|str|] == str;
    r := Fraction(h);
  }

  /** Hashing one more code unit mixes it into the hash so far. */
  lemma HashSnoc(units: seq<CodeUnit>, u: CodeUnit)
    ensures Hash(units + [u]) == Mix(Hash(units), u)
  {
    assert (units + [u])[..|units|] == units;
  }

  /** The empty seed hashes to the offset basis, and the FNV-1a values of "a" and "foo" (as code units) come out. */
  lemma HashTestVectors()
    ensures Hash([]) == 0x811C9DC5
    ensures Hash([0x61]) == 0xE40C292C
    ensures Hash([0x66, 0x6F, 0x6F]) == 0xA9F37ED7
  {
    HashSnoc([], 0x61);
    assert [] + [0x61 as CodeUnit] == [0x61];
    FooHash();
  }

  /** The FNV-1a state after "f". */
  lemma FHash()
    ensures Hash([0x66]) == 0xE30C2799
  {
    HashSnoc([], 0x66);
    assert [] + [0x66 as CodeUnit] == [0x66];
    assert (0x66 as CodeUnit) as bv32 == 0x66;
  }

  /** The FNV-1a state after "fo". */
  lemma FoHash()
    ensures Hash([0x66, 0x6F]) == 0x6222E842
  {
    FHash();
    HashSnoc([0x66], 0x6F);
    assert [0x66 as CodeUnit] + [0x6F as CodeUnit] == [0x66, 0x6F];
    assert (0x66 as CodeUnit) as bv32 == 0x66 && (0x6F as CodeUnit) as bv32 == 0x6F;
  }

  /** The FNV-1a state after "foo". */
  lemma FooHash()
    ensures Hash([0x66, 0x6F, 0x6F]) == 0xA9F37ED7
  {
    FoHash();
    HashSnoc([0x66, 0x6F], 0x6F);
    assert [0x66 as CodeUnit, 0x6F] + [0x6F as CodeUnit] == [0x66, 0x6F, 0x6F];
    assert (0x6F as CodeUnit) as bv32 == 0x6F;
  }

  /** Text inside the Basic Multilingual Plane has one code unit per character, equal to the character's code. */
  lemma {:induction false} BmpCodeUnits(s: string)
    requires forall i :: 0 <= i < |s| ==> s[i] as int < 0x10000
    ensures |CodeUnits(s)| == |s|
    ensures forall i :: 0 <= i < |s| ==> CodeUnits(s)[i] == s[i] as int
  {
    if s != [] {
      BmpCodeUnits(s[1..]);
      assert CodeUnits(s) == [s[0] as int] + CodeUnits(s[1..]);
    }
  }

  /** A character outside the Basic Multilingual Plane becomes a high surrogate followed by a low surrogate. */
  lemma SurrogatePair(c: char)
    requires c as int >= 0x10000
    ensures |Units(c)| == 2
    ensures 0xD800 <= Units(c)[0] < 0xDC00 && 0xDC00 <= Units(c)[1] < 0xE000
  {
  }
}

=== FILE: GraphStore.dfy ===
/**
 * The clause graph of the proof-search page: a clause map keyed by clause id
 * and an edge map keyed by `"from->to"`, both JavaScript `Map`s and so both
 * iterated in insertion order, and the projection `commitClauses` makes of
 * them for display (one node per distinct clause text, edges remapped onto
 * the displayed nodes). The functions here are the specification of the
 * page's in-place updates; the class in module Visualizer performs them.
 */
module GraphStore {
  import opened Strings
  import opened Wrappers
  import LineClassifier

  /** A clause record; its id is the key it is stored under. */
  datatype Clause = Clause(text: string, status: string, subsumed: bool)

  /** A derivation edge from a parent clause to the clause inferred from it. */
  datatype Edge = Edge(from: string, to: string)

  /** The clause map and the edge map, each with its iteration order. */
  datatype Store = Store(clauseOrder: seq<string>, clauses: map<string, Clause>, edgeOrder: seq<string>, edges: map<string, Edge>)

  const EmptyStore: Store := Store([], map[], [], map[])

  predicate Distinct(s: seq<string>)
  {
    forall i, j :: 0 <= i < j < |s| ==> s[i] != s[j]
  }

  /** Dropping the last element of a sequence without repeats leaves one without repeats that lacks that element. */
  lemma DistinctInit(s: seq<string>)
    requires s != [] && Distinct(s)
    ensures Distinct(s[..|s| - 1]) && s[|s| - 1] !in s[..|s| - 1]
  {
    var init := s[..|s| - 1];
    forall i | 0 <= i < |init|
      ensures init[i] != s[|s| - 1]
    {
      assert init[i] == s[i];
    }
  }

  /** `order` is the iteration order of a `Map` with the keys of `m`: each key once. */
  predicate OrderOf<V>(order: seq<string>, m: map<string, V>)
  {
    && Distinct(order)
    && (forall k :: k in order ==> k in m)
    && (forall k :: k in m ==> k in order)
  }

  /** The key of the edge map, `` `${from}->${to}` ``. */
  function EdgeKey(from: string, to: string): string
  {
    from + "->" + to
  }

  /** Every stored edge sits under its own key, has a parent and is not a self-loop. */
  predicate EdgesWellFormed(edges: map<string, Edge>)
  {
    forall k :: k in edges ==> k == EdgeKey(edges[k].from, edges[k].to) && edges[k].from != "" && edges[k].from != edges[k].to
  }

  predicate Valid(st: Store)
  {
    OrderOf(st.clauseOrder, st.clauses) && OrderOf(st.edgeOrder, st.edges) && EdgesWellFormed(st.edges)
  }

  lemma EmptyStoreValid()
    ensures Valid(EmptyStore) && EmptyStore.clauses == map[] && EmptyStore.edges == map[]
  {
  }

  /** `map.set(k, …)` on the iteration order: a new key goes last, a present key keeps its place. */
  function SetKey(order: seq<string>, k: string): (r: seq<string>)
    ensures k in r && forall x :: x in r <==> x in order || x == k
    ensures Distinct(order) ==> Distinct(r)
    ensures |order| <= |r| && r[..|order|] == order
  {
    if k in order then order else order + [k]
  }

  function Get<V>(m: map<string, V>, k: string): Option<V>
  {
    if k in m then Some(m[k]) else None
  }

  // ---------------------------------------------------------------------------
  // upsertClause and markSubsumed
  // ---------------------------------------------------------------------------

  /** The record `upsertClause` stores over `prior`: `text ?? existing?.text ?? ''` and the like. */
  function Upserted(prior: Option<Clause>, text: Option<string>, status: Option<string>): Clause
  {
    Clause(
      if text.Some? then text.value else if prior.Some? then prior.value.text else "",
      if status.Some? then status.value else if prior.Some? then prior.value.status else "new",
      prior.Some? && prior.value.subsumed)
  }

  /** `upsertClause(id, text, status)`; `None` stands for a null or undefined argument. */
  function Upsert(st: Store, id: string, text: Option<string>, status: Option<string>): (r: Store)
    ensures id in r.clauses
    ensures r.clauses[id].subsumed == (id in st.clauses && st.clauses[id].subsumed)
    ensures text.Some? ==> r.clauses[id].text == text.value
    ensures status.Some? ==> r.clauses[id].status == status.value
    ensures text.None? && id in st.clauses ==> r.clauses[id].text == st.clauses[id].text
    ensures status.None? && id in st.clauses ==> r.clauses[id].status == st.clauses[id].status
    ensures id !in st.clauses && text.None? ==> r.clauses[id].text == ""
    ensures id !in st.clauses && status.None? ==> r.clauses[id].status == "new"
    ensures forall k :: k != id ==> Get(r.clauses, k) == Get(st.clauses, k)
    ensures r.clauseOrder == SetKey(st.clauseOrder, id)
    ensures r.edgeOrder == st.edgeOrder && r.edges == st.edges
    ensures Valid(st) ==> Valid(r)
  {
    st.(clauseOrder := SetKey(st.clauseOrder, id), clauses := st.clauses[id := Upserted(Get(st.clauses, id), text, status)])
  }

  /** `markSubsumed(id)`. */
  function MarkSubsumed(st: Store, id: string): (r: Store)
    ensures id in r.clauses && r.clauses[id].subsumed
    ensures id in st.clauses ==> r.clauses[id].text == st.clauses[id].text && r.clauses[id].status == st.clauses[id].status
    ensures id !in st.clauses ==> r.clauses[id] == Clause("", "new", true)
    ensures forall k :: k != id ==> Get(r.clauses, k) == Get(st.clauses, k)
    ensures r.clauseOrder == SetKey(st.clauseOrder, id)
    ensures r.edgeOrder == st.edgeOrder && r.edges == st.edges
    ensures Valid(st) ==> Valid(r)
  {
    var prior := Get(st.clauses, id);
    var c := Clause(if prior.Some? then prior.value.text else "", if prior.Some? then prior.value.status else "new", true);
    st.(clauseOrder := SetKey(st.clauseOrder, id), clauses := st.clauses[id := c])
  }

  /** Upserting the same values twice is upserting them once. */
  lemma UpsertIdempotent(st: Store, id: string, text: Option<string>, status: Option<string>)
    ensures Upsert(Upsert(st, id, text, status), id, text, status) == Upsert(st, id, text, status)
  {
    var r := Upsert(st, id, text, status);
    assert SetKey(r.clauseOrder, id) == r.clauseOrder;
    assert r.clauses[id := Upserted(Get(r.clauses, id), text, status)] == r.clauses;
  }

  /** Marking twice is marking once. */
  lemma MarkSubsumedIdempotent(st: Store, id: string)
    ensures MarkSubsumed(MarkSubsumed(st, id), id) == MarkSubsumed(st, id)
  {
    var r := MarkSubsumed(st, id);
    assert SetKey(r.clauseOrder, id) == r.clauseOrder;
    assert r.clauses[id := r.clauses[id]] == r.clauses;
  }

  /** A later upsert never clears the subsumed flag: a clause reported removed stays removed. */
  lemma SubsumedSurvivesUpsert(st: Store, id: string, k: string, text: Option<string>, status: Option<string>)
    requires k in st.clauses && st.clauses[k].subsumed
    ensures k in Upsert(st, id, text, status).clauses && Upsert(st, id, text, status).clauses[k].subsumed
  {
    if k != id {
      assert Get(Upsert(st, id, text, status).clauses, k) == Get(st.clauses, k);
    }
  }

  // ---------------------------------------------------------------------------
  // addEdges
  // ---------------------------------------------------------------------------

  /** One step of `addEdges(to, parentIds)`: the edge from `parent`, unless it is empty, a self-loop or already stored. */
  function AddEdge(st: Store, to: string, parent: string): (r: Store)
    ensures r.clauseOrder == st.clauseOrder && r.clauses == st.clauses
    ensures Valid(st) ==> Valid(r)
    ensures forall k :: k in st.edges ==> k in r.edges && r.edges[k] == st.edges[k]
    ensures parent != "" && parent != to ==> EdgeKey(parent, to) in r.edges
    ensures forall k :: k in r.edges && k !in st.edges ==> k == EdgeKey(parent, to) && r.edges[k] == Edge(parent, to) && parent != "" && parent != to
  {
    var key := EdgeKey(parent, to);
    if parent == "" || parent == to || key in st.edges then st
    else st.(edgeOrder := st.edgeOrder + [key], edges := st.edges[key := Edge(parent, to)])
  }

  /** `addEdges(to, parentIds)`: the parents in order. */
  function AddEdges(st: Store, to: string, parents: seq<string>): (r: Store)
    ensures r.clauseOrder == st.clauseOrder && r.clauses == st.clauses
    ensures Valid(st) ==> Valid(r)
    ensures forall k :: k in st.edges ==> k in r.edges && r.edges[k] == st.edges[k]
    decreases |parents|
  {
    if parents == [] then st
    else AddEdge(AddEdges(st, to, parents[..|parents| - 1]), to, parents[|parents| - 1])
  }

  /** Every parent other than the empty id and the clause itself has its edge stored afterwards. */
  lemma {:induction false} AddEdgesComplete(st: Store, to: string, parents: seq<string>)
    ensures forall p :: p in parents && p != "" && p != to ==> EdgeKey(p, to) in AddEdges(st, to, parents).edges
    decreases |parents|
  {
    if parents != [] {
      var init := parents[..|parents| - 1];
      AddEdgesComplete(st, to, init);
      assert forall p :: p in parents ==> p in init || p == parents[|parents| - 1];
    }
  }

  /** Every edge added points to `to` from one of the parents, and is neither a self-loop nor from the empty id. */
  lemma {:induction false} AddEdgesSound(st: Store, to: string, parents: seq<string>)
    ensures forall k :: k in AddEdges(st, to, parents).edges && k !in st.edges ==>
      exists p :: p in parents && p != "" && p != to && k == EdgeKey(p, to) && AddEdges(st, to, parents).edges[k] == Edge(p, to)
    decreases |parents|
  {
    if parents != [] {
      var init := parents[..|parents| - 1];
      AddEdgesSound(st, to, init);
      var last := parents[|parents| - 1];
      var mid := AddEdges(st, to, init);
      forall k | k in AddEdges(st, to, parents).edges && k !in st.edges
        ensures exists p :: p in parents && p != "" && p != to && k == EdgeKey(p, to) && AddEdges(st, to, parents).edges[k] == Edge(p, to)
      {
        if k in mid.edges {
          var p :| p in init && p != "" && p != to && k == EdgeKey(p, to) && mid.edges[k] == Edge(p, to);
          assert p in parents;
        } else {
          assert last in parents;
        }
      }
    }
  }

  /** Parents whose edges are all stored already change nothing. */
  lemma {:induction false} AddEdgesPresent(st: Store, to: string, parents: seq<string>)
    requires forall p :: p in parents && p != "" && p != to ==> EdgeKey(p, to) in st.edges
    ensures AddEdges(st, to, parents) == st
    decreases |parents|
  {
    if parents != [] {
      var init := parents[..|parents| - 1];
      assert forall p :: p in init ==> p in parents;
      AddEdgesPresent(st, to, init);
    }
  }

  /** Adding the same parents again is a no-op. */
  lemma AddEdgesIdempotent(st: Store, to: string, parents: seq<string>)
    ensures AddEdges(AddEdges(st, to, parents), to, parents) == AddEdges(st, to, parents)
  {
    AddEdgesComplete(st, to, parents);
    AddEdgesPresent(AddEdges(st, to, parents), to, parents);
  }

  /** An edge key splits back into its two ids when the parent id has no `-` (clause ids are digits). */
  lemma EdgeKeyParts(from: string, to: string)
    requires '-' !in from
    ensures '-' in EdgeKey(from, to) && IndexOf(EdgeKey(from, to), '-') == |from|
    ensures EdgeKey(from, to)[..|from|] == from && EdgeKey(from, to)[|from| + 2..] == to
  {
    var k := EdgeKey(from, to);
    assert k[|from|] == '-';
    assert k[..|from|] == from;
    IndexOfFirst(k, '-', |from|);
    assert k[|from| + 2..] == to;
  }

  /** So a stored key names exactly one ordered pair. */
  lemma EdgeKeyInjective(f1: string, t1: string, f2: string, t2: string)
    requires '-' !in f1 && '-' !in f2
    requires EdgeKey(f1, t1) == EdgeKey(f2, t2)
    ensures f1 == f2 && t1 == t2
  {
    EdgeKeyParts(f1, t1);
    EdgeKeyParts(f2, t2);
  }

  // ---------------------------------------------------------------------------
  // pickSmallestId
  // ---------------------------------------------------------------------------

  predicate AllNumeric(ids: seq<string>)
  {
    forall i :: 0 <= i < |ids| ==> IsNumericId(ids[i])
  }

  /** The least numeric value among digit-string ids. */
  function MinValue(ids: seq<string>): (v: nat)
    requires ids != [] && AllNumeric(ids)
    ensures forall i :: 0 <= i < |ids| ==> v <= DigitsValue(ids[i])
    ensures exists i :: 0 <= i < |ids| && v == DigitsValue(ids[i])
    decreases |ids|
  {
    if |ids| == 1 then DigitsValue(ids[0])
    else
      var m := MinValue(ids[1..]);
      var v := if DigitsValue(ids[0]) <= m then DigitsValue(ids[0]) else m;
      assert forall i :: 1 <= i < |ids| ==> ids[i] == ids[1..][i - 1];
      v
  }

  /** The first id in code-unit order, `ids.slice().sort()[0]`. */
  function LexMin(ids: seq<string>): (r: string)
    requires ids != []
    ensures r in ids
    decreases |ids|
  {
    if |ids| == 1 then ids[0]
    else
      var m := LexMin(ids[1..]);
      if LexLessEq(ids[0], m) then ids[0] else m
  }

  lemma {:induction false} LexMinLeast(ids: seq<string>)
    requires ids != []
    ensures forall x :: x in ids ==> LexLessEq(LexMin(ids), x)
    decreases |ids|
  {
    if |ids| > 1 {
      var m := LexMin(ids[1..]);
      LexMinLeast(ids[1..]);
      forall x | x in ids
        ensures LexLessEq(LexMin(ids), x)
      {
        if x != ids[0] {
          assert x in ids[1..];
          if LexLessEq(ids[0], m) {
            if ids[0] != m && m != x {
              LexLessTransitive(ids[0], m, x);
            }
          }
        } else if !LexLessEq(ids[0], m) {
          LexLessTotal(ids[0], m);
        }
      }
    }
  }

  /** `pickSmallestId(ids)`: `''` for no ids, the numeric minimum rendered back as a number when every id is a digit string, the least id in code-unit order otherwise. */
  function PickSmallestId(ids: seq<string>): (r: string)
    ensures ids == [] ==> r == ""
    ensures ids != [] && AllNumeric(ids) ==> IsNumericId(r) && Canonical(r)
    ensures ids != [] && !AllNumeric(ids) ==> r in ids
  {
    if ids == [] then ""
    else if AllNumeric(ids) then NatToStringCanonical(MinValue(ids)); NatToString(MinValue(ids))
    else LexMin(ids)
  }

  /** The id picked is the least: by value among digit strings, in code-unit order otherwise. */
  lemma PickSmallestIdLeast(ids: seq<string>)
    requires ids != []
    ensures AllNumeric(ids) ==> forall i :: 0 <= i < |ids| ==> DigitsValue(PickSmallestId(ids)) <= DigitsValue(ids[i])
    ensures AllNumeric(ids) ==> exists i :: 0 <= i < |ids| && DigitsValue(PickSmallestId(ids)) == DigitsValue(ids[i])
    ensures !AllNumeric(ids) ==> forall x :: x in ids ==> LexLessEq(PickSmallestId(ids), x)
  {
    if AllNumeric(ids) {
      NatToStringValue(MinValue(ids));
    } else {
      LexMinLeast(ids);
    }
  }

  /** A digit-string id without a leading zero (or not a digit string at all). */
  predicate NoLeadingZero(id: string)
  {
    IsNumericId(id) ==> Canonical(id)
  }

  /** When no id has a leading zero, the id picked is one of the ids. */
  lemma PickSmallestIdMember(ids: seq<string>)
    requires ids != [] && forall i :: 0 <= i < |ids| ==> NoLeadingZero(ids[i])
    ensures PickSmallestId(ids) in ids
  {
    if AllNumeric(ids) {
      var i :| 0 <= i < |ids| && MinValue(ids) == DigitsValue(ids[i]);
      CanonicalRoundTrip(ids[i]);
    }
  }

  /** Re-rendering through `Number` drops leading zeros: the id picked from `["007"]` is `"7"`, which is not among the ids. */
  lemma LeadingZerosLost()
    ensures PickSmallestId(["007"]) == "7" && "7" !in ["007"]
  {
    var ids := ["007"];
    assert AllNumeric(ids);
    assert "007"[..2] == "00" && "00"[..1] == "0" && "0"[..0] == "";
    assert DigitsValue("007") == 7;
  }

  // ---------------------------------------------------------------------------
  // commitClauses, first loop: grouping by normalised text
  // ---------------------------------------------------------------------------

  /** `clause.status || 'new'`. */
  function StatusOr(status: string): (r: string)
    ensures r != ""
  {
    if status == "" then "new" else status
  }

  /** An entry of `grouped`: the first text seen, the ids in order and the two per-id maps. */
  datatype Group = Group(text: string, ids: seq<string>, status: map<string, string>, subsumed: map<string, bool>)

  /** `grouped`, with its iteration order. */
  datatype Grouping = Grouping(keys: seq<string>, groups: map<string, Group>)

  /** The body of the grouping loop for one clause. */
  function GroupStep(g: Grouping, id: string, c: Clause, textKey: string -> string): Grouping
  {
    var key := textKey(c.text);
    var entry := if key in g.groups then g.groups[key] else Group(c.text, [], map[], map[]);
    Grouping(SetKey(g.keys, key), g.groups[key := Joined(entry, id, c)])
  }

  /** `entry.ids.push(id)` and the two `set`s. */
  function Joined(entry: Group, id: string, c: Clause): Group
  {
    entry.(ids := entry.ids + [id], status := entry.status[id := StatusOr(c.status)], subsumed := entry.subsumed[id := c.subsumed])
  }

  /** The grouping loop over the clauses `order`, in order. */
  function GroupAll(order: seq<string>, clauses: map<string, Clause>, textKey: string -> string): (r: Grouping)
    requires forall k :: k in order ==> k in clauses
    ensures forall k :: k in r.keys ==> k in r.groups
    decreases |order|
  {
    if order == [] then Grouping([], map[])
    else
      var last := order[|order| - 1];
      GroupStep(GroupAll(order[..|order| - 1], clauses, textKey), last, clauses[last], textKey)
  }

  /** A group holds distinct visited ids of one text, with their statuses and flags, and the text of its first id. */
  ghost predicate GroupOf(gr: Group, key: string, done: seq<string>, clauses: map<string, Clause>, textKey: string -> string)
  {
    && gr.ids != [] && Distinct(gr.ids)
    && (forall id :: id in gr.ids ==>
          && id in done && id in clauses && textKey(clauses[id].text) == key
          && id in gr.status && gr.status[id] == StatusOr(clauses[id].status)
          && id in gr.subsumed && gr.subsumed[id] == clauses[id].subsumed)
    && gr.ids[0] in clauses && gr.text == clauses[gr.ids[0]].text
  }

  /** What `grouped` holds once the clauses `done` are visited: every visited id is in the group of its text. */
  ghost predicate GroupsOf(g: Grouping, done: seq<string>, clauses: map<string, Clause>, textKey: string -> string)
  {
    && OrderOf(g.keys, g.groups)
    && (forall key :: key in g.groups ==> GroupOf(g.groups[key], key, done, clauses, textKey))
    && (forall id :: id in done ==> id in clauses && textKey(clauses[id].text) in g.groups && id in g.groups[textKey(clauses[id].text)].ids)
  }

  lemma GroupOfMore(gr: Group, key: string, done: seq<string>, id: string, clauses: map<string, Clause>, textKey: string -> string)
    requires GroupOf(gr, key, done, clauses, textKey)
    ensures GroupOf(gr, key, done + [id], clauses, textKey)
  {
  }

  lemma GroupOfJoined(gr: Group, key: string, done: seq<string>, id: string, clauses: map<string, Clause>, textKey: string -> string)
    requires GroupOf(gr, key, done, clauses, textKey) && id !in done && id in clauses && textKey(clauses[id].text) == key
    ensures GroupOf(Joined(gr, id, clauses[id]), key, done + [id], clauses, textKey)
  {
    var gr' := Joined(gr, id, clauses[id]);
    forall i, j | 0 <= i < j < |gr'.ids|
      ensures gr'.ids[i] != gr'.ids[j]
    {
      if j == |gr.ids| {
        assert gr.ids[i] in gr.ids;
      }
    }
    assert gr'.ids[0] == gr.ids[0];
  }

  lemma GroupOfFirst(key: string, done: seq<string>, id: string, clauses: map<string, Clause>, textKey: string -> string)
    requires id in clauses && textKey(clauses[id].text) == key
    ensures GroupOf(Joined(Group(clauses[id].text, [], map[], map[]), id, clauses[id]), key, done + [id], clauses, textKey)
  {
    var gr' := Joined(Group(clauses[id].text, [], map[], map[]), id, clauses[id]);
    assert gr'.ids == [id];
  }

  lemma GroupStepKeeps(g: Grouping, done: seq<string>, id: string, clauses: map<string, Clause>, textKey: string -> string)
    requires GroupsOf(g, done, clauses, textKey) && id !in done && id in clauses
    ensures GroupsOf(GroupStep(g, id, clauses[id], textKey), done + [id], clauses, textKey)
  {
    var c := clauses[id];
    var key := textKey(c.text);
    var g' := GroupStep(g, id, c, textKey);
    var done' := done + [id];
    if key in g.groups {
      GroupOfJoined(g.groups[key], key, done, id, clauses, textKey);
    } else {
      GroupOfFirst(key, done, id, clauses, textKey);
    }
    assert GroupOf(g'.groups[key], key, done', clauses, textKey);
    forall k | k in g'.groups && k != key
      ensures GroupOf(g'.groups[k], k, done', clauses, textKey)
    {
      GroupOfMore(g.groups[k], k, done, id, clauses, textKey);
    }
    GroupStepPlaces(g, done, id, clauses, textKey);
  }

  /** After a step every visited id, the new one included, is in the group of its text. */
  lemma GroupStepPlaces(g: Grouping, done: seq<string>, id: string, clauses: map<string, Clause>, textKey: string -> string)
    requires GroupsOf(g, done, clauses, textKey) && id in clauses
    ensures var g' := GroupStep(g, id, clauses[id], textKey);
      forall x :: x in done + [id] ==> x in clauses && textKey(clauses[x].text) in g'.groups && x in g'.groups[textKey(clauses[x].text)].ids
  {
    var g' := GroupStep(g, id, clauses[id], textKey);
    forall x | x in done + [id]
      ensures x in clauses && textKey(clauses[x].text) in g'.groups && x in g'.groups[textKey(clauses[x].text)].ids
    {
      if x != id {
        assert x in done;
      }
    }
  }

  /** After the grouping loop every clause is in exactly the group of its normalised text. */
  lemma {:induction false} GroupAllSpec(order: seq<string>, clauses: map<string, Clause>, textKey: string -> string)
    requires Distinct(order) && forall k :: k in order ==> k in clauses
    ensures GroupsOf(GroupAll(order, clauses, textKey), order, clauses, textKey)
    decreases |order|
  {
    if order != [] {
      var init := order[..|order| - 1];
      var last := order[|order| - 1];
      GroupAllSpec(init, clauses, textKey);
      DistinctInit(order);
      var g := GroupAll(init, clauses, textKey);
      GroupStepKeeps(g, init, last, clauses, textKey);
      assert GroupAll(order, clauses, textKey) == GroupStep(g, last, clauses[last], textKey);
      InitLast(order);
    }
  }

  // ---------------------------------------------------------------------------
  // commitClauses, second loop: one displayed clause per group
  // ---------------------------------------------------------------------------

  /** `entry.ids.filter((id) => entry.statusById.get(id) === s)`. */
  function Pool(ids: seq<string>, status: map<string, string>, s: string): (r: seq<string>)
    ensures forall x :: x in r <==> x in ids && x in status && status[x] == s
    ensures forall x :: x in r ==> x in ids
    decreases |ids|
  {
    if ids == [] then []
    else (if ids[0] in status && status[ids[0]] == s then [ids[0]] else []) + Pool(ids[1..], status, s)
  }

  /** The statuses whose clauses `commitClauses` may display. */
  predicate IsShownStatus(status: string)
  {
    status == "passive" || status == "active" || status == "new"
  }

  /** A displayed clause. */
  datatype Display = Display(id: string, text: string, status: string, subsumed: bool)

  /** The displayed clause of one group: passive ids first, else active, else new; nothing when none of them. */
  function DisplayOf(gr: Group): (r: Option<Display>)
  {
    var passiveIds := Pool(gr.ids, gr.status, "passive");
    var activeIds := Pool(gr.ids, gr.status, "active");
    var newIds := Pool(gr.ids, gr.status, "new");
    var pool := if passiveIds != [] then passiveIds else if activeIds != [] then activeIds else newIds;
    if pool == [] then None
    else
      var id := PickSmallestId(pool);
      var status := if passiveIds != [] then "passive" else if activeIds != [] then "active" else "new";
      Some(Display(id, gr.text, status, if id in gr.subsumed then gr.subsumed[id] else false))
  }

  /** The group is shown exactly when one of its ids is new, passive or active; its status is the first of passive, active, new that some id has; the shown id is the smallest (`PickSmallestId`) of the ids with that status; and when no id has a leading zero the shown id is an id of the group with that very status and the group's flag for it. */
  lemma DisplayOfSpec(gr: Group)
    ensures DisplayOf(gr).Some? <==> exists id :: id in gr.ids && id in gr.status && IsShownStatus(gr.status[id])
    ensures DisplayOf(gr).Some? ==> DisplayOf(gr).value.text == gr.text
    ensures DisplayOf(gr).Some? ==> DisplayOf(gr).value.id == PickSmallestId(Pool(gr.ids, gr.status, DisplayOf(gr).value.status))
    ensures DisplayOf(gr).Some? ==> (DisplayOf(gr).value.status == "passive" <==> exists id :: id in gr.ids && id in gr.status && gr.status[id] == "passive")
    ensures DisplayOf(gr).Some? && DisplayOf(gr).value.status == "new" ==> forall id :: id in gr.ids && id in gr.status ==> gr.status[id] != "active"
    ensures DisplayOf(gr).Some? && (forall id :: id in gr.ids ==> NoLeadingZero(id)) ==>
      var d := DisplayOf(gr).value;
      d.id in gr.ids && d.id in gr.status && gr.status[d.id] == d.status && (d.id in gr.subsumed ==> d.subsumed == gr.subsumed[d.id])
  {
    var passiveIds := Pool(gr.ids, gr.status, "passive");
    var activeIds := Pool(gr.ids, gr.status, "active");
    var newIds := Pool(gr.ids, gr.status, "new");
    var pool := if passiveIds != [] then passiveIds else if activeIds != [] then activeIds else newIds;
    if pool != [] && (forall id :: id in gr.ids ==> NoLeadingZero(id)) {
      PickSmallestIdMember(pool);
    }
    if passiveIds != [] {
      assert passiveIds[0] in passiveIds;
    } else if activeIds != [] {
      assert activeIds[0] in activeIds;
    } else if newIds != [] {
      assert newIds[0] in newIds;
    }
  }

  /** `displayClauses` and `idToDisplay`. */
  datatype Projection = Projection(shown: seq<Display>, idToDisplay: map<string, string>)

  /** The body of the second loop for one group. */
  function ProjectStep(p: Projection, gr: Group, show: Group -> Option<Display>): Projection
  {
    match show(gr)
    case None => p
    case Some(d) => Projection(p.shown + [d], p.idToDisplay + map id | id in gr.ids :: d.id)
  }

  /** The second loop over the groups `keys`, in order. */
  function ProjectAll(keys: seq<string>, groups: map<string, Group>, show: Group -> Option<Display>): Projection
    requires forall k :: k in keys ==> k in groups
    decreases |keys|
  {
    if keys == [] then Projection([], map[])
    else
      var last := keys[|keys| - 1];
      ProjectStep(ProjectAll(keys[..|keys| - 1], groups, show), groups[last], show)
  }

  /** The keys of the groups that are shown, in order: the key of each displayed clause. */
  function ShownKeys(keys: seq<string>, groups: map<string, Group>, show: Group -> Option<Display>): seq<string>
    requires forall k :: k in keys ==> k in groups
    decreases |keys|
  {
    if keys == [] then []
    else
      var last := keys[|keys| - 1];
      ShownKeys(keys[..|keys| - 1], groups, show) + (if show(groups[last]).Some? then [last] else [])
  }

  /** The i-th displayed clause is the display of the group with the i-th shown key, and no key is shown twice. */
  lemma {:induction false} ProjectShown(keys: seq<string>, groups: map<string, Group>, show: Group -> Option<Display>)
    requires forall k :: k in keys ==> k in groups
    ensures var p := ProjectAll(keys, groups, show); var sk := ShownKeys(keys, groups, show);
      && |sk| == |p.shown|
      && (forall i :: 0 <= i < |sk| ==> sk[i] in keys && show(groups[sk[i]]) == Some(p.shown[i]))
      && (Distinct(keys) ==> Distinct(sk))
      && (forall k :: k in keys && show(groups[k]).Some? ==> k in sk)
    decreases |keys|
  {
    if keys != [] {
      var init := keys[..|keys| - 1];
      var last := keys[|keys| - 1];
      assert forall k :: k in init ==> k in keys;
      ProjectShown(init, groups, show);
      if Distinct(keys) {
        DistinctInit(keys);
      }
    }
  }

  /** `shown` lists, in order and once each, the displays of the groups whose keys are `sk`; every shown key among `keys` is in `sk`. */
  ghost predicate ShownFrom(shown: seq<Display>, sk: seq<string>, keys: seq<string>, groups: map<string, Group>, show: Group -> Option<Display>)
  {
    && |sk| == |shown|
    && (forall i :: 0 <= i < |sk| ==> sk[i] in keys && sk[i] in groups && show(groups[sk[i]]) == Some(shown[i]))
    && Distinct(sk)
    && (forall k :: k in keys && k in groups && show(groups[k]).Some? ==> k in sk)
  }

  /** The projection of distinct keys shows each shown group once, in key order. */
  lemma ProjectedFrom(keys: seq<string>, groups: map<string, Group>, show: Group -> Option<Display>)
    requires Distinct(keys) && forall k :: k in keys ==> k in groups
    ensures ShownFrom(ProjectAll(keys, groups, show).shown, ShownKeys(keys, groups, show), keys, groups, show)
  {
    ProjectShown(keys, groups, show);
  }

  /** Every mapped id leads to a displayed clause. */
  ghost predicate MapLeadsToShown(p: Projection)
  {
    forall id :: id in p.idToDisplay ==> exists i :: 0 <= i < |p.shown| && p.shown[i].id == p.idToDisplay[id]
  }

  /** Every id of a shown group among `keys` is mapped to that group's displayed id. */
  ghost predicate MapCovers(p: Projection, keys: seq<string>, groups: map<string, Group>, show: Group -> Option<Display>)
    requires forall k :: k in keys ==> k in groups
  {
    forall k, id :: k in keys && id in groups[k].ids && show(groups[k]).Some? ==>
      id in p.idToDisplay && p.idToDisplay[id] == show(groups[k]).value.id
  }

  lemma ProjectStepLeads(q: Projection, gr: Group, show: Group -> Option<Display>)
    requires MapLeadsToShown(q)
    ensures MapLeadsToShown(ProjectStep(q, gr, show))
  {
    match show(gr)
    case None =>
    case Some(d) =>
      var p := ProjectStep(q, gr, show);
      forall id | id in p.idToDisplay
        ensures exists i :: 0 <= i < |p.shown| && p.shown[i].id == p.idToDisplay[id]
      {
        if id in gr.ids {
          assert p.shown[|q.shown|].id == d.id;
        } else {
          var i :| 0 <= i < |q.shown| && q.shown[i].id == q.idToDisplay[id];
          assert p.shown[i] == q.shown[i];
        }
      }
  }

  /** One group's step maps its own ids to its displayed id, when it has one, and leaves every other id alone. */
  lemma ProjectStepMap(q: Projection, gr: Group, show: Group -> Option<Display>)
    ensures var p := ProjectStep(q, gr, show);
      && (forall id :: id !in gr.ids ==> Get(p.idToDisplay, id) == Get(q.idToDisplay, id))
      && (show(gr).Some? ==> forall id :: id in gr.ids ==> id in p.idToDisplay && p.idToDisplay[id] == show(gr).value.id)
  {
  }

  /** No id is in two groups. */
  ghost predicate Disjoint(groups: map<string, Group>)
  {
    forall k1, k2, id :: k1 in groups && k2 in groups && id in groups[k1].ids && id in groups[k2].ids ==> k1 == k2
  }

  /** Groups built by the grouping loop are disjoint: an id lies only in the group of its own text. */
  lemma GroupsDisjoint(g: Grouping, done: seq<string>, clauses: map<string, Clause>, textKey: string -> string)
    requires GroupsOf(g, done, clauses, textKey)
    ensures Disjoint(g.groups)
  {
    forall k1, k2, id | k1 in g.groups && k2 in g.groups && id in g.groups[k1].ids && id in g.groups[k2].ids
      ensures k1 == k2
    {
      assert GroupOf(g.groups[k1], k1, done, clauses, textKey);
      assert GroupOf(g.groups[k2], k2, done, clauses, textKey);
    }
  }

  lemma ProjectStepCovers(q: Projection, init: seq<string>, last: string, groups: map<string, Group>, show: Group -> Option<Display>)
    requires Disjoint(groups)
    requires last in groups && forall k :: k in init ==> k in groups
    requires MapCovers(q, init, groups, show)
    ensures MapCovers(ProjectStep(q, groups[last], show), init + [last], groups, show)
  {
    var gr := groups[last];
    var p := ProjectStep(q, gr, show);
    ProjectStepMap(q, gr, show);
    forall k, id | k in init + [last] && id in groups[k].ids && show(groups[k]).Some?
      ensures id in p.idToDisplay && p.idToDisplay[id] == show(groups[k]).value.id
    {
      if k != last {
        assert id !in gr.ids;
        assert Get(p.idToDisplay, id) == Get(q.idToDisplay, id);
      }
    }
  }

  /** Every id of a shown group is mapped to that group's displayed id, and every mapped id leads to a displayed clause. */
  lemma {:induction false} ProjectMap(keys: seq<string>, groups: map<string, Group>, show: Group -> Option<Display>)
    requires Disjoint(groups)
    requires forall k :: k in keys ==> k in groups
    ensures MapLeadsToShown(ProjectAll(keys, groups, show)) && MapCovers(ProjectAll(keys, groups, show), keys, groups, show)
    decreases |keys|
  {
    if keys != [] {
      var init := keys[..|keys| - 1];
      var last := keys[|keys| - 1];
      assert forall k :: k in init ==> k in keys;
      ProjectMap(init, groups, show);
      ProjectStepLeads(ProjectAll(init, groups, show), groups[last], show);
      ProjectStepCovers(ProjectAll(init, groups, show), init, last, groups, show);
      InitLast(keys);
    }
  }

  // ---------------------------------------------------------------------------
  // commitClauses, third loop: edges onto displayed clauses
  // ---------------------------------------------------------------------------

  /** `displayEdges.some((e) => e.key === key)`. */
  predicate HasKey(es: seq<Edge>, key: string)
  {
    exists i :: 0 <= i < |es| && EdgeKey(es[i].from, es[i].to) == key
  }

  /** The body of the third loop for one stored edge. */
  function RemapStep(es: seq<Edge>, e: Edge, idToDisplay: map<string, string>): seq<Edge>
  {
    var from := Get(idToDisplay, e.from);
    var to := Get(idToDisplay, e.to);
    if from.None? || to.None? || from.value == "" || to.value == "" || from.value == to.value then es
    else if HasKey(es, EdgeKey(from.value, to.value)) then es
    else es + [Edge(from.value, to.value)]
  }

  /** The third loop over the stored edges `order`, in order. */
  function RemapAll(order: seq<string>, edges: map<string, Edge>, idToDisplay: map<string, string>): seq<Edge>
    requires forall k :: k in order ==> k in edges
    decreases |order|
  {
    if order == [] then []
    else
      var last := order[|order| - 1];
      RemapStep(RemapAll(order[..|order| - 1], edges, idToDisplay), edges[last], idToDisplay)
  }

  /** A stored edge whose ends both map to displayed ids, different and non-empty. */
  predicate Shows(e: Edge, idToDisplay: map<string, string>)
  {
    && e.from in idToDisplay && e.to in idToDisplay
    && idToDisplay[e.from] != "" && idToDisplay[e.to] != "" && idToDisplay[e.from] != idToDisplay[e.to]
  }

  /** The edge is the image of one of the stored edges `order`. */
  ghost predicate FromStored(e: Edge, order: seq<string>, edges: map<string, Edge>, m: map<string, string>)
  {
    exists k :: k in order && k in edges && Shows(edges[k], m) && m[edges[k].from] == e.from && m[edges[k].to] == e.to
  }

  /** One step either keeps the list or appends the image of a shown edge whose key is new. */
  lemma RemapStepShape(q: seq<Edge>, e: Edge, m: map<string, string>)
    ensures var es := RemapStep(q, e, m);
      || es == q
      || (Shows(e, m) && !HasKey(q, EdgeKey(m[e.from], m[e.to])) && es == q + [Edge(m[e.from], m[e.to])])
    ensures Shows(e, m) ==> HasKey(RemapStep(q, e, m), EdgeKey(m[e.from], m[e.to]))
  {
    var es := RemapStep(q, e, m);
    if Shows(e, m) && !HasKey(q, EdgeKey(m[e.from], m[e.to])) {
      assert EdgeKey(es[|q|].from, es[|q|].to) == EdgeKey(m[e.from], m[e.to]);
    }
  }

  /** The remapped edges have non-empty, different ends and pairwise different keys. */
  lemma {:induction false} RemapAllWellFormed(order: seq<string>, edges: map<string, Edge>, m: map<string, string>)
    requires forall k :: k in order ==> k in edges
    ensures forall i :: 0 <= i < |RemapAll(order, edges, m)| ==>
      var e := RemapAll(order, edges, m)[i]; e.from != "" && e.to != "" && e.from != e.to
    ensures forall i, j :: 0 <= i < j < |RemapAll(order, edges, m)| ==>
      EdgeKey(RemapAll(order, edges, m)[i].from, RemapAll(order, edges, m)[i].to) != EdgeKey(RemapAll(order, edges, m)[j].from, RemapAll(order, edges, m)[j].to)
    decreases |order|
  {
    if order != [] {
      var init := order[..|order| - 1];
      var last := order[|order| - 1];
      assert forall k :: k in init ==> k in order;
      RemapAllWellFormed(init, edges, m);
      var q := RemapAll(init, edges, m);
      RemapStepShape(q, edges[last], m);
    }
  }

  /** Every remapped edge is the image of a stored edge. */
  lemma {:induction false} RemapAllSound(order: seq<string>, edges: map<string, Edge>, m: map<string, string>)
    requires forall k :: k in order ==> k in edges
    ensures forall i :: 0 <= i < |RemapAll(order, edges, m)| ==> FromStored(RemapAll(order, edges, m)[i], order, edges, m)
    decreases |order|
  {
    if order != [] {
      var init := order[..|order| - 1];
      var last := order[|order| - 1];
      assert forall k :: k in init ==> k in order;
      RemapAllSound(init, edges, m);
      var q := RemapAll(init, edges, m);
      var es := RemapAll(order, edges, m);
      RemapStepShape(q, edges[last], m);
      forall i | 0 <= i < |es|
        ensures FromStored(es[i], order, edges, m)
      {
        if i < |q| {
          assert es[i] == q[i];
          var k :| k in init && k in edges && Shows(edges[k], m) && m[edges[k].from] == q[i].from && m[edges[k].to] == q[i].to;
          assert k in order;
        } else {
          assert last in order;
        }
      }
    }
  }

  /** Every stored edge whose ends map onto two different non-empty displayed ids is represented by its key. */
  lemma {:induction false} RemapAllComplete(order: seq<string>, edges: map<string, Edge>, m: map<string, string>)
    requires forall k :: k in order ==> k in edges
    ensures forall k :: k in order && Shows(edges[k], m) ==> HasKey(RemapAll(order, edges, m), EdgeKey(m[edges[k].from], m[edges[k].to]))
    decreases |order|
  {
    if order != [] {
      var init := order[..|order| - 1];
      var last := order[|order| - 1];
      assert forall k :: k in init ==> k in order;
      RemapAllComplete(init, edges, m);
      var q := RemapAll(init, edges, m);
      var es := RemapAll(order, edges, m);
      RemapStepShape(q, edges[last], m);
      forall k | k in order && Shows(edges[k], m)
        ensures HasKey(es, EdgeKey(m[edges[k].from], m[edges[k].to]))
      {
        if k in init {
          var i :| 0 <= i < |q| && EdgeKey(q[i].from, q[i].to) == EdgeKey(m[edges[k].from], m[edges[k].to]);
          assert es[i] == q[i];
        }
      }
    }
  }

  // ---------------------------------------------------------------------------
  // commitClauses as a whole
  // ---------------------------------------------------------------------------

  /** What the page shows: `setClauses(displayClauses)` and `setEdges(displayEdges)`. */
  datatype View = View(clauses: seq<Display>, edges: seq<Edge>)

  /** `grouped` after the first loop of `commitClauses`, grouping by `key` of the text. */
  function Grouped(st: Store, key: string -> string): Grouping
    requires Valid(st)
  {
    GroupAll(st.clauseOrder, st.clauses, key)
  }

  /** `displayClauses` and `idToDisplay` after the second loop of `commitClauses`. */
  function Projected(st: Store, key: string -> string): Projection
    requires Valid(st)
  {
    ProjectAll(Grouped(st, key).keys, Grouped(st, key).groups, DisplayOf)
  }

  /** What the grouping loop leaves for the projection of a valid store. */
  lemma GroupedOf(st: Store, key: string -> string)
    requires Valid(st)
    ensures GroupsOf(Grouped(st, key), st.clauseOrder, st.clauses, key)
    ensures Distinct(Grouped(st, key).keys) && forall k :: k in Grouped(st, key).keys ==> k in Grouped(st, key).groups
  {
    GroupAllSpec(st.clauseOrder, st.clauses, key);
  }

  /** The clauses and edges `commitClauses` hands to the page when it groups by `key` of the text. */
  function CommitBy(st: Store, key: string -> string): View
    requires Valid(st)
  {
    View(Projected(st, key).shown, RemapAll(st.edgeOrder, st.edges, Projected(st, key).idToDisplay))
  }

  /** `commitClauses()`: it groups by `normalizeClauseText` of the text. */
  function Commit(st: Store): View
    requires Valid(st)
  {
    CommitBy(st, LineClassifier.NormalizeClauseText)
  }

  /** `commitClauses` as its three loops see it: grouping the stored order, projecting the groups, remapping the edges. */
  lemma CommitLoops(st: Store)
    requires Valid(st)
    ensures forall k :: k in st.clauseOrder ==> k in st.clauses
    ensures forall k :: k in st.edgeOrder ==> k in st.edges
    ensures var g := GroupAll(st.clauseOrder, st.clauses, LineClassifier.NormalizeClauseText);
            var p := ProjectAll(g.keys, g.groups, DisplayOf);
            Commit(st) == View(p.shown, RemapAll(st.edgeOrder, st.edges, p.idToDisplay))
  {
  }

  /** A display choice keeps the group's text. */
  ghost predicate ShowKeepsText(show: Group -> Option<Display>)
  {
    forall gr :: show(gr).Some? ==> show(gr).value.text == gr.text
  }

  /** A display choice shows every group with a new, passive or active id. */
  ghost predicate ShowCovers(show: Group -> Option<Display>)
  {
    forall gr: Group, id: string :: id in gr.ids && id in gr.status && IsShownStatus(gr.status[id]) ==> show(gr).Some?
  }

  /** When no id of the group has a leading zero, a display choice shows one of its ids with that id's status and flag. */
  ghost predicate ShowPicksMember(show: Group -> Option<Display>)
  {
    forall gr :: show(gr).Some? && (forall id :: id in gr.ids ==> NoLeadingZero(id)) ==>
      && show(gr).value.id in gr.ids && show(gr).value.id in gr.status && gr.status[show(gr).value.id] == show(gr).value.status
      && (show(gr).value.id in gr.subsumed ==> show(gr).value.subsumed == gr.subsumed[show(gr).value.id])
  }

  /** `commitClauses`'s choice of displayed clause keeps the text, covers every group and picks a member. */
  lemma DisplayOfChoice()
    ensures ShowKeepsText(DisplayOf) && ShowCovers(DisplayOf) && ShowPicksMember(DisplayOf)
  {
    forall gr: Group
      ensures (DisplayOf(gr).Some? ==> DisplayOf(gr).value.text == gr.text)
      ensures (forall id :: id in gr.ids && id in gr.status && IsShownStatus(gr.status[id]) ==> DisplayOf(gr).Some?)
    {
      DisplayOfSpec(gr);
    }
    forall gr: Group | DisplayOf(gr).Some? && (forall id :: id in gr.ids ==> NoLeadingZero(id))
      ensures DisplayOf(gr).value.id in gr.ids && DisplayOf(gr).value.id in gr.status && gr.status[DisplayOf(gr).value.id] == DisplayOf(gr).value.status
      ensures DisplayOf(gr).value.id in gr.subsumed ==> DisplayOf(gr).value.subsumed == gr.subsumed[DisplayOf(gr).value.id]
    {
      DisplayOfSpec(gr);
    }
  }

  /** The displayed clause of a group carries the group's text. */
  lemma GroupDisplayText(gr: Group, k: string, order: seq<string>, clauses: map<string, Clause>, show: Group -> Option<Display>, key: string -> string)
    requires GroupOf(gr, k, order, clauses, key) && show(gr).Some? && ShowKeepsText(show)
    ensures key(show(gr).value.text) == k
  {
    assert gr.ids[0] in gr.ids;
  }

  /** When no id has a leading zero, the displayed clause of a group is a stored clause of the group's text with its own status and flag. */
  lemma GroupDisplayStored(gr: Group, k: string, order: seq<string>, clauses: map<string, Clause>, show: Group -> Option<Display>, key: string -> string)
    requires GroupOf(gr, k, order, clauses, key) && show(gr).Some? && ShowPicksMember(show)
    requires forall id :: id in clauses ==> NoLeadingZero(id)
    ensures var d := show(gr).value;
      d.id in clauses && key(clauses[d.id].text) == k && StatusOr(clauses[d.id].status) == d.status && clauses[d.id].subsumed == d.subsumed
  {
  }

  /** A stored clause whose status is new, passive or active has its group shown. */
  lemma GroupShown(g: Grouping, order: seq<string>, clauses: map<string, Clause>, id: string, show: Group -> Option<Display>, key: string -> string)
    requires GroupsOf(g, order, clauses, key) && id in order && ShowCovers(show)
    requires IsShownStatus(StatusOr(clauses[id].status))
    ensures key(clauses[id].text) in g.keys && show(g.groups[key(clauses[id].text)]).Some?
  {
    var gr := g.groups[key(clauses[id].text)];
    assert GroupOf(gr, key(clauses[id].text), order, clauses, key);
  }

  /** The displayed clause of the i-th shown group carries that group's key. */
  lemma ShownKeyTexts(g: Grouping, order: seq<string>, clauses: map<string, Clause>, shown: seq<Display>, sk: seq<string>, show: Group -> Option<Display>, key: string -> string)
    requires forall k :: k in g.groups ==> GroupOf(g.groups[k], k, order, clauses, key)
    requires ShowKeepsText(show) && ShownFrom(shown, sk, g.keys, g.groups, show)
    ensures forall i :: 0 <= i < |shown| ==> key(shown[i].text) == sk[i]
  {
    forall i | 0 <= i < |shown|
      ensures key(shown[i].text) == sk[i]
    {
      GroupDisplayText(g.groups[sk[i]], sk[i], order, clauses, show, key);
    }
  }

  /** Displayed clauses of distinct shown groups carry distinct keys. */
  lemma ShownTextsDistinct(g: Grouping, order: seq<string>, clauses: map<string, Clause>, shown: seq<Display>, sk: seq<string>, show: Group -> Option<Display>, key: string -> string)
    requires forall k :: k in g.groups ==> GroupOf(g.groups[k], k, order, clauses, key)
    requires ShowKeepsText(show) && ShownFrom(shown, sk, g.keys, g.groups, show)
    ensures forall i, j :: 0 <= i < j < |shown| ==> key(shown[i].text) != key(shown[j].text)
  {
    ShownKeyTexts(g, order, clauses, shown, sk, show, key);
  }

  /** The key of every stored clause that is new, passive or active is the key of a displayed clause. */
  lemma ShownTextsCover(g: Grouping, order: seq<string>, clauses: map<string, Clause>, shown: seq<Display>, sk: seq<string>, show: Group -> Option<Display>, key: string -> string)
    requires GroupsOf(g, order, clauses, key) && forall id :: id in clauses ==> id in order
    requires ShowKeepsText(show) && ShowCovers(show) && ShownFrom(shown, sk, g.keys, g.groups, show)
    ensures forall id :: id in clauses && IsShownStatus(StatusOr(clauses[id].status)) ==>
      exists i :: 0 <= i < |shown| && key(shown[i].text) == key(clauses[id].text)
  {
    ShownKeyTexts(g, order, clauses, shown, sk, show, key);
    forall id | id in clauses && IsShownStatus(StatusOr(clauses[id].status))
      ensures exists i :: 0 <= i < |shown| && key(shown[i].text) == key(clauses[id].text)
    {
      GroupShown(g, order, clauses, id, show, key);
      var i :| 0 <= i < |sk| && sk[i] == key(clauses[id].text);
      assert key(shown[i].text) == sk[i];
    }
  }

  /** The grouping `g` and shown keys `sk` that `commitClauses` builds from a valid store, and the clauses `shown` it displays. */
  ghost predicate CommitShape(st: Store, g: Grouping, sk: seq<string>, shown: seq<Display>, key: string -> string)
  {
    && GroupsOf(g, st.clauseOrder, st.clauses, key)
    && (forall id :: id in st.clauses ==> id in st.clauseOrder)
    && ShownFrom(shown, sk, g.keys, g.groups, DisplayOf)
  }

  /** The grouping and shown keys behind the displayed clauses of a commit. */
  lemma CommitShapeOf(st: Store, key: string -> string) returns (g: Grouping, sk: seq<string>)
    requires Valid(st)
    ensures CommitShape(st, g, sk, CommitBy(st, key).clauses, key)
  {
    GroupedOf(st, key);
    g := Grouped(st, key);
    sk := ShownKeys(g.keys, g.groups, DisplayOf);
    ProjectedFrom(g.keys, g.groups, DisplayOf);
  }

  /** One displayed clause per normalised text, over a commit shape. */
  lemma ShapeOnePerText(st: Store, g: Grouping, sk: seq<string>, shown: seq<Display>, key: string -> string)
    requires CommitShape(st, g, sk, shown, key)
    ensures forall i, j :: 0 <= i < j < |shown| ==> key(shown[i].text) != key(shown[j].text)
    ensures forall id :: id in st.clauses && IsShownStatus(StatusOr(st.clauses[id].status)) ==>
      exists i :: 0 <= i < |shown| && key(shown[i].text) == key(st.clauses[id].text)
  {
    DisplayOfChoice();
    ShownTextsDistinct(g, st.clauseOrder, st.clauses, shown, sk, DisplayOf, key);
    ShownTextsCover(g, st.clauseOrder, st.clauses, shown, sk, DisplayOf, key);
  }

  /**
   * `commitClauses` shows one clause per distinct normalised text: no two
   * displayed clauses share a normalised text, and the text of every stored
   * clause that is new, passive or active is displayed.
   */
  lemma CommitOnePerText(st: Store, v: View)
    requires Valid(st) && v == Commit(st)
    ensures forall i, j :: 0 <= i < j < |v.clauses| ==>
      LineClassifier.NormalizeClauseText(v.clauses[i].text) != LineClassifier.NormalizeClauseText(v.clauses[j].text)
    ensures forall id :: id in st.clauses && IsShownStatus(StatusOr(st.clauses[id].status)) ==>
      exists i :: 0 <= i < |v.clauses| && LineClassifier.NormalizeClauseText(v.clauses[i].text) == LineClassifier.NormalizeClauseText(st.clauses[id].text)
  {
    var g, sk := CommitShapeOf(st, LineClassifier.NormalizeClauseText);
    ShapeOnePerText(st, g, sk, v.clauses, LineClassifier.NormalizeClauseText);
  }

  /** Displayed clauses of distinct shown groups, when no id has a leading zero, are stored clauses of their group's text, with distinct ids. */
  lemma ShownStored(g: Grouping, order: seq<string>, clauses: map<string, Clause>, shown: seq<Display>, sk: seq<string>, show: Group -> Option<Display>, key: string -> string)
    requires GroupsOf(g, order, clauses, key) && forall id :: id in clauses ==> NoLeadingZero(id)
    requires ShowKeepsText(show) && ShowPicksMember(show) && ShownFrom(shown, sk, g.keys, g.groups, show)
    ensures forall i :: 0 <= i < |shown| ==>
      && shown[i].id in clauses && key(clauses[shown[i].id].text) == key(shown[i].text)
      && StatusOr(clauses[shown[i].id].status) == shown[i].status && clauses[shown[i].id].subsumed == shown[i].subsumed
    ensures forall i, j :: 0 <= i < j < |shown| ==> shown[i].id != shown[j].id
  {
    forall i | 0 <= i < |shown|
      ensures shown[i].id in clauses && key(clauses[shown[i].id].text) == sk[i] == key(shown[i].text)
      ensures StatusOr(clauses[shown[i].id].status) == shown[i].status && clauses[shown[i].id].subsumed == shown[i].subsumed
    {
      GroupDisplayText(g.groups[sk[i]], sk[i], order, clauses, show, key);
      GroupDisplayStored(g.groups[sk[i]], sk[i], order, clauses, show, key);
    }
    forall i, j | 0 <= i < j < |shown|
      ensures shown[i].id != shown[j].id
    {
      GroupDisplayText(g.groups[sk[i]], sk[i], order, clauses, show, key);
      GroupDisplayStored(g.groups[sk[i]], sk[i], order, clauses, show, key);
      GroupDisplayStored(g.groups[sk[j]], sk[j], order, clauses, show, key);
      assert sk[i] != sk[j];
    }
  }

  /** Displayed clauses are stored clauses with distinct ids, over a commit shape. */
  lemma ShapeShowsStored(st: Store, g: Grouping, sk: seq<string>, shown: seq<Display>, key: string -> string)
    requires CommitShape(st, g, sk, shown, key) && forall id :: id in st.clauses ==> NoLeadingZero(id)
    ensures forall i :: 0 <= i < |shown| ==>
      && shown[i].id in st.clauses
      && key(st.clauses[shown[i].id].text) == key(shown[i].text)
      && StatusOr(st.clauses[shown[i].id].status) == shown[i].status
      && st.clauses[shown[i].id].subsumed == shown[i].subsumed
    ensures forall i, j :: 0 <= i < j < |shown| ==> shown[i].id != shown[j].id
  {
    DisplayOfChoice();
    ShownStored(g, st.clauseOrder, st.clauses, shown, sk, DisplayOf, key);
  }

  /**
   * When no stored id has a leading zero, every displayed clause is a stored
   * clause (its id, its normalised text, its status and its flag), and no id
   * is displayed twice.
   */
  lemma CommitShowsStored(st: Store, v: View)
    requires Valid(st) && v == Commit(st) && forall id :: id in st.clauses ==> NoLeadingZero(id)
    ensures forall i :: 0 <= i < |v.clauses| ==>
      && v.clauses[i].id in st.clauses
      && LineClassifier.NormalizeClauseText(st.clauses[v.clauses[i].id].text) == LineClassifier.NormalizeClauseText(v.clauses[i].text)
      && StatusOr(st.clauses[v.clauses[i].id].status) == v.clauses[i].status
      && st.clauses[v.clauses[i].id].subsumed == v.clauses[i].subsumed
    ensures forall i, j :: 0 <= i < j < |v.clauses| ==> v.clauses[i].id != v.clauses[j].id
  {
    var g, sk := CommitShapeOf(st, LineClassifier.NormalizeClauseText);
    ShapeShowsStored(st, g, sk, v.clauses, LineClassifier.NormalizeClauseText);
  }

  /** Some displayed clause has the id. */
  ghost predicate Displayed(shown: seq<Display>, id: string)
  {
    exists a :: 0 <= a < |shown| && shown[a].id == id
  }

  /** Edges that are images of stored edges under a map whose every value is displayed join displayed clauses. */
  lemma EdgesOnShown(p: Projection, es: seq<Edge>, order: seq<string>, edges: map<string, Edge>)
    requires MapLeadsToShown(p)
    requires forall i :: 0 <= i < |es| ==> FromStored(es[i], order, edges, p.idToDisplay)
    ensures forall i :: 0 <= i < |es| ==> Displayed(p.shown, es[i].from) && Displayed(p.shown, es[i].to)
  {
    forall i | 0 <= i < |es|
      ensures Displayed(p.shown, es[i].from) && Displayed(p.shown, es[i].to)
    {
      var m := p.idToDisplay;
      assert FromStored(es[i], order, edges, m);
      var k :| k in order && k in edges && Shows(edges[k], m) && m[edges[k].from] == es[i].from && m[edges[k].to] == es[i].to;
      assert edges[k].from in m && edges[k].to in m;
    }
  }

  /**
   * Displayed edges over displayed clauses: each joins two different
   * displayed clauses, their keys are pairwise different, and every stored
   * edge whose ends map onto two different displayed ids is there.
   */
  ghost predicate EdgesOverShown(shown: seq<Display>, es: seq<Edge>, edgeOrder: seq<string>, edges: map<string, Edge>, m: map<string, string>)
    requires forall k :: k in edgeOrder ==> k in edges
  {
    && (forall i :: 0 <= i < |es| ==> es[i].from != es[i].to && Displayed(shown, es[i].from) && Displayed(shown, es[i].to))
    && (forall i, j :: 0 <= i < j < |es| ==> EdgeKey(es[i].from, es[i].to) != EdgeKey(es[j].from, es[j].to))
    && (forall k :: k in edgeOrder && Shows(edges[k], m) ==> HasKey(es, EdgeKey(m[edges[k].from], m[edges[k].to])))
  }

  /** The edges remapped through the projection of the groups lie over the displayed clauses. */
  lemma ProjectionEdges(g: Grouping, order: seq<string>, clauses: map<string, Clause>, edgeOrder: seq<string>, edges: map<string, Edge>, p: Projection, es: seq<Edge>, key: string -> string)
    requires GroupsOf(g, order, clauses, key) && forall k :: k in edgeOrder ==> k in edges
    requires p == ProjectAll(g.keys, g.groups, DisplayOf) && es == RemapAll(edgeOrder, edges, p.idToDisplay)
    ensures EdgesOverShown(p.shown, es, edgeOrder, edges, p.idToDisplay)
  {
    var m := p.idToDisplay;
    GroupsDisjoint(g, order, clauses, key);
    ProjectMap(g.keys, g.groups, DisplayOf);
    RemapAllWellFormed(edgeOrder, edges, m);
    RemapAllSound(edgeOrder, edges, m);
    RemapAllComplete(edgeOrder, edges, m);
    EdgesOnShown(p, RemapAll(edgeOrder, edges, m), edgeOrder, edges);
  }

  /** `commitClauses` displays edges only between two different displayed clauses, each once, and every stored edge between two different displayed clauses. */
  lemma CommitEdges(st: Store, v: View)
    requires Valid(st) && v == Commit(st)
    ensures EdgesOverShown(v.clauses, v.edges, st.edgeOrder, st.edges, Projected(st, LineClassifier.NormalizeClauseText).idToDisplay)
  {
    var key := LineClassifier.NormalizeClauseText;
    GroupedOf(st, key);
    ProjectionEdges(Grouped(st, key), st.clauseOrder, st.clauses, st.edgeOrder, st.edges, Projected(st, key), v.edges, key);
  }
}

=== FILE: Lectures.dfy ===
/**
 * The lecture converter: `pdftotext` output is cut into slides at form feeds,
 * beamer overlays (consecutive slides with one title) are merged into their
 * fullest variant, each slide is formatted as Markdown lines with TPTP code
 * fenced, and the document text is escaped for MDX outside the code fences.
 * Python's `str.strip()` family strips the characters `str.isspace` accepts,
 * and `splitlines` is modelled as a split at '\n'.
 */
module Lectures {
  import opened Strings
  import opened Wrappers

  /** A slide: its heading and the lines under it. */
  datatype Slide = Slide(title: string, lines: seq<string>)

  // ---------------------------------------------------------------------------
  // Python string helpers
  // ---------------------------------------------------------------------------

  /** `s.strip()`. */
  function Strip(s: string): string
  {
    Trim(s, IsPySpace)
  }

  /** A line whose `strip()` is empty, which Python treats as false. */
  predicate Blank(s: string)
  {
    Strip(s) == []
  }

  /** A line is blank exactly when it is all white space. */
  lemma BlankIsAllSpace(s: string)
    ensures Blank(s) <==> AllSpace(s, IsPySpace)
  {
    var r := TrimRight(s, IsPySpace);
    if r != [] {
      assert r[|r| - 1] == s[|r| - 1];
    }
    if Strip(s) == [] {
      forall i | 0 <= i < |s|
        ensures IsPySpace(s[i])
      {
        assert s[i] == s[|r|..][i - |r|];
      }
    }
  }

  /** A string whose first character is not white space is not blank. */
  lemma NotBlankFromHead(s: string)
    requires s != [] && !IsPySpace(s[0])
    ensures !Blank(s)
  {
    BlankIsAllSpace(s);
  }

  /** `strip()` cuts a slice out of the string, and the slice neither starts nor ends with white space. */
  lemma StripSlice(s: string) returns (a: nat, b: nat)
    ensures a <= b <= |s| && Strip(s) == s[a..b]
    ensures Strip(s) == [] || (!IsPySpace(Strip(s)[0]) && !IsPySpace(Strip(s)[|Strip(s)| - 1]))
  {
    var r := TrimRight(s, IsPySpace);
    var t := TrimLeft(r, IsPySpace);
    a, b := |r| - |t|, |r|;
    assert s[a..b] == r[a..];
    if t != [] {
      assert t[|t| - 1] == r[|r| - 1];
    }
  }

  // ---------------------------------------------------------------------------
  // Slides and content keys
  // ---------------------------------------------------------------------------

  /** The stripped non-blank lines, in order. */
  function StrippedLines(lines: seq<string>): (r: seq<string>)
    ensures |r| <= |lines|
    ensures forall k :: 0 <= k < |r| ==> r[k] != []
  {
    if lines == [] then []
    else (if Blank(lines[0]) then [] else [Strip(lines[0])]) + StrippedLines(lines[1..])
  }

  /** `Slide.content_key`: the stripped non-blank lines joined by newlines. */
  function ContentKey(s: Slide): string
  {
    Join(StrippedLines(s.lines), "\n")
  }

  /** Joining non-empty parts gives the empty string only for no parts. */
  lemma {:induction false} JoinEmpty(parts: seq<string>, sep: string)
    requires forall k :: 0 <= k < |parts| ==> parts[k] != []
    ensures Join(parts, sep) == [] <==> parts == []
  {
    if |parts| > 1 {
      assert Join(parts, sep) == parts[0] + sep + Join(parts[1..], sep);
    }
  }

  /** No stripped lines means no non-blank line. */
  lemma {:induction false} StrippedLinesEmpty(lines: seq<string>)
    ensures StrippedLines(lines) == [] <==> forall k :: 0 <= k < |lines| ==> Blank(lines[k])
  {
    if lines != [] {
      StrippedLinesEmpty(lines[1..]);
      if StrippedLines(lines) == [] {
        forall k | 0 <= k < |lines|
          ensures Blank(lines[k])
        {
          if k > 0 {
            assert lines[k] == lines[1..][k - 1];
          }
        }
      } else if !Blank(lines[0]) {
      } else {
        var k :| 0 <= k < |lines[1..]| && !Blank(lines[1..][k]);
        assert lines[k + 1] == lines[1..][k];
      }
    }
  }

  /** The content key is empty exactly when every line of the slide is blank. */
  lemma ContentKeyEmpty(s: Slide)
    ensures ContentKey(s) == [] <==> forall k :: 0 <= k < |s.lines| ==> Blank(s.lines[k])
  {
    JoinEmpty(StrippedLines(s.lines), "\n");
    StrippedLinesEmpty(s.lines);
  }

  // ---------------------------------------------------------------------------
  // Pages
  // ---------------------------------------------------------------------------

  /** `[line.rstrip() for line in ps]`. */
  function RightStripped(ps: seq<string>): (r: seq<string>)
    ensures |r| == |ps|
    ensures forall k :: 0 <= k < |ps| ==> r[k] == TrimRight(ps[k], IsPySpace)
  {
    seq(|ps|, k requires 0 <= k < |ps| => TrimRight(ps[k], IsPySpace))
  }

  /** `page.strip().splitlines()`, each line right-stripped. */
  function PageLines(page: string): (r: seq<string>)
    ensures |r| >= 1
  {
    RightStripped(Split(Strip(page), '\n'))
  }

  /** `[ln for ln in lines if ln.strip()]`. */
  function Meaningful(lines: seq<string>): (r: seq<string>)
    ensures |r| <= |lines|
    ensures forall x :: x in r ==> x in lines
  {
    if lines == [] then []
    else (if Blank(lines[0]) then [] else [lines[0]]) + Meaningful(lines[1..])
  }

  /** `lines.index(x)`: the first position holding `x`. */
  function FirstIndex(lines: seq<string>, x: string): (i: nat)
    requires x in lines
    ensures i < |lines| && lines[i] == x && x !in lines[..i]
  {
    if lines[0] == x then 0
    else
      var j := FirstIndex(lines[1..], x);
      assert lines[..j + 1] == [lines[0]] + lines[1..][..j];
      j + 1
  }

  /** The slide one page yields, or nothing for a page without text. */
  function PageSlide(page: string): Option<Slide>
  {
    var strippedPage := Strip(page);
    if strippedPage == [] then None
    else
      var lines := PageLines(page);
      var meaningful := Meaningful(lines);
      if meaningful == [] then None
      else
        var title := Strip(meaningful[0]);
        Some(Slide(title, lines[FirstIndex(lines, meaningful[0]) + 1..]))
  }

  /** The slides of the pages, in page order, before overlays are merged. */
  function PageSlides(pages: seq<string>): (r: seq<Slide>)
    ensures |r| <= |pages|
  {
    if pages == [] then []
    else
      var init := PageSlides(pages[..|pages| - 1]);
      match PageSlide(pages[|pages| - 1])
      case None => init
      case Some(s) => init + [s]
  }

  /** The first meaningful line is the first non-blank one. */
  lemma {:induction false} MeaningfulHead(lines: seq<string>, k: nat)
    requires k < |lines| && !Blank(lines[k])
    requires forall j :: 0 <= j < k ==> Blank(lines[j])
    ensures Meaningful(lines) != [] && Meaningful(lines)[0] == lines[k]
  {
    if k > 0 {
      forall j | 0 <= j < k - 1
        ensures Blank(lines[1..][j])
      {
        assert lines[1..][j] == lines[j + 1];
      }
      MeaningfulHead(lines[1..], k - 1);
    }
  }

  /** A kept slide is headed by the page's first non-blank line, stripped, and holds the lines after it. */
  lemma PageSlideTitle(page: string, k: nat)
    requires Strip(page) != []
    requires k < |PageLines(page)| && !Blank(PageLines(page)[k])
    requires forall j :: 0 <= j < k ==> Blank(PageLines(page)[j])
    ensures PageSlide(page) == Some(Slide(Strip(PageLines(page)[k]), PageLines(page)[k + 1..]))
  {
    var lines := PageLines(page);
    MeaningfulHead(lines, k);
    assert lines[k] !in lines[..k] by {
      forall j | 0 <= j < k
        ensures lines[..k][j] != lines[k]
      {
        assert lines[..k][j] == lines[j];
      }
    }
    FirstIndexAt(lines, k);
  }

  /** The first occurrence is the only one with no earlier occurrence. */
  lemma {:induction false} FirstIndexAt(lines: seq<string>, k: nat)
    requires k < |lines| && lines[k] !in lines[..k]
    ensures FirstIndex(lines, lines[k]) == k
    decreases k
  {
    if k > 0 {
      assert lines[0] == lines[..k][0];
      assert lines[1..][..k - 1] == lines[..k][1..];
      FirstIndexAt(lines[1..], k - 1);
    }
  }

  /** The first line of a page with text is not blank. */
  lemma FirstLineNotBlank(page: string)
    requires Strip(page) != []
    ensures !Blank(PageLines(page)[0])
  {
    var sp := Strip(page);
    var _, _ := StripSlice(page);
    var first := Split(sp, '\n')[0];
    if '\n' in sp {
      var i := IndexOf(sp, '\n');
      SplitAt(sp, '\n', i);
      assert i > 0;
      assert first == sp[..i];
    }
    assert first != [] && first[0] == sp[0];
    var r := TrimRight(first, IsPySpace);
    BlankIsAllSpace(first);
    assert r != [];
    assert r[0] == first[0];
    NotBlankFromHead(r);
  }

  /** `parse_slides` drops exactly the pages with no text. */
  lemma PageSlideSome(page: string)
    ensures PageSlide(page).Some? <==> !AllSpace(page, IsPySpace)
  {
    BlankIsAllSpace(page);
    if Strip(page) != [] {
      FirstLineNotBlank(page);
      MeaningfulHead(PageLines(page), 0);
    }
  }

  /** Pages that all have text give one slide each. */
  lemma {:induction false} PageSlidesCount(pages: seq<string>)
    requires forall k :: 0 <= k < |pages| ==> !AllSpace(pages[k], IsPySpace)
    ensures |PageSlides(pages)| == |pages|
  {
    if pages != [] {
      PageSlidesCount(pages[..|pages| - 1]);
      PageSlideSome(pages[|pages| - 1]);
    }
  }

  // ---------------------------------------------------------------------------
  // Overlay merging
  // ---------------------------------------------------------------------------

  /** `len(slide.content_key())`. */
  function KeyLength(s: Slide): nat
  {
    |ContentKey(s)|
  }

  /** Where the run of slides titled like `s[i]` ends, scanning on from `j`. */
  function RunFrom(s: seq<Slide>, i: nat, j: nat): (e: nat)
    requires i < j <= |s|
    ensures j <= e <= |s|
    ensures forall t :: j <= t < e ==> s[t].title == s[i].title
    ensures e == |s| || s[e].title != s[i].title
    decreases |s| - j
  {
    if j < |s| && s[j].title == s[i].title then RunFrom(s, i, j + 1) else j
  }

  /** The end of the maximal run of equal titles starting at `i`. */
  function RunEnd(s: seq<Slide>, i: nat): (e: nat)
    requires i < |s|
    ensures i < e <= |s|
    ensures forall t :: i <= t < e ==> s[t].title == s[i].title
    ensures e == |s| || s[e].title != s[i].title
  {
    RunFrom(s, i, i + 1)
  }

  /** The slide the inner loop holds as `best` after `s[i..j]`: a longer or equally long content key replaces it. */
  function BestIn(s: seq<Slide>, i: nat, j: nat, len: Slide -> nat): (b: nat)
    requires i < j <= |s|
    ensures i <= b < j
    ensures forall t :: i <= t < j ==> len(s[t]) <= len(s[b])
    ensures forall t :: b < t < j ==> len(s[t]) < len(s[b])
    decreases j - i
  {
    if j == i + 1 then i
    else
      var b := BestIn(s, i, j - 1, len);
      if len(s[j - 1]) >= len(s[b]) then j - 1 else b
  }

  /** The positions `merge_overlays` keeps from `i` on, one per run; they increase and stay in range. */
  function Picks(s: seq<Slide>, i: nat, len: Slide -> nat): (p: seq<nat>)
    requires i <= |s|
    ensures |p| <= |s| - i
    ensures forall k :: 0 <= k < |p| ==> i <= p[k] < |s|
    ensures forall k, l :: 0 <= k < l < |p| ==> p[k] < p[l]
    decreases |s| - i
  {
    if i == |s| then []
    else
      var j := RunEnd(s, i);
      var rest := Picks(s, j, len);
      assert forall k :: 0 <= k < |rest| ==> j <= rest[k];
      [BestIn(s, i, j, len)] + rest
  }

  /** The slides at positions `p`, in that order. */
  function Select(s: seq<Slide>, p: seq<nat>): (r: seq<Slide>)
    requires forall k :: 0 <= k < |p| ==> p[k] < |s|
    ensures |r| == |p|
    ensures forall k :: 0 <= k < |p| ==> r[k] == s[p[k]]
  {
    if p == [] then [] else [s[p[0]]] + Select(s, p[1..])
  }

  /** Merging by a given length of slides: the slides at the kept positions. */
  function MergeBy(s: seq<Slide>, len: Slide -> nat): seq<Slide>
  {
    Select(s, Picks(s, 0, len))
  }

  /** What `merge_overlays` returns: runs compared by the length of their content keys. */
  function Merge(s: seq<Slide>): seq<Slide>
  {
    MergeBy(s, KeyLength)
  }

  /** `r` is the subsequence of `s` at the increasing positions `p`. */
  predicate SubsequenceAt(r: seq<Slide>, s: seq<Slide>, p: seq<nat>)
  {
    && |p| == |r|
    && (forall k :: 0 <= k < |p| ==> p[k] < |s| && r[k] == s[p[k]])
    && (forall k, l :: 0 <= k < l < |p| ==> p[k] < p[l])
  }

  /** The merged slides are an order-preserving subsequence of the input, so no more of them. */
  lemma MergeIsSubsequence(s: seq<Slide>, len: Slide -> nat)
    ensures SubsequenceAt(MergeBy(s, len), s, Picks(s, 0, len))
    ensures |MergeBy(s, len)| <= |s|
  {
  }

  /** Slides `a` and `t` lie in one run of equal titles. */
  predicate SameRun(s: seq<Slide>, a: nat, t: nat)
    requires a < |s| && t < |s|
  {
    forall u :: 0 <= u < |s| && (a <= u <= t || t <= u <= a) ==> s[u].title == s[a].title
  }

  /** `s[b]` is the fullest variant of its run: no slide of the run has a longer content key, and no later one an equally long key. */
  predicate RunBest(s: seq<Slide>, b: nat, len: Slide -> nat)
    requires b < |s|
  {
    forall t :: 0 <= t < |s| && SameRun(s, b, t) ==>
      len(s[t]) <= len(s[b]) && (b < t ==> len(s[t]) < len(s[b]))
  }

  /** Each kept position is the fullest variant of its maximal run. */
  lemma {:induction false} PicksBest(s: seq<Slide>, i: nat, len: Slide -> nat)
    requires i <= |s|
    requires 0 < i < |s| ==> s[i - 1].title != s[i].title
    ensures forall k :: 0 <= k < |Picks(s, i, len)| ==> RunBest(s, Picks(s, i, len)[k], len)
    decreases |s| - i
  {
    if i < |s| {
      var j := RunEnd(s, i);
      var b := BestIn(s, i, j, len);
      forall t | 0 <= t < |s| && SameRun(s, b, t)
        ensures i <= t < j
      {
      }
      PicksBest(s, j, len);
    }
  }

  /** The first position kept from `i` carries the title of `s[i]`. */
  lemma PicksTitle(s: seq<Slide>, i: nat, len: Slide -> nat)
    requires i < |s|
    ensures s[Picks(s, i, len)[0]].title == s[i].title
  {
  }

  /** Consecutive kept slides have different titles. */
  lemma {:induction false} PicksAdjacent(s: seq<Slide>, i: nat, len: Slide -> nat)
    requires i <= |s|
    ensures forall k, l :: 0 <= k && l == k + 1 && l < |Picks(s, i, len)| ==>
      s[Picks(s, i, len)[k]].title != s[Picks(s, i, len)[l]].title
    decreases |s| - i
  {
    if i < |s| {
      var j := RunEnd(s, i);
      PicksAdjacent(s, j, len);
      if j < |s| {
        PicksTitle(s, j, len);
      }
    }
  }

  /** Slide `t` lies in the run of some position of `p`. */
  predicate RunKept(s: seq<Slide>, p: seq<nat>, t: nat)
    requires t < |s|
  {
    exists k :: 0 <= k < |p| && p[k] < |s| && SameRun(s, p[k], t)
  }

  /** Every slide from `i` on lies in the run of a kept position: no run is dropped. */
  lemma {:induction false} PicksCover(s: seq<Slide>, i: nat, len: Slide -> nat)
    requires i <= |s|
    ensures forall t :: i <= t < |s| ==> RunKept(s, Picks(s, i, len), t)
    decreases |s| - i
  {
    if i < |s| {
      var j := RunEnd(s, i);
      var b := BestIn(s, i, j, len);
      var p := Picks(s, i, len);
      var rest := Picks(s, j, len);
      assert p == [b] + rest;
      PicksCover(s, j, len);
      forall t | i <= t < |s|
        ensures RunKept(s, p, t)
      {
        if t < j {
          assert p[0] == b && SameRun(s, b, t);
        } else {
          assert RunKept(s, rest, t);
          var k :| 0 <= k < |rest| && rest[k] < |s| && SameRun(s, rest[k], t);
          assert p[k + 1] == rest[k];
        }
      }
    }
  }

  /** No two kept positions lie in one run: each run contributes at most one slide. */
  lemma {:induction false} PicksSeparateRuns(s: seq<Slide>, i: nat, len: Slide -> nat)
    requires i <= |s|
    ensures forall k, l :: 0 <= k < l < |Picks(s, i, len)| ==> !SameRun(s, Picks(s, i, len)[k], Picks(s, i, len)[l])
    decreases |s| - i
  {
    if i < |s| {
      var j := RunEnd(s, i);
      var b := BestIn(s, i, j, len);
      var p := Picks(s, i, len);
      var rest := Picks(s, j, len);
      assert p == [b] + rest;
      PicksSeparateRuns(s, j, len);
      forall k, l | 0 <= k < l < |p|
        ensures !SameRun(s, p[k], p[l])
      {
        if k == 0 {
          assert p[l] == rest[l - 1] && j <= p[l];
          assert s[j].title != s[b].title;
        } else {
          assert p[k] == rest[k - 1] && p[l] == rest[l - 1];
        }
      }
    }
  }

  /**
   * `merge_overlays` keeps exactly one slide of each maximal run of equal
   * titles, the run's fullest variant, and no two adjacent merged slides share
   * a title.
   */
  lemma MergeKeepsBest(s: seq<Slide>, len: Slide -> nat)
    ensures forall k :: 0 <= k < |Picks(s, 0, len)| ==> RunBest(s, Picks(s, 0, len)[k], len)
    ensures forall t :: 0 <= t < |s| ==> RunKept(s, Picks(s, 0, len), t)
    ensures forall k, l :: 0 <= k < l < |Picks(s, 0, len)| ==> !SameRun(s, Picks(s, 0, len)[k], Picks(s, 0, len)[l])
    ensures forall k, l :: 0 <= k && l == k + 1 && l < |MergeBy(s, len)| ==> MergeBy(s, len)[k].title != MergeBy(s, len)[l].title
  {
    PicksBest(s, 0, len);
    PicksCover(s, 0, len);
    PicksSeparateRuns(s, 0, len);
    PicksAdjacent(s, 0, len);
  }

  /** Without adjacent equal titles, every slide is its own run and is kept. */
  lemma {:induction false} SelectPicksSuffix(s: seq<Slide>, i: nat, len: Slide -> nat)
    requires i <= |s|
    requires forall k, l :: 0 <= k && l == k + 1 && l < |s| ==> s[k].title != s[l].title
    ensures Select(s, Picks(s, i, len)) == s[i..]
    decreases |s| - i
  {
    if i < |s| {
      SelectPicksSuffix(s, i + 1, len);
      SingleRun(s, i, len);
      PicksStep(s, i, len);
      assert s[i..] == [s[i]] + s[i + 1..];
    }
  }

  /** A slide titled differently from the next one is a run of its own. */
  lemma SingleRun(s: seq<Slide>, i: nat, len: Slide -> nat)
    requires i < |s|
    requires i + 1 < |s| ==> s[i].title != s[i + 1].title
    ensures RunEnd(s, i) == i + 1 && BestIn(s, i, i + 1, len) == i
  {
  }

  /** With no two adjacent slides sharing a title, merging changes nothing. */
  lemma MergeIdentity(s: seq<Slide>, len: Slide -> nat)
    requires forall k, l :: 0 <= k && l == k + 1 && l < |s| ==> s[k].title != s[l].title
    ensures MergeBy(s, len) == s
  {
    SelectPicksSuffix(s, 0, len);
  }

  /** One more kept slide: the fullest of the run at `i`, then those kept after the run. */
  lemma PicksStep(s: seq<Slide>, i: nat, len: Slide -> nat)
    requires i < |s|
    ensures Select(s, Picks(s, i, len)) ==
      [s[BestIn(s, i, RunEnd(s, i), len)]] + Select(s, Picks(s, RunEnd(s, i), len))
  {
    var p := Picks(s, i, len);
    assert p[1..] == Picks(s, RunEnd(s, i), len);
  }

  /** The inner loop of `merge_overlays`: scan the run of equal titles from `i`, keeping the fullest slide. */
  method BestOfRun(slides: seq<Slide>, i: nat) returns (best: Slide, j: nat)
    requires i < |slides|
    ensures j == RunEnd(slides, i)
    ensures best == slides[BestIn(slides, i, j, KeyLength)]
  {
    var current := slides[i];
    best := current;
    ghost var b := i;
    j := i + 1;
    while j < |slides| && slides[j].title == current.title
      invariant i < j <= |slides|
      invariant RunFrom(slides, i, j) == RunEnd(slides, i)
      invariant b == BestIn(slides, i, j, KeyLength) && best == slides[b]
      decreases |slides| - j
    {
      var candidate := slides[j];
      BestInStep(slides, i, j, KeyLength);
      if |ContentKey(candidate)| >= |ContentKey(best)| {
        best := candidate;
        b := j;
      }
      j := j + 1;
    }
  }

  /** One more slide in the run: the later slide wins unless its key is shorter. */
  lemma BestInStep(s: seq<Slide>, i: nat, j: nat, len: Slide -> nat)
    requires i < j < |s|
    ensures BestIn(s, i, j + 1, len) == if len(s[j]) >= len(s[BestIn(s, i, j, len)]) then j else BestIn(s, i, j, len)
  {
  }

  /** `merge_overlays`: the outer loop keeps one slide per run. */
  method MergeOverlays(slides: seq<Slide>) returns (merged: seq<Slide>)
    ensures merged == Merge(slides)
  {
    merged := [];
    var i := 0;
    while i < |slides|
      invariant i <= |slides|
      invariant merged + Select(slides, Picks(slides, i, KeyLength)) == Merge(slides)
      decreases |slides| - i
    {
      var best, j := BestOfRun(slides, i);
      PicksStep(slides, i, KeyLength);
      AppendAssoc(merged, [best], Select(slides, Picks(slides, j, KeyLength)));
      merged := merged + [best];
      i := j;
    }
  }

  /** `parse_slides`: the slide of each page with text (PageSlide is the body of the page loop), then overlays merged. */
  method ParseSlides(rawText: string) returns (slides: seq<Slide>)
    ensures slides == Merge(PageSlides(Split(rawText, '\U{000C}')))
  {
    var pageTexts := Split(rawText, '\U{000C}');
    var pages: seq<Slide> := [];
    for i := 0 to |pageTexts|
      invariant pages == PageSlides(pageTexts[..i])
    {
      PrefixOfPrefix(pageTexts, i, i + 1);
      var slide := PageSlide(pageTexts[i]);
      if slide.None? {
        continue;
      }
      pages := pages + [slide.value];
    }
    PrefixAll(pageTexts);
    slides := MergeOverlays(pages);
  }

  // ---------------------------------------------------------------------------
  // Line classification
  // ---------------------------------------------------------------------------

  /** `is_code_line`: after left-stripping, a TPTP comment, directive or query, an include, a formula or a `run ` command. */
  predicate IsCodeLine(line: string)
  {
    var st := TrimLeft(line, IsPySpace);
    && st != []
    && (|| StartsWith(st, "%") || StartsWith(st, "!") || StartsWith(st, "?")
        || StartsWith(st, "include(") || Contains(st, "fof(") || Contains(st, "cnf(")
        || StartsWith(st, "run "))
  }

  /** A blank line is never a code line. */
  lemma CodeLineNotBlank(line: string)
    requires IsCodeLine(line)
    ensures !Blank(line)
  {
    BlankIsAllSpace(line);
  }

  /** Left-stripping twice is left-stripping once. */
  lemma TrimLeftTwice(s: string)
    ensures TrimLeft(TrimLeft(s, IsPySpace), IsPySpace) == TrimLeft(s, IsPySpace)
  {
    var t := TrimLeft(s, IsPySpace);
    assert Span(t, IsPySpace) == 0;
  }

  /** Indentation does not decide whether a line is code. */
  lemma CodeLineIgnoresIndent(line: string)
    ensures IsCodeLine(TrimLeft(line, IsPySpace)) == IsCodeLine(line)
  {
    TrimLeftTwice(line);
  }

  /** A TPTP comment line is code, however it is indented. */
  lemma CommentIsCode(indent: string, rest: string)
    requires AllSpace(indent, IsPySpace)
    ensures IsCodeLine(indent + "%" + rest)
  {
    assert indent + "%" + rest == indent + ("%" + rest);
    TrimLeftOfSpaces(indent, "%" + rest, IsPySpace);
  }

  /** The bullet glyphs pdftotext renders for beamer items: U+25B6, U+2022 and U+21AD. */
  predicate IsBulletGlyph(c: char)
  {
    c == '\U{25B6}' || c == '\U{2022}' || c == '\U{21AD}'
  }

  /** `normalise_bullet`: leading glyphs dropped, the text stripped, then one leading "- " dropped and the rest stripped. */
  function NormaliseBullet(text: string): string
  {
    var t := Strip(TrimLeft(text, IsBulletGlyph));
    if StartsWith(Lower(t), "- ") then Strip(t[2..]) else t
  }

  /** Lower-casing does not change whether a string starts with "- ". */
  lemma LowerDash(t: string)
    ensures StartsWith(Lower(t), "- ") <==> StartsWith(t, "- ")
  {
    if |t| >= 2 {
      assert Lower(t)[..2] == [LowerChar(t[0]), LowerChar(t[1])];
      assert t[..2] == [t[0], t[1]];
    }
  }

  /** Leading bullet glyphs make no difference. */
  lemma NormaliseBulletGlyphs(glyphs: string, text: string)
    requires AllSpace(glyphs, IsBulletGlyph)
    requires text == [] || !IsBulletGlyph(text[0])
    ensures NormaliseBullet(glyphs + text) == NormaliseBullet(text)
  {
    assert TrimLeft(glyphs + text, IsBulletGlyph) == TrimLeft(text, IsBulletGlyph) by {
      TrimLeftOfSpaces(glyphs, text, IsBulletGlyph);
      assert Span(text, IsBulletGlyph) == 0;
    }
  }

  /** The normalised text neither starts nor ends with white space. */
  lemma NormaliseBulletStripped(text: string)
    ensures NormaliseBullet(text) == [] || (!IsPySpace(NormaliseBullet(text)[0]) && !IsPySpace(NormaliseBullet(text)[|NormaliseBullet(text)| - 1]))
  {
    var t := Strip(TrimLeft(text, IsBulletGlyph));
    if StartsWith(Lower(t), "- ") {
      var _, _ := StripSlice(t[2..]);
    } else {
      var _, _ := StripSlice(TrimLeft(text, IsBulletGlyph));
    }
  }

  /** The character class of the continuation pattern `[A-Za-z0-9_\[\]\(\)\s\:\=\.\,\-\+\>\<\!\?\&\|\%/]`. */
  predicate IsCodeTextChar(c: char)
  {
    IsLetter(c) || IsDigit(c) || c == '_' || c == '[' || c == ']' || c == '(' || c == ')'
    || IsPySpace(c) || c in ":=.,-+><!?&|%/"
  }

  /** A line the continuation pattern matches in full, as `re.fullmatch` with `+`. */
  predicate IsCodeContinuation(s: string)
  {
    s != [] && AllOf(s, IsCodeTextChar)
  }

  // ---------------------------------------------------------------------------
  // Slide formatting
  // ---------------------------------------------------------------------------

  /** `re.sub(r"\s+", " ", s)`: every run of white space becomes one space. */
  function SquashSpace(s: string): (r: string)
    ensures |r| <= |s|
    decreases |s|
  {
    if s == [] then []
    else if IsPySpace(s[0]) then " " + SquashSpace(s[Span(s, IsPySpace)..])
    else [s[0]] + SquashSpace(s[1..])
  }

  /** Squashing keeps out any character other than the space that was not there. */
  lemma {:induction false} SquashKeepsOut(s: string, c: char)
    requires c !in s && c != ' '
    ensures c !in SquashSpace(s)
    decreases |s|
  {
    if s != [] {
      if IsPySpace(s[0]) {
        SquashKeepsOut(s[Span(s, IsPySpace)..], c);
      } else {
        SquashKeepsOut(s[1..], c);
      }
    }
  }

  /** Text without white space is not changed by squashing. */
  lemma {:induction false} SquashNoSpace(s: string)
    requires NoSpace(s, IsPySpace)
    ensures SquashSpace(s) == s
    decreases |s|
  {
    if s != [] {
      SquashNoSpace(s[1..]);
    }
  }

  /** Code fences as `format_slide` writes them. */
  const OpenFence: string := "```tptp"
  const CloseFence: string := "```"

  /** The buffers of `format_slide`: Markdown lines so far, the pending paragraph, the pending code block, and whether a code block is open. */
  datatype Fmt = Fmt(md: seq<string>, paragraph: seq<string>, code: seq<string>, inCode: bool)

  /** The line `flush_paragraph` emits: the paragraph joined by spaces, white space squashed, stripped. */
  function ParagraphLine(paragraph: seq<string>): string
  {
    Strip(SquashSpace(Join(paragraph, " ")))
  }

  /** `md_lines` after `flush_paragraph`. */
  function ParagraphFlushed(md: seq<string>, paragraph: seq<string>): seq<string>
  {
    if paragraph == [] then md else md + [ParagraphLine(paragraph)]
  }

  /** `md_lines` after `flush_code`: a non-empty buffer is written between an opening and a closing fence. */
  function CodeFlushed(md: seq<string>, code: seq<string>): seq<string>
  {
    if code == [] then md else md + [OpenFence] + code + [CloseFence]
  }

  /** `flush_paragraph`. */
  function FlushParagraph(st: Fmt): Fmt
  {
    st.(md := ParagraphFlushed(st.md, st.paragraph), paragraph := [])
  }

  /** `flush_code`. */
  function FlushCode(st: Fmt): Fmt
  {
    st.(md := CodeFlushed(st.md, st.code), code := [], inCode := false)
  }

  /** One pass of the loop of `format_slide` over a raw line. */
  function Feed(st: Fmt, raw: string): Fmt
  {
    var line := TrimRight(raw, IsPySpace);
    var stripped := Strip(line);
    if stripped == [] then
      (if st.inCode then st.(code := st.code + [""]) else FlushParagraph(st))
    else if IsBulletGlyph(stripped[0]) then
      var st1 := FlushParagraph(FlushCode(st));
      var bulletText := NormaliseBullet(stripped);
      if bulletText != [] then st1.(md := st1.md + ["- " + bulletText]) else st1
    else if IsCodeLine(line) then
      var st1 := FlushParagraph(st);
      var st2 := if !st1.inCode then st1.(inCode := true, code := []) else st1;
      st2.(code := st2.code + [stripped])
    else if st.inCode && IsCodeContinuation(stripped) then
      st.(code := st.code + [stripped])
    else
      var st1 := FlushCode(st);
      var md := st1.md;
      if md != [] && StartsWith(md[|md| - 1], "- ") then
        st1.(md := md[..|md| - 1] + [md[|md| - 1] + " " + stripped])
      else st1.(paragraph := st1.paragraph + [stripped])
  }

  /** The buffers after the loop has seen `lines`. */
  function FeedAll(lines: seq<string>): Fmt
  {
    if lines == [] then Fmt([], [], [], false)
    else Feed(FeedAll(lines[..|lines| - 1]), lines[|lines| - 1])
  }

  /** The lines satisfying `keep`, in order. */
  function KeepWhere(xs: seq<string>, keep: string -> bool): (r: seq<string>)
    ensures |r| <= |xs|
    ensures forall k :: 0 <= k < |r| ==> keep(r[k])
  {
    if xs == [] then []
    else KeepWhere(xs[..|xs| - 1], keep) + (if keep(xs[|xs| - 1]) then [xs[|xs| - 1]] else [])
  }

  /** A line `ln.strip()` leaves non-empty. */
  predicate NonBlank(s: string)
  {
    !Blank(s)
  }

  /** `[ln for ln in md_lines if ln.strip()]`. */
  function Kept(md: seq<string>): seq<string>
  {
    KeepWhere(md, NonBlank)
  }

  /** The items of an outline slide: "- " and the stripped line, for each non-blank line. */
  function OutlineItems(lines: seq<string>): seq<string>
  {
    if lines == [] then []
    else
      var last := Strip(lines[|lines| - 1]);
      OutlineItems(lines[..|lines| - 1]) + (if last != [] then ["- " + last] else [])
  }

  /** One more line adds its item when it has text. */
  lemma OutlineItemsStep(lines: seq<string>, i: nat)
    requires i < |lines|
    ensures OutlineItems(lines[..i + 1]) ==
      OutlineItems(lines[..i]) + (if Strip(lines[i]) != [] then ["- " + Strip(lines[i])] else [])
  {
    PrefixOfPrefix(lines, i, i + 1);
  }

  /** `format_slide`. */
  function FormatSlide(slide: Slide): seq<string>
  {
    if Lower(slide.title) == "outline" then OutlineItems(slide.lines)
    else
      var st := FlushCode(FlushParagraph(FeedAll(slide.lines)));
      Kept(st.md)
  }

  /** The loop of `format_slide` over an outline slide. */
  method OutlineLines(lines: seq<string>) returns (items: seq<string>)
    ensures items == OutlineItems(lines)
  {
    items := [];
    for i := 0 to |lines|
      invariant items == OutlineItems(lines[..i])
    {
      OutlineItemsStep(lines, i);
      var stripped := Strip(lines[i]);
      if stripped != [] {
        items := items + ["- " + stripped];
      }
    }
    PrefixAll(lines);
  }

  /** One pass of the main loop of `format_slide`; each `return` is a `continue` of the loop. */
  method FeedLine(md0: seq<string>, paragraph0: seq<string>, code0: seq<string>, inCode0: bool, rawLine: string)
    returns (md: seq<string>, paragraph: seq<string>, code: seq<string>, inCode: bool)
    ensures Fmt(md, paragraph, code, inCode) == Feed(Fmt(md0, paragraph0, code0, inCode0), rawLine)
  {
    md, paragraph, code, inCode := md0, paragraph0, code0, inCode0;
    var line := TrimRight(rawLine, IsPySpace);
    if Strip(line) == [] {
      if inCode {
        code := code + [""];
      } else {
        md, paragraph := ParagraphFlushed(md, paragraph), [];
      }
      return;
    }
    var stripped := Strip(line);
    if IsBulletGlyph(stripped[0]) {
      md, code, inCode := CodeFlushed(md, code), [], false;
      md, paragraph := ParagraphFlushed(md, paragraph), [];
      var bulletText := NormaliseBullet(stripped);
      if bulletText != [] {
        md := md + ["- " + bulletText];
      }
      return;
    }
    if IsCodeLine(line) {
      md, paragraph := ParagraphFlushed(md, paragraph), [];
      if !inCode {
        inCode := true;
        code := [];
      }
      code := code + [stripped];
      return;
    }
    if inCode && IsCodeContinuation(stripped) {
      code := code + [stripped];
      return;
    }
    md, code, inCode := CodeFlushed(md, code), [], false;
    if md != [] && StartsWith(md[|md| - 1], "- ") {
      md := md[..|md| - 1] + [md[|md| - 1] + " " + stripped];
      return;
    }
    paragraph := paragraph + [stripped];
  }

  /** `format_slide`: the outline loop, or the main loop over the buffers followed by the final flushes and the blank-line filter. */
  method FormatSlideLines(slide: Slide) returns (out: seq<string>)
    ensures out == FormatSlide(slide)
  {
    var lines := slide.lines;
    if Lower(slide.title) == "outline" {
      out := OutlineLines(lines);
      return;
    }
    var md: seq<string> := [];
    var paragraph: seq<string> := [];
    var code: seq<string> := [];
    var inCode := false;
    for i := 0 to |lines|
      invariant Fmt(md, paragraph, code, inCode) == FeedAll(lines[..i])
    {
      PrefixOfPrefix(lines, i, i + 1);
      md, paragraph, code, inCode := FeedLine(md, paragraph, code, inCode, lines[i]);
    }
    PrefixAll(lines);
    md, paragraph := ParagraphFlushed(md, paragraph), [];
    md, code, inCode := CodeFlushed(md, code), [], false;
    out := Kept(md);
  }

  // ---------------------------------------------------------------------------
  // Properties of the formatted slide
  // ---------------------------------------------------------------------------

  /** The stripped lines of one more line. */
  lemma {:induction false} StrippedSnoc(lines: seq<string>, x: string)
    ensures StrippedLines(lines + [x]) == StrippedLines(lines) + (if Blank(x) then [] else [Strip(x)])
  {
    if lines != [] {
      assert (lines + [x])[1..] == lines[1..] + [x];
      StrippedSnoc(lines[1..], x);
      var h := if Blank(lines[0]) then [] else [Strip(lines[0])];
      AppendAssoc(h, StrippedLines(lines[1..]), if Blank(x) then [] else [Strip(x)]);
    } else {
      assert lines + [x] == [x];
    }
  }

  /** An outline slide lists its content-key lines, each behind "- ". */
  lemma {:induction false} OutlineMatchesKey(lines: seq<string>)
    ensures |OutlineItems(lines)| == |StrippedLines(lines)|
    ensures forall k :: 0 <= k < |OutlineItems(lines)| ==> OutlineItems(lines)[k] == "- " + StrippedLines(lines)[k]
  {
    if lines != [] {
      var init := lines[..|lines| - 1];
      OutlineMatchesKey(init);
      InitLast(lines);
      StrippedSnoc(init, lines[|lines| - 1]);
    }
  }

  /** A slide titled "outline" in any letter case becomes one "- " item per non-blank line, its stripped text. */
  lemma FormatOutline(slide: Slide)
    requires Lower(slide.title) == "outline"
    ensures |FormatSlide(slide)| == |StrippedLines(slide.lines)|
    ensures forall k :: 0 <= k < |FormatSlide(slide)| ==> FormatSlide(slide)[k] == "- " + StrippedLines(slide.lines)[k]
  {
    OutlineMatchesKey(slide.lines);
  }

  /** A line starting with "- " is neither blank nor a fence. */
  lemma DashLine(x: string)
    requires StartsWith(x, "- ")
    ensures !Blank(x) && !IsFence(x)
  {
    assert x[0] == '-';
    NotBlankFromHead(x);
    assert Span(x, IsPySpace) == 0;
  }

  /** Every outline item starts with "- ". */
  lemma {:induction false} OutlineDashes(lines: seq<string>)
    ensures forall k :: 0 <= k < |OutlineItems(lines)| ==> StartsWith(OutlineItems(lines)[k], "- ")
  {
    if lines != [] {
      OutlineDashes(lines[..|lines| - 1]);
    }
  }

  /** `format_slide` never emits a blank line. */
  lemma FormatNoBlank(slide: Slide)
    ensures forall k :: 0 <= k < |FormatSlide(slide)| ==> !Blank(FormatSlide(slide)[k])
  {
    if Lower(slide.title) == "outline" {
      OutlineDashes(slide.lines);
      forall k | 0 <= k < |FormatSlide(slide)|
        ensures !Blank(FormatSlide(slide)[k])
      {
        DashLine(FormatSlide(slide)[k]);
      }
    }
  }

  /** `line.lstrip().startswith("```")`, the test by which the escaping passes toggle their code-block flag. */
  predicate IsFence(line: string)
  {
    StartsWith(TrimLeft(line, IsPySpace), "```")
  }

  /**
   * The fence structure of some lines: Some(open) while every fence line so
   * far is "```tptp" outside a block or "```" inside one, with `open` telling
   * whether a block is open; None once a fence line breaks that pattern.
   */
  function Fences(lines: seq<string>): Option<bool>
  {
    if lines == [] then Some(false)
    else
      var l := lines[|lines| - 1];
      match Fences(lines[..|lines| - 1])
      case None => None
      case Some(open) =>
        if !IsFence(l) then Some(open)
        else if !open && l == OpenFence then Some(true)
        else if open && l == CloseFence then Some(false)
        else None
  }

  /** Blocks open with "```tptp" and close with "```", never nest, and the last one is closed. */
  predicate WellFenced(lines: seq<string>)
  {
    Fences(lines) == Some(false)
  }

  /** A string without a backquote. */
  predicate TickFree(s: string)
  {
    '`' !in s
  }

  /** A line without a backquote is not a fence. */
  lemma TickFreeNotFence(l: string)
    requires TickFree(l)
    ensures !IsFence(l)
  {
    var t := TrimLeft(l, IsPySpace);
    assert forall i :: 0 <= i < |t| ==> t[i] == l[|l| - |t| + i];
  }

  /** A blank line is not a fence. */
  lemma BlankNotFence(l: string)
    requires Blank(l)
    ensures !IsFence(l)
  {
    BlankIsAllSpace(l);
  }

  /** The opening and the closing fence are fence lines. */
  lemma FenceLines()
    ensures IsFence(OpenFence) && IsFence(CloseFence)
  {
    assert Span(OpenFence, IsPySpace) == 0;
    assert Span(CloseFence, IsPySpace) == 0;
  }

  /** One line that is not a fence leaves the fence structure as it was. */
  lemma FencesSnocPlain(ls: seq<string>, l: string)
    requires !IsFence(l)
    ensures Fences(ls + [l]) == Fences(ls)
  {
    assert (ls + [l])[..|ls|] == ls;
  }

  /** Lines with the same fence structure keep it equal when one line is added to each. */
  lemma FencesSnocSame(x: seq<string>, y: seq<string>, l: string)
    requires Fences(x) == Fences(y)
    ensures Fences(x + [l]) == Fences(y + [l])
  {
    assert (x + [l])[..|x|] == x;
    assert (y + [l])[..|y|] == y;
  }

  /** Lines that are not fences leave the fence structure as it was. */
  lemma {:induction false} FencesPlain(a: seq<string>, b: seq<string>)
    requires forall k :: 0 <= k < |b| ==> !IsFence(b[k])
    ensures Fences(a + b) == Fences(a)
    decreases |b|
  {
    if b != [] {
      var init := b[..|b| - 1];
      FencesPlain(a, init);
      InitLast(b);
      AppendAssoc(a, init, [b[|b| - 1]]);
      FencesSnocPlain(a + init, b[|b| - 1]);
    } else {
      assert a + b == a;
    }
  }

  /** A fenced block of plain lines appended to well-fenced lines keeps them well fenced. */
  lemma FencesBlock(md: seq<string>, code: seq<string>)
    requires WellFenced(md)
    requires forall k :: 0 <= k < |code| ==> !IsFence(code[k])
    ensures WellFenced(md + [OpenFence] + code + [CloseFence])
  {
    FenceLines();
    assert (md + [OpenFence])[..|md|] == md;
    FencesPlain(md + [OpenFence], code);
    var body := md + [OpenFence] + code;
    assert (body + [CloseFence])[..|body|] == body;
  }

  /** Replacing a last line that is not a fence by another that is not keeps the lines well fenced. */
  lemma ReplaceLastFenced(md: seq<string>, y: string)
    requires WellFenced(md) && md != []
    requires !IsFence(md[|md| - 1]) && !IsFence(y)
    ensures WellFenced(md[..|md| - 1] + [y])
  {
    FencesPlain(md[..|md| - 1], [y]);
  }

  /** Backquote-free text stays backquote-free under stripping. */
  lemma StripTickFree(s: string)
    requires TickFree(s)
    ensures TickFree(Strip(s))
  {
    var a, b := StripSlice(s);
    assert forall i :: 0 <= i < |Strip(s)| ==> Strip(s)[i] == s[a + i];
  }

  /** Backquote-free parts joined by a backquote-free separator. */
  lemma {:induction false} JoinTickFree(parts: seq<string>, sep: string)
    requires forall k :: 0 <= k < |parts| ==> TickFree(parts[k])
    requires TickFree(sep)
    ensures TickFree(Join(parts, sep))
  {
    if |parts| > 1 {
      JoinTickFree(parts[1..], sep);
    }
  }

  /** The buffers while the slide has no backquote: the Markdown lines well fenced, the pending lines backquote-free. */
  predicate FmtOk(st: Fmt)
  {
    && WellFenced(st.md)
    && (forall k :: 0 <= k < |st.paragraph| ==> TickFree(st.paragraph[k]))
    && (forall k :: 0 <= k < |st.code| ==> TickFree(st.code[k]))
  }

  /** `flush_paragraph` keeps the buffers in order. */
  lemma FlushParagraphOk(st: Fmt)
    requires FmtOk(st)
    ensures FmtOk(FlushParagraph(st))
  {
    if st.paragraph != [] {
      JoinTickFree(st.paragraph, " ");
      SquashKeepsOut(Join(st.paragraph, " "), '`');
      StripTickFree(SquashSpace(Join(st.paragraph, " ")));
      TickFreeNotFence(ParagraphLine(st.paragraph));
      FencesPlain(st.md, [ParagraphLine(st.paragraph)]);
    }
  }

  /** `flush_code` keeps the buffers in order. */
  lemma FlushCodeOk(st: Fmt)
    requires FmtOk(st)
    ensures FmtOk(FlushCode(st))
  {
    if st.code != [] {
      forall k | 0 <= k < |st.code|
        ensures !IsFence(st.code[k])
      {
        TickFreeNotFence(st.code[k]);
      }
      FencesBlock(st.md, st.code);
    }
  }

  /** Right-stripping keeps a string backquote-free. */
  lemma TrimRightTickFree(s: string)
    requires TickFree(s)
    ensures TickFree(TrimRight(s, IsPySpace))
  {
    var r := TrimRight(s, IsPySpace);
    assert forall i :: 0 <= i < |r| ==> r[i] == s[i];
  }

  /** A bullet line keeps the buffers in order. */
  lemma BulletOk(st: Fmt, stripped: string)
    requires FmtOk(st)
    ensures FmtOk(var st1 := FlushParagraph(FlushCode(st));
                  var t := NormaliseBullet(stripped);
                  if t == [] then st1 else st1.(md := st1.md + ["- " + t]))
  {
    FlushCodeOk(st);
    FlushParagraphOk(FlushCode(st));
    var bulletText := NormaliseBullet(stripped);
    if bulletText != [] {
      assert ("- " + bulletText)[..2] == "- ";
      DashLine("- " + bulletText);
      FencesSnocPlain(FlushParagraph(FlushCode(st)).md, "- " + bulletText);
    }
  }

  /** Continuing the last "- " item keeps the Markdown lines well fenced. */
  lemma ContinueItemOk(md: seq<string>, stripped: string)
    requires WellFenced(md) && md != [] && StartsWith(md[|md| - 1], "- ")
    ensures WellFenced(md[..|md| - 1] + [md[|md| - 1] + " " + stripped])
  {
    var y := md[|md| - 1] + " " + stripped;
    assert y[..2] == md[|md| - 1][..2];
    DashLine(md[|md| - 1]);
    DashLine(y);
    ReplaceLastFenced(md, y);
  }

  /** A blank line keeps the buffers in order. */
  lemma BlankLineOk(st: Fmt)
    requires FmtOk(st)
    ensures FmtOk(if st.inCode then st.(code := st.code + [""]) else FlushParagraph(st))
  {
    FlushParagraphOk(st);
  }

  /** A code line keeps the buffers in order. */
  lemma CodeLineOk(st: Fmt, stripped: string)
    requires FmtOk(st) && TickFree(stripped)
    ensures FmtOk(var st1 := FlushParagraph(st);
                  var st2 := if !st1.inCode then st1.(inCode := true, code := []) else st1;
                  st2.(code := st2.code + [stripped]))
  {
    FlushParagraphOk(st);
  }

  /** A continuation line inside a block keeps the buffers in order. */
  lemma ContinuationOk(st: Fmt, stripped: string)
    requires FmtOk(st) && TickFree(stripped)
    ensures FmtOk(st.(code := st.code + [stripped]))
  {
  }

  /** A prose line keeps the buffers in order. */
  lemma ProseLineOk(st: Fmt, stripped: string)
    requires FmtOk(st) && TickFree(stripped)
    ensures FmtOk(var st1 := FlushCode(st);
                  var md := st1.md;
                  if md != [] && StartsWith(md[|md| - 1], "- ") then
                    st1.(md := md[..|md| - 1] + [md[|md| - 1] + " " + stripped])
                  else st1.(paragraph := st1.paragraph + [stripped]))
  {
    FlushCodeOk(st);
    var md := FlushCode(st).md;
    if md != [] && StartsWith(md[|md| - 1], "- ") {
      ContinueItemOk(md, stripped);
    }
  }

  /** One pass of the loop keeps the buffers in order on a backquote-free line. */
  lemma FeedOk(st: Fmt, raw: string)
    requires FmtOk(st) && TickFree(raw)
    ensures FmtOk(Feed(st, raw))
  {
    var line := TrimRight(raw, IsPySpace);
    TrimRightTickFree(raw);
    StripTickFree(line);
    var stripped := Strip(line);
    if stripped == [] {
      BlankLineOk(st);
    } else if IsBulletGlyph(stripped[0]) {
      BulletOk(st, stripped);
    } else if IsCodeLine(line) {
      CodeLineOk(st, stripped);
    } else if st.inCode && IsCodeContinuation(stripped) {
      ContinuationOk(st, stripped);
    } else {
      ProseLineOk(st, stripped);
    }
  }

  /** The buffers stay in order over backquote-free lines. */
  lemma {:induction false} FeedAllOk(lines: seq<string>)
    requires forall k :: 0 <= k < |lines| ==> TickFree(lines[k])
    ensures FmtOk(FeedAll(lines))
  {
    if lines != [] {
      FeedAllOk(lines[..|lines| - 1]);
      FeedOk(FeedAll(lines[..|lines| - 1]), lines[|lines| - 1]);
    }
  }

  /** Dropping lines that are not fences does not change the fence structure. */
  lemma {:induction false} KeepWhereFences(md: seq<string>, keep: string -> bool)
    requires forall k :: 0 <= k < |md| && !keep(md[k]) ==> !IsFence(md[k])
    ensures Fences(KeepWhere(md, keep)) == Fences(md)
  {
    if md != [] {
      var init := md[..|md| - 1];
      var l := md[|md| - 1];
      KeepWhereFences(init, keep);
      InitLast(md);
      var kept := KeepWhere(init, keep);
      if keep(l) {
        assert KeepWhere(md, keep) == kept + [l];
        FencesSnocSame(kept, init, l);
      } else {
        assert KeepWhere(md, keep) == kept;
        FencesSnocPlain(init, l);
      }
    }
  }

  /** Dropping blank lines does not change the fence structure. */
  lemma KeptFences(md: seq<string>)
    ensures Fences(Kept(md)) == Fences(md)
  {
    forall k | 0 <= k < |md| && !NonBlank(md[k])
      ensures !IsFence(md[k])
    {
      BlankNotFence(md[k]);
    }
    KeepWhereFences(md, NonBlank);
  }

  /** On a slide without backquotes, `format_slide` writes balanced, unnested "```tptp" ... "```" blocks. */
  lemma FormatFenced(slide: Slide)
    requires forall k :: 0 <= k < |slide.lines| ==> TickFree(slide.lines[k])
    ensures WellFenced(FormatSlide(slide))
  {
    if Lower(slide.title) == "outline" {
      var items := OutlineItems(slide.lines);
      OutlineDashes(slide.lines);
      forall k | 0 <= k < |items|
        ensures !IsFence(items[k])
      {
        DashLine(items[k]);
      }
      FencesPlain([], items);
      assert [] + items == items;
    } else {
      FeedAllOk(slide.lines);
      var st := FeedAll(slide.lines);
      FlushParagraphOk(st);
      FlushCodeOk(FlushParagraph(st));
      KeptFences(FlushCode(FlushParagraph(st)).md);
    }
  }

  /** A string shorter than the pattern does not contain it. */
  lemma {:induction false} ContainsShort(s: string, p: string)
    requires |s| < |p|
    ensures !Contains(s, p)
  {
    if s != [] {
      ContainsShort(s[1..], p);
    }
  }

  /**
   * The hypothesis of FormatFenced is needed: a slide line "```" that is not
   * inside a TPTP block is prose, and comes out as an unmatched fence.
   */
  lemma StrayFence()
    ensures FormatSlide(Slide("Notes", ["```"])) == ["```"]
    ensures !WellFenced(["```"])
  {
    var f := "```";
    assert |Lower("Notes")| == 5;
    assert TrimRight(f, IsPySpace) == f;
    assert Span(f, IsPySpace) == 0;
    assert TrimLeft(f, IsPySpace) == f;
    assert Strip(f) == f;
    ContainsShort(f, "fof(");
    ContainsShort(f, "cnf(");
    assert !IsCodeLine(f);
    var st0 := Fmt([], [], [], false);
    assert FeedAll([f]) == Feed(st0, f) by {
      assert [f][..0] == [];
    }
    assert Feed(st0, f) == Fmt([], [f], [], false);
    assert Join([f], " ") == f;
    SquashNoSpace(f);
    assert ParagraphLine([f]) == f;
    assert FlushCode(FlushParagraph(FeedAll([f]))).md == [f];
    assert Kept([f]) == [f] by {
      assert [f][..0] == [];
    }
    assert Fences([f]) == None by {
      assert [f][..0] == [];
      assert f != OpenFence;
    }
  }

  // ---------------------------------------------------------------------------
  // Escaping for MDX
  // ---------------------------------------------------------------------------

  /**
   * `text.splitlines()` for text whose only line boundary is '\n': the pieces
   * between newlines, without the empty piece after a final newline.
   */
  function SplitLines(text: string): (r: seq<string>)
    ensures forall k :: 0 <= k < |r| ==> '\n' !in r[k]
  {
    var parts := Split(text, '\n');
    if |parts[|parts| - 1]| == 0 then parts[..|parts| - 1] else parts
  }

  /** Splitting lines joined by a separator gives the lines back. */
  lemma {:induction false} SplitJoin(lines: seq<string>, sep: char)
    requires lines != []
    requires forall k :: 0 <= k < |lines| ==> sep !in lines[k]
    ensures Split(Join(lines, [sep]), sep) == lines
  {
    var head := lines[0];
    assert sep !in head;
    if |lines| == 1 {
      assert Join(lines, [sep]) == head;
    } else {
      var tail := lines[1..];
      var rest := Join(tail, [sep]);
      SplitJoin(tail, sep);
      assert Join(lines, [sep]) == head + [sep] + rest;
      SplitAppend(head, rest, sep);
      assert Split(head, sep) == [head];
      assert lines == [head] + tail;
    }
  }

  /** `"\n".join` and `splitlines` are inverse on lines without newlines whose last line is not empty. */
  lemma SplitLinesJoin(lines: seq<string>)
    requires lines != [] && |lines[|lines| - 1]| > 0
    requires forall k :: 0 <= k < |lines| ==> '\n' !in lines[k]
    ensures SplitLines(Join(lines, "\n")) == lines
  {
    SplitJoin(lines, '\n');
  }

  /** Only the empty text has no lines. */
  lemma SplitLinesNonEmpty(text: string)
    requires text != []
    ensures SplitLines(text) != []
  {
  }

  /** The `in_code_block` flag after `lines`: every fence line toggles it. */
  function InFence(lines: seq<string>): bool
  {
    if lines == [] then false
    else InFence(lines[..|lines| - 1]) != IsFence(lines[|lines| - 1])
  }

  /** While the fences are in order, the toggled flag tells whether a block is open. */
  lemma {:induction false} FencesAgree(lines: seq<string>)
    requires Fences(lines).Some?
    ensures InFence(lines) == Fences(lines).value
  {
    if lines != [] {
      FencesAgree(lines[..|lines| - 1]);
    }
  }

  /** Every prefix of lines whose fences are in order has its fences in order. */
  lemma {:induction false} FencesPrefix(lines: seq<string>, k: nat)
    requires Fences(lines).Some? && k <= |lines|
    ensures Fences(lines[..k]).Some?
    decreases |lines|
  {
    if k < |lines| {
      FencesPrefix(lines[..|lines| - 1], k);
      assert lines[..|lines| - 1][..k] == lines[..k];
    } else {
      assert lines[..k] == lines;
    }
  }

  /** On well-fenced lines, the escaping flag is set exactly at the lines inside a "```tptp" block. */
  lemma FlagMatchesBlocks(lines: seq<string>, k: nat)
    requires WellFenced(lines) && k <= |lines|
    ensures Fences(lines[..k]).Some? && InFence(lines[..k]) == Fences(lines[..k]).value
  {
    FencesPrefix(lines, k);
    FencesAgree(lines[..k]);
  }

  /** One line of an escaping pass, given the lines before it: a fence line, or a line inside a block, is kept; any other is passed through `esc`. */
  function EscapedLine(before: seq<string>, l: string, esc: string -> string): string
  {
    if IsFence(l) || InFence(before) then l else esc(l)
  }

  /** The escaping loop: each line escaped by `EscapedLine`, given the lines before it. */
  function EscapeLines(lines: seq<string>, esc: string -> string): (r: seq<string>)
    ensures |r| == |lines|
  {
    if lines == [] then []
    else
      var init := lines[..|lines| - 1];
      EscapeLines(init, esc) + [EscapedLine(init, lines[|lines| - 1], esc)]
  }

  /** Line `k` of the escaped lines. */
  lemma {:induction false} EscapeLinesAt(lines: seq<string>, esc: string -> string, k: nat)
    requires k < |lines|
    ensures EscapeLines(lines, esc)[k] == if IsFence(lines[k]) || InFence(lines[..k]) then lines[k] else esc(lines[k])
    decreases |lines|
  {
    var init := lines[..|lines| - 1];
    var before := EscapeLines(init, esc);
    if k < |init| {
      EscapeLinesAt(init, esc, k);
      assert init[..k] == lines[..k];
      assert EscapeLines(lines, esc)[k] == before[k];
    } else {
      assert lines[..k] == init;
    }
  }

  /** The text a pass returns: its lines, escaped, joined by newlines. */
  function EscapeText(text: string, esc: string -> string): string
  {
    Join(EscapeLines(SplitLines(text), esc), "\n")
  }

  /** Each character replaced by its image under `f`. */
  function MapChars(s: string, f: char -> string): string
  {
    if s == [] then [] else f(s[0]) + MapChars(s[1..], f)
  }

  lemma {:induction false} MapCharsConcat(a: string, b: string, f: char -> string)
    ensures MapChars(a + b, f) == MapChars(a, f) + MapChars(b, f)
  {
    if a != [] {
      assert (a + b)[1..] == a[1..] + b;
      MapCharsConcat(a[1..], b, f);
      AppendAssoc(f(a[0]), MapChars(a[1..], f), MapChars(b, f));
    } else {
      assert a + b == b;
    }
  }

  /** Text whose characters `f` keeps is unchanged by `f`. */
  lemma {:induction false} MapCharsFixed(s: string, f: char -> string)
    requires forall i :: 0 <= i < |s| ==> f(s[i]) == [s[i]]
    ensures MapChars(s, f) == s
  {
    if s != [] {
      MapCharsFixed(s[1..], f);
    }
  }

  /** A two-character text maps to the images of its characters. */
  lemma MapPair(a: char, b: char, f: char -> string)
    ensures MapChars([a, b], f) == f(a) + f(b)
  {
    assert MapChars([b], f) == f(b) by {
      assert [b][1..] == [];
    }
    assert [a, b][1..] == [b];
  }

  /** Text without a newline keeps none when no image contains one. */
  lemma {:induction false} MapCharsNoNewline(s: string, f: char -> string)
    requires '\n' !in s
    requires forall c :: c != '\n' ==> '\n' !in f(c)
    ensures '\n' !in MapChars(s, f)
  {
    if s != [] {
      MapCharsNoNewline(s[1..], f);
    }
  }

  /** A replacement whose replacement text escapes like the pattern does not change the escaped text. */
  lemma {:induction false} ReplaceUnderMap(s: string, pat: string, rep: string, f: char -> string)
    requires pat != [] && MapChars(rep, f) == MapChars(pat, f)
    ensures MapChars(Replace(s, pat, rep), f) == MapChars(s, f)
    decreases |s|
  {
    if |s| >= |pat| {
      if s[..|pat|] == pat {
        var rest := s[|pat|..];
        ReplaceUnderMap(rest, pat, rep, f);
        MapCharsConcat(rep, Replace(rest, pat, rep), f);
        assert s == pat + rest;
        MapCharsConcat(pat, rest, f);
      } else {
        ReplaceUnderMap(s[1..], pat, rep, f);
        MapCharsConcat([s[0]], Replace(s[1..], pat, rep), f);
        assert s == [s[0]] + s[1..];
        MapCharsConcat([s[0]], s[1..], f);
      }
    }
  }

  /** Replacing a character by text without it leaves no occurrence. */
  lemma {:induction false} ReplaceRemoves(s: string, c: char, rep: string)
    requires c !in rep
    ensures c !in Replace(s, [c], rep)
    decreases |s|
  {
    if |s| >= 1 {
      if s[..1] == [c] {
        ReplaceRemoves(s[1..], c, rep);
      } else {
        assert s[0] != c by { assert s[..1] == [s[0]]; }
        ReplaceRemoves(s[1..], c, rep);
      }
    }
  }

  /** A replacement does not bring in a character absent from the text and from the replacement. */
  lemma {:induction false} ReplaceKeepsOut(s: string, pat: string, rep: string, c: char)
    requires pat != [] && c !in s && c !in rep
    ensures c !in Replace(s, pat, rep)
    decreases |s|
  {
    if |s| >= |pat| {
      if s[..|pat|] == pat {
        ReplaceKeepsOut(s[|pat|..], pat, rep, c);
      } else {
        ReplaceKeepsOut(s[1..], pat, rep, c);
      }
    }
  }

  /** The entity for an angle bracket, and any other character as it is. */
  function AngleChar(c: char): string
  {
    if c == '<' then "&lt;" else if c == '>' then "&gt;" else [c]
  }

  /** The entity for a curly brace, and any other character as it is. */
  function CurlyChar(c: char): string
  {
    if c == '{' then "&#123;" else if c == '}' then "&#125;" else [c]
  }

  /** The five replacements `escape_angle_brackets` makes in a line outside code blocks. */
  function EscapeAngleLine(line: string): string
  {
    var l1 := Replace(Replace(line, "<=", "&lt;="), ">=", "&gt;=");
    var l2 := Replace(l1, "<>", "&lt;&gt;");
    Replace(Replace(l2, "<", "&lt;"), ">", "&gt;")
  }

  /** The two replacements `escape_curly_braces` makes in a line outside code blocks. */
  function EscapeCurlyLine(line: string): string
  {
    Replace(Replace(line, "{", "&#123;"), "}", "&#125;")
  }

  /** Text without angle brackets is its own angle escaping. */
  lemma AngleFixed(s: string)
    requires '<' !in s && '>' !in s
    ensures MapChars(s, AngleChar) == s
  {
    MapCharsFixed(s, AngleChar);
  }

  /** A one-character pattern escapes to the image of its character. */
  lemma MapOne(c: char, f: char -> string)
    ensures MapChars([c], f) == f(c)
  {
    assert [c][1..] == [];
  }

  /** Each replacement of `escape_angle_brackets` writes what escaping its pattern character by character writes. */
  lemma AngleRules()
    ensures MapChars("&lt;=", AngleChar) == MapChars("<=", AngleChar)
    ensures MapChars("&gt;=", AngleChar) == MapChars(">=", AngleChar)
    ensures MapChars("&lt;&gt;", AngleChar) == MapChars("<>", AngleChar)
    ensures MapChars("&lt;", AngleChar) == MapChars("<", AngleChar)
    ensures MapChars("&gt;", AngleChar) == MapChars(">", AngleChar)
  {
    AngleLt();
    AngleGt();
    MapPair('<', '=', AngleChar);
    AngleFixed("=");
    MapPair('>', '=', AngleChar);
    MapPair('<', '>', AngleChar);
    MapOne('<', AngleChar);
    MapOne('>', AngleChar);
    MapCharsConcat("&lt;", "=", AngleChar);
    assert "&lt;=" == "&lt;" + "=";
    MapCharsConcat("&gt;", "=", AngleChar);
    assert "&gt;=" == "&gt;" + "=";
    MapCharsConcat("&lt;", "&gt;", AngleChar);
    assert "&lt;&gt;" == "&lt;" + "&gt;";
  }

  /** The entities are left alone by angle escaping. */
  lemma AngleLt()
    ensures MapChars("&lt;", AngleChar) == "&lt;"
  {
    AngleFixed("&lt;");
  }

  /** The entities are left alone by angle escaping (the closing one). */
  lemma AngleGt()
    ensures MapChars("&gt;", AngleChar) == "&gt;"
  {
    AngleFixed("&gt;");
  }

  /** The last two replacements leave no angle bracket. */
  lemma AngleGone(l3: string)
    ensures var l5 := Replace(Replace(l3, "<", "&lt;"), ">", "&gt;");
            '<' !in l5 && '>' !in l5
  {
    var l4 := Replace(l3, "<", "&lt;");
    ReplaceRemoves(l3, '<', "&lt;");
    ReplaceKeepsOut(l4, ">", "&gt;", '<');
    ReplaceRemoves(l4, '>', "&gt;");
  }

  /**
   * The chained replacements amount to escaping each angle bracket on its
   * own: "<=", ">=" and "<>" come out as the single-character rules would
   * write them, and nothing else changes.
   */
  lemma AngleLineEscapesChars(line: string)
    ensures EscapeAngleLine(line) == MapChars(line, AngleChar)
  {
    var l1 := Replace(line, "<=", "&lt;=");
    var l2 := Replace(l1, ">=", "&gt;=");
    var l3 := Replace(l2, "<>", "&lt;&gt;");
    var l4 := Replace(l3, "<", "&lt;");
    var l5 := Replace(l4, ">", "&gt;");
    AngleRules();
    ReplaceUnderMap(line, "<=", "&lt;=", AngleChar);
    ReplaceUnderMap(l1, ">=", "&gt;=", AngleChar);
    ReplaceUnderMap(l2, "<>", "&lt;&gt;", AngleChar);
    ReplaceUnderMap(l3, "<", "&lt;", AngleChar);
    ReplaceUnderMap(l4, ">", "&gt;", AngleChar);
    AngleGone(l3);
    AngleFixed(l5);
  }

  /** Text without braces is its own brace escaping. */
  lemma CurlyFixed(s: string)
    requires '{' !in s && '}' !in s
    ensures MapChars(s, CurlyChar) == s
  {
    MapCharsFixed(s, CurlyChar);
  }

  /** Each replacement of `escape_curly_braces` writes what escaping its brace character by character writes. */
  lemma CurlyOpenRule()
    ensures MapChars("&#123;", CurlyChar) == MapChars("{", CurlyChar)
  {
    CurlyFixed("&#123;");
    MapOne('{', CurlyChar);
  }

  lemma CurlyCloseRule()
    ensures MapChars("&#125;", CurlyChar) == MapChars("}", CurlyChar)
  {
    CurlyFixed("&#125;");
    MapOne('}', CurlyChar);
  }

  /** The two replacements leave no brace. */
  lemma CurlyGone(line: string)
    ensures var l2 := Replace(Replace(line, "{", "&#123;"), "}", "&#125;");
            '{' !in l2 && '}' !in l2
  {
    var l1 := Replace(line, "{", "&#123;");
    ReplaceRemoves(line, '{', "&#123;");
    ReplaceKeepsOut(l1, "}", "&#125;", '{');
    ReplaceRemoves(l1, '}', "&#125;");
  }

  /** The two replacements escape each brace on its own, and nothing else changes. */
  lemma CurlyLineEscapesChars(line: string)
    ensures EscapeCurlyLine(line) == MapChars(line, CurlyChar)
  {
    var l1 := Replace(line, "{", "&#123;");
    var l2 := Replace(l1, "}", "&#125;");
    CurlyOpenRule();
    CurlyCloseRule();
    ReplaceUnderMap(line, "{", "&#123;", CurlyChar);
    ReplaceUnderMap(l1, "}", "&#125;", CurlyChar);
    CurlyGone(line);
    CurlyFixed(l2);
  }

  /** `escape_angle_brackets`. */
  method EscapeAngleBrackets(text: string) returns (r: string)
    ensures r == EscapeText(text, EscapeAngleLine)
  {
    var source := SplitLines(text);
    var lines: seq<string> := [];
    var inCodeBlock := false;
    for i := 0 to |source|
      invariant lines == EscapeLines(source[..i], EscapeAngleLine)
      invariant inCodeBlock == InFence(source[..i])
    {
      var line := source[i];
      assert source[..i + 1][..i] == source[..i];
      var stripped := TrimLeft(line, IsPySpace);
      if StartsWith(stripped, "```") {
        inCodeBlock := !inCodeBlock;
        lines := lines + [line];
        continue;
      }
      if !inCodeBlock {
        line := Replace(Replace(line, "<=", "&lt;="), ">=", "&gt;=");
        line := Replace(line, "<>", "&lt;&gt;");
        line := Replace(Replace(line, "<", "&lt;"), ">", "&gt;");
      }
      lines := lines + [line];
    }
    assert source[..|source|] == source;
    r := Join(lines, "\n");
  }

  /** `escape_curly_braces`. */
  method EscapeCurlyBraces(text: string) returns (r: string)
    ensures r == EscapeText(text, EscapeCurlyLine)
  {
    var source := SplitLines(text);
    var lines: seq<string> := [];
    var inCodeBlock := false;
    for i := 0 to |source|
      invariant lines == EscapeLines(source[..i], EscapeCurlyLine)
      invariant inCodeBlock == InFence(source[..i])
    {
      var line := source[i];
      assert source[..i + 1][..i] == source[..i];
      var stripped := TrimLeft(line, IsPySpace);
      if StartsWith(stripped, "```") {
        inCodeBlock := !inCodeBlock;
        lines := lines + [line];
        continue;
      }
      if !inCodeBlock {
        line := Replace(Replace(line, "{", "&#123;"), "}", "&#125;");
      }
      lines := lines + [line];
    }
    assert source[..|source|] == source;
    r := Join(lines, "\n");
  }

  /**
   * A pass whose line escaping is a character map without newlines, on a
   * non-empty text: as many lines come out; fence lines and the lines inside
   * a block are kept; every other line is mapped character by character.
   */
  lemma {:induction false} EscapedLines(text: string, esc: string -> string, f: char -> string)
    requires text != []
    requires forall l :: esc(l) == MapChars(l, f)
    requires forall c :: c != '\n' ==> '\n' !in f(c)
    ensures var ls := SplitLines(text);
            var out := Split(EscapeText(text, esc), '\n');
            && |out| == |ls|
            && forall k :: 0 <= k < |ls| ==>
                 out[k] == if IsFence(ls[k]) || InFence(ls[..k]) then ls[k] else MapChars(ls[k], f)
  {
    var ls := SplitLines(text);
    var es := EscapeLines(ls, esc);
    forall k | 0 <= k < |ls|
      ensures es[k] == if IsFence(ls[k]) || InFence(ls[..k]) then ls[k] else MapChars(ls[k], f)
      ensures '\n' !in es[k]
    {
      EscapeLinesAt(ls, esc, k);
      MapCharsNoNewline(ls[k], f);
    }
    SplitLinesNonEmpty(text);
    SplitJoin(es, '\n');
  }

  /**
   * What the angle pass does to the lines of a non-empty text: as many lines
   * come out; fence lines and the lines inside a block are kept; every other
   * line has each '<' written "&lt;" and each '>' written "&gt;", nothing else.
   */
  lemma AngleEscaping(text: string)
    requires text != []
    ensures var ls := SplitLines(text);
            var out := Split(EscapeText(text, EscapeAngleLine), '\n');
            && |out| == |ls|
            && forall k :: 0 <= k < |ls| ==>
                 out[k] == if IsFence(ls[k]) || InFence(ls[..k]) then ls[k] else MapChars(ls[k], AngleChar)
  {
    forall l
      ensures EscapeAngleLine(l) == MapChars(l, AngleChar)
    {
      AngleLineEscapesChars(l);
    }
    EscapedLines(text, EscapeAngleLine, AngleChar);
  }

  /** The same for the brace pass: '{' becomes "&#123;" and '}' becomes "&#125;" outside code blocks. */
  lemma CurlyEscaping(text: string)
    requires text != []
    ensures var ls := SplitLines(text);
            var out := Split(EscapeText(text, EscapeCurlyLine), '\n');
            && |out| == |ls|
            && forall k :: 0 <= k < |ls| ==>
                 out[k] == if IsFence(ls[k]) || InFence(ls[..k]) then ls[k] else MapChars(ls[k], CurlyChar)
  {
    forall l
      ensures EscapeCurlyLine(l) == MapChars(l, CurlyChar)
    {
      CurlyLineEscapesChars(l);
    }
    EscapedLines(text, EscapeCurlyLine, CurlyChar);
  }

  /**
   * The label length of a match of `!\[([^\]]+)\](?!\()` at the head of `s`:
   * "![", one or more characters other than ']', then ']' not followed by
   * '('. A label cannot hold ']', so the first ']' after "![" is the only
   * place the match can close.
   */
  function RefLabel(s: string): (r: Option<nat>)
    ensures r.Some? ==> 3 + r.value <= |s| && s[..2] == "![" && s[2 + r.value] == ']'
    ensures r.Some? ==> 0 < r.value && ']' !in s[2..2 + r.value]
    ensures r.Some? ==> 3 + r.value == |s| || s[3 + r.value] != '('
  {
    if |s| < 2 || s[..2] != "![" || ']' !in s[2..] then None
    else
      var j := IndexOf(s[2..], ']');
      if j == 0 || (3 + j < |s| && s[3 + j] == '(') then None
      else
        assert s[2..][..j] == s[2..2 + j];
        Some(j)
  }

  /**
   * `!\[([^\]]+)\](?!\()` matches at the head of `s` with a label of `j`
   * characters: "![", `j` characters other than ']', then ']' that is not
   * followed by '('.
   */
  predicate MatchAt(s: string, j: nat)
  {
    && 0 < j && 3 + j <= |s|
    && s[..2] == "!["
    && ']' !in s[2..2 + j]
    && s[2 + j] == ']'
    && (3 + j == |s| || s[3 + j] != '(')
  }

  /** `RefLabel` finds exactly the match of the pattern at the head of the text, when there is one. */
  lemma RefLabelExact(s: string, j: nat)
    ensures RefLabel(s) == Some(j) <==> MatchAt(s, j)
  {
    if MatchAt(s, j) {
      assert ']' in s[2..] by {
        assert s[2..][j] == s[2 + j];
      }
    }
  }

  /** The substitution at a match: a backslash, the matched text, then the rest escaped. */
  lemma EscapeRefsAtMatch(s: string, j: nat)
    requires MatchAt(s, j)
    ensures EscapeRefs(s) == "\\" + s[..3 + j] + EscapeRefs(s[3 + j..])
  {
    RefLabelExact(s, j);
  }

  /** Where no match starts, the first character is copied and the search moves on by one. */
  lemma EscapeRefsNoMatch(s: string)
    requires s != []
    requires forall j: nat :: !MatchAt(s, j)
    ensures EscapeRefs(s) == [s[0]] + EscapeRefs(s[1..])
  {
    if RefLabel(s).Some? {
      RefLabelExact(s, RefLabel(s).value);
    }
  }

  /** `re.sub` of the non-image pattern by `\![label]`: each match, left to right, gets a backslash in front. */
  function EscapeRefs(s: string): string
    decreases |s|
  {
    if s == [] then []
    else
      match RefLabel(s)
      case Some(j) => "\\" + s[..3 + j] + EscapeRefs(s[3 + j..])
      case None => [s[0]] + EscapeRefs(s[1..])
  }

  lemma {:induction false} RemoveCharConcat(a: string, b: string, c: char)
    ensures RemoveChar(a + b, c) == RemoveChar(a, c) + RemoveChar(b, c)
  {
    if a != [] {
      assert (a + b)[1..] == a[1..] + b;
      RemoveCharConcat(a[1..], b, c);
    } else {
      assert a + b == b;
    }
  }

  /** Removing a character from text cut in two removes it from both halves. */
  lemma RemoveCharSplit(s: string, n: nat, c: char)
    requires n <= |s|
    ensures RemoveChar(s, c) == RemoveChar(s[..n], c) + RemoveChar(s[n..], c)
  {
    assert s == s[..n] + s[n..];
    RemoveCharConcat(s[..n], s[n..], c);
  }

  /** A backslash in front disappears when backslashes are removed. */
  lemma RemoveLeadingBackslash(head: string, tail: string)
    ensures RemoveChar("\\" + head + tail, '\\') == RemoveChar(head, '\\') + RemoveChar(tail, '\\')
  {
    assert "\\" + head + tail == "\\" + (head + tail);
    assert ("\\" + (head + tail))[1..] == head + tail;
    RemoveCharConcat(head, tail, '\\');
  }

  /** The substitution only inserts backslashes: without them, the text is unchanged. */
  lemma {:induction false} EscapeRefsOnlyBackslashes(s: string)
    ensures RemoveChar(EscapeRefs(s), '\\') == RemoveChar(s, '\\')
    decreases |s|
  {
    if s != [] {
      match RefLabel(s)
      case Some(j) =>
        var rest := s[3 + j..];
        EscapeRefsOnlyBackslashes(rest);
        RemoveLeadingBackslash(s[..3 + j], EscapeRefs(rest));
        RemoveCharSplit(s, 3 + j, '\\');
      case None =>
        EscapeRefsOnlyBackslashes(s[1..]);
        RemoveCharConcat([s[0]], EscapeRefs(s[1..]), '\\');
        RemoveCharSplit(s, 1, '\\');
    }
  }

  /** Text without '!' has nothing to escape. */
  lemma {:induction false} EscapeRefsNoBang(s: string)
    requires '!' !in s
    ensures EscapeRefs(s) == s
    decreases |s|
  {
    if s != [] {
      assert RefLabel(s) == None by {
        if |s| >= 2 {
          assert s[..2][0] == s[0];
        }
      }
      EscapeRefsNoBang(s[1..]);
    }
  }

  /** A reference followed by a link is an image and is not matched. */
  lemma ImageNotMatched(name: string, link: string)
    requires name != [] && ']' !in name
    ensures RefLabel("![" + name + "](" + link + ")") == None
  {
    var s := "![" + name + "](" + link + ")";
    var n := |name|;
    assert s[..2] == "![";
    assert s[2..][n] == ']';
    assert s[3 + n] == '(';
  }

  /** Text where no match starts and no later '!' could start one is left unchanged. */
  lemma EscapeRefsSkipHead(s: string)
    requires s != [] && RefLabel(s) == None && '!' !in s[1..]
    ensures EscapeRefs(s) == s
  {
    EscapeRefsNoBang(s[1..]);
  }

  /** An image, `![name](link)`, is left unchanged. */
  lemma EscapeRefsImage(name: string, link: string)
    requires name != [] && ']' !in name && '!' !in name && '!' !in link
    ensures EscapeRefs("![" + name + "](" + link + ")") == "![" + name + "](" + link + ")"
  {
    ImageNotMatched(name, link);
    assert '!' !in ("![" + name + "](" + link + ")")[1..] by {
      assert ("![" + name + "](" + link + ")")[1..] == "[" + name + "](" + link + ")";
    }
    EscapeRefsSkipHead("![" + name + "](" + link + ")");
  }

  /** `![name]` not followed by '(' is a match whose label is `name`. */
  lemma BareMatch(name: string, rest: string)
    requires name != [] && ']' !in name
    requires rest == [] || rest[0] != '('
    ensures MatchAt("![" + name + "]" + rest, |name|)
  {
    var s := "![" + name + "]" + rest;
    var n := |name|;
    assert s[..2] == "![";
    assert s[2..2 + n] == name;
    assert s[2 + n] == ']';
    if rest != [] {
      assert s[3 + n] == rest[0];
    }
  }

  /** A match followed by text without '!': only the match gets a backslash. */
  lemma EscapeRefsLastMatch(head: string, rest: string, n: nat)
    requires |head| == 3 + n && MatchAt(head + rest, n)
    requires '!' !in rest
    ensures EscapeRefs(head + rest) == "\\" + head + rest
  {
    var s := head + rest;
    EscapeRefsAtMatch(s, n);
    assert s[..3 + n] == head && s[3 + n..] == rest;
    EscapeRefsNoBang(rest);
  }

  /** A bracketed label after '!' with no link after it gets its backslash. */
  lemma EscapeRefsBare(name: string, rest: string)
    requires name != [] && ']' !in name
    requires rest == [] || rest[0] != '('
    requires '!' !in rest
    ensures EscapeRefs("![" + name + "]" + rest) == "\\![" + name + "]" + rest
  {
    BareMatch(name, rest);
    EscapeRefsLastMatch("![" + name + "]", rest, |name|);
    AppendAssoc("\\", "![" + name, "]");
    AppendAssoc("\\", "![", name);
    assert "\\" + "![" == "\\![";
  }

  /** Angle escaping leaves no angle bracket. */
  lemma AngleMapClears(s: string)
    ensures '<' !in MapChars(s, AngleChar) && '>' !in MapChars(s, AngleChar)
  {
    AngleLineEscapesChars(s);
    AngleGone(Replace(Replace(Replace(s, "<=", "&lt;="), ">=", "&gt;="), "<>", "&lt;&gt;"));
  }

  /** Brace escaping leaves no brace. */
  lemma CurlyMapClears(s: string)
    ensures '{' !in MapChars(s, CurlyChar) && '}' !in MapChars(s, CurlyChar)
  {
    CurlyLineEscapesChars(s);
    CurlyGone(s);
  }

  /** After the angle pass, no line outside the fenced blocks holds '<' or '>'. */
  lemma AngleCleared(text: string)
    requires text != []
    ensures var ls := SplitLines(text);
            var out := Split(EscapeText(text, EscapeAngleLine), '\n');
            && |out| == |ls|
            && forall k :: 0 <= k < |ls| && !IsFence(ls[k]) && !InFence(ls[..k]) ==> '<' !in out[k] && '>' !in out[k]
  {
    AngleEscaping(text);
    var ls := SplitLines(text);
    forall k | 0 <= k < |ls|
      ensures '<' !in MapChars(ls[k], AngleChar) && '>' !in MapChars(ls[k], AngleChar)
    {
      AngleMapClears(ls[k]);
    }
  }

  /** After the brace pass, no line outside the fenced blocks holds '{' or '}'. */
  lemma CurlyCleared(text: string)
    requires text != []
    ensures var ls := SplitLines(text);
            var out := Split(EscapeText(text, EscapeCurlyLine), '\n');
            && |out| == |ls|
            && forall k :: 0 <= k < |ls| && !IsFence(ls[k]) && !InFence(ls[..k]) ==> '{' !in out[k] && '}' !in out[k]
  {
    CurlyEscaping(text);
    var ls := SplitLines(text);
    forall k | 0 <= k < |ls|
      ensures '{' !in MapChars(ls[k], CurlyChar) && '}' !in MapChars(ls[k], CurlyChar)
    {
      CurlyMapClears(ls[k]);
    }
  }

  /** `escape_problematic_sequences`: bare image references, then angle brackets, then braces. */
  method EscapeProblematicSequences(text: string) returns (r: string)
    ensures r == EscapeText(EscapeText(EscapeRefs(text), EscapeAngleLine), EscapeCurlyLine)
  {
    var t := EscapeRefs(text);
    t := EscapeAngleBrackets(t);
    r := EscapeCurlyBraces(t);
  }
}

=== FILE: LineClassifier.dfy ===
/**
 * Classification of one line of the prover's log, as the proof-search page
 * does it with three regular expressions: a tagged clause line
 * (`[SA] new: 12. p(X) [input]`), a reduction line naming a clause that was
 * removed (`[SA] forward subsumption: 7.`), and a clause-selection line
 * (`selected clause 12`). Each expression is modelled by a hand-written
 * matcher that takes the same greedy decisions the regular expression
 * engine takes; `\s`, `\w` and `\d` and the `i` flag are those of
 * JavaScript without the `u` flag (ASCII word characters and digits, ASCII
 * case folding).
 */
module LineClassifier {
  import opened Strings
  import opened Wrappers

  // ---------------------------------------------------------------------------
  // Phase status and clause text
  // ---------------------------------------------------------------------------

  /** `normalizePhaseStatus`: substring tests in the order active, passive, selected, new; anything else is new. */
  function NormalizePhaseStatus(phase: string): (r: string)
    ensures r == "active" || r == "passive" || r == "selected" || r == "new"
    ensures r == "active" <==> Contains(phase, "active")
    ensures r == "passive" <==> !Contains(phase, "active") && Contains(phase, "passive")
    ensures r == "selected" <==> !Contains(phase, "active") && !Contains(phase, "passive") && Contains(phase, "selected")
  {
    if phase == "" then "new"
    else if Contains(phase, "active") then "active"
    else if Contains(phase, "passive") then "passive"
    else if Contains(phase, "selected") then "selected"
    else "new"
  }

  /** A pattern containing a character the text lacks does not occur in it. */
  lemma {:induction false} MissingCharNotContained(s: string, p: string, c: char)
    requires c in p && c !in s
    ensures !Contains(s, p)
    decreases |s|
  {
    if s != [] {
      MissingCharNotContained(s[1..], p, c);
    }
  }

  /** The shape of `text.replace(/\s+/g, ' ')`: the only white space is a single space, never two in a row. */
  predicate Collapsed(s: string)
  {
    forall i :: 0 <= i < |s| && IsJsSpace(s[i]) ==> s[i] == ' ' && (i + 1 < |s| ==> !IsJsSpace(s[i + 1]))
  }

  /** `text.replace(/\s+/g, ' ')`: every maximal white-space run becomes one space. */
  function Collapse(s: string): (r: string)
    ensures Collapsed(r)
    ensures s != [] ==> r != [] && (IsJsSpace(r[0]) <==> IsJsSpace(s[0]))
    decreases |s|
  {
    if s == [] then []
    else if IsJsSpace(s[0]) then
      var t := TrimLeft(s, IsJsSpace);
      " " + Collapse(t)
    else [s[0]] + Collapse(s[1..])
  }

  /** The characters of `s` other than white space, in order. */
  function NonSpace(s: string): (r: string)
    ensures NoSpace(r, IsJsSpace)
  {
    if s == [] then [] else (if IsJsSpace(s[0]) then [] else [s[0]]) + NonSpace(s[1..])
  }

  /** `normalizeClauseText`: white-space runs collapsed to one space, then trimmed. */
  function NormalizeClauseText(s: string): (r: string)
  {
    Trim(Collapse(s), IsJsSpace)
  }

  lemma {:induction false} NonSpaceAppend(a: string, b: string)
    ensures NonSpace(a + b) == NonSpace(a) + NonSpace(b)
    decreases |a|
  {
    if a != [] {
      assert (a + b)[0] == a[0] && (a + b)[1..] == a[1..] + b;
      NonSpaceAppend(a[1..], b);
      var h := if IsJsSpace(a[0]) then [] else [a[0]];
      assert NonSpace(a + b) == h + (NonSpace(a[1..]) + NonSpace(b));
    } else {
      assert a + b == b;
    }
  }

  lemma {:induction false} NonSpaceOfSpaces(a: string)
    requires AllSpace(a, IsJsSpace)
    ensures NonSpace(a) == []
    decreases |a|
  {
    if a != [] {
      NonSpaceOfSpaces(a[1..]);
    }
  }

  lemma {:induction false} CollapseKeepsNonSpace(s: string)
    ensures NonSpace(Collapse(s)) == NonSpace(s)
    decreases |s|
  {
    if s != [] {
      if IsJsSpace(s[0]) {
        var t := TrimLeft(s, IsJsSpace);
        CollapseKeepsNonSpace(t);
        var k := |s| - |t|;
        assert s == s[..k] + t;
        NonSpaceAppend(s[..k], t);
        NonSpaceOfSpaces(s[..k]);
        NonSpaceAppend(" ", Collapse(t));
      } else {
        CollapseKeepsNonSpace(s[1..]);
        NonSpaceAppend([s[0]], Collapse(s[1..]));
      }
    }
  }

  lemma TrimKeepsNonSpace(s: string)
    ensures NonSpace(Trim(s, IsJsSpace)) == NonSpace(s)
  {
    var r := TrimRight(s, IsJsSpace);
    assert s == r + s[|r|..];
    NonSpaceAppend(r, s[|r|..]);
    NonSpaceOfSpaces(s[|r|..]);
    var l := TrimLeft(r, IsJsSpace);
    assert r == r[..|r| - |l|] + l;
    NonSpaceAppend(r[..|r| - |l|], l);
    NonSpaceOfSpaces(r[..|r| - |l|]);
  }

  /** A collapsed string is left alone by the collapse. */
  lemma {:induction false} CollapseFixed(s: string)
    requires Collapsed(s)
    ensures Collapse(s) == s
    decreases |s|
  {
    if s != [] {
      CollapsedSlice(s, 1, |s|);
      assert s[1..|s|] == s[1..];
      CollapseFixed(s[1..]);
      assert s == [s[0]] + s[1..];
      if IsJsSpace(s[0]) {
        assert s[1..] == [] || !IsJsSpace(s[1..][0]);
        assert TrimLeft(s[1..], IsJsSpace) == s[1..];
        assert TrimLeft(s, IsJsSpace) == s[1..];
        assert s[0] == ' ' && Collapse(s) == " " + s[1..];
      } else {
        assert Collapse(s) == [s[0]] + s[1..];
      }
    }
  }

  lemma CollapsedSlice(s: string, i: nat, j: nat)
    requires Collapsed(s) && i <= j <= |s|
    ensures Collapsed(s[i..j])
  {
    forall k | 0 <= k < |s[i..j]| && IsJsSpace(s[i..j][k])
      ensures s[i..j][k] == ' ' && (k + 1 < |s[i..j]| ==> !IsJsSpace(s[i..j][k + 1]))
    {
      assert s[i..j][k] == s[i + k];
      if k + 1 < |s[i..j]| {
        assert s[i..j][k + 1] == s[i + k + 1];
      }
    }
  }

  /** The normalised text has the collapsed shape. */
  lemma NormalizeCollapsed(s: string)
    ensures Collapsed(NormalizeClauseText(s))
  {
    var c := Collapse(s);
    var r := TrimRight(c, IsJsSpace);
    var l := TrimLeft(r, IsJsSpace);
    CollapsedSlice(c, 0, |r|);
    assert r == c[0..|r|];
    CollapsedSlice(r, |r| - |l|, |r|);
    assert l == r[|r| - |l|..|r|];
  }

  /** The normalised text has no white space at either end. */
  lemma NormalizeTrimmed(s: string)
    ensures var r := NormalizeClauseText(s); r == [] || (!IsJsSpace(r[0]) && !IsJsSpace(r[|r| - 1]))
  {
    var r := TrimRight(Collapse(s), IsJsSpace);
    var l := TrimLeft(r, IsJsSpace);
    if l != [] {
      assert l[|l| - 1] == r[|r| - 1];
    }
  }

  /** The normalised text keeps every character other than white space, in order. */
  lemma NormalizeKeepsText(s: string)
    ensures NonSpace(NormalizeClauseText(s)) == NonSpace(s)
  {
    CollapseKeepsNonSpace(s);
    TrimKeepsNonSpace(Collapse(s));
  }

  /** `normalizeClauseText` is idempotent. */
  lemma NormalizeIdempotent(s: string)
    ensures NormalizeClauseText(NormalizeClauseText(s)) == NormalizeClauseText(s)
  {
    var t := NormalizeClauseText(s);
    NormalizeCollapsed(s);
    NormalizeTrimmed(s);
    CollapseFixed(t);
    assert TrimRight(t, IsJsSpace) == t;
    assert TrimLeft(t, IsJsSpace) == t;
  }

  // ---------------------------------------------------------------------------
  // TAG_CLAUSE_RE  =  /^\s*\[(\w+)\]\s*([a-z_]+):\s*(\d+)\.\s*(.*)$/i
  // ---------------------------------------------------------------------------

  /** The four capture groups of a tagged clause line. */
  datatype Tagged = Tagged(tag: string, phase: string, id: string, body: string)

  /** `[a-z_]` under the `i` flag. */
  predicate IsPhaseChar(c: char)
  {
    IsLetter(c) || c == '_'
  }

  /** The characters `.` does not match. */
  predicate IsLineTerminator(c: char)
  {
    c == '\n' || c == '\r' || c == '\U{2028}' || c == '\U{2029}'
  }

  predicate NotLineTerminator(c: char)
  {
    !IsLineTerminator(c)
  }

  /** What the four groups can hold. */
  predicate WellFormedTagged(t: Tagged)
  {
    && t.tag != [] && AllOf(t.tag, IsWordChar)
    && t.phase != [] && AllOf(t.phase, IsPhaseChar)
    && IsNumericId(t.id)
    && AllOf(t.body, NotLineTerminator)
    && (t.body == [] || !IsJsSpace(t.body[0]))
  }

  /** A non-empty greedy run of the class `p` that must be followed by `stop`: the run and what follows `stop`. */
  function RunThen(s: string, p: char -> bool, stop: char): (r: Option<(string, string)>)
    ensures r.Some? ==> r.value.0 != [] && AllOf(r.value.0, p) && |r.value.0| + |r.value.1| < |s|
  {
    var n := Span(s, p);
    if n == 0 || n == |s| || s[n] != stop then None else Some((s[..n], s[n + 1..]))
  }

  /** What `RunThen` found is how the input begins. */
  lemma RunThenSplits(s: string, p: char -> bool, stop: char)
    requires RunThen(s, p, stop).Some?
    ensures var r := RunThen(s, p, stop).value; s == r.0 + ([stop] + r.1)
  {
    var n := Span(s, p);
    assert s == s[..n] + ([s[n]] + s[n + 1..]);
  }

  /** `RunThen` recovers a run followed by its stop character. */
  lemma RunThenOf(w: string, stop: char, t: string, p: char -> bool)
    requires w != [] && AllOf(w, p) && !p(stop)
    ensures RunThen(w + ([stop] + t), p, stop) == Some((w, t))
  {
    var s := w + ([stop] + t);
    SpanOfRun(w, [stop] + t, p);
    assert s[|w|] == stop && s[..|w|] == w && s[|w| + 1..] == t;
  }

  /** The clause body: `\s*(.*)$` after the id's `.`. */
  function TagBody(rest: string): (r: Option<string>)
    ensures r.Some? ==> AllOf(r.value, NotLineTerminator) && (r.value == [] || !IsJsSpace(r.value[0]))
  {
    var body := TrimLeft(rest, IsJsSpace);
    if AllOf(body, NotLineTerminator) then Some(body) else None
  }

  /** `\s*(\d+)\.` and the body. */
  function TagId(rest: string): (r: Option<(string, string)>)
    ensures r.Some? ==> IsNumericId(r.value.0) && AllOf(r.value.1, NotLineTerminator) && (r.value.1 == [] || !IsJsSpace(r.value.1[0]))
  {
    match RunThen(TrimLeft(rest, IsJsSpace), IsDigit, '.')
    case None => None
    case Some((id, r3)) =>
      match TagBody(r3)
      case None => None
      case Some(body) => Some((id, body))
  }

  /** `\s*([a-z_]+):`, then the id and the body; the tag is filled in by the caller. */
  function TagPhase(rest: string): (r: Option<Tagged>)
    ensures r.Some? ==> r.value.tag == [] && r.value.phase != [] && AllOf(r.value.phase, IsPhaseChar)
    ensures r.Some? ==> IsNumericId(r.value.id) && AllOf(r.value.body, NotLineTerminator) && (r.value.body == [] || !IsJsSpace(r.value.body[0]))
  {
    match RunThen(TrimLeft(rest, IsJsSpace), IsPhaseChar, ':')
    case None => None
    case Some((phase, r2)) =>
      match TagId(r2)
      case None => None
      case Some((id, body)) => Some(Tagged([], phase, id, body))
  }

  /** `line.match(TAG_CLAUSE_RE)`. */
  function MatchTagged(line: string): (r: Option<Tagged>)
    ensures r.Some? ==> WellFormedTagged(r.value)
  {
    var a := TrimLeft(line, IsJsSpace);
    if a == [] || a[0] != '[' then None
    else match RunThen(a[1..], IsWordChar, ']')
    case None => None
    case Some((tag, r1)) =>
      match TagPhase(r1)
      case None => None
      case Some(t) => Some(t.(tag := tag))
  }

  /** A tagged line laid out with the white space `p0`..`p3` in the places `\s*` allows it. */
  function RenderTagged(t: Tagged, p0: string, p1: string, p2: string, p3: string): string
  {
    p0 + ("[" + (t.tag + ("]" + (p1 + (t.phase + (":" + (p2 + (t.id + ("." + (p3 + t.body))))))))))
  }

  lemma TagBodyOf(p3: string, body: string)
    requires AllSpace(p3, IsJsSpace)
    requires AllOf(body, NotLineTerminator) && (body == [] || !IsJsSpace(body[0]))
    ensures TagBody(p3 + body) == Some(body)
  {
    TrimLeftOfSpaces(p3, body, IsJsSpace);
  }

  lemma TagIdOf(p2: string, id: string, p3: string, body: string)
    requires AllSpace(p2, IsJsSpace) && AllSpace(p3, IsJsSpace) && IsNumericId(id)
    requires AllOf(body, NotLineTerminator) && (body == [] || !IsJsSpace(body[0]))
    ensures TagId(p2 + (id + ("." + (p3 + body)))) == Some((id, body))
  {
    var x := id + ("." + (p3 + body));
    assert x[0] == id[0];
    TrimLeftOfSpaces(p2, x, IsJsSpace);
    RunThenOf(id, '.', p3 + body, IsDigit);
    TagBodyOf(p3, body);
  }

  lemma TagPhaseOf(t: Tagged, p1: string, p2: string, p3: string)
    requires AllSpace(p1, IsJsSpace) && AllSpace(p2, IsJsSpace) && AllSpace(p3, IsJsSpace)
    requires WellFormedTagged(t)
    ensures TagPhase(p1 + (t.phase + (":" + (p2 + (t.id + ("." + (p3 + t.body))))))) == Some(t.(tag := []))
  {
    var rest := p2 + (t.id + ("." + (p3 + t.body)));
    var x := t.phase + (":" + rest);
    assert x[0] == t.phase[0];
    TrimLeftOfSpaces(p1, x, IsJsSpace);
    RunThenOf(t.phase, ':', rest, IsPhaseChar);
    TagIdOf(p2, t.id, p3, t.body);
  }

  /** A line laid out as the expression describes, with any white space in the four padded places, matches with exactly its parts. */
  lemma TaggedRoundTrip(t: Tagged, p0: string, p1: string, p2: string, p3: string)
    requires WellFormedTagged(t)
    requires AllSpace(p0, IsJsSpace) && AllSpace(p1, IsJsSpace) && AllSpace(p2, IsJsSpace) && AllSpace(p3, IsJsSpace)
    ensures MatchTagged(RenderTagged(t, p0, p1, p2, p3)) == Some(t)
  {
    var rest := p1 + (t.phase + (":" + (p2 + (t.id + ("." + (p3 + t.body))))));
    var x := "[" + (t.tag + ("]" + rest));
    TrimLeftOfSpaces(p0, x, IsJsSpace);
    assert x[1..] == t.tag + ("]" + rest);
    RunThenOf(t.tag, ']', rest, IsWordChar);
    TagPhaseOf(t, p1, p2, p3);
  }

  /** A carriage return left at the end of the line (a CRLF log) defeats the match, since `.` does not match it. */
  lemma CarriageReturnDefeatsBody(p3: string, body: string)
    requires AllSpace(p3, IsJsSpace) && body != [] && !IsJsSpace(body[0])
    ensures TagBody(p3 + (body + "\r")) == None
  {
    TrimLeftOfSpaces(p3, body + "\r", IsJsSpace);
    assert (body + "\r")[|body|] == '\r';
  }

  // ---------------------------------------------------------------------------
  // REDUCE_RE = /^\s*\[SA\]\s*(forward reduce|...|simplified):\s*(\d+)\./i
  // ---------------------------------------------------------------------------

  /** The alternatives of the reduction expression, in its order. */
  const ReducePhrases: seq<string> := [
    "forward reduce", "backward reduce", "forward subsumption", "backward subsumption",
    "subsumption", "tautology deletion", "redundancy deletion", "simplified"
  ]

  /** Lower-case letters and spaces, starting with a letter: the shape of every alternative. */
  predicate IsLowerPhrase(ph: string)
  {
    ph != [] && 'a' <= ph[0] <= 'z' && forall i :: 0 <= i < |ph| ==> ('a' <= ph[i] <= 'z') || ph[i] == ' '
  }

  lemma ReducePhrasesShape(ph: string)
    requires ph in ReducePhrases
    ensures IsLowerPhrase(ph)
  {
  }

  /** The first alternative that, followed by `:`, begins `b` ignoring ASCII case, and what follows the `:`. */
  function MatchPhrase(b: string, phrases: seq<string>): (r: Option<(string, string)>)
    ensures r.Some? ==> r.value.0 in phrases && StartsWith(Lower(b), r.value.0 + ":") && r.value.1 == b[|r.value.0| + 1..]
    ensures r.None? ==> forall ph :: ph in phrases ==> !StartsWith(Lower(b), ph + ":")
  {
    if phrases == [] then None
    else if StartsWith(Lower(b), phrases[0] + ":") then Some((phrases[0], b[|phrases[0]| + 1..]))
    else MatchPhrase(b, phrases[1..])
  }

  /** `\s*(\d+)\.` after the alternative. */
  function ReduceId(rest: string): (r: Option<string>)
    ensures r.Some? ==> IsNumericId(r.value)
  {
    match RunThen(TrimLeft(rest, IsJsSpace), IsDigit, '.')
    case None => None
    case Some((id, _)) => Some(id)
  }

  /** `\s*(alternatives):\s*(\d+)\.` after `[SA]`. */
  function ReduceAfterTag(x: string): (r: Option<string>)
    ensures r.Some? ==> IsNumericId(r.value)
  {
    match MatchPhrase(TrimLeft(x, IsJsSpace), ReducePhrases)
    case None => None
    case Some((_, rest)) => ReduceId(rest)
  }

  /** `line.match(REDUCE_RE)`: the id of the clause the line removes. */
  function MatchReduce(line: string): (r: Option<string>)
    ensures r.Some? ==> IsNumericId(r.value)
  {
    var a := TrimLeft(line, IsJsSpace);
    if |a| < 4 || Upper(a[..4]) != "[SA]" then None
    else ReduceAfterTag(a[4..])
  }

  /** A phrase without `:` that, followed by `:`, begins `x` is what precedes the first `:` of `x`. */
  lemma PhraseBeforeColon(x: string, ph: string)
    requires ':' !in ph && StartsWith(x, ph + ":")
    ensures ':' in x && IndexOf(x, ':') == |ph|
  {
    assert x[|ph|] == (ph + ":")[|ph|] == ':';
    assert x[..|ph|] == ph;
    IndexOfFirst(x, ':', |ph|);
  }

  /** Two phrases without `:` cannot both begin the same text when each is followed by `:`. */
  lemma PhraseUnique(x: string, ph: string, ph2: string)
    requires ':' !in ph && ':' !in ph2
    requires StartsWith(x, ph + ":") && StartsWith(x, ph2 + ":")
    ensures ph == ph2
  {
    PhraseBeforeColon(x, ph);
    PhraseBeforeColon(x, ph2);
    assert ph == x[..|ph|] && ph2 == x[..|ph2|];
  }

  /** A lower-case phrase followed by `:` still begins the text after ASCII lower-casing. */
  lemma LowerKeepsPhrase(ph: string, z: string)
    requires IsLowerPhrase(ph)
    ensures StartsWith(Lower(ph + (":" + z)), ph + ":")
  {
    var s := ph + (":" + z);
    var l := Lower(s);
    forall i | 0 <= i < |ph| + 1
      ensures l[i] == (ph + ":")[i]
    {
      if i < |ph| {
        assert s[i] == ph[i];
      } else {
        assert s[i] == ':';
      }
    }
    assert l[..|ph| + 1] == ph + ":";
  }

  /** Among alternatives without `:`, the one that begins the text (followed by `:`) is the one found. */
  lemma {:induction false} MatchPhraseFinds(b: string, phrases: seq<string>, ph: string)
    requires ph in phrases && StartsWith(Lower(b), ph + ":")
    requires forall q :: q in phrases ==> ':' !in q
    ensures MatchPhrase(b, phrases) == Some((ph, b[|ph| + 1..]))
    decreases |phrases|
  {
    if StartsWith(Lower(b), phrases[0] + ":") {
      PhraseUnique(Lower(b), phrases[0], ph);
    } else {
      assert ph in phrases[1..];
      MatchPhraseFinds(b, phrases[1..], ph);
    }
  }

  lemma ReducePhrasesNoColon()
    ensures forall q :: q in ReducePhrases ==> ':' !in q
  {
    forall q | q in ReducePhrases
      ensures ':' !in q
    {
      ReducePhrasesShape(q);
    }
  }

  /** Each alternative, followed by `:`, is recognised as itself whatever follows. */
  lemma MatchPhraseOf(ph: string, c: string)
    requires ph in ReducePhrases
    ensures MatchPhrase(ph + (":" + c), ReducePhrases) == Some((ph, c))
  {
    var b := ph + (":" + c);
    ReducePhrasesShape(ph);
    LowerKeepsPhrase(ph, c);
    ReducePhrasesNoColon();
    MatchPhraseFinds(b, ReducePhrases, ph);
    assert b[|ph| + 1..] == c;
  }

  lemma ReduceIdOf(p2: string, id: string, rest: string)
    requires AllSpace(p2, IsJsSpace) && IsNumericId(id)
    ensures ReduceId(p2 + (id + ("." + rest))) == Some(id)
  {
    assert (id + ("." + rest))[0] == id[0];
    TrimLeftOfSpaces(p2, id + ("." + rest), IsJsSpace);
    RunThenOf(id, '.', rest, IsDigit);
  }

  lemma ReduceAfterTagOf(p1: string, ph: string, p2: string, id: string, rest: string)
    requires ph in ReducePhrases && IsNumericId(id)
    requires AllSpace(p1, IsJsSpace) && AllSpace(p2, IsJsSpace)
    ensures ReduceAfterTag(p1 + (ph + (":" + (p2 + (id + ("." + rest)))))) == Some(id)
  {
    var c := p2 + (id + ("." + rest));
    var b := ph + (":" + c);
    ReducePhrasesShape(ph);
    assert b[0] == ph[0];
    TrimLeftOfSpaces(p1, b, IsJsSpace);
    MatchPhraseOf(ph, c);
    ReduceIdOf(p2, id, rest);
  }

  /** A reduction line `[SA] <phrase>: <id>.` with any white space in the padded places yields its id. */
  lemma ReduceRoundTrip(ph: string, id: string, p0: string, p1: string, p2: string, rest: string)
    requires ph in ReducePhrases && IsNumericId(id)
    requires AllSpace(p0, IsJsSpace) && AllSpace(p1, IsJsSpace) && AllSpace(p2, IsJsSpace)
    ensures MatchReduce(p0 + ("[SA]" + (p1 + (ph + (":" + (p2 + (id + ("." + rest)))))))) == Some(id)
  {
    var x := p1 + (ph + (":" + (p2 + (id + ("." + rest)))));
    var a := "[SA]" + x;
    TrimLeftOfSpaces(p0, a, IsJsSpace);
    assert a[..4] == "[SA]" && a[4..] == x;
    assert Upper("[SA]") == "[SA]";
    ReduceAfterTagOf(p1, ph, p2, id, rest);
  }

  // ---------------------------------------------------------------------------
  // SELECT_RE = /\bselected\s+clause\s+(\d+)/i  and  /\bSZS\s+status\b/i
  // ---------------------------------------------------------------------------

  /** Whether `\b` holds before position `p` when `line[p]` is a word character. */
  predicate WordStart(line: string, p: nat)
    requires p <= |line|
  {
    p == 0 || !IsWordChar(line[p - 1])
  }

  /** A keyword (given in lower case) matched ignoring ASCII case: what follows it. */
  function AfterKeyword(s: string, kw: string): (r: Option<string>)
    ensures r.Some? ==> |kw| <= |s| && r.value == s[|kw|..]
  {
    if StartsWith(Lower(s), kw) then Some(s[|kw|..]) else None
  }

  /** `\s+`: what follows a non-empty white-space run. */
  function AfterSpaces(s: string): (r: Option<string>)
    ensures r.Some? ==> |r.value| < |s| && (r.value == [] || !IsJsSpace(r.value[0]))
  {
    var n := Span(s, IsJsSpace);
    if n == 0 then None else Some(s[n..])
  }

  /** `(\d+)` without a following boundary: the longest digit prefix, when there is one. */
  function LeadingNumber(s: string): (r: Option<string>)
    ensures r.Some? ==> IsNumericId(r.value)
  {
    var n := Span(s, IsDigit);
    if n == 0 then None else Some(s[..n])
  }

  /** The selection expression tried at position `p` only. */
  function SelectAt(line: string, p: nat): (r: Option<string>)
    requires p <= |line|
    ensures r.Some? ==> IsNumericId(r.value)
  {
    if !WordStart(line, p) then None
    else match AfterKeyword(line[p..], "selected")
    case None => None
    case Some(b) =>
      match AfterSpaces(b)
      case None => None
      case Some(c) =>
        match AfterKeyword(c, "clause")
        case None => None
        case Some(d) =>
          match AfterSpaces(d)
          case None => None
          case Some(e) => LeadingNumber(e)
  }

  /** The leftmost position at or after `p` where the selection expression matches. */
  function SelectPos(line: string, p: nat): (r: Option<nat>)
    requires p <= |line|
    ensures r.Some? ==> p <= r.value <= |line|
  {
    FirstWhere(line, p, Selects)
  }

  /** The leftmost position at or after `p` where `m` holds of the line. */
  function FirstWhere(line: string, p: nat, m: (string, nat) -> bool): (r: Option<nat>)
    requires p <= |line|
    ensures r.Some? ==> p <= r.value <= |line| && m(line, r.value) && forall j :: p <= j < r.value ==> !m(line, j)
    ensures r.None? ==> forall j :: p <= j <= |line| ==> !m(line, j)
    decreases |line| - p
  {
    if m(line, p) then Some(p)
    else if p == |line| then None
    else FirstWhere(line, p + 1, m)
  }

  /** The selection expression matches at position `j`. */
  predicate Selects(line: string, j: nat)
  {
    j <= |line| && SelectAt(line, j).Some?
  }

  /** `line.match(SELECT_RE)`: the number in the leftmost selection phrase. */
  function MatchSelect(line: string): (r: Option<string>)
    ensures r.Some? ==> IsNumericId(r.value)
  {
    match SelectPos(line, 0)
    case None => None
    case Some(k) => SelectAt(line, k)
  }

  lemma AfterKeywordOf(w: string, kw: string, z: string)
    requires Lower(w) == kw
    ensures AfterKeyword(w + z, kw) == Some(z)
  {
    assert Lower(w + z)[..|w|] == Lower(w);
  }

  lemma AfterSpacesOf(sp: string, z: string)
    requires sp != [] && AllSpace(sp, IsJsSpace) && (z == [] || !IsJsSpace(z[0]))
    ensures AfterSpaces(sp + z) == Some(z)
  {
    SpanOfRun(sp, z, IsJsSpace);
  }

  /** A line that begins `selected clause <n>` (any ASCII case, any white-space runs between the words) selects `n`. */
  lemma SelectRoundTrip(sel: string, p1: string, cl: string, p2: string, id: string, rest: string)
    requires Lower(sel) == "selected" && Lower(cl) == "clause"
    requires p1 != [] && AllSpace(p1, IsJsSpace) && p2 != [] && AllSpace(p2, IsJsSpace)
    requires IsNumericId(id) && (rest == [] || !IsDigit(rest[0]))
    ensures MatchSelect(sel + (p1 + (cl + (p2 + (id + rest))))) == Some(id)
  {
    var line := sel + (p1 + (cl + (p2 + (id + rest))));
    assert line[0..] == line;
    AfterKeywordOf(sel, "selected", p1 + (cl + (p2 + (id + rest))));
    assert cl[0] == Lower(cl)[0] || cl[0] == UpperChar(Lower(cl)[0]);
    AfterSpacesOf(p1, cl + (p2 + (id + rest)));
    AfterKeywordOf(cl, "clause", p2 + (id + rest));
    assert (id + rest)[0] == id[0];
    AfterSpacesOf(p2, id + rest);
    SpanOfRun(id, rest, IsDigit);
    assert (id + rest)[..|id|] == id;
    assert SelectAt(line, 0) == Some(id);
  }

  /** The SZS expression tried at position `p` only. */
  predicate SzsAt(line: string, p: nat)
    requires p <= |line|
  {
    && WordStart(line, p)
    && match AfterKeyword(line[p..], "szs")
      case None => false
      case Some(b) =>
        match AfterSpaces(b)
        case None => false
        case Some(c) =>
          match AfterKeyword(c, "status")
          case None => false
          case Some(d) => d == [] || !IsWordChar(d[0])
  }

  /** The SZS expression tried at `p` and at every later position. */
  function HasSzsFrom(line: string, p: nat): bool
    requires p <= |line|
    decreases |line| - p
  {
    SzsAt(line, p) || (p < |line| && HasSzsFrom(line, p + 1))
  }

  /** The search succeeds from `p` exactly when the expression matches at some position from `p` on. */
  lemma {:induction false} HasSzsFromSpec(line: string, p: nat)
    requires p <= |line|
    ensures HasSzsFrom(line, p) <==> exists k :: p <= k <= |line| && SzsAt(line, k)
    decreases |line| - p
  {
    if p < |line| {
      HasSzsFromSpec(line, p + 1);
    }
  }

  /** `hasSZSStatus(line)`: the words `SZS status` occur as whole words. */
  function HasSzsStatus(line: string): bool
  {
    HasSzsFrom(line, 0)
  }

  /** The prover's result line `% SZS status Theorem for ...` is recognised. */
  lemma SzsLineRecognised(a: string, szs: string, sp: string, status: string, rest: string)
    requires Lower(szs) == "szs" && Lower(status) == "status"
    requires a == [] || !IsWordChar(a[|a| - 1])
    requires sp != [] && AllSpace(sp, IsJsSpace)
    requires rest == [] || !IsWordChar(rest[0])
    ensures HasSzsStatus(a + (szs + (sp + (status + rest))))
  {
    var line := a + (szs + (sp + (status + rest)));
    assert line[|a|..] == szs + (sp + (status + rest));
    AfterKeywordOf(szs, "szs", sp + (status + rest));
    assert (status + rest)[0] == status[0];
    AfterSpacesOf(sp, status + rest);
    AfterKeywordOf(status, "status", rest);
    if a != [] {
      assert line[|a| - 1] == a[|a| - 1];
    }
    assert SzsAt(line, |a|);
    HasSzsFromSpec(line, 0);
  }

  // ---------------------------------------------------------------------------
  // Inference annotations: the bracket groups of the clause body
  // ---------------------------------------------------------------------------

  /** `[^\]]`. */
  predicate NotCloseBracket(c: char)
  {
    c != ']'
  }

  /** The groups of `body.matchAll(/\[([^\]]+)\]/g)`, left to right. */
  function BracketGroups(s: string): (r: seq<string>)
    ensures forall k :: 0 <= k < |r| ==> r[k] != [] && AllOf(r[k], NotCloseBracket)
    decreases |s|
  {
    if s == [] then []
    else if s[0] == '[' then
      match RunThen(s[1..], NotCloseBracket, ']')
      case Some((g, rest)) => [g] + BracketGroups(rest)
      case None => BracketGroups(s[1..])
    else BracketGroups(s[1..])
  }

  /** Whether `u` is wholly matched by `\s*\[[^\]]+\]\s*$`. */
  predicate TrailingGroup(u: string)
  {
    var a := TrimLeft(u, IsJsSpace);
    && a != [] && a[0] == '['
    && match RunThen(a[1..], NotCloseBracket, ']')
      case None => false
      case Some((_, rest)) => AllSpace(rest, IsJsSpace)
  }

  /** The leftmost start, at or after `p`, of a suffix of `s` that `m` accepts: where a search for an expression anchored with `$` succeeds first. */
  function Leftmost(s: string, p: nat, m: string -> bool): (r: Option<nat>)
    requires p <= |s|
    ensures r.Some? ==> p <= r.value <= |s| && m(s[r.value..]) && forall j :: p <= j < r.value ==> !m(s[j..])
    ensures r.None? ==> forall j :: p <= j <= |s| ==> !m(s[j..])
    decreases |s| - p
  {
    if m(s[p..]) then Some(p)
    else if p == |s| then None
    else Leftmost(s, p + 1, m)
  }

  /** `text.replace(/\s*\[[^\]]+\]\s*$/, '')`. */
  function StripTrailingGroup(s: string): (r: string)
    ensures |r| <= |s| && r == s[..|r|]
  {
    match Leftmost(s, 0, TrailingGroup)
    case None => s
    case Some(p) => s[..p]
  }

  /** Text matched by the trailing-group expression ends in `]` or in white space. */
  lemma TrailingGroupEnds(u: string)
    requires TrailingGroup(u)
    ensures u != [] && (u[|u| - 1] == ']' || IsJsSpace(u[|u| - 1]))
  {
    var a := TrimLeft(u, IsJsSpace);
    BracketTailEnds(a[1..]);
    assert a[1..][|a| - 2] == a[|a| - 1];
    assert u[|u| - 1] == a[|a| - 1];
  }

  /** What follows the `[` of a trailing group ends in `]` or in white space. */
  lemma BracketTailEnds(b: string)
    requires RunThen(b, NotCloseBracket, ']').Some?
    requires AllSpace(RunThen(b, NotCloseBracket, ']').value.1, IsJsSpace)
    ensures b != [] && (b[|b| - 1] == ']' || IsJsSpace(b[|b| - 1]))
  {
    RunThenSplits(b, NotCloseBracket, ']');
    var r := RunThen(b, NotCloseBracket, ']').value;
    var tail := [']'] + r.1;
    assert b[|b| - 1] == tail[|tail| - 1];
    if r.1 != [] {
      assert tail[|tail| - 1] == r.1[|r.1| - 1];
    }
  }

  /** No suffix of a text whose last character is neither `]` nor white space is a trailing group. */
  lemma NoTrailingGroupAt(s: string, j: nat)
    requires s != [] && s[|s| - 1] != ']' && !IsJsSpace(s[|s| - 1])
    requires j <= |s|
    ensures !TrailingGroup(s[j..])
  {
    if TrailingGroup(s[j..]) {
      TrailingGroupEnds(s[j..]);
    }
  }

  /** A text whose last character is neither `]` nor white space is not stripped. */
  lemma NoStripWithoutTrailingBracket(s: string)
    requires s != [] && s[|s| - 1] != ']' && !IsJsSpace(s[|s| - 1])
    ensures StripTrailingGroup(s) == s
  {
    forall j | 0 <= j <= |s|
      ensures !TrailingGroup(s[j..])
    {
      NoTrailingGroupAt(s, j);
    }
  }

  /** The position of a non-space character of `a` at or after `j`, below the end `k` of its trimmed part. */
  function FirstNonSpace(a: string, j: nat, k: nat): (f: nat)
    requires j < k <= |a| && !IsJsSpace(a[k - 1])
    ensures j <= f < k && !IsJsSpace(a[f]) && AllSpace(a[j..f], IsJsSpace)
    decreases k - j
  {
    if !IsJsSpace(a[j]) then j else FirstNonSpace(a, j + 1, k)
  }

  /** Before the end of the trimmed text no suffix can be a trailing group: it starts with a text character, not `[`. */
  lemma NoGroupInsideText(a: string, z: string, j: nat)
    requires '[' !in a
    requires j < |TrimRight(a, IsJsSpace)|
    ensures !TrailingGroup((a + z)[j..])
  {
    var k := |TrimRight(a, IsJsSpace)|;
    assert a[k - 1] == TrimRight(a, IsJsSpace)[k - 1];
    var f := FirstNonSpace(a, j, k);
    var s := a + z;
    assert s[j..] == a[j..f] + s[f..];
    TrimLeftOfSpaces(a[j..f], s[f..], IsJsSpace);
    assert s[f..][0] == a[f];
  }

  lemma NoGroupBeforeEnd(a: string, z: string)
    requires '[' !in a
    ensures forall j :: 0 <= j < |TrimRight(a, IsJsSpace)| ==> !TrailingGroup((a + z)[j..])
  {
    forall j | 0 <= j < |TrimRight(a, IsJsSpace)|
      ensures !TrailingGroup((a + z)[j..])
    {
      NoGroupInsideText(a, z, j);
    }
  }

  /** The strip cuts at the first trailing group. */
  lemma StripAt(s: string, k: nat)
    requires k <= |s| && TrailingGroup(s[k..])
    requires forall j :: 0 <= j < k ==> !TrailingGroup(s[j..])
    ensures StripTrailingGroup(s) == s[..k]
  {
    var r := Leftmost(s, 0, TrailingGroup);
    assert r.Some?;
    assert r.value <= k;
    assert r.value >= k;
  }

  /** An annotation `[g]` with white space around it is a trailing group. */
  lemma TrailingGroupOf(sp1: string, sp2: string, g: string, p2: string)
    requires AllSpace(sp1, IsJsSpace) && AllSpace(sp2, IsJsSpace) && AllSpace(p2, IsJsSpace)
    requires g != [] && ']' !in g
    ensures TrailingGroup(sp1 + (sp2 + ("[" + (g + ("]" + p2)))))
  {
    var tail := "[" + (g + ("]" + p2));
    AllSpaceAppend(sp1, sp2);
    assert sp1 + (sp2 + tail) == (sp1 + sp2) + tail;
    TrimLeftOfSpaces(sp1 + sp2, tail, IsJsSpace);
    assert tail[1..] == g + ("]" + p2);
    RunThenOf(g, ']', p2, NotCloseBracket);
  }

  lemma AllSpaceAppend(x: string, y: string)
    requires AllSpace(x, IsJsSpace) && AllSpace(y, IsJsSpace)
    ensures AllSpace(x + y, IsJsSpace)
  {
    forall i | 0 <= i < |x + y|
      ensures IsJsSpace((x + y)[i])
    {
      if i < |x| {
        assert (x + y)[i] == x[i];
      } else {
        assert (x + y)[i] == y[i - |x|];
      }
    }
  }

  lemma GroupAfterText(a: string, p1: string, g: string, p2: string)
    requires g != [] && ']' !in g
    requires AllSpace(p1, IsJsSpace) && AllSpace(p2, IsJsSpace)
    ensures TrailingGroup((a + (p1 + ("[" + (g + ("]" + p2)))))[|TrimRight(a, IsJsSpace)|..])
  {
    var k := |TrimRight(a, IsJsSpace)|;
    var z := p1 + ("[" + (g + ("]" + p2)));
    SliceAppend(a, z, k);
    TrailingGroupOf(a[k..], p1, g, p2);
  }

  /** A text ending in an annotation `[g]` (white space around it allowed) with no `[` before it loses exactly the annotation and the white space before it. */
  lemma StripTrailingAnnotation(a: string, p1: string, g: string, p2: string)
    requires '[' !in a
    requires g != [] && ']' !in g
    requires AllSpace(p1, IsJsSpace) && AllSpace(p2, IsJsSpace)
    ensures StripTrailingGroup(a + (p1 + ("[" + (g + ("]" + p2))))) == TrimRight(a, IsJsSpace)
  {
    var z := p1 + ("[" + (g + ("]" + p2)));
    var s := a + z;
    var k := |TrimRight(a, IsJsSpace)|;
    GroupAfterText(a, p1, g, p2);
    NoGroupBeforeEnd(a, z);
    StripAt(s, k);
    assert s[..k] == TrimRight(a, IsJsSpace);
  }

  /** The maximal runs of word characters of `s`, in order. */
  function Words(s: string): (r: seq<string>)
    ensures forall k :: 0 <= k < |r| ==> r[k] != [] && AllOf(r[k], IsWordChar)
    decreases |s|
  {
    if s == [] then []
    else if !IsWordChar(s[0]) then Words(s[1..])
    else
      var n := Span(s, IsWordChar);
      [s[..n]] + Words(s[n..])
  }

  function NumericOnly(ws: seq<string>): (r: seq<string>)
    ensures forall k :: 0 <= k < |r| ==> IsNumericId(r[k])
    ensures |r| <= |ws|
  {
    if ws == [] then []
    else (if IsNumericId(ws[0]) then [ws[0]] else []) + NumericOnly(ws[1..])
  }

  /** The parent ids of `bracket.matchAll(/\b(\d+)\b/g)`: the words made of digits only. */
  function ParentIds(bracket: string): (r: seq<string>)
    ensures forall k :: 0 <= k < |r| ==> IsNumericId(r[k])
  {
    NumericOnly(Words(bracket))
  }

  lemma {:induction false} SpanStopsAt(a: string, c: char, b: string)
    requires !IsWordChar(c)
    ensures Span(a + ([c] + b), IsWordChar) == Span(a, IsWordChar)
    decreases |a|
  {
    if a == [] {
      assert (a + ([c] + b))[0] == c;
    } else {
      assert (a + ([c] + b))[0] == a[0] && (a + ([c] + b))[1..] == a[1..] + ([c] + b);
      SpanStopsAt(a[1..], c, b);
    }
  }

  /** A non-word character splits the words. */
  lemma {:induction false} WordsSplit(a: string, c: char, b: string)
    requires !IsWordChar(c)
    ensures Words(a + ([c] + b)) == Words(a) + Words(b)
    decreases |a|
  {
    var s := a + ([c] + b);
    if a == [] {
      assert s[0] == c && s[1..] == b;
    } else if !IsWordChar(a[0]) {
      assert s[0] == a[0] && s[1..] == a[1..] + ([c] + b);
      WordsSplit(a[1..], c, b);
    } else {
      var n := Span(a, IsWordChar);
      SpanStopsAt(a, c, b);
      assert s[0] == a[0];
      assert s[..n] == a[..n] && s[n..] == a[n..] + ([c] + b);
      WordsSplit(a[n..], c, b);
    }
  }

  lemma {:induction false} NumericOnlyAppend(x: seq<string>, y: seq<string>)
    ensures NumericOnly(x + y) == NumericOnly(x) + NumericOnly(y)
    decreases |x|
  {
    if x == [] {
      assert x + y == y;
    } else {
      assert (x + y)[0] == x[0] && (x + y)[1..] == x[1..] + y;
      NumericOnlyAppend(x[1..], y);
      var h := if IsNumericId(x[0]) then [x[0]] else [];
      assert NumericOnly(x + y) == h + (NumericOnly(x[1..]) + NumericOnly(y));
    }
  }

  lemma WordOfDigits(id: string, b: string)
    requires IsNumericId(id) && (b == [] || !IsWordChar(b[0]))
    ensures Words(id + b) == [id] + Words(b)
  {
    assert AllOf(id, IsWordChar);
    SpanOfRun(id, b, IsWordChar);
    assert (id + b)[0] == id[0] && (id + b)[..|id|] == id && (id + b)[|id|..] == b;
  }

  /** A number on its own is one word. */
  lemma WordsOfNumeric(id: string)
    requires IsNumericId(id)
    ensures Words(id) == [id]
  {
    WordOfDigits(id, []);
    assert id + [] == id;
  }

  /** The words of comma-separated numbers are those numbers. */
  lemma {:induction false} WordsOfIdList(ids: seq<string>)
    requires forall k :: 0 <= k < |ids| ==> IsNumericId(ids[k])
    ensures Words(Join(ids, ",")) == ids
    decreases |ids|
  {
    if |ids| == 1 {
      WordsOfNumeric(ids[0]);
    } else if |ids| > 1 {
      var rest := Join(ids[1..], ",");
      assert Join(ids, ",") == ids[0] + ([','] + rest) by {
        assert Join(ids, ",") == ids[0] + "," + rest;
      }
      WordsSplit(ids[0], ',', rest);
      WordsOfNumeric(ids[0]);
      WordsOfIdList(ids[1..]);
      assert ids == [ids[0]] + ids[1..];
    }
  }

  lemma {:induction false} NumericOnlyKeeps(ids: seq<string>)
    requires forall k :: 0 <= k < |ids| ==> IsNumericId(ids[k])
    ensures NumericOnly(ids) == ids
    decreases |ids|
  {
    if ids != [] {
      NumericOnlyKeeps(ids[1..]);
    }
  }

  /** An inference annotation `rule 3,4` gives the premises 3 and 4 as parent ids when the rule name has no all-digit word. */
  lemma ParentIdsOfInference(rule: string, ids: seq<string>)
    requires NumericOnly(Words(rule)) == []
    requires forall k :: 0 <= k < |ids| ==> IsNumericId(ids[k])
    ensures ParentIds(rule + (" " + Join(ids, ","))) == ids
  {
    WordsSplit(rule, ' ', Join(ids, ","));
    WordsOfIdList(ids);
    NumericOnlyAppend(Words(rule), ids);
    NumericOnlyKeeps(ids);
  }
}

=== FILE: Slots.dfy ===
// The discrete part of `computeTargets`: which band (ring, column or layer)
// each node goes to and its index within that band. The coordinates computed
// from band and index (radii, angles, paddings, jitter) are floating point and
// not part of this model; a target is the triple (band, index, band size).

module Slots {
  import opened Strings
  import Depth

  type Id = Depth.Id

  /** The part of a canvas node the layout reads: `String(node.id)` and `node.status`. */
  datatype NodeInfo = NodeInfo(id: Id, status: string)

  /** A layout target: the band the node is placed in, its position there and how many share the band. */
  datatype Slot = Slot(band: nat, index: nat, count: nat)

  /** `String.prototype.localeCompare`, as an abstract comparison: negative, zero or positive. */
  type Compare = (Id, Id) -> int

  /** The ring order of the radial layout without edges. */
  const RingOrder: seq<string> := ["active", "passive", "new", "other"]

  /** The column order of the sequential layout without edges. */
  const ColumnOrder: seq<string> := ["new", "active", "passive", "other"]

  /** The position of `status` in a four-entry order; anything not listed goes to the last entry. */
  function GroupIn(order: seq<string>, status: string): (g: nat)
    requires |order| == 4
    ensures g < 4
    ensures g < 3 ==> order[g] == status
    ensures status in order[..3] ==> order[g] == status
  {
    if status == order[0] then 0
    else if status == order[1] then 1
    else if status == order[2] then 2
    else 3
  }

  /** The ring group: `rings[node.status] ? node.status : 'other'`. */
  function RingGroup(n: NodeInfo): nat
  {
    GroupIn(RingOrder, n.status)
  }

  /** The column: `statusOrder.indexOf(node.status)`, or the last column when absent. */
  function ColumnGroup(n: NodeInfo): nat
  {
    GroupIn(ColumnOrder, n.status)
  }

  /** The ring group is active 0, passive 1, new 2 and anything else 3; the column is new 0, active 1, passive 2 and anything else 3. */
  lemma GroupNumbers(n: NodeInfo)
    ensures RingGroup(n) == (if n.status == "active" then 0 else if n.status == "passive" then 1 else if n.status == "new" then 2 else 3)
    ensures ColumnGroup(n) == (if n.status == "new" then 0 else if n.status == "active" then 1 else if n.status == "passive" then 2 else 3)
  {
  }

  // ---------------------------------------------------------------------------
  // Grouping
  // ---------------------------------------------------------------------------

  /** The nodes that go to group `g`, in input order. */
  function Filter(nodes: seq<NodeInfo>, key: NodeInfo -> nat, g: nat): seq<NodeInfo>
    decreases |nodes|
  {
    if nodes == [] then []
    else
      var rest := Filter(nodes[..|nodes| - 1], key, g);
      if key(nodes[|nodes| - 1]) == g then rest + [nodes[|nodes| - 1]] else rest
  }

  /** A node is in group `g` exactly when it is one of the nodes and its key is `g`. */
  lemma {:induction false} FilterMember(nodes: seq<NodeInfo>, key: NodeInfo -> nat, g: nat, x: NodeInfo)
    ensures x in Filter(nodes, key, g) <==> x in nodes && key(x) == g
    decreases |nodes|
  {
    if nodes != [] {
      FilterMember(nodes[..|nodes| - 1], key, g, x);
      InitLast(nodes);
    }
  }

  /** The `forEach` that pushes each node onto the list of its group. */
  method Group(nodes: seq<NodeInfo>, key: NodeInfo -> nat, count: nat) returns (groups: seq<seq<NodeInfo>>)
    requires forall k :: 0 <= k < |nodes| ==> key(nodes[k]) < count
    ensures |groups| == count
    ensures forall g :: 0 <= g < count ==> groups[g] == Filter(nodes, key, g)
  {
    groups := seq(count, _ => []);
    for k := 0 to |nodes|
      invariant |groups| == count
      invariant forall g :: 0 <= g < count ==> groups[g] == Filter(nodes[..k], key, g)
    {
      PrefixOfPrefix(nodes, k, k + 1);
      var g := key(nodes[k]);
      groups := groups[g := groups[g] + [nodes[k]]];
    }
    PrefixAll(nodes);
  }

  // ---------------------------------------------------------------------------
  // Sorting a band by id
  // ---------------------------------------------------------------------------

  /** The comparison behaves as a comparison: `a` after `b` means `b` before `a`. */
  ghost predicate Antisymmetric(cmp: Compare)
  {
    forall a, b :: cmp(a, b) > 0 ==> cmp(b, a) < 0
  }

  /** Each node's id compares at most equal to the next one's. */
  ghost predicate SortedBy(s: seq<NodeInfo>, cmp: Compare)
  {
    forall i, j :: 0 <= i && j == i + 1 && j < |s| ==> cmp(s[i].id, s[j].id) <= 0
  }

  /** Insert `x` into a sorted list after every node that does not compare after it. */
  function Insert(s: seq<NodeInfo>, x: NodeInfo, cmp: Compare): (r: seq<NodeInfo>)
    ensures |r| == |s| + 1
    ensures r[|r| - 1] == x || (s != [] && r[|r| - 1] == s[|s| - 1])
    decreases |s|
  {
    if s == [] then [x]
    else if cmp(s[|s| - 1].id, x.id) > 0 then Insert(s[..|s| - 1], x, cmp) + [s[|s| - 1]]
    else s + [x]
  }

  /**
   * `layer.sort((a, b) => String(a.id).localeCompare(String(b.id)))`: the
   * stable sort by id, written as an insertion sort.
   */
  function SortById(s: seq<NodeInfo>, cmp: Compare): (r: seq<NodeInfo>)
    ensures |r| == |s|
    decreases |s|
  {
    if s == [] then [] else Insert(SortById(s[..|s| - 1], cmp), s[|s| - 1], cmp)
  }

  /** Inserting adds exactly the one node. */
  lemma {:induction false} InsertPermutes(s: seq<NodeInfo>, x: NodeInfo, cmp: Compare)
    ensures multiset(Insert(s, x, cmp)) == multiset(s) + multiset{x}
    decreases |s|
  {
    if s != [] && cmp(s[|s| - 1].id, x.id) > 0 {
      InsertPermutes(s[..|s| - 1], x, cmp);
      InitLast(s);
    }
  }

  /** Inserting into a sorted list keeps it sorted. */
  lemma {:induction false} InsertSorted(s: seq<NodeInfo>, x: NodeInfo, cmp: Compare)
    requires Antisymmetric(cmp) && SortedBy(s, cmp)
    ensures SortedBy(Insert(s, x, cmp), cmp)
    decreases |s|
  {
    if s != [] && cmp(s[|s| - 1].id, x.id) > 0 {
      var init := s[..|s| - 1];
      assert SortedBy(init, cmp);
      InsertSorted(init, x, cmp);
      var r := Insert(init, x, cmp);
      if r[|r| - 1] == x {
        assert cmp(x.id, s[|s| - 1].id) < 0;
      } else {
        assert cmp(s[|s| - 2].id, s[|s| - 1].id) <= 0;
      }
    }
  }

  /** The sort is a permutation of the band. */
  lemma {:induction false} SortPermutes(s: seq<NodeInfo>, cmp: Compare)
    ensures multiset(SortById(s, cmp)) == multiset(s)
    decreases |s|
  {
    if s != [] {
      SortPermutes(s[..|s| - 1], cmp);
      InsertPermutes(SortById(s[..|s| - 1], cmp), s[|s| - 1], cmp);
      InitLast(s);
    }
  }

  /** The sort puts the band in id order. */
  lemma {:induction false} SortSorts(s: seq<NodeInfo>, cmp: Compare)
    requires Antisymmetric(cmp)
    ensures SortedBy(SortById(s, cmp), cmp)
    decreases |s|
  {
    if s != [] {
      SortSorts(s[..|s| - 1], cmp);
      InsertSorted(SortById(s[..|s| - 1], cmp), s[|s| - 1], cmp);
    }
  }

  /** The band sorted in place. */
  method SortBand(layer: seq<NodeInfo>, cmp: Compare) returns (sorted: seq<NodeInfo>)
    ensures sorted == SortById(layer, cmp)
    ensures multiset(sorted) == multiset(layer)
    ensures Antisymmetric(cmp) ==> SortedBy(sorted, cmp)
  {
    sorted := SortById(layer, cmp);
    SortPermutes(layer, cmp);
    if Antisymmetric(cmp) {
      SortSorts(layer, cmp);
    }
  }

  /** `layer.sort(...)` on every band. */
  method SortAll(groups: seq<seq<NodeInfo>>, cmp: Compare) returns (sorted: seq<seq<NodeInfo>>)
    ensures |sorted| == |groups|
    ensures forall g :: 0 <= g < |groups| ==> sorted[g] == SortById(groups[g], cmp)
  {
    sorted := [];
    for g := 0 to |groups|
      invariant |sorted| == g
      invariant forall h :: 0 <= h < g ==> sorted[h] == SortById(groups[h], cmp)
    {
      var layer := SortBand(groups[g], cmp);
      sorted := sorted + [layer];
    }
  }

  // ---------------------------------------------------------------------------
  // Placing the bands
  // ---------------------------------------------------------------------------

  /** `targets.set(String(node.id), ...)` for the first `n` nodes of one band. */
  function PlaceBand(t: map<Id, Slot>, list: seq<NodeInfo>, band: nat, n: nat): map<Id, Slot>
    requires n <= |list|
    decreases n
  {
    if n == 0 then t else PlaceBand(t, list, band, n - 1)[list[n - 1].id := Slot(band, n - 1, |list|)]
  }

  /** The bands `0 .. m - 1` placed in order, a later band overwriting an earlier one's target for the same id. */
  function PlaceBands(groups: seq<seq<NodeInfo>>, bands: seq<nat>, m: nat): map<Id, Slot>
    requires m <= |groups| == |bands|
    decreases m
  {
    if m == 0 then map[] else PlaceBand(PlaceBands(groups, bands, m - 1), groups[m - 1], bands[m - 1], |groups[m - 1]|)
  }

  /** A band's ids get targets, each naming the band, a position holding that id, and the band's size. */
  lemma {:induction false} PlaceBandSpec(t: map<Id, Slot>, list: seq<NodeInfo>, band: nat, n: nat)
    requires n <= |list|
    ensures forall id :: id in PlaceBand(t, list, band, n) <==> id in t || exists i :: 0 <= i < n && list[i].id == id
    ensures forall id :: id in PlaceBand(t, list, band, n) ==>
      (id in t && PlaceBand(t, list, band, n)[id] == t[id]) || exists i :: 0 <= i < n && list[i].id == id && PlaceBand(t, list, band, n)[id] == Slot(band, i, |list|)
    decreases n
  {
    if n > 0 {
      PlaceBandSpec(t, list, band, n - 1);
    }
  }

  /** The ids placed are those of the bands, and each target comes from one position of one band. */
  lemma {:induction false} PlaceBandsSpec(groups: seq<seq<NodeInfo>>, bands: seq<nat>, m: nat)
    requires m <= |groups| == |bands|
    ensures forall id :: id in PlaceBands(groups, bands, m) <==>
      exists g, i :: 0 <= g < m && 0 <= i < |groups[g]| && groups[g][i].id == id
    ensures forall id :: id in PlaceBands(groups, bands, m) ==>
      exists g, i :: 0 <= g < m && 0 <= i < |groups[g]| && groups[g][i].id == id &&
        PlaceBands(groups, bands, m)[id] == Slot(bands[g], i, |groups[g]|)
    decreases m
  {
    if m > 0 {
      var t := PlaceBands(groups, bands, m - 1);
      PlaceBandsSpec(groups, bands, m - 1);
      PlaceBandSpec(t, groups[m - 1], bands[m - 1], |groups[m - 1]|);
      var r := PlaceBands(groups, bands, m);
      forall id | id in r
        ensures exists g, i :: 0 <= g < m && 0 <= i < |groups[g]| && groups[g][i].id == id && r[id] == Slot(bands[g], i, |groups[g]|)
      {
        if id in t && r[id] == t[id] {
          var g, i :| 0 <= g < m - 1 && 0 <= i < |groups[g]| && groups[g][i].id == id && t[id] == Slot(bands[g], i, |groups[g]|);
        } else {
          var i :| 0 <= i < |groups[m - 1]| && groups[m - 1][i].id == id && r[id] == Slot(bands[m - 1], i, |groups[m - 1]|);
        }
      }
    }
  }

  /** The `layers.forEach((layer, d) => layer.forEach((node, idx) => targets.set(...)))` loops. */
  method Place(groups: seq<seq<NodeInfo>>, bands: seq<nat>) returns (targets: map<Id, Slot>)
    requires |groups| == |bands|
    ensures targets == PlaceBands(groups, bands, |groups|)
  {
    targets := map[];
    for g := 0 to |groups|
      invariant targets == PlaceBands(groups, bands, g)
    {
      var list := groups[g];
      ghost var before := targets;
      for idx := 0 to |list|
        invariant targets == PlaceBand(before, list, bands[g], idx)
      {
        targets := targets[list[idx].id := Slot(bands[g], idx, |list|)];
      }
    }
  }

  // ---------------------------------------------------------------------------
  // From groups to targets
  // ---------------------------------------------------------------------------

  /**
   * Every node's id has exactly one target; each target is the slot of some
   * node with that id, in the band `band` gives it, inside that band.
   */
  ghost predicate Assigns(nodes: seq<NodeInfo>, targets: map<Id, Slot>, band: NodeInfo -> nat)
  {
    && (forall id :: id in targets <==> exists k :: 0 <= k < |nodes| && nodes[k].id == id)
    && (forall id :: id in targets ==>
          exists k :: 0 <= k < |nodes| && nodes[k].id == id && targets[id].band == band(nodes[k]) &&
            targets[id].index < targets[id].count)
  }

  /** Group `g` holds exactly the nodes whose key is `g`. */
  ghost predicate Partition(nodes: seq<NodeInfo>, key: NodeInfo -> nat, groups: seq<seq<NodeInfo>>)
  {
    forall g, x :: 0 <= g < |groups| ==> (x in groups[g] <==> x in nodes && key(x) == g)
  }

  /** The groups pushed by `Group`, each sorted or not, partition the nodes by key. */
  lemma SortedPartition(nodes: seq<NodeInfo>, key: NodeInfo -> nat, groups: seq<seq<NodeInfo>>, sorted: seq<seq<NodeInfo>>, cmp: Compare)
    requires |sorted| == |groups|
    requires forall g :: 0 <= g < |groups| ==> groups[g] == Filter(nodes, key, g)
    requires forall g :: 0 <= g < |groups| ==> sorted[g] == groups[g] || sorted[g] == SortById(groups[g], cmp)
    ensures Partition(nodes, key, sorted)
  {
    forall g, x | 0 <= g < |sorted|
      ensures x in sorted[g] <==> x in nodes && key(x) == g
    {
      SortPermutes(groups[g], cmp);
      FilterMember(nodes, key, g, x);
      assert x in sorted[g] <==> x in multiset(sorted[g]);
    }
  }

  /** Placing the groups of a key, each group in any order, gives every node the band of its group. */
  lemma GroupedAssigns(nodes: seq<NodeInfo>, key: NodeInfo -> nat, groups: seq<seq<NodeInfo>>, bands: seq<nat>, band: NodeInfo -> nat)
    requires |groups| == |bands|
    requires forall k :: 0 <= k < |nodes| ==> key(nodes[k]) < |groups| && band(nodes[k]) == bands[key(nodes[k])]
    requires Partition(nodes, key, groups)
    ensures Assigns(nodes, PlaceBands(groups, bands, |groups|), band)
  {
    GroupedCover(nodes, key, groups, bands);
    GroupedBands(nodes, key, groups, bands, band);
  }

  /** Every node's id is placed. */
  lemma GroupedCover(nodes: seq<NodeInfo>, key: NodeInfo -> nat, groups: seq<seq<NodeInfo>>, bands: seq<nat>)
    requires |groups| == |bands|
    requires forall k :: 0 <= k < |nodes| ==> key(nodes[k]) < |groups|
    requires Partition(nodes, key, groups)
    ensures forall id :: id in PlaceBands(groups, bands, |groups|) <==> exists k :: 0 <= k < |nodes| && nodes[k].id == id
  {
    var t := PlaceBands(groups, bands, |groups|);
    PlaceBandsSpec(groups, bands, |groups|);
    forall id | id in t
      ensures exists k :: 0 <= k < |nodes| && nodes[k].id == id
    {
      var g, i :| 0 <= g < |groups| && 0 <= i < |groups[g]| && groups[g][i].id == id;
      var x := groups[g][i];
      assert x in groups[g];
      assert x in nodes;
      var k :| 0 <= k < |nodes| && nodes[k] == x;
    }
    forall k | 0 <= k < |nodes|
      ensures nodes[k].id in t
    {
      var x := nodes[k];
      assert x in groups[key(x)];
      var i :| 0 <= i < |groups[key(x)]| && groups[key(x)][i] == x;
    }
  }

  /** Every target is in the band of the group of a node with its id. */
  lemma GroupedBands(nodes: seq<NodeInfo>, key: NodeInfo -> nat, groups: seq<seq<NodeInfo>>, bands: seq<nat>, band: NodeInfo -> nat)
    requires |groups| == |bands|
    requires forall k :: 0 <= k < |nodes| ==> key(nodes[k]) < |groups| && band(nodes[k]) == bands[key(nodes[k])]
    requires Partition(nodes, key, groups)
    ensures forall id :: id in PlaceBands(groups, bands, |groups|) ==>
      exists k :: 0 <= k < |nodes| && nodes[k].id == id && PlaceBands(groups, bands, |groups|)[id].band == band(nodes[k]) &&
        PlaceBands(groups, bands, |groups|)[id].index < PlaceBands(groups, bands, |groups|)[id].count
  {
    var t := PlaceBands(groups, bands, |groups|);
    PlaceBandsSpec(groups, bands, |groups|);
    forall id | id in t
      ensures exists k :: 0 <= k < |nodes| && nodes[k].id == id && t[id].band == band(nodes[k]) && t[id].index < t[id].count
    {
      var g, i :| 0 <= g < |groups| && 0 <= i < |groups[g]| && groups[g][i].id == id && t[id] == Slot(bands[g], i, |groups[g]|);
      var x := groups[g][i];
      assert x in groups[g];
      assert x in nodes && key(x) == g;
      var k :| 0 <= k < |nodes| && nodes[k] == x;
      assert band(nodes[k]) == bands[g];
    }
  }

  // ---------------------------------------------------------------------------
  // The three layouts
  // ---------------------------------------------------------------------------

  /** How many of the groups before `g` are non-empty. */
  function NonEmptyBefore(groups: seq<seq<NodeInfo>>, g: nat): (c: nat)
    requires g <= |groups|
    ensures c <= g
    decreases g
  {
    if g == 0 then 0 else NonEmptyBefore(groups, g - 1) + (if groups[g - 1] != [] then 1 else 0)
  }

  /** The four status groups of the radial layout without edges. */
  function RingGroups(nodes: seq<NodeInfo>): (groups: seq<seq<NodeInfo>>)
    ensures |groups| == 4
  {
    [Filter(nodes, RingGroup, 0), Filter(nodes, RingGroup, 1), Filter(nodes, RingGroup, 2), Filter(nodes, RingGroup, 3)]
  }

  /** The ring number of a status group in the radial layout without edges: the non-empty groups are numbered from 1 in ring order. */
  function RingNumber(nodes: seq<NodeInfo>, g: nat): nat
    requires g <= 4
  {
    1 + NonEmptyBefore(RingGroups(nodes), g)
  }

  /** Non-empty groups get distinct ring numbers, increasing in ring order, from 1 up to the number of non-empty groups. */
  lemma {:induction false} RingNumbersIncrease(groups: seq<seq<NodeInfo>>, g1: nat, g2: nat)
    requires g1 < g2 <= |groups| && groups[g1] != []
    ensures NonEmptyBefore(groups, g1) < NonEmptyBefore(groups, g2)
    decreases g2
  {
    if g2 > g1 + 1 {
      RingNumbersIncrease(groups, g1, g2 - 1);
    }
  }

  /** The ring numbers of the first `g` groups. */
  function RingBands(groups: seq<seq<NodeInfo>>, g: nat): (r: seq<nat>)
    requires g <= |groups|
    ensures |r| == g
    ensures forall h :: 0 <= h < g ==> r[h] == 1 + NonEmptyBefore(groups, h)
    decreases g
  {
    if g == 0 then [] else RingBands(groups, g - 1) + [1 + NonEmptyBefore(groups, g - 1)]
  }

  /** `let ringIdx = 1; order.forEach(...)`: the ring number of each group, counting only the non-empty ones. */
  method RingNumbers(groups: seq<seq<NodeInfo>>) returns (bands: seq<nat>)
    ensures |bands| == |groups|
    ensures forall g :: 0 <= g < |groups| ==> bands[g] == 1 + NonEmptyBefore(groups, g)
  {
    var ringIdx := 1;
    bands := [];
    for g := 0 to |groups|
      invariant ringIdx == 1 + NonEmptyBefore(groups, g)
      invariant bands == RingBands(groups, g)
    {
      bands := bands + [ringIdx];
      if groups[g] != [] {
        ringIdx := ringIdx + 1;
      }
    }
  }

  /** The radial layout without edges: status rings over the non-empty groups, nodes in input order within a ring. */
  method RingSlots(nodes: seq<NodeInfo>) returns (targets: map<Id, Slot>)
    ensures Assigns(nodes, targets, n => RingNumber(nodes, RingGroup(n)))
  {
    var groups := Group(nodes, RingGroup, 4);
    var bands := RingNumbers(groups);
    targets := Place(groups, bands);
    assert groups == RingGroups(nodes);
    SortedPartition(nodes, RingGroup, groups, groups, (a, b) => 0);
    GroupedAssigns(nodes, RingGroup, groups, bands, n => RingNumber(nodes, RingGroup(n)));
  }

  /** The sequential layout without edges: one column per status, each sorted by id. */
  method ColumnSlots(nodes: seq<NodeInfo>, cmp: Compare) returns (targets: map<Id, Slot>)
    ensures Assigns(nodes, targets, ColumnGroup)
  {
    var groups := Group(nodes, ColumnGroup, 4);
    var sorted := SortAll(groups, cmp);
    var bands := seq(4, g => g);
    targets := Place(sorted, bands);
    SortedPartition(nodes, ColumnGroup, groups, sorted, cmp);
    GroupedAssigns(nodes, ColumnGroup, sorted, bands, ColumnGroup);
  }

  /** The largest depth of the listed ids that have one. */
  function MaxDepth(depth: Depth.Depths, ids: seq<Id>): (m: nat)
    ensures forall k :: 0 <= k < |ids| && ids[k] in depth ==> depth[ids[k]] <= m
    ensures m == 0 || exists k :: 0 <= k < |ids| && ids[k] in depth && depth[ids[k]] == m
    decreases |ids|
  {
    if ids == [] then 0
    else
      var m0 := MaxDepth(depth, ids[..|ids| - 1]);
      var last := ids[|ids| - 1];
      if last in depth && depth[last] > m0 then depth[last] else m0
  }

  /** `String(node.id)` of each node, in order. */
  function Ids(nodes: seq<NodeInfo>): (ids: seq<Id>)
    ensures |ids| == |nodes|
    ensures forall k :: 0 <= k < |nodes| ==> ids[k] == nodes[k].id
  {
    seq(|nodes|, k requires 0 <= k < |nodes| => nodes[k].id)
  }

  /** The band of a node in the layouts with edges: its depth as a column, or one ring further out than its depth. */
  function LayerBand(depth: Depth.Depths, sequential: bool, n: NodeInfo): nat
  {
    var d := Depth.Get(depth, n.id);
    if sequential then d else d + 1
  }

  /** The layer of a node in the layouts with edges: its depth. */
  function LayerKey(depth: Depth.Depths, n: NodeInfo): nat
  {
    Depth.Get(depth, n.id)
  }

  /** The band of each layer: the layer itself as a column, or one ring further out. */
  function LayerBands(count: nat, sequential: bool): (bands: seq<nat>)
    ensures |bands| == count
    ensures forall d :: 0 <= d < count ==> bands[d] == if sequential then d else d + 1
  {
    seq(count, d => if sequential then d else d + 1)
  }

  /** Every node's depth names one of the layers, and that layer's band is the node's band. */
  lemma LayersFit(nodes: seq<NodeInfo>, depth: Depth.Depths, sequential: bool, count: nat)
    requires forall k :: 0 <= k < |nodes| ==> nodes[k].id in depth && depth[nodes[k].id] < count
    ensures forall k :: 0 <= k < |nodes| ==>
      LayerKey(depth, nodes[k]) < count && LayerBand(depth, sequential, nodes[k]) == LayerBands(count, sequential)[LayerKey(depth, nodes[k])]
  {
  }

  /** The layouts with edges: `max(1, maxDepth) + 1` layers by depth, each sorted by id. */
  method LayerSlots(nodes: seq<NodeInfo>, depth: Depth.Depths, sequential: bool, cmp: Compare) returns (targets: map<Id, Slot>, layerCount: nat)
    requires forall k :: 0 <= k < |nodes| ==> nodes[k].id in depth
    ensures Assigns(nodes, targets, n => LayerBand(depth, sequential, n))
    ensures layerCount == (if MaxDepth(depth, Ids(nodes)) < 1 then 1 else MaxDepth(depth, Ids(nodes))) + 1
    ensures layerCount >= 2
    ensures forall k :: 0 <= k < |nodes| ==> depth[nodes[k].id] < layerCount
    ensures layerCount == 2 || exists k :: 0 <= k < |nodes| && depth[nodes[k].id] == layerCount - 1
  {
    var ids := Ids(nodes);
    var maxDepth := MaxDepth(depth, ids);
    if maxDepth < 1 {
      maxDepth := 1;
    }
    layerCount := maxDepth + 1;
    assert forall k :: 0 <= k < |nodes| ==> depth[nodes[k].id] == depth[ids[k]] <= maxDepth;
    LayersFit(nodes, depth, sequential, layerCount);
    var key := n => LayerKey(depth, n);
    var layers := Group(nodes, key, layerCount);
    var sorted := SortAll(layers, cmp);
    var bands := LayerBands(layerCount, sequential);
    targets := Place(sorted, bands);
    SortedPartition(nodes, key, layers, sorted, cmp);
    GroupedAssigns(nodes, key, sorted, bands, n => LayerBand(depth, sequential, n));
  }

  /** The band `computeTargets` gives a node, by mode. */
  function Band(nodes: seq<NodeInfo>, edges: seq<Depth.Edge>, sequential: bool, n: NodeInfo): nat
  {
    if edges == [] && !sequential then RingNumber(nodes, RingGroup(n))
    else if edges == [] then ColumnGroup(n)
    else LayerBand(Depth.DepthOf(Ids(nodes), edges), sequential, n)
  }

  /** The discrete `computeTargets`: the depths, then the layout the mode and the edges select. */
  method ComputeSlots(nodes: seq<NodeInfo>, edges: seq<Depth.Edge>, sequential: bool, cmp: Compare) returns (targets: map<Id, Slot>)
    ensures Assigns(nodes, targets, n => Band(nodes, edges, sequential, n))
  {
    if edges == [] && !sequential {
      targets := RingSlots(nodes);
      return;
    }
    var ids := Ids(nodes);
    var depth, rounds := Depth.ComputeDepths(ids, edges);
    if edges == [] {
      targets := ColumnSlots(nodes, cmp);
      return;
    }
    Depth.DepthKeys(ids, edges);
    assert forall k :: 0 <= k < |nodes| ==> nodes[k].id in depth by {
      forall k | 0 <= k < |nodes|
        ensures nodes[k].id in depth
      {
        assert ids[k] in ids;
      }
    }
    var layerCount;
    targets, layerCount := LayerSlots(nodes, depth, sequential, cmp);
  }

  /** With edges, every node sits in the layer of its depth, and an edge between two nodes (on an acyclic edge set) goes to a strictly later layer. */
  lemma LayersFollowEdges(nodes: seq<NodeInfo>, edges: seq<Depth.Edge>, sequential: bool, rank: map<Id, nat>, i: nat)
    requires Depth.Topological(Ids(nodes), edges, rank)
    requires i < |edges| && edges[i].0 in Ids(nodes) && edges[i].1 in Ids(nodes)
    ensures Band(nodes, edges, sequential, NodeInfo(edges[i].0, "")) < Band(nodes, edges, sequential, NodeInfo(edges[i].1, ""))
  {
    Depth.AcyclicEdgesDescend(Ids(nodes), edges, rank);
    Depth.DepthKeys(Ids(nodes), edges);
  }
}

=== FILE: Strings.dfy ===
/**
 * Character classes and string helpers shared by the JavaScript and the Python
 * parts of the model. A `char` is one Unicode code point throughout. JavaScript
 * strings are sequences of UTF-16 code units: the model converts explicitly
 * only where the source reads code units (`Fnv.CodeUnits`), and elsewhere
 * counts one character where JavaScript counts one unit, which agrees with it
 * for text inside the Basic Multilingual Plane.
 */
module Strings {

  /** The characters JavaScript's `\s` (and `String.prototype.trim`) treats as white space. */
  predicate IsJsSpace(c: char)
  {
    || c == '\t' || c == '\n' || c == '\U{000B}' || c == '\U{000C}' || c == '\r' || c == ' '
    || c == '\U{00A0}' || c == '\U{1680}' || ('\U{2000}' <= c <= '\U{200A}')
    || c == '\U{2028}' || c == '\U{2029}' || c == '\U{202F}' || c == '\U{205F}'
    || c == '\U{3000}' || c == '\U{FEFF}'
  }

  /** The characters Python's `str.isspace` accepts, which `str.strip()` removes. */
  predicate IsPySpace(c: char)
  {
    || c == '\t' || c == '\n' || c == '\U{000B}' || c == '\U{000C}' || c == '\r'
    || ('\U{001C}' <= c <= '\U{001F}') || c == ' ' || c == '\U{0085}' || c == '\U{00A0}'
    || c == '\U{1680}' || ('\U{2000}' <= c <= '\U{200A}')
    || c == '\U{2028}' || c == '\U{2029}' || c == '\U{202F}' || c == '\U{205F}' || c == '\U{3000}'
  }

  /** ASCII digit, as `\d` matches without the unicode flag. */
  predicate IsDigit(c: char)
  {
    '0' <= c <= '9'
  }

  /** ASCII letter. */
  predicate IsLetter(c: char)
  {
    ('a' <= c <= 'z') || ('A' <= c <= 'Z')
  }

  /** A word character of JavaScript regular expressions, `\w`, also under the `i` flag. */
  predicate IsWordChar(c: char)
  {
    IsLetter(c) || IsDigit(c) || c == '_'
  }

  predicate AllDigits(s: string)
  {
    forall i :: 0 <= i < |s| ==> IsDigit(s[i])
  }

  /** Every character of `s` is in the class `p`. */
  predicate AllOf(s: string, p: char -> bool)
  {
    forall i :: 0 <= i < |s| ==> p(s[i])
  }

  /** A string `/^\d+$/` accepts. */
  predicate IsNumericId(s: string)
  {
    s != [] && AllDigits(s)
  }

  predicate AllSpace(s: string, ws: char -> bool)
  {
    forall i :: 0 <= i < |s| ==> ws(s[i])
  }

  predicate NoSpace(s: string, ws: char -> bool)
  {
    forall i :: 0 <= i < |s| ==> !ws(s[i])
  }

  /** ASCII lower case; other characters are kept. */
  function LowerChar(c: char): char
  {
    if 'A' <= c <= 'Z' then (c as int + 32) as char else c
  }

  function UpperChar(c: char): char
  {
    if 'a' <= c <= 'z' then (c as int - 32) as char else c
  }

  function Lower(s: string): (r: string)
    ensures |r| == |s|
    ensures forall i :: 0 <= i < |s| ==> r[i] == LowerChar(s[i])
  {
    if s == [] then [] else [LowerChar(s[0])] + Lower(s[1..])
  }

  function Upper(s: string): (r: string)
    ensures |r| == |s|
    ensures forall i :: 0 <= i < |s| ==> r[i] == UpperChar(s[i])
  {
    if s == [] then [] else [UpperChar(s[0])] + Upper(s[1..])
  }

  predicate StartsWith(s: string, p: string)
  {
    |p| <= |s| && s[..|p|] == p
  }

  predicate EndsWith(s: string, p: string)
  {
    |p| <= |s| && s[|s| - |p|..] == p
  }

  /** `s.includes(p)` / Python's `p in s`. */
  predicate Contains(s: string, p: string)
  {
    StartsWith(s, p) || (s != [] && Contains(s[1..], p))
  }

  predicate HasChar(s: string, c: char)
  {
    c in s
  }

  /** Removes leading characters satisfying `ws`. */
  function TrimLeft(s: string, ws: char -> bool): (r: string)
    ensures |r| <= |s| && r == s[|s| - |r|..]
    ensures r == [] || !ws(r[0])
    ensures AllSpace(s[..|s| - |r|], ws)
  {
    s[Span(s, ws)..]
  }

  /** Removes trailing characters satisfying `ws`. */
  function TrimRight(s: string, ws: char -> bool): (r: string)
    ensures |r| <= |s| && r == s[..|r|]
    ensures r == [] || !ws(r[|r| - 1])
    ensures AllSpace(s[|r|..], ws)
  {
    if s == [] || !ws(s[|s| - 1]) then s else TrimRight(s[..|s| - 1], ws)
  }

  function Trim(s: string, ws: char -> bool): string
  {
    TrimLeft(TrimRight(s, ws), ws)
  }

  /** Removes every occurrence of `c` (as `replace(/c/g, '')`). */
  function RemoveChar(s: string, c: char): (r: string)
    ensures c !in r
    ensures |r| <= |s|
  {
    if s == [] then [] else (if s[0] == c then [] else [s[0]]) + RemoveChar(s[1..], c)
  }

  /** JavaScript's `s.split(sep)` for a one-character separator: always at least one piece. */
  function Split(s: string, sep: char): (r: seq<string>)
    ensures |r| >= 1
    ensures forall k :: 0 <= k < |r| ==> sep !in r[k]
    decreases |s|
  {
    if sep !in s then [s]
    else
      var i := IndexOf(s, sep);
      [s[..i]] + Split(s[i + 1..], sep)
  }

  /** Position of the first `c` in `s`. */
  function IndexOf(s: string, c: char): (i: nat)
    requires c in s
    ensures i < |s| && s[i] == c && c !in s[..i]
  {
    if s[0] == c then 0 else 1 + IndexOf(s[1..], c)
  }

  /** Lower-casing text with no upper-case letter changes nothing. */
  lemma LowerOfLowercase(s: string)
    requires forall i :: 0 <= i < |s| ==> 'a' <= s[i] <= 'z'
    ensures Lower(s) == s
  {
  }

  /** A suffix of `a + z` that starts inside `a`. */
  lemma SliceAppend(a: string, z: string, k: nat)
    requires k <= |a|
    ensures (a + z)[k..] == a[k..] + z
  {
  }

  /** The first occurrence is the only one with no earlier occurrence. */
  lemma {:induction false} IndexOfFirst(s: string, c: char, i: nat)
    requires i < |s| && s[i] == c && c !in s[..i]
    ensures IndexOf(s, c) == i
    decreases i
  {
    if i > 0 {
      assert s[0] == s[..i][0];
      assert s[1..][..i - 1] == s[..i][1..];
      IndexOfFirst(s[1..], c, i - 1);
    }
  }

  lemma AppendAssoc<T>(x: seq<T>, y: seq<T>, z: seq<T>)
    ensures x + (y + z) == (x + y) + z
  {
  }

  /** A non-empty sequence is its prefix followed by its last element. */
  lemma InitLast<T>(s: seq<T>)
    requires s != []
    ensures s == s[..|s| - 1] + [s[|s| - 1]]
  {
  }

  /** A prefix one longer is the prefix followed by the next element. */
  lemma PrefixSnoc<T>(s: seq<T>, i: nat)
    requires i < |s|
    ensures s[..i + 1] == s[..i] + [s[i]]
  {
  }

  /** A prefix of a prefix is a prefix. */
  lemma PrefixOfPrefix<T>(s: seq<T>, i: nat, j: nat)
    requires i <= j <= |s|
    ensures s[..j][..i] == s[..i] && |s[..j]| == j
  {
  }

  /** The prefix of full length is the sequence. */
  lemma PrefixAll<T>(s: seq<T>)
    ensures s[..|s|] == s
  {
  }

  /** The first separator ends the first piece. */
  lemma SplitAt(s: string, sep: char, i: nat)
    requires i < |s| && s[i] == sep && sep !in s[..i]
    ensures Split(s, sep) == [s[..i]] + Split(s[i + 1..], sep)
  {
    IndexOfFirst(s, sep, i);
  }

  /** Splitting text joined at a separator splits both halves. */
  lemma {:induction false} SplitAppend(a: string, b: string, sep: char)
    ensures Split(a + [sep] + b, sep) == Split(a, sep) + Split(b, sep)
    decreases |a|
  {
    var s := a + [sep] + b;
    if sep !in a {
      assert s[..|a|] == a && s[|a|] == sep;
      SplitAt(s, sep, |a|);
      assert s[|a| + 1..] == b;
      assert Split(s, sep) == [a] + Split(b, sep);
      assert Split(a, sep) == [a];
    } else {
      var i := IndexOf(a, sep);
      var rest := a[i + 1..];
      assert s[..i] == a[..i] && s[i] == sep;
      SplitAt(s, sep, i);
      SplitAt(a, sep, i);
      assert s[i + 1..] == rest + [sep] + b;
      SplitAppend(rest, b, sep);
      assert Split(s, sep) == [a[..i]] + (Split(rest, sep) + Split(b, sep));
      assert Split(a, sep) == [a[..i]] + Split(rest, sep);
      AppendAssoc([a[..i]], Split(rest, sep), Split(b, sep));
    }
  }

  /** `parts.join(sep)`. */
  function Join(parts: seq<string>, sep: string): string
  {
    if parts == [] then ""
    else if |parts| == 1 then parts[0]
    else parts[0] + sep + Join(parts[1..], sep)
  }

  /** Python's `str.replace(pat, rep)`, and JavaScript's `replace` with a global pattern: non-overlapping occurrences, left to right. */
  function Replace(s: string, pat: string, rep: string): string
    requires pat != []
    decreases |s|
  {
    if |s| < |pat| then s
    else if s[..|pat|] == pat then rep + Replace(s[|pat|..], pat, rep)
    else [s[0]] + Replace(s[1..], pat, rep)
  }

  /** Replacing a character leaves a prefix without it as it is. */
  lemma {:induction false} ReplaceCharPrefix(s: string, c: char, rep: string, i: nat)
    requires i <= |s| && c !in s[..i]
    ensures Replace(s, [c], rep) == s[..i] + Replace(s[i..], [c], rep)
    decreases i
  {
    if i > 0 {
      assert s[..1] != [c] by { assert s[0] == s[..i][0]; }
      assert s[1..][..i - 1] == s[..i][1..];
      ReplaceCharPrefix(s[1..], c, rep, i - 1);
      assert s[1..][i - 1..] == s[i..];
      assert s[..i] == [s[0]] + s[1..][..i - 1];
    }
  }

  /** Replacing every `c` by `rep` is splitting at `c` and joining with `rep`. */
  lemma {:induction false} ReplaceCharJoinsSplit(s: string, c: char, rep: string)
    ensures Replace(s, [c], rep) == Join(Split(s, c), rep)
    decreases |s|
  {
    if c !in s {
      assert s[..|s|] == s;
      ReplaceCharPrefix(s, c, rep, |s|);
    } else {
      var i := IndexOf(s, c);
      var rest := s[i + 1..];
      ReplaceCharPrefix(s, c, rep, i);
      assert s[i..][..1] == [c] && s[i..][1..] == rest;
      ReplaceCharJoinsSplit(rest, c, rep);
      var parts := Split(rest, c);
      assert Split(s, c) == [s[..i]] + parts;
      assert Split(s, c)[1..] == parts;
      AppendAssoc(s[..i], rep, Join(parts, rep));
    }
  }

  /** The last piece of `s.split('\n')`. */
  function LastLine(s: string): string
  {
    var parts := Split(s, '\n');
    parts[|parts| - 1]
  }

  /** The value of a string of ASCII digits. */
  function DigitsValue(s: string): nat
    requires AllDigits(s)
  {
    if s == [] then 0 else DigitsValue(s[..|s| - 1]) * 10 + (s[|s| - 1] as int - '0' as int)
  }

  /** Decimal rendering of a natural number, without leading zeros (`Number.prototype.toString`). */
  function NatToString(n: nat): (r: string)
    ensures r != [] && AllDigits(r)
    ensures (r[0] == '0') == (n == 0) && (n < 10 <==> |r| == 1)
    decreases n
  {
    if n < 10 then [('0' as int + n) as char]
    else NatToString(n / 10) + [('0' as int + n % 10) as char]
  }

  /** Decimal rendering of an integer, with a leading '-' for negatives. */
  function IntToString(i: int): (r: string)
    ensures r != [] && (i < 0 ==> |r| >= 2)
    ensures i >= 0 ==> r == NatToString(i)
    ensures i < 0 ==> r == "-" + NatToString(-i)
    ensures i >= 0 ==> AllDigits(r) && DigitsValue(r) == i && (r[0] == '0') == (i == 0)
    ensures i < 0 ==> r[0] == '-' && AllDigits(r[1..]) && DigitsValue(r[1..]) == -i && r[1] != '0'
  {
    if i < 0 then
      NatToStringValue(-i);
      var d := NatToString(-i);
      assert ("-" + d)[1..] == d;
      "-" + d
    else
      NatToStringValue(i);
      NatToString(i)
  }

  /** A digit string in canonical form: no leading zero unless it is "0". */
  predicate Canonical(s: string)
  {
    s != [] && AllDigits(s) && (s[0] == '0' ==> |s| == 1)
  }

  lemma NatToStringCanonical(n: nat)
    ensures Canonical(NatToString(n))
  {
  }

  /** Lexicographic order by character: the code-unit order of JavaScript's default `sort()` for text inside the Basic Multilingual Plane. */
  predicate LexLess(a: string, b: string)
  {
    if a == [] then b != []
    else if b == [] then false
    else if a[0] != b[0] then a[0] < b[0]
    else LexLess(a[1..], b[1..])
  }

  predicate LexLessEq(a: string, b: string)
  {
    a == b || LexLess(a, b)
  }

  /** Length of the longest prefix of `s` whose characters satisfy `p` (a greedy `p+` or `p*`). */
  function Span(s: string, p: char -> bool): (n: nat)
    ensures n <= |s|
    ensures forall i :: 0 <= i < n ==> p(s[i])
    ensures n == |s| || !p(s[n])
  {
    if s == [] || !p(s[0]) then 0 else 1 + Span(s[1..], p)
  }

  /** A greedy span stops exactly at the first character outside the class. */
  lemma {:induction false} SpanOfRun(w: string, t: string, p: char -> bool)
    requires forall i :: 0 <= i < |w| ==> p(w[i])
    requires t == [] || !p(t[0])
    ensures Span(w + t, p) == |w|
    decreases |w|
  {
    if w == [] {
      assert w + t == t;
    } else {
      assert (w + t)[0] == w[0] && (w + t)[1..] == w[1..] + t;
      SpanOfRun(w[1..], t, p);
    }
  }

  /** Trimming leading white space that is followed by a non-space character leaves that suffix. */
  lemma {:induction false} TrimLeftOfSpaces(a: string, b: string, ws: char -> bool)
    requires AllSpace(a, ws)
    requires b == [] || !ws(b[0])
    ensures TrimLeft(a + b, ws) == b
    decreases |a|
  {
    if a == [] {
      assert a + b == b;
    } else {
      assert (a + b)[0] == a[0] && (a + b)[1..] == a[1..] + b;
      TrimLeftOfSpaces(a[1..], b, ws);
    }
  }

  lemma {:induction false} LexLessIrreflexive(a: string)
    ensures !LexLess(a, a)
    decreases |a|
  {
    if a != [] {
      LexLessIrreflexive(a[1..]);
    }
  }

  lemma {:induction false} LexLessTransitive(a: string, b: string, c: string)
    requires LexLess(a, b) && LexLess(b, c)
    ensures LexLess(a, c)
    decreases |a|
  {
    if a != [] && b != [] && c != [] && a[0] == b[0] && b[0] == c[0] {
      LexLessTransitive(a[1..], b[1..], c[1..]);
    }
  }

  lemma {:induction false} LexLessTotal(a: string, b: string)
    requires a != b
    ensures LexLess(a, b) || LexLess(b, a)
    decreases |a|
  {
    if a != [] && b != [] && a[0] == b[0] {
      assert a == [a[0]] + a[1..] && b == [b[0]] + b[1..];
      LexLessTotal(a[1..], b[1..]);
    }
  }

  /** A digit string whose first digit is not zero has a positive value. */
  lemma {:induction false} LeadingDigitPositive(s: string)
    requires s != [] && AllDigits(s) && s[0] != '0'
    ensures DigitsValue(s) > 0
    decreases |s|
  {
    if |s| > 1 {
      LeadingDigitPositive(s[..|s| - 1]);
    }
  }

  /** Reading a canonical digit string and rendering the number gives the string back. */
  lemma {:induction false} CanonicalRoundTrip(s: string)
    requires Canonical(s)
    ensures NatToString(DigitsValue(s)) == s
    decreases |s|
  {
    if |s| > 1 {
      var p := s[..|s| - 1];
      assert p[0] == s[0];
      LeadingDigitPositive(p);
      CanonicalRoundTrip(p);
      assert s == p + [s[|s| - 1]];
    }
  }

  /** Rendering a number and reading it back gives the number. */
  lemma {:induction false} NatToStringValue(n: nat)
    ensures DigitsValue(NatToString(n)) == n
    decreases n
  {
    if n >= 10 {
      NatToStringValue(n / 10);
      var r := NatToString(n);
      assert r[..|r| - 1] == NatToString(n / 10);
    }
  }
}

=== FILE: Transcript.dfy ===
// The interactive transcript of the Vampire runner panel: the output text,
// the prompt handshake with the prover's `requestInput` callback, the
// keyboard and paste editing of a pending answer, and the run-id guard.

module Transcript {
  import opened Strings
  import opened Wrappers
  import Visualizer

  /** The transcript of the first render. */
  const ReadyText := "Ready."

  /** The transcript `onRun` starts with: the literal in the component is a mis-encoded ellipsis, three characters. */
  const RunningText := "Running\U{E2}\U{20AC}\U{A6}"

  /** The message when the runner module has no entry point. */
  const MissingRunnerText := "Error: runVampireRaw() not found in script.js"

  // ---------------------------------------------------------------------------
  // Lines of the transcript
  // ---------------------------------------------------------------------------

  /** The last line after the first line break is the last line of what follows it. */
  lemma LastLineAfterBreak(s: string, i: nat)
    requires '\n' in s && i == IndexOf(s, '\n')
    ensures LastLine(s) == LastLine(s[i + 1..])
  {
    var parts := Split(s, '\n');
    var rest := Split(s[i + 1..], '\n');
    assert parts == [s[..i]] + rest;
    assert parts[|parts| - 1] == rest[|rest| - 1];
  }

  /** The last line of a transcript is a line break-free suffix of it. */
  lemma {:induction false} LastLineSuffix(s: string)
    ensures |LastLine(s)| <= |s| && LastLine(s) == s[|s| - |LastLine(s)|..]
    ensures '\n' !in LastLine(s)
    decreases |s|
  {
    if '\n' in s {
      var i := IndexOf(s, '\n');
      var rest := s[i + 1..];
      LastLineAfterBreak(s, i);
      LastLineSuffix(rest);
      assert s[|s| - |LastLine(rest)|..] == rest[|rest| - |LastLine(rest)|..];
    }
  }

  /** `appendInline(text)` of text without a line break extends the last line by that text. */
  lemma {:induction false} InlineExtendsLastLine(s: string, text: string)
    requires '\n' !in text
    ensures LastLine(s + text) == LastLine(s) + text
    decreases |s|
  {
    if '\n' in s {
      var i := IndexOf(s, '\n');
      var st := s + text;
      assert st[..i] == s[..i] && st[i] == '\n';
      assert '\n' in st;
      IndexOfFirst(st, '\n', i);
      LastLineAfterBreak(s, i);
      LastLineAfterBreak(st, i);
      assert st[i + 1..] == s[i + 1..] + text;
      InlineExtendsLastLine(s[i + 1..], text);
    } else {
      assert '\n' !in s + text;
    }
  }

  // ---------------------------------------------------------------------------
  // handleRequestInput: where the prompt goes
  // ---------------------------------------------------------------------------

  /** The prompt with trailing white space, carriage returns and surrounding white space removed. */
  function NormalizePrompt(promptText: string): string
  {
    Trim(RemoveChar(TrimRight(promptText, IsJsSpace), '\r'), IsJsSpace)
  }

  /** The last transcript line with carriage returns and surrounding white space removed. */
  function TrimmedLastLine(out: string): string
  {
    Trim(RemoveChar(LastLine(out), '\r'), IsJsSpace)
  }

  /** The pending-prompt fields `handleRequestInput` sets. */
  datatype Layout = Layout(line: string, inline: bool, spacer: string, matchText: string)

  /**
   * The layout of a prompt requested when the transcript is `out`: inline when
   * the normalised prompt is non-empty and ends the trimmed last line; then a
   * one-space spacer unless the raw last line already ends in white space;
   * otherwise a prompt line of its own.
   */
  function RequestLayout(out: string, promptText: string): Layout
  {
    var lastRaw := LastLine(out);
    var normalized := NormalizePrompt(promptText);
    var inline := normalized != "" && EndsWith(TrimmedLastLine(out), normalized);
    var spacer := if inline && !(lastRaw != [] && IsJsSpace(lastRaw[|lastRaw| - 1])) then " " else "";
    var line := if inline then "" else if normalized != "" then normalized + " " else "> ";
    Layout(line, inline, spacer, normalized)
  }

  /** An inline prompt has an empty prompt line and only an inline prompt has one; a spacer only goes with an inline prompt; a prompt line ends in a space. */
  lemma RequestLayoutShape(out: string, promptText: string)
    ensures RequestLayout(out, promptText).inline <==> RequestLayout(out, promptText).line == ""
    ensures RequestLayout(out, promptText).spacer != "" ==> RequestLayout(out, promptText).inline
    ensures RequestLayout(out, promptText).spacer in {"", " "}
    ensures !RequestLayout(out, promptText).inline ==>
      RequestLayout(out, promptText).line[|RequestLayout(out, promptText).line| - 1] == ' '
    ensures RequestLayout(out, promptText).matchText == NormalizePrompt(promptText)
  {
    var r := RequestLayout(out, promptText);
    if !r.inline && NormalizePrompt(promptText) != "" {
      assert r.line == NormalizePrompt(promptText) + " ";
    }
  }

  /** Only an inline prompt has an empty prompt line. */
  lemma EmptyLineIsInline(out: string, promptText: string)
    ensures RequestLayout(out, promptText).line == "" ==> RequestLayout(out, promptText).inline
  {
    var r := RequestLayout(out, promptText);
    if !r.inline && NormalizePrompt(promptText) != "" {
      assert r.line == NormalizePrompt(promptText) + " ";
    }
  }

  /** A string whose trimmed form is non-empty is not empty and does not end in white space once trimmed on the right. */
  lemma TrimmedNonEmpty(s: string)
    requires Trim(RemoveChar(s, '\r'), IsJsSpace) != ""
    ensures s != []
  {
  }

  /** An inline prompt's answer is typed after white space: the transcript plus the spacer ends in a white-space character. */
  lemma InlineAnswerAfterSpace(out: string, promptText: string)
    requires RequestLayout(out, promptText).inline
    ensures out + RequestLayout(out, promptText).spacer != []
    ensures IsJsSpace((out + RequestLayout(out, promptText).spacer)[|out + RequestLayout(out, promptText).spacer| - 1])
  {
    var r := RequestLayout(out, promptText);
    var lastRaw := LastLine(out);
    LastLineSuffix(out);
    TrimmedNonEmpty(lastRaw);
    assert out[|out| - 1] == lastRaw[|lastRaw| - 1];
    if r.spacer == "" {
      assert out + r.spacer == out;
    } else {
      assert (out + r.spacer)[|out + r.spacer| - 1] == ' ';
    }
  }

  // ---------------------------------------------------------------------------
  // visibleOut and submitPromptResponse
  // ---------------------------------------------------------------------------

  /** `!pendingPrompt` as written: an empty prompt line counts as no prompt at all. */
  predicate PromptActiveAsWritten(prompt: Option<string>)
  {
    prompt.Some? && prompt.value != ""
  }

  /** The evident intent: a prompt is pending whenever one was requested (`pendingPrompt !== null`). */
  predicate PromptActive(prompt: Option<string>)
  {
    prompt.Some?
  }

  /** The answer goes on the last line when the prompt was inline, or when the last line of `text` now ends with the prompt text. */
  predicate ForceInline(text: string, matchText: string)
  {
    matchText != "" && EndsWith(TrimRight(LastLine(text), IsJsSpace), matchText)
  }

  /** `visibleOut` under a given test for a pending prompt. */
  function VisibleOutWith(active: bool, out: string, prompt: Option<string>, input: string, inline: bool, spacer: string, matchText: string): string
  {
    if !active then out
    else if inline || ForceInline(out, matchText) then out + spacer + input
    else
      var sep := if out != "" then "\n" else "";
      out + sep + (if prompt.Some? && prompt.value != "" then prompt.value else "> ") + input
  }

  /** `visibleOut` as written. */
  function VisibleOutAsWritten(out: string, prompt: Option<string>, input: string, inline: bool, spacer: string, matchText: string): string
  {
    VisibleOutWith(PromptActiveAsWritten(prompt), out, prompt, input, inline, spacer, matchText)
  }

  /** `visibleOut` with the evident test for a pending prompt. */
  function VisibleOut(out: string, prompt: Option<string>, input: string, inline: bool, spacer: string, matchText: string): string
  {
    VisibleOutWith(PromptActive(prompt), out, prompt, input, inline, spacer, matchText)
  }

  /** The transcript after `submitPromptResponse` answers `answer`, when `latest` is the text the last append left in `latestOutRef`. */
  function Submitted(out: string, latest: string, prompt: Option<string>, answer: string, inline: bool, spacer: string, matchText: string): string
  {
    if inline || ForceInline(latest, matchText) then out + (spacer + answer)
    else Visualizer.Appended(out, (if prompt.Some? then prompt.value else "> ") + answer)
  }

  /** Submitting writes into the transcript exactly what was on screen: the prompt and the typed answer become part of the transcript. */
  lemma SubmitKeepsVisible(out: string, prompt: Option<string>, input: string, inline: bool, spacer: string, matchText: string)
    requires prompt.Some? && (prompt.value == "" ==> inline)
    ensures Submitted(out, out, prompt, input, inline, spacer, matchText) == VisibleOut(out, prompt, input, inline, spacer, matchText)
  {
    if inline || ForceInline(out, matchText) {
      AppendAssoc(out, spacer, input);
    } else if out != "" {
      AppendAssoc(out, "\n", prompt.value);
      AppendAssoc(out + "\n", prompt.value, input);
      AppendAssoc(out, "\n", prompt.value + input);
    } else {
      assert out + "" == out;
      assert "" + prompt.value == prompt.value;
    }
  }

  /** As written, the answer to an inline prompt is never shown: the prompt line is empty, so `visibleOut` is the bare transcript. */
  lemma InlinePromptHiddenAsWritten(out: string, promptText: string, input: string)
    requires RequestLayout(out, promptText).inline
    ensures var r := RequestLayout(out, promptText);
      !PromptActiveAsWritten(Some(r.line)) && VisibleOutAsWritten(out, Some(r.line), input, r.inline, r.spacer, r.matchText) == out
  {
    RequestLayoutShape(out, promptText);
  }

  /** With the evident test, the answer to an inline prompt is shown after the spacer. */
  lemma InlinePromptShown(out: string, promptText: string, input: string)
    requires RequestLayout(out, promptText).inline
    ensures var r := RequestLayout(out, promptText);
      PromptActive(Some(r.line)) && VisibleOut(out, Some(r.line), input, r.inline, r.spacer, r.matchText) == out + r.spacer + input
  {
  }

  /** A prompt that repeats the last line is inline: "p" after "p". */
  lemma InlinePromptExample()
    ensures RequestLayout("p", "p").inline && RequestLayout("p", "p").line == ""
  {
    assert '\n' !in "p";
    assert LastLine("p") == "p";
    assert TrimRight("p", IsJsSpace) == "p";
    assert RemoveChar("p", '\r') == "p";
    assert TrimLeft("p", IsJsSpace) == "p";
    assert NormalizePrompt("p") == "p";
    assert TrimmedLastLine("p") == "p";
  }

  // ---------------------------------------------------------------------------
  // Keyboard and paste
  // ---------------------------------------------------------------------------

  /** A key event: the key's name and the modifier flags. */
  datatype KeyEvent = KeyEvent(key: string, ctrl: bool, meta: bool, alt: bool)

  /** `prev.slice(0, -1)`: the text without its last character, empty for empty text. */
  function DropLast(s: string): (r: string)
    ensures s != [] ==> r + [s[|s| - 1]] == s
    ensures s == [] ==> r == []
  {
    if s == [] then [] else s[..|s| - 1]
  }

  /** A key that types itself: one character and no Ctrl, Meta or Alt. */
  predicate Printable(ev: KeyEvent)
  {
    |ev.key| == 1 && !ev.ctrl && !ev.meta && !ev.alt
  }

  // ---------------------------------------------------------------------------
  // The component
  // ---------------------------------------------------------------------------

  /** The state cells and refs of `VampireRunner` that the transcript and the run guard use. */
  class RunnerPanel {
    /** The `out` state: the transcript on screen. */
    var out: string
    /**
     * `latestOutRef.current`: set by every append, and re-synced to `out` by the
     * `[out]` effect after each render, so every method that replaces `out`
     * sets it too.
     */
    var latestOut: string
    var pendingPrompt: Option<string>
    var pendingInput: string
    var pendingInline: bool
    var pendingSpacer: string
    var pendingMatchText: string
    /** `pendingResolveRef.current`: the run whose `requestInput` promise waits for an answer. */
    var resolver: Option<nat>
    /** The values the `requestInput` promises were resolved with, with their runs. */
    var answers: seq<(nat, string)>
    var running: bool
    /** `runIdRef.current`. */
    var runId: nat
    /** `cancelRunRef.current`: the run whose cancel function is kept. */
    var cancel: Option<nat>
    /** The runs whose cancel function was called. */
    var cancelled: seq<nat>

    /**
     * The panel invariant: a prompt is pending exactly when a promise waits,
     * only the current run's promise waits, only an inline prompt has an
     * empty prompt line, and only the current run's cancel function is kept.
     */
    ghost predicate Valid()
      reads this`pendingPrompt, this`pendingInline, this`resolver, this`runId, this`cancel
    {
      && (resolver.Some? <==> pendingPrompt.Some?)
      && (resolver.Some? ==> resolver.value == runId)
      && (pendingPrompt == Some("") ==> pendingInline)
      && (cancel.Some? ==> cancel.value == runId)
    }

    /** `visibleOut`. */
    function Visible(): string
      reads this`out, this`pendingPrompt, this`pendingInput, this`pendingInline, this`pendingSpacer, this`pendingMatchText
    {
      VisibleOut(out, pendingPrompt, pendingInput, pendingInline, pendingSpacer, pendingMatchText)
    }

    /** The first render. */
    constructor ()
      ensures Valid() && out == ReadyText && latestOut == ReadyText && pendingPrompt == None && pendingInput == "" && resolver == None
      ensures !running && runId == 0 && cancel == None && answers == [] && cancelled == []
    {
      out := ReadyText;
      latestOut := ReadyText;
      pendingPrompt := None;
      pendingInput := "";
      pendingInline := false;
      pendingSpacer := "";
      pendingMatchText := "";
      resolver := None;
      answers := [];
      running := false;
      runId := 0;
      cancel := None;
      cancelled := [];
    }

    /** `appendLine(text)`: the text alone on an empty transcript, else after a line break. */
    method AppendLine(text: string)
      modifies this`out, this`latestOut
      ensures out == Visualizer.Appended(old(out), text) && latestOut == out
    {
      out := if out != "" then out + "\n" + text else text;
      latestOut := out;
    }

    /** `appendInline(text)`: the text right after the transcript. */
    method AppendInline(text: string)
      modifies this`out, this`latestOut
      ensures out == old(out) + text && latestOut == out
    {
      out := out + text;
      latestOut := out;
    }

    /** The pending-prompt state `handleRequestInput` sets for run `run`. */
    method SetPending(run: nat, layout: Layout)
      requires Valid() && run == runId
      requires layout.line == "" ==> layout.inline
      modifies this`pendingPrompt, this`pendingInline, this`pendingSpacer, this`pendingMatchText, this`pendingInput, this`resolver
      ensures Valid()
      ensures resolver == Some(run) && pendingInput == ""
      ensures pendingPrompt == Some(layout.line)
      ensures Layout(pendingPrompt.value, pendingInline, pendingSpacer, pendingMatchText) == layout
    {
      pendingPrompt := Some(layout.line);
      pendingInline := layout.inline;
      pendingSpacer := layout.spacer;
      pendingMatchText := layout.matchText;
      pendingInput := "";
      resolver := Some(run);
    }

    /** `handleRequestInput(promptText)` on behalf of run `run`; a stale run gets a promise that never resolves and nothing changes. */
    method RequestInput(run: nat, promptText: string) returns (waiting: bool)
      requires Valid()
      modifies this`pendingPrompt, this`pendingInline, this`pendingSpacer, this`pendingMatchText, this`pendingInput, this`resolver
      ensures Valid()
      ensures waiting == (run == runId)
      ensures !waiting ==> unchanged(this)
      ensures waiting ==> resolver == Some(run) && pendingInput == "" && pendingPrompt.Some?
      ensures waiting ==> Layout(pendingPrompt.value, pendingInline, pendingSpacer, pendingMatchText) == RequestLayout(old(latestOut), promptText)
    {
      if run != runId {
        return false;
      }
      var layout := RequestLayout(latestOut, promptText);
      EmptyLineIsInline(latestOut, promptText);
      SetPending(run, layout);
      return true;
    }

    /**
     * `submitPromptResponse()`: the pending promise gets the typed answer, the
     * transcript gets the answer after the prompt, and the prompt is cleared.
     * When the last append left the transcript as it is on screen, the
     * transcript becomes exactly what was on screen.
     */
    method SubmitPromptResponse()
      requires Valid()
      modifies this`out, this`latestOut, this`answers, this`resolver, this`pendingPrompt, this`pendingInput
      modifies this`pendingInline, this`pendingSpacer, this`pendingMatchText
      ensures Valid()
      ensures old(resolver).None? ==> out == old(out) && answers == old(answers) && pendingInput == old(pendingInput)
      ensures old(resolver).None? ==> unchanged(this)
      ensures old(resolver).Some? ==>
        out == Submitted(old(out), old(latestOut), old(pendingPrompt), old(pendingInput), old(pendingInline), old(pendingSpacer), old(pendingMatchText))
      ensures old(resolver).Some? && old(latestOut) == old(out) ==> out == old(Visible())
      ensures old(resolver).Some? ==> answers == old(answers) + [(old(resolver).value, old(pendingInput))] && latestOut == out
      ensures old(resolver).Some? ==> resolver == None && pendingPrompt == None && pendingInput == ""
      ensures old(resolver).Some? ==> !pendingInline && pendingSpacer == "" && pendingMatchText == ""
    {
      if resolver.None? {
        return;
      }
      var answer := pendingInput;
      if latestOut == out {
        SubmitKeepsVisible(out, pendingPrompt, answer, pendingInline, pendingSpacer, pendingMatchText);
      }
      if pendingInline || ForceInline(latestOut, pendingMatchText) {
        AppendInline(pendingSpacer + answer);
      } else {
        AppendLine((if pendingPrompt.Some? then pendingPrompt.value else "> ") + answer);
      }
      Resolve(answer);
    }

    /** The waiting promise is resolved with `answer` and the pending prompt is cleared. */
    method Resolve(answer: string)
      requires Valid() && resolver.Some?
      modifies this`answers, this`resolver, this`pendingPrompt, this`pendingInput
      modifies this`pendingInline, this`pendingSpacer, this`pendingMatchText
      ensures Valid()
      ensures answers == old(answers) + [(old(resolver).value, answer)]
      ensures resolver == None && pendingPrompt == None && pendingInput == ""
      ensures !pendingInline && pendingSpacer == "" && pendingMatchText == ""
    {
      answers := answers + [(resolver.value, answer)];
      resolver := None;
      pendingPrompt := None;
      pendingInput := "";
      pendingInline := false;
      pendingSpacer := "";
      pendingMatchText := "";
    }

    /** `handleKeyDown(ev)`, with the evident test for a pending prompt: Enter submits, Backspace deletes, a printable key types. */
    method KeyDown(ev: KeyEvent)
      requires Valid()
      modifies this`out, this`latestOut, this`answers, this`resolver, this`pendingPrompt, this`pendingInput
      modifies this`pendingInline, this`pendingSpacer, this`pendingMatchText
      ensures Valid()
      ensures !PromptActive(old(pendingPrompt)) ==> out == old(out) && answers == old(answers) && pendingInput == old(pendingInput)
      ensures !PromptActive(old(pendingPrompt)) ==> unchanged(this)
      ensures PromptActive(old(pendingPrompt)) && ev.key == "Enter" ==>
        answers == old(answers) + [(runId, old(pendingInput))] && resolver == None && pendingPrompt == None
      ensures PromptActive(old(pendingPrompt)) && ev.key == "Enter" ==>
        out == Submitted(old(out), old(latestOut), old(pendingPrompt), old(pendingInput), old(pendingInline), old(pendingSpacer), old(pendingMatchText))
        && latestOut == out && pendingInput == "" && !pendingInline && pendingSpacer == "" && pendingMatchText == ""
      ensures PromptActive(old(pendingPrompt)) && ev.key != "Enter" ==>
        && answers == old(answers) && resolver == old(resolver) && latestOut == old(latestOut)
        && pendingInline == old(pendingInline) && pendingSpacer == old(pendingSpacer) && pendingMatchText == old(pendingMatchText)
      ensures PromptActive(old(pendingPrompt)) && ev.key == "Enter" && old(latestOut) == old(out) ==> out == old(Visible())
      ensures PromptActive(old(pendingPrompt)) && ev.key == "Backspace" ==>
        pendingInput == DropLast(old(pendingInput)) && out == old(out) && pendingPrompt == old(pendingPrompt)
      ensures PromptActive(old(pendingPrompt)) && ev.key != "Enter" && ev.key != "Backspace" ==>
        pendingInput == old(pendingInput) + (if Printable(ev) then ev.key else "") && out == old(out) && pendingPrompt == old(pendingPrompt)
    {
      if !PromptActive(pendingPrompt) {
        return;
      }
      if ev.key == "Enter" {
        SubmitPromptResponse();
        return;
      }
      if ev.key == "Backspace" {
        pendingInput := DropLast(pendingInput);
        return;
      }
      if Printable(ev) {
        pendingInput := pendingInput + ev.key;
      } else {
        assert pendingInput + "" == pendingInput;
      }
    }

    /** `handlePaste(ev)`, with the evident test for a pending prompt: non-empty pasted text is typed without its carriage returns. */
    method Paste(text: string)
      modifies this`pendingInput
      ensures !PromptActive(pendingPrompt) || text == "" ==> pendingInput == old(pendingInput)
      ensures PromptActive(pendingPrompt) && text != "" ==> pendingInput == old(pendingInput) + RemoveChar(text, '\r')
    {
      if !PromptActive(pendingPrompt) || text == "" {
        return;
      }
      pendingInput := pendingInput + RemoveChar(text, '\r');
    }

    // -------------------------------------------------------------------------
    // onRun
    // -------------------------------------------------------------------------

    /** The synchronous start of `onRun`: a fresh run id, the previous run's cancel function called, the transcript replaced and the prompt dropped. */
    method StartRun() returns (id: nat)
      modifies this`runId, this`cancel, this`cancelled, this`running, this`out, this`latestOut, this`pendingPrompt, this`pendingInput, this`resolver
      ensures Valid()
      ensures id == old(runId) + 1 && runId == id
      ensures cancelled == old(cancelled) + (if old(cancel).Some? then [old(cancel).value] else []) && cancel == None
      ensures running && out == RunningText && latestOut == out && pendingPrompt == None && pendingInput == "" && resolver == None
    {
      id := runId + 1;
      runId := id;
      if cancel.Some? {
        cancelled := cancelled + [cancel.value];
        resolver := None;
        cancel := None;
      }
      running := true;
      out := RunningText;
      latestOut := out;
      pendingPrompt := None;
      pendingInput := "";
      resolver := None;
    }

    /** The `onStdout` callback of run `run`: each line of the message is appended; a stale run's output is dropped. */
    method OnStdout(run: nat, msg: string)
      modifies this`out, this`latestOut
      ensures run != runId ==> out == old(out) && latestOut == old(latestOut)
      ensures run == runId ==> out == Visualizer.AppendedAll(old(out), Split(msg, '\n'))
      ensures run == runId ==> latestOut == out
    {
      if run != runId {
        return;
      }
      var lines := Split(msg, '\n');
      for i := 0 to |lines|
        invariant out == Visualizer.AppendedAll(old(out), lines[..i])
        invariant i > 0 ==> latestOut == out
      {
        PrefixOfPrefix(lines, i, i + 1);
        AppendLine(lines[i]);
      }
      PrefixAll(lines);
    }

    /** The `onStderr` callback of run `run`: each line is appended after `[err] `; a stale run's output is dropped. */
    method OnStderr(run: nat, msg: string)
      modifies this`out, this`latestOut
      ensures run != runId ==> out == old(out) && latestOut == old(latestOut)
      ensures run == runId ==> out == Visualizer.AppendedAll(old(out), Visualizer.ErrLines(Split(msg, '\n')))
      ensures run == runId ==> latestOut == out
    {
      if run != runId {
        return;
      }
      var lines := Split(msg, '\n');
      for i := 0 to |lines|
        invariant out == Visualizer.AppendedAll(old(out), Visualizer.ErrLines(lines[..i]))
        invariant i > 0 ==> latestOut == out
      {
        assert Visualizer.ErrLines(lines[..i + 1])[..i] == Visualizer.ErrLines(lines[..i]);
        AppendLine("[err] " + lines[i]);
      }
      PrefixAll(lines);
    }

    /** The `onReady` callback of run `run`: the current run keeps a cancel function that drops its pending promise. */
    method OnReady(run: nat)
      requires Valid()
      modifies this`cancel
      ensures Valid()
      ensures cancel == if run == runId then Some(run) else old(cancel)
    {
      if run == runId {
        cancel := Some(run);
      }
    }

    /** The `finally` block of `onRun`: only the current run drops its promise and prompt, clears the running flag and forgets its cancel function. */
    method Cleanup(run: nat)
      requires Valid()
      modifies this`resolver, this`pendingPrompt, this`pendingInput, this`running, this`cancel
      ensures Valid()
      ensures run != runId ==> resolver == old(resolver) && pendingPrompt == old(pendingPrompt) && pendingInput == old(pendingInput) && running == old(running) && cancel == old(cancel)
      ensures run == runId ==> resolver == None && pendingPrompt == None && pendingInput == "" && !running && cancel == None
    {
      if run == runId {
        resolver := None;
        pendingPrompt := None;
        pendingInput := "";
        running := false;
        cancel := None;
      }
    }

    /** `runRaw` returned with `code`: the current run appends its exit line, then the cleanup. */
    method FinishRun(run: nat, code: Option<int>)
      requires Valid()
      modifies this`out, this`latestOut, this`resolver, this`pendingPrompt, this`pendingInput, this`running, this`cancel
      ensures Valid()
      ensures run != runId ==> out == old(out) && latestOut == old(latestOut) && resolver == old(resolver) && running == old(running)
      ensures run != runId ==> pendingPrompt == old(pendingPrompt) && pendingInput == old(pendingInput) && cancel == old(cancel)
      ensures run == runId ==> out == Visualizer.Appended(old(out), Visualizer.ExitLine(code)) && latestOut == out && resolver == None && !running
      ensures run == runId ==> pendingPrompt == None && pendingInput == "" && cancel == None
    {
      if run == runId {
        AppendLine(Visualizer.ExitLine(code));
      }
      Cleanup(run);
    }

    /** The `catch` block: the transcript is replaced by the error whichever run it comes from, then the cleanup. */
    method FailRun(run: nat, message: string)
      requires Valid()
      modifies this`out, this`latestOut, this`resolver, this`pendingPrompt, this`pendingInput, this`running, this`cancel
      ensures Valid()
      ensures out == "Error: " + message && latestOut == out
      ensures run != runId ==> resolver == old(resolver) && running == old(running)
      ensures run != runId ==> pendingPrompt == old(pendingPrompt) && pendingInput == old(pendingInput) && cancel == old(cancel)
      ensures run == runId ==> resolver == None && !running
      ensures run == runId ==> pendingPrompt == None && pendingInput == "" && cancel == None
    {
      out := "Error: " + message;
      latestOut := out;
      Cleanup(run);
    }

    /** The runner module has no entry point: the transcript is replaced by the message and the running flag cleared, then the cleanup. */
    method MissingRunner(run: nat)
      requires Valid()
      modifies this`out, this`latestOut, this`resolver, this`pendingPrompt, this`pendingInput, this`running, this`cancel
      ensures Valid()
      ensures out == MissingRunnerText && latestOut == out && !running
      ensures run != runId ==> resolver == old(resolver)
      ensures run != runId ==> pendingPrompt == old(pendingPrompt) && pendingInput == old(pendingInput) && cancel == old(cancel)
      ensures run == runId ==> resolver == None
      ensures run == runId ==> pendingPrompt == None && pendingInput == "" && cancel == None
    {
      out := MissingRunnerText;
      latestOut := out;
      running := false;
      Cleanup(run);
    }
  }
}

=== FILE: Visualizer.dfy ===
/**
 * The proof-search page (`ProofSearchVisualization`): its clause and edge
 * maps, the output transcript, the selected clause, the single pending-input
 * slot and the run bookkeeping of `onRun`. Each handler of the page is a
 * method of `ProofSearchPage`, proved against the functions of GraphStore and
 * ClauseStream and against the run invariant `Valid`.
 */
module Visualizer {
  import opened Strings
  import opened Wrappers
  import opened GraphStore
  import opened LineClassifier
  import opened ClauseStream

  /** The transcript the page starts with. */
  const ReadyText: string := "Ready."

  /** What the page prints when the runner module has no entry point. */
  const MissingRunnerText: string := "Error: runVampireRaw() not found in script.js"

  // ---------------------------------------------------------------------------
  // The transcript
  // ---------------------------------------------------------------------------

  /** `appendOutput(line)`: the line alone on an empty transcript, else after a line break. */
  function Appended(prev: string, line: string): string
  {
    if prev == "" then line else prev + "\n" + line
  }

  /** `appendOutput` of each of `lines` in turn. */
  function AppendedAll(prev: string, lines: seq<string>): string
    decreases |lines|
  {
    if lines == [] then prev
    else Appended(AppendedAll(prev, lines[..|lines| - 1]), lines[|lines| - 1])
  }

  /** The lines of the transcript after an append are its old lines followed by those of the appended text. */
  lemma AppendedLines(prev: string, line: string)
    requires prev != ""
    ensures Split(Appended(prev, line), '\n') == Split(prev, '\n') + Split(line, '\n')
  {
    SplitAppend(prev, line, '\n');
  }

  /** A piece without a line break is one line. */
  lemma SplitOne(line: string)
    requires '\n' !in line
    ensures Split(line, '\n') == [line]
  {
  }

  /** Appending lines without line breaks to a non-empty transcript adds exactly those lines. */
  lemma {:induction false} AppendedAllLines(prev: string, lines: seq<string>)
    requires prev != ""
    requires forall i :: 0 <= i < |lines| ==> '\n' !in lines[i]
    ensures AppendedAll(prev, lines) != ""
    ensures Split(AppendedAll(prev, lines), '\n') == Split(prev, '\n') + lines
    decreases |lines|
  {
    if lines != [] {
      var init := lines[..|lines| - 1];
      var last := lines[|lines| - 1];
      var before := AppendedAll(prev, init);
      AppendedAllLines(prev, init);
      AppendedLines(before, last);
      SplitOne(last);
      assert AppendedAll(prev, lines) == Appended(before, last);
      assert Split(AppendedAll(prev, lines), '\n') == (Split(prev, '\n') + init) + [last];
      InitLast(lines);
      AppendAssoc(Split(prev, '\n'), init, [last]);
    }
  }

  /** On an empty transcript an empty line is lost: the next line is not preceded by a line break. */
  lemma EmptyTranscriptDropsBlankLine(line: string)
    ensures AppendedAll("", ["", line]) == line
  {
    assert ["", line][..1] == [""];
    assert [""][..0] == [];
  }

  /** `` `[err] ${line}` `` for each line of a stderr message. */
  function ErrLines(lines: seq<string>): (r: seq<string>)
    ensures |r| == |lines| && forall i :: 0 <= i < |r| ==> r[i] == "[err] " + lines[i]
  {
    seq(|lines|, i requires 0 <= i < |lines| => "[err] " + lines[i])
  }

  /** `` `(exit ${typeof code === 'number' ? code : 0})` `` for an integer exit code. */
  function ExitLine(code: Option<int>): (r: string)
    ensures code.None? ==> r == "(exit 0)"
    ensures code.Some? && code.value >= 0 ==> r == "(exit " + NatToString(code.value) + ")"
    ensures code.Some? && code.value < 0 ==> r == "(exit -" + NatToString(-code.value) + ")"
  {
    var n := if code.Some? then code.value else 0;
    assert n < 0 ==> "(exit " + IntToString(n) + ")" == "(exit -" + NatToString(-n) + ")" by {
      if n < 0 {
        assert "(exit " + ("-" + NatToString(-n)) == "(exit -" + NatToString(-n);
      }
    }
    "(exit " + IntToString(n) + ")"
  }

  // ---------------------------------------------------------------------------
  // One chunk of standard output
  // ---------------------------------------------------------------------------

  /** The store and the selected id after `parseOutputLine` of each non-blank line of a chunk, in order. */
  function FeedLines(st: Store, selected: Option<string>, lines: seq<string>): (r: (Store, Option<string>))
    ensures Valid(st) ==> Valid(r.0)
    decreases |lines|
  {
    if lines == [] then (st, selected)
    else
      var prior := FeedLines(st, selected, lines[..|lines| - 1]);
      var line := lines[|lines| - 1];
      if AllSpace(line, IsJsSpace) then prior
      else
        var o := ClauseStream.ParseOutputLine(prior.0, prior.1, line);
        (o.st, o.selected)
  }

  /** Feeding one line parses it unless it is blank. */
  lemma FeedOne(st: Store, selected: Option<string>, line: string)
    ensures AllSpace(line, IsJsSpace) ==> FeedLines(st, selected, [line]) == (st, selected)
    ensures !AllSpace(line, IsJsSpace) ==>
      (FeedLines(st, selected, [line]) ==
        (ClauseStream.ParseOutputLine(st, selected, line).st, ClauseStream.ParseOutputLine(st, selected, line).selected))
  {
    assert [line][..0] == [];
  }

  /** Feeding two runs of lines one after the other is feeding their concatenation. */
  lemma {:induction false} FeedLinesAppend(st: Store, selected: Option<string>, a: seq<string>, b: seq<string>)
    ensures FeedLines(st, selected, a + b) == FeedLines(FeedLines(st, selected, a).0, FeedLines(st, selected, a).1, b)
    decreases |b|
  {
    if b == [] {
      assert a + b == a;
    } else {
      assert (a + b)[..|a + b| - 1] == a + b[..|b| - 1];
      FeedLinesAppend(st, selected, a, b[..|b| - 1]);
    }
  }

  /** A clause once marked removed is still marked removed after any chunk of output. */
  lemma {:induction false} FeedKeepsSubsumed(st: Store, selected: Option<string>, lines: seq<string>, k: string)
    requires k in st.clauses && st.clauses[k].subsumed
    ensures k in FeedLines(st, selected, lines).0.clauses && FeedLines(st, selected, lines).0.clauses[k].subsumed
    decreases |lines|
  {
    if lines != [] {
      var prior := FeedLines(st, selected, lines[..|lines| - 1]);
      FeedKeepsSubsumed(st, selected, lines[..|lines| - 1], k);
      SubsumedIsSticky(prior.0, prior.1, Classify(lines[|lines| - 1]), k);
    }
  }

  /** Some line of the chunk carries an SZS status. */
  predicate AnySzs(lines: seq<string>)
  {
    exists i :: 0 <= i < |lines| && HasSzsStatus(lines[i])
  }

  /** `lines.some(...)` one line at a time. */
  lemma AnySzsSnoc(lines: seq<string>, line: string)
    ensures AnySzs(lines + [line]) <==> AnySzs(lines) || HasSzsStatus(line)
  {
    if HasSzsStatus(line) {
      assert (lines + [line])[|lines|] == line;
    }
    if AnySzs(lines) {
      var i :| 0 <= i < |lines| && HasSzsStatus(lines[i]);
      assert (lines + [line])[i] == lines[i];
    }
    if AnySzs(lines + [line]) && !HasSzsStatus(line) {
      var i :| 0 <= i < |lines + [line]| && HasSzsStatus((lines + [line])[i]);
      assert i < |lines| && lines[i] == (lines + [line])[i];
    }
  }

  // ---------------------------------------------------------------------------
  // The page
  // ---------------------------------------------------------------------------

  /** `displayEdges.some((e) => e.key === key)`. */
  method SomeHasKey(es: seq<Edge>, key: string) returns (b: bool)
    ensures b <==> exists i :: 0 <= i < |es| && EdgeKey(es[i].from, es[i].to) == key
  {
    b := false;
    for i := 0 to |es|
      invariant b <==> exists j :: 0 <= j < i && EdgeKey(es[j].from, es[j].to) == key
    {
      if EdgeKey(es[i].from, es[i].to) == key {
        b := true;
      }
    }
  }

  /** The first loop of `commitClauses`: `grouped`, keyed by `textKey` of the text. */
  method GroupClauses(order: seq<string>, clauses: map<string, Clause>, textKey: string -> string) returns (g: Grouping)
    requires forall k :: k in order ==> k in clauses
    ensures g == GroupAll(order, clauses, textKey)
  {
    var keys: seq<string> := [];
    var groups: map<string, Group> := map[];
    for i := 0 to |order|
      invariant Grouping(keys, groups) == GroupAll(order[..i], clauses, textKey)
    {
      var id := order[i];
      var c := clauses[id];
      var key := textKey(c.text);
      var entry := if key in groups then groups[key] else Group(c.text, [], map[], map[]);
      entry := entry.(ids := entry.ids + [id], status := entry.status[id := StatusOr(c.status)], subsumed := entry.subsumed[id := c.subsumed]);
      if key !in keys {
        keys := keys + [key];
      }
      groups := groups[key := entry];
      PrefixOfPrefix(order, i, i + 1);
      assert order[..i + 1][i] == id;
    }
    PrefixAll(order);
    g := Grouping(keys, groups);
  }

  /** One more id mapped to the same display id. */
  lemma MapIdsSnoc(m: map<string, string>, ids: seq<string>, x: string, v: string)
    ensures (m + map id | id in ids :: v)[x := v] == m + map id | id in ids + [x] :: v
  {
  }

  /** `entry.ids.forEach((id) => idToDisplay.set(id, displayId))`. */
  method MapIds(m: map<string, string>, ids: seq<string>, v: string) returns (r: map<string, string>)
    ensures r == m + map id | id in ids :: v
  {
    r := m;
    for j := 0 to |ids|
      invariant r == m + map id | id in ids[..j] :: v
    {
      MapIdsSnoc(m, ids[..j], ids[j], v);
      PrefixSnoc(ids, j);
      r := r[ids[j] := v];
    }
    PrefixAll(ids);
  }

  /** The second loop of `commitClauses`: one display clause per group that has one, and every id of it mapped to the display id. */
  method ProjectGroups(keys: seq<string>, groups: map<string, Group>) returns (p: Projection)
    requires forall k :: k in keys ==> k in groups
    ensures p == ProjectAll(keys, groups, DisplayOf)
  {
    var displayClauses: seq<Display> := [];
    var idToDisplay: map<string, string> := map[];
    for i := 0 to |keys|
      invariant Projection(displayClauses, idToDisplay) == ProjectAll(keys[..i], groups, DisplayOf)
    {
      var entry := groups[keys[i]];
      var d := DisplayOf(entry);
      if d.Some? {
        idToDisplay := MapIds(idToDisplay, entry.ids, d.value.id);
        displayClauses := displayClauses + [d.value];
      }
      PrefixOfPrefix(keys, i, i + 1);
      assert keys[..i + 1][i] == keys[i];
    }
    PrefixAll(keys);
    p := Projection(displayClauses, idToDisplay);
  }

  /** The third loop of `commitClauses`: each stored edge mapped onto display ids, unless an end is unmapped, it became a self-loop or it is already there. */
  method RemapEdges(order: seq<string>, edges: map<string, Edge>, idToDisplay: map<string, string>) returns (es: seq<Edge>)
    requires forall k :: k in order ==> k in edges
    ensures es == RemapAll(order, edges, idToDisplay)
  {
    es := [];
    for i := 0 to |order|
      invariant es == RemapAll(order[..i], edges, idToDisplay)
    {
      var e := edges[order[i]];
      var from := Get(idToDisplay, e.from);
      var to := Get(idToDisplay, e.to);
      if from.Some? && to.Some? && from.value != "" && to.value != "" && from.value != to.value {
        var dup := SomeHasKey(es, EdgeKey(from.value, to.value));
        if !dup {
          es := es + [Edge(from.value, to.value)];
        }
      }
      PrefixOfPrefix(order, i, i + 1);
      assert order[..i + 1][i] == order[i];
    }
    PrefixAll(order);
  }

  /** The three loops of `commitClauses` over a store: group by normalised text, project each group, remap the edges. */
  method CommitStore(st: Store) returns (view: View)
    requires GraphStore.Valid(st)
    ensures view == Commit(st)
  {
    CommitLoops(st);
    var grouped := GroupClauses(st.clauseOrder, st.clauses, NormalizeClauseText);
    var projected := ProjectGroups(grouped.keys, grouped.groups);
    var displayEdges := RemapEdges(st.edgeOrder, st.edges, projected.idToDisplay);
    view := View(projected.shown, displayEdges);
  }

  class ProofSearchPage {
    /** `clauseMapRef.current`, keys in insertion order. */
    var clauseOrder: seq<string>
    var clauses: map<string, Clause>
    /** `edgeMapRef.current`, keys in insertion order. */
    var edgeOrder: seq<string>
    var edges: map<string, Edge>
    /** The `clauses` and `edges` state handed to the canvas. */
    var shown: seq<Display>
    var shownEdges: seq<Edge>
    /** `outputRef.current`; the 50 ms flush into `output` is not modelled. */
    var output: string
    var selectedId: Option<string>
    var awaitingInput: bool
    var running: bool
    var manualInput: string
    /** `runIdRef.current` and the `runToken` state. */
    var runId: nat
    var runToken: nat
    var szsDone: bool
    /** `pendingResolveRef.current`: the run whose `requestInput` promise it resolves. */
    var pending: Option<nat>
    /** `cancelRunRef.current`: the run whose cancel function it holds. */
    var cancel: Option<nat>
    /** Every value handed to a resolver, with the run that asked for it. */
    var answers: seq<(nat, string)>
    /** Every run whose cancel function was called. */
    var cancelled: seq<nat>
    /** How often the current run's SZS line has stopped the running flag. */
    ghost var szsStops: nat

    /** The clause and edge maps. */
    function Graph(): Store
      reads this`clauseOrder, this`clauses, this`edgeOrder, this`edges
    {
      Store(clauseOrder, clauses, edgeOrder, edges)
    }

    /**
     * The page invariant: the maps are well formed, the page waits for input
     * only from the current run's pending request, and the SZS line has
     * stopped the current run at most once.
     */
    ghost predicate Valid()
      reads this`clauseOrder, this`clauses, this`edgeOrder, this`edges
      reads this`awaitingInput, this`pending, this`runId, this`szsStops, this`szsDone, this`runToken
    {
      && GraphStore.Valid(Graph())
      && (awaitingInput ==> pending == Some(runId))
      && szsStops == (if szsDone then 1 else 0)
      && runToken == runId
    }

    /** What `resetRunState` leaves: no clauses, no edges, nothing shown or selected, no input and no transcript. */
    ghost predicate Cleared()
      reads this`clauseOrder, this`clauses, this`edgeOrder, this`edges, this`shown, this`shownEdges
      reads this`selectedId, this`awaitingInput, this`manualInput, this`output
    {
      && Graph() == EmptyStore && shown == [] && shownEdges == []
      && selectedId == None && !awaitingInput && manualInput == "" && output == ""
    }

    /** The first render. */
    constructor ()
      ensures Valid() && Graph() == EmptyStore && shown == [] && shownEdges == []
      ensures output == ReadyText && selectedId == None && !awaitingInput && !running && manualInput == ""
      ensures runId == 0 && !szsDone && pending == None && cancel == None && answers == [] && cancelled == []
    {
      clauseOrder, clauses, edgeOrder, edges := [], map[], [], map[];
      shown, shownEdges := [], [];
      output := ReadyText;
      selectedId := None;
      awaitingInput, running := false, false;
      manualInput := "";
      runId, runToken := 0, 0;
      szsDone := false;
      pending, cancel := None, None;
      answers, cancelled := [], [];
      szsStops := 0;
    }

    /** `upsertClause(id, text, status)`. */
    method UpsertClause(id: string, text: Option<string>, status: Option<string>)
      modifies this`clauseOrder, this`clauses
      ensures Graph() == Upsert(old(Graph()), id, text, status)
    {
      var existing := Get(clauses, id);
      var next := Clause(
        if text.Some? then text.value else if existing.Some? then existing.value.text else "",
        if status.Some? then status.value else if existing.Some? then existing.value.status else "new",
        existing.Some? && existing.value.subsumed);
      if id !in clauseOrder {
        clauseOrder := clauseOrder + [id];
      }
      clauses := clauses[id := next];
    }

    /** `markSubsumed(id)`. */
    method MarkSubsumed(id: string)
      modifies this`clauseOrder, this`clauses
      ensures Graph() == GraphStore.MarkSubsumed(old(Graph()), id)
    {
      var existing := Get(clauses, id);
      if id !in clauseOrder {
        clauseOrder := clauseOrder + [id];
      }
      clauses := clauses[id := Clause(
        if existing.Some? then existing.value.text else "",
        if existing.Some? then existing.value.status else "new",
        true)];
    }

    /** `addEdges(toId, parentIds)`. */
    method AddEdges(to: string, parents: seq<string>)
      modifies this`edgeOrder, this`edges
      ensures Graph() == GraphStore.AddEdges(old(Graph()), to, parents)
    {
      if parents == [] {
        return;
      }
      for i := 0 to |parents|
        invariant Graph() == GraphStore.AddEdges(old(Graph()), to, parents[..i])
      {
        var from := parents[i];
        var key := EdgeKey(from, to);
        if from != "" && from != to && key !in edges {
          edgeOrder := edgeOrder + [key];
          edges := edges[key := Edge(from, to)];
        }
        PrefixOfPrefix(parents, i, i + 1);
        assert parents[..i + 1][i] == from;
      }
      PrefixAll(parents);
    }

    /** The body of `parseOutputLine` once the three expressions have been tried on the line. */
    method ApplyLine(c: Classified) returns (tagged: bool)
      modifies this`clauseOrder, this`clauses, this`edgeOrder, this`edges, this`selectedId
      ensures Graph() == Apply(old(Graph()), old(selectedId), c).st
      ensures selectedId == Apply(old(Graph()), old(selectedId), c).selected
      ensures tagged == Apply(old(Graph()), old(selectedId), c).tagged
    {
      if c.reduced.Some? {
        MarkSubsumed(c.reduced.value);
      }
      if c.tagged.Some? {
        var t := c.tagged.value;
        var parts := BodyParts(t.body);
        if Upper(t.tag) == "SA" {
          var status := NormalizePhaseStatus(Lower(t.phase));
          if status == "new" {
            UpsertClause(t.id, Some(parts.0), Some(status));
            AddEdges(t.id, parts.1);
          } else if status == "passive" || status == "active" {
            UpsertClause(t.id, Some(parts.0), Some(status));
          }
        }
        return true;
      }
      if c.selected.Some? {
        selectedId := c.selected;
      }
      return false;
    }

    /** `parseOutputLine(line)`. */
    method ParseOutputLine(line: string) returns (tagged: bool)
      modifies this`clauseOrder, this`clauses, this`edgeOrder, this`edges, this`selectedId
      ensures Graph() == ClauseStream.ParseOutputLine(old(Graph()), old(selectedId), line).st
      ensures selectedId == ClauseStream.ParseOutputLine(old(Graph()), old(selectedId), line).selected
      ensures tagged == ClauseStream.ParseOutputLine(old(Graph()), old(selectedId), line).tagged
    {
      tagged := ApplyLine(Classify(line));
    }

    /** `commitClauses()`: group by normalised text, project each group onto one display clause, remap the edges. */
    method CommitClauses()
      requires Valid()
      modifies this`shown, this`shownEdges
      ensures Valid()
      ensures View(shown, shownEdges) == Commit(Graph())
    {
      var view := CommitStore(Graph());
      shown, shownEdges := view.clauses, view.edges;
    }

    /** `appendOutput(line)`, without the debounce. */
    method AppendOutput(line: string)
      modifies this`output
      ensures output == Appended(old(output), line)
    {
      output := if output == "" then line else output + "\n" + line;
    }

    /** `resetRunState()`. */
    method ResetRunState()
      modifies this`clauseOrder, this`clauses, this`edgeOrder, this`edges, this`shown, this`shownEdges
      modifies this`selectedId, this`awaitingInput, this`manualInput, this`output
      ensures Cleared()
    {
      clauseOrder, clauses, edgeOrder, edges := [], map[], [], map[];
      shown, shownEdges := [], [];
      selectedId := None;
      awaitingInput := false;
      manualInput := "";
      output := "";
    }

    /** The start of `onRun`: the next run id becomes current and the previous run's cancel hook is called and dropped. */
    method NextRun() returns (id: nat)
      modifies this`runId, this`runToken, this`cancel, this`cancelled
      ensures id == old(runId) + 1 && runId == id && runToken == runId
      ensures cancelled == old(cancelled) + (if old(cancel).Some? then [old(cancel).value] else []) && cancel == None
    {
      id := runId + 1;
      runId := id;
      runToken := id;
      if cancel.Some? {
        cancelled := cancelled + [cancel.value];
        cancel := None;
      }
    }

    /** `resetRunState()`, then the run is marked running and no SZS line has been seen. */
    method Restart()
      requires runToken == runId
      modifies this`running, this`szsDone, this`szsStops
      modifies this`clauseOrder, this`clauses, this`edgeOrder, this`edges, this`shown, this`shownEdges
      modifies this`selectedId, this`awaitingInput, this`manualInput, this`output
      ensures Valid() && Cleared() && running && !szsDone
    {
      ResetRunState();
      running := true;
      szsDone := false;
      szsStops := 0;
      EmptyStoreValid();
    }

    /** The synchronous start of `onRun`: a fresh run id, the previous run cancelled, the state reset. */
    method StartRun() returns (id: nat)
      modifies this`runId, this`runToken, this`cancel, this`cancelled, this`running, this`szsDone, this`szsStops
      modifies this`clauseOrder, this`clauses, this`edgeOrder, this`edges, this`shown, this`shownEdges
      modifies this`selectedId, this`awaitingInput, this`manualInput, this`output
      ensures Valid()
      ensures id == old(runId) + 1 && runId == id
      ensures cancelled == old(cancelled) + (if old(cancel).Some? then [old(cancel).value] else []) && cancel == None
      ensures Cleared() && running && !szsDone
    {
      id := NextRun();
      Restart();
    }

    /** The first SZS status line of a run clears the running flag, once. */
    method NoteSzs(line: string)
      requires szsStops == (if szsDone then 1 else 0)
      modifies this`szsDone, this`running, this`szsStops
      ensures szsStops == (if szsDone then 1 else 0)
      ensures szsDone == (old(szsDone) || HasSzsStatus(line))
      ensures running == (old(running) && (old(szsDone) || !HasSzsStatus(line)))
    {
      if !szsDone && HasSzsStatus(line) {
        szsDone := true;
        running := false;
        szsStops := szsStops + 1;
      }
    }

    /** The body of the `onStdout` loop for one line. */
    method FeedLine(line: string)
      requires GraphStore.Valid(Graph()) && szsStops == (if szsDone then 1 else 0)
      modifies this`clauseOrder, this`clauses, this`edgeOrder, this`edges, this`selectedId, this`output
      modifies this`szsDone, this`running, this`szsStops
      ensures GraphStore.Valid(Graph()) && szsStops == (if szsDone then 1 else 0)
      ensures (Graph(), selectedId) == FeedLines(old(Graph()), old(selectedId), [line])
      ensures output == Appended(old(output), line)
      ensures szsDone == (old(szsDone) || HasSzsStatus(line))
      ensures running == (old(running) && (old(szsDone) || !HasSzsStatus(line)))
    {
      FeedOne(Graph(), selectedId, line);
      if !AllSpace(line, IsJsSpace) {
        var _ := ParseOutputLine(line);
      }
      AppendOutput(line);
      NoteSzs(line);
    }

    /** The `onStdout` loop over the lines of one chunk. */
    method FeedChunk(lines: seq<string>)
      requires GraphStore.Valid(Graph()) && szsStops == (if szsDone then 1 else 0)
      modifies this`clauseOrder, this`clauses, this`edgeOrder, this`edges, this`selectedId, this`output
      modifies this`szsDone, this`running, this`szsStops
      ensures GraphStore.Valid(Graph()) && szsStops == (if szsDone then 1 else 0)
      ensures (Graph(), selectedId) == FeedLines(old(Graph()), old(selectedId), lines)
      ensures output == AppendedAll(old(output), lines)
      ensures szsDone == (old(szsDone) || AnySzs(lines))
      ensures running == (old(running) && (old(szsDone) || !AnySzs(lines)))
    {
      for i := 0 to |lines|
        invariant GraphStore.Valid(Graph()) && szsStops == (if szsDone then 1 else 0)
        invariant (Graph(), selectedId) == FeedLines(old(Graph()), old(selectedId), lines[..i])
        invariant output == AppendedAll(old(output), lines[..i])
        invariant szsDone == (old(szsDone) || AnySzs(lines[..i]))
        invariant running == (old(running) && (old(szsDone) || !AnySzs(lines[..i])))
      {
        PrefixSnoc(lines, i);
        FeedLinesAppend(old(Graph()), old(selectedId), lines[..i], [lines[i]]);
        AnySzsSnoc(lines[..i], lines[i]);
        FeedLine(lines[i]);
      }
      PrefixAll(lines);
    }

    /** One stdout chunk of the current run, already split into lines: feed them, then commit. */
    method Consume(lines: seq<string>)
      requires Valid()
      modifies this`clauseOrder, this`clauses, this`edgeOrder, this`edges, this`selectedId, this`output
      modifies this`szsDone, this`running, this`szsStops, this`shown, this`shownEdges
      ensures Valid()
      ensures (Graph(), selectedId, output, szsDone, running) ==
        (FeedLines(old(Graph()), old(selectedId), lines).0, FeedLines(old(Graph()), old(selectedId), lines).1,
         AppendedAll(old(output), lines), old(szsDone) || AnySzs(lines), old(running) && (old(szsDone) || !AnySzs(lines)))
      ensures View(shown, shownEdges) == Commit(Graph())
    {
      FeedChunk(lines);
      assert Valid();
      CommitClauses();
    }

    /** The `onStdout` callback of run `run`: parse every non-blank line, append every line, stop on the first SZS line, then commit. */
    method OnStdout(run: nat, msg: string)
      requires Valid()
      modifies this`clauseOrder, this`clauses, this`edgeOrder, this`edges, this`selectedId, this`output
      modifies this`szsDone, this`running, this`szsStops, this`shown, this`shownEdges
      ensures Valid()
      ensures run != runId ==> unchanged(this)
      ensures run == runId ==> (Graph(), selectedId) == FeedLines(old(Graph()), old(selectedId), Split(msg, '\n'))
      ensures run == runId ==> output == AppendedAll(old(output), Split(msg, '\n'))
      ensures run == runId ==> szsDone == (old(szsDone) || AnySzs(Split(msg, '\n')))
      ensures run == runId ==> running == (old(running) && (old(szsDone) || !AnySzs(Split(msg, '\n'))))
      ensures run == runId ==> View(shown, shownEdges) == Commit(Graph())
    {
      if run == runId {
        Consume(Split(msg, '\n'));
      }
    }

    /** The `onStderr` callback of run `run`: every line is appended after `[err] `. */
    method OnStderr(run: nat, msg: string)
      modifies this`output
      ensures run != runId ==> output == old(output)
      ensures run == runId ==> output == AppendedAll(old(output), ErrLines(Split(msg, '\n')))
    {
      if run != runId {
        return;
      }
      var lines := Split(msg, '\n');
      for i := 0 to |lines|
        invariant output == AppendedAll(old(output), ErrLines(lines[..i]))
      {
        assert ErrLines(lines[..i + 1])[..i] == ErrLines(lines[..i]);
        AppendOutput("[err] " + lines[i]);
      }
      PrefixAll(lines);
    }

    /** The `requestInput` callback of run `run`: the current run waits for a clause choice; a stale run's promise never resolves. */
    method RequestInput(run: nat)
      requires Valid()
      modifies this`awaitingInput, this`pending
      ensures Valid()
      ensures run != runId ==> awaitingInput == old(awaitingInput) && pending == old(pending)
      ensures run == runId ==> awaitingInput && pending == Some(run)
    {
      if run != runId {
        return;
      }
      awaitingInput := true;
      pending := Some(run);
    }

    /** The `onReady` callback: it keeps the run's cancel function, whichever run it comes from. */
    method OnReady(run: nat, canCancel: bool)
      modifies this`cancel
      ensures cancel == if canCancel then Some(run) else old(cancel)
    {
      if canCancel {
        cancel := Some(run);
      }
    }

    /** The `finally` block of `onRun`: only the current run clears the pending request and the running flag. */
    method Cleanup(run: nat)
      requires Valid()
      modifies this`pending, this`awaitingInput, this`running, this`cancel
      ensures Valid()
      ensures run != runId ==> pending == old(pending) && awaitingInput == old(awaitingInput) && running == old(running) && cancel == old(cancel)
      ensures run == runId ==> pending == None && !awaitingInput && !running && cancel == None
    {
      if run == runId {
        pending := None;
        awaitingInput := false;
        running := false;
        cancel := None;
      }
    }

    /** `runRaw` returned with `code`: the exit line for the current run, then the cleanup. */
    method FinishRun(run: nat, code: Option<int>)
      requires Valid()
      modifies this`output, this`pending, this`awaitingInput, this`running, this`cancel
      ensures Valid()
      ensures run != runId ==> output == old(output) && pending == old(pending) && awaitingInput == old(awaitingInput) && running == old(running) && cancel == old(cancel)
      ensures run == runId ==> output == Appended(old(output), ExitLine(code)) && pending == None && !awaitingInput && !running && cancel == None
    {
      if run == runId {
        AppendOutput(ExitLine(code));
      }
      Cleanup(run);
    }

    /** The `catch` block: the error is appended whichever run it comes from, then the cleanup. */
    method FailRun(run: nat, message: string)
      requires Valid()
      modifies this`output, this`pending, this`awaitingInput, this`running, this`cancel
      ensures Valid()
      ensures output == Appended(old(output), "[err] " + message)
      ensures run != runId ==> pending == old(pending) && awaitingInput == old(awaitingInput) && running == old(running) && cancel == old(cancel)
      ensures run == runId ==> pending == None && !awaitingInput && !running && cancel == None
    {
      AppendOutput("[err] " + message);
      Cleanup(run);
    }

    /** The runner module has no entry point: the message, the running flag cleared, then the cleanup. */
    method MissingRunner(run: nat)
      requires Valid()
      modifies this`output, this`pending, this`awaitingInput, this`running, this`cancel
      ensures Valid()
      ensures output == Appended(old(output), MissingRunnerText) && !running
      ensures run != runId ==> pending == old(pending) && awaitingInput == old(awaitingInput) && cancel == old(cancel)
      ensures run == runId ==> pending == None && !awaitingInput && cancel == None
    {
      AppendOutput(MissingRunnerText);
      running := false;
      Cleanup(run);
    }

    /** The manual-input box's `onChange`. */
    method TypeManualInput(text: string)
      modifies this`manualInput
      ensures manualInput == text
    {
      manualInput := text;
    }

    /** `handleClauseSelection(id)`: with a pending request, answer it with the id once and select that clause. */
    method HandleClauseSelection(id: string)
      requires Valid()
      modifies this`pending, this`awaitingInput, this`selectedId, this`manualInput, this`answers
      ensures Valid()
      ensures old(pending).None? ==> pending == None && answers == old(answers) && selectedId == old(selectedId) && awaitingInput == old(awaitingInput) && manualInput == old(manualInput)
      ensures old(pending).Some? ==> answers == old(answers) + [(old(pending).value, id)]
      ensures old(pending).Some? ==> pending == None && !awaitingInput && selectedId == Some(id) && manualInput == ""
    {
      if pending.None? {
        return;
      }
      answers := answers + [(pending.value, id)];
      pending := None;
      awaitingInput := false;
      selectedId := Some(id);
      manualInput := "";
    }

    /** `handleManualSubmit()`: with a pending request and non-blank input, answer it with the trimmed input as a clause selection does. */
    method HandleManualSubmit()
      requires Valid()
      modifies this`pending, this`awaitingInput, this`selectedId, this`manualInput, this`answers
      ensures Valid()
      ensures old(pending).None? || Trim(old(manualInput), IsJsSpace) == [] ==>
        pending == old(pending) && answers == old(answers) && selectedId == old(selectedId) && awaitingInput == old(awaitingInput) && manualInput == old(manualInput)
      ensures old(pending).Some? && Trim(old(manualInput), IsJsSpace) != [] ==>
        answers == old(answers) + [(old(pending).value, Trim(old(manualInput), IsJsSpace))] && pending == None && !awaitingInput
      ensures old(pending).Some? && Trim(old(manualInput), IsJsSpace) != [] ==>
        selectedId == Some(Trim(old(manualInput), IsJsSpace)) && manualInput == ""
    {
      var value := Trim(manualInput, IsJsSpace);
      if pending.None? || value == [] {
        return;
      }
      HandleClauseSelection(value);
    }
  }
}

=== FILE: Wrappers.dfy ===
/** Optional values, standing for JavaScript's null/undefined and Python's None. */
module Wrappers {

  datatype Option<+T> = None | Some(value: T) {

    /** The wrapped value, or `default` when there is none (JavaScript's `??`). */
    function GetOr(default: T): T
    {
      match this
      case Some(v) => v
      case None => default
    }
  }
}
